=== FILE: README.md ===
# life_event core in Dafny

A model of the core of the life_event planner: a service that turns a life
event (a birth, say) and a few facts about it into a plan of tasks with
deadlines and dependencies, keeps that plan up to date, and sends e-mail
reminders when tasks are due soon.

The model follows the program's three clusters, with one Dafny module per source file:

- **The planner.** Rule evaluation (`Rules`), deadline arithmetic
  (`Deadlines`, over proleptic Gregorian day numbers in `Calendar`), the
  smallest-id-first topological sort (`Toposort`), and plan generation
  (`Engine`). Around them sit the graph validator (`WorkflowValidator`), the
  workflow test runner with its own rule dialect (`WorkflowRunner`), the
  template repository (`TemplateRepository`), the bulk validation tool
  (`ValidateAll`) and the facts normaliser (`FactsNormalizer`).
- **The plan and task services, and the frontend helpers.**
  `PlanService`, `TaskService` and `PlanView`. The database is a value: a
  map of plan records plus a sequence of task rows.
- **The notification pipeline.** The send window (`SendWindow`), the
  dedupe key (`Dedupe`), the e-mail template (`EmailTemplate`), the outbox
  (`Outbox`), the Brevo provider (`BrevoProvider`), the dispatcher
  (`Dispatcher`), notification profiles (`Profiles`) and the reminder
  scanner (`Scanner`).

Shared helpers live in their own modules:

- `Wrappers`: `Option` and `Result`.
- `Strings`: Python string order, sorting, digits and `strip`.
- `Json`: a JSON value with Python's `isinstance` and equality.
- `Counting` and `Sorting`: counting and sorting helpers.
- `ApiErrors`, `PlannerErrors` and `WorkflowJson`: error codes and edge shapes.

Things the program reads from its environment become parameters of the
model:

- the clock (`now`, in microseconds of Berlin wall-clock time, or a day number for dates);
- new ids;
- the random jitter;
- the HMAC and SHA-256 functions, as an uninterpreted `Crypto` record;
- the HTTP outcome of a send;
- the template files, as a map from (event, version) to a JSON value;
- the browser's UTC offset.

## Model

| member | source | states |
|---|---|---|
| `Deadlines.ParseIsoDate` | backend/app/planner/deadlines.py:9-17 | a non-string or a string `date.fromisoformat` rejects is a `PlannerInputError`; any accepted string yields a day inside the range of `date` |
| `Deadlines.ComputeDeadline` | backend/app/planner/deadlines.py:20-25 | a shift that is not a Python int (`bool` counts as one) is an input error; otherwise the deadline lies offset plus grace days after the event day, or the addition overflows `date` |
| `Deadlines.ComputeDeadlineTotal` | backend/app/planner/deadlines.py:25 | with integer shifts the deadline exists exactly when the shifted day is a representable date |
| `Deadlines.ComputeDeadlineInverse` | backend/app/planner/deadlines.py:25 | shifting a deadline back by the negated total returns the event day |
| `Deadlines.ComputeDeadlineAdditive` | backend/app/planner/deadlines.py:20-25 | shifting by the offset and then by the grace equals one shift by their sum; a zero shift is the identity |
| `Deadlines.DeadlineTextRoundTrip` | backend/app/planner/deadlines.py:9-17 | every representable day written with `isoformat()` parses back to itself |
| `Deadlines.AcceptsExtendedDate` | backend/app/tests/test_planner_deadlines.py:20-21 | `2026-04-01` is read as that day |
| `Deadlines.RejectsNonDates` | backend/app/tests/test_planner_deadlines.py:24-28 | a date-time string and a bare integer are both input errors |
| `Deadlines.DeadlineExamples` | backend/app/tests/test_planner_deadlines.py:11-17 | the four shifts of 2026-04-01 (-7, 0, 30, 30 plus 2 grace) land on 2026-03-25, 2026-04-01, 2026-05-01 and 2026-05-03 |
| `Deadlines.LastDayOverflows` | backend/app/planner/deadlines.py:25 | one day after 9999-12-31 is not a date: the shift fails with `OverflowError` |
| `Toposort.Peel` | backend/app/planner/toposort.py:22-32 | the reference order: repeatedly take the smallest task whose predecessors are all taken; it only lists tasks not yet taken |
| `Toposort.PeelDistinct` | backend/app/planner/toposort.py:26-32 | the reference order never lists a task twice |
| `Toposort.PeelLeast` | backend/app/planner/toposort.py:22-27 | each emitted task is the smallest id among those whose predecessors were all emitted before it |
| `Toposort.PeelStops` | backend/app/planner/toposort.py:26 | when the reference order ends, no remaining task has all its predecessors emitted |
| `Toposort.CompletePeelIsTopological` | backend/app/planner/toposort.py:34-37 | an order that lists every task puts each edge's source before its target |
| `Toposort.TopologicalOrderUnblocks` | backend/app/planner/toposort.py:34-35 | if any topological order exists, every proper subset of emitted tasks leaves some task ready |
| `Toposort.ShortPeelHasNoOrder` | backend/app/planner/toposort.py:34-35 | when the reference order stops short, no topological order of the tasks exists: the cycle error is justified |
| `Toposort.SmallestReadyFirstCorrect` | backend/app/planner/toposort.py:9-37 | unknown-task error exactly when an edge names a task outside the set; a result is a topological order; cycle error exactly when no topological order exists |
| `Toposort.SmallestReadyFirstTieBreak` | backend/app/planner/toposort.py:22-32 | among the ready tasks the heap always yields the smallest id |
| `Toposort.CountInDegrees` | backend/app/planner/toposort.py:13-20 | rejects an edge naming an unknown task, and otherwise counts for every task its incoming edges |
| `Toposort.Release` | backend/app/planner/toposort.py:29-32 | after emitting a ready task, every counter equals the in-degree from tasks not yet emitted and the heap holds exactly the newly ready tasks |
| `Toposort.EmitLeast` | backend/app/planner/toposort.py:26-32 | one pass of the loop keeps the counters, heap and emitted prefix in step with the reference order and shrinks the set of waiting tasks |
| `Toposort.ToposortTaskIds` | backend/app/planner/toposort.py:9-37 | the heap-based sort returns exactly the reference order, the unknown-task error or the cycle error |
| `Toposort.LinearChain` | backend/app/tests/test_planner_toposort.py:9-11 | the chain `t_a -> t_b -> t_c` sorts as `[t_a, t_b, t_c]` |
| `Toposort.Branching` | backend/app/planner/toposort.py:22-32 | for ids `a < b < c < d` with edges `a -> c` and `b -> c`, the order is `[a, b, c, d]` |
| `Toposort.BranchingIsStableById` | backend/app/tests/test_planner_toposort.py:14-19 | the branching example sorts as `[t_a, t_b, t_c, t_d]` |
| `Toposort.TwoCycle` | backend/app/tests/test_planner_toposort.py:27-29 | two tasks depending on each other give the cycle error |
| `Toposort.UnknownDependency` | backend/app/tests/test_planner_toposort.py:22-24 | an edge from `t_x` outside the set gives the dependency error |
| `Rules.CompareNumeric` | backend/app/planner/rules.py:69-72 | true only for two numbers, and then exactly the requested comparison of their values |
| `Rules.EvalPredicate` | backend/app/planner/rules.py:37-66 | a bad shape is an error; a missing fact is false for every op but `exists`; `=`, `!=` and `in` mean Python's equality and membership; `>`, `>=`, `<` and `<=` hold exactly when both sides are integers and the named comparison of their values holds; any other op is an error |
| `Rules.ClausesMeaning` | backend/app/planner/rules.py:19-29 | `all` is true exactly when every clause is true, and false at the first false clause with all before it true; `any` dually; errors come from the first failing clause reached |
| `Rules.RuleDispatch` | backend/app/planner/rules.py:19-34 | `all` is tried before `any`, then `not`, then the predicate; a non-list `all` or `any` is an error and `not` negates |
| `Rules.NonObjectRules` | backend/app/planner/rules.py:13-17 | a `null` rule is an error for the planner, and any other non-object rule is an error |
| `Rules.IsTaskActive` | backend/app/planner/rules.py:8-10 | a task without `eligibility` is active; otherwise its rule decides |
| `Rules.DialectsAgreeOnPresentFacts` | backend/app/planner/rules.py:37-66 | when the fact is present, the planner's and the runner's predicate evaluation agree |
| `FactsNormalizer.DerivedKind` | backend/app/services/facts_normalizer.py:27-31 | `gkv` exactly for public true and private false, `pkv` exactly for the reverse, else `unknown` |
| `FactsNormalizer.NormalizeBirthFacts` | backend/app/services/facts_normalizer.py:17-36 | a `gkv`/`pkv` kind is kept as is; any other kind becomes the derived kind; an unhashable kind is a `TypeError`; no other key changes |
| `FactsNormalizer.NormalizeFacts` | backend/app/services/facts_normalizer.py:8-14 | only keys starting with `birth_de/` are normalised; other facts are returned unchanged |
| `FactsNormalizer.NormalizeIdempotent` | backend/app/services/facts_normalizer.py:8-36 | normalising normalised facts changes nothing |
| `FactsNormalizer.NormalizedKind` | backend/app/services/facts_normalizer.py:20-34 | the stored kind is the given `gkv`/`pkv`, or else the one derived from the insurance flags |
| `Dedupe.DueSoonKey` | backend/app/notifications/dedupe.py:7-8 | the key starts with the fixed `task_due_soon|email|profile:` prefix, and the date follows the last `|` |
| `Dedupe.DueSoonKeyParts` | backend/app/notifications/dedupe.py:7-8 | the profile id and the day can be read back out of the key |
| `Dedupe.DueSoonKeyInjective` | backend/app/notifications/dedupe.py:7-8 | two keys are equal exactly when profile and day are: one reminder per profile and day |
| `SendWindow.At` | backend/app/notifications/time_utils.py:20-38 | builds the instant of a given local day and time of day, which decomposes back into them |
| `SendWindow.NextSendWindowStart` | backend/app/notifications/time_utils.py:20-38 | 08:00 of the same day before 08:00, otherwise 08:00 of the next day |
| `SendWindow.NextSendWindowStartIsNext` | backend/app/notifications/time_utils.py:20-38 | the result is later than the input, inside the window, and no later than any later 08:00 |
| `SendWindow.QuietUntilNextStart` | backend/app/notifications/time_utils.py:15-38 | from an instant outside the window, every instant before the next start is outside it too |
| `SendWindow.WindowBoundsInclusive` | backend/app/notifications/time_utils.py:7-17 | 08:00 and 20:00 are inside the window, one microsecond outside them is not |
| `SendWindow.DueSoonWindow` | backend/app/notifications/time_utils.py:41-44 | the two ISO strings parse to today and today plus three days, and exist exactly when both days are dates |
| `Engine.ReadStr` | backend/app/planner/engine.py:125-129 | a string field is returned as is; a missing or non-string field is a `PlannerInputError` |
| `Engine.ReadTasks` | backend/app/planner/engine.py:86-96 | `tasks` must be an object whose values are all objects; the result keeps every task under its id |
| `Engine.ParseEdges` | backend/app/planner/engine.py:108-122 | every edge must be an object with string ends naming known tasks; the first bad edge decides the error; otherwise the edges in order |
| `Engine.ReadEdges` | backend/app/planner/engine.py:99-107 | `graph` must be an object; missing `edges` means none; a non-list `edges` is an input error |
| `Engine.ReadTemplate` | backend/app/planner/engine.py:12-16 | a template that reads has only edges between known tasks |
| `Engine.ActiveAmong` | backend/app/planner/engine.py:22-28 | taken over the sorted ids: the active set is exactly the tasks whose rule is true, and the first rule error in id order is reported |
| `Engine.ActiveTasks` | backend/app/planner/engine.py:22-28 | the active tasks are exactly those whose eligibility evaluates to true; any rule error fails the plan |
| `Engine.PruneEdges` | backend/app/planner/engine.py:30-38 | keeps exactly the edges between two active tasks, in order, each as often as the template lists it |
| `Engine.DependsOn` | backend/app/planner/engine.py:33-41 | a task's `depends_on` is sorted and holds exactly the active sources of its incoming edges, each once per kept edge, so a duplicated edge repeats its source |
| `Engine.SourcesInto` | backend/app/planner/engine.py:33-38 | the sources of the edges into a task hold each source exactly as often as the edges list that pair |
| `Engine.DependsOnCount` | backend/app/planner/engine.py:30-41 | a kept task's `depends_on` holds an active source once per template edge from it and an inactive one never |
| `Engine.TopoOrder` | backend/app/planner/engine.py:43 | the order lists only active tasks; its errors are the dependency and cycle errors |
| `Engine.BuildItem` | backend/app/planner/engine.py:46-77 | an item is built exactly when the task has a string title, a `relative_days` deadline with integer offset and grace, and the due day is a date; the item carries id, title, offset, the ISO deadline, `depends_on` and empty `meta`; a due day outside `date` is the overflow |
| `Engine.BuildItems` | backend/app/planner/engine.py:45-82 | every item of the order is built as above, or some task of the order fails to build |
| `Engine.GeneratePlanTasksAreActive` | backend/app/planner/engine.py:22-28 | the plan lists each active task exactly once and no other task |
| `Engine.PlanFollowsOrder` | backend/app/planner/engine.py:12-83 | a plan is produced only when the template reads, the event date fact is present and parses, and the rules evaluate; its tasks follow the toposort of the active subgraph and carry the template id and the ISO event date |
| `Engine.GeneratePlanTopological` | backend/app/planner/engine.py:30-43 | every active predecessor of a listed task appears before it in the plan |
| `Engine.EdgesRespected` | backend/app/planner/engine.py:30-43 | a topological order of the pruned graph respects every template edge between active tasks |
| `Engine.GeneratePlanDependsOn` | backend/app/planner/engine.py:30-41 | each item's `depends_on` is the sorted list of its active predecessors, each repeated as often as the template lists the edge, and each earlier in the plan |
| `Engine.ItemDependsOn` | backend/app/planner/engine.py:30-41 | the same for one item of the plan: sorted, active sources only, one entry per template edge from an active source, all earlier in the plan |
| `Engine.GeneratePlanDeadlines` | backend/app/planner/engine.py:46-83 | each item's deadline is the event date shifted by its offset and grace days, its title and offset come from the template, and the plan records the event date |
| `Engine.TemplateErrorsComeFirst` | backend/app/planner/engine.py:12-16 | a template that does not read fails the plan with that error, whatever the facts |
| `Engine.MissingEventDateRejected` | backend/app/planner/engine.py:18-19 | a missing event date fact is an input error |
| `Engine.UnknownDependencyRejected` | backend/app/planner/engine.py:117-120 | a well-shaped edge naming an unknown task is a dependency error |
| `Engine.InactiveDeadlineIgnored` | backend/app/planner/engine.py:46-68 | the deadline of an inactive task is never read: changing it does not change the plan |
| `Engine.ActiveBadDeadlineRejected` | backend/app/planner/engine.py:49-62 | an active task with a malformed deadline fails the plan |
| `Engine.ReadTemplateWithDeadline` | backend/app/planner/engine.py:86-96 | changing a task's deadline changes only that task in the template read |
| `Engine.PlanFromSameKept` | backend/app/planner/engine.py:22-83 | two templates whose rules agree and whose active tasks are the same give the same plan |
| `WorkflowValidator.StringItems` | backend/app/domain/workflow_validator.py:28-30 | keeps the string entries; the list is all strings exactly when nothing is dropped |
| `WorkflowValidator.ReadGraphEdges` | backend/app/domain/workflow_validator.py:46-60 | every edge must be an object with string ends naming nodes; the first bad edge, with its index, decides the error; otherwise the edges in order |
| `WorkflowValidator.StuckHavePredecessors` | backend/app/domain/workflow_validator.py:83-85 | every node the queue never reached has an unreached predecessor |
| `WorkflowValidator.CycleCheckNoneIffOrder` | backend/app/domain/workflow_validator.py:65-85 | the graph passes the acyclicity check exactly when a topological order of its nodes exists |
| `WorkflowValidator.CycleReportMeaning` | backend/app/domain/workflow_validator.py:83-85 | the reported cycle nodes are non-empty graph nodes, and each has a predecessor among them |
| `WorkflowValidator.WalkEdges` | backend/app/domain/workflow_validator.py:78-81 | after walking a node's edges, the counters count only unvisited predecessors and the queue gains exactly the nodes that became free, in order |
| `WorkflowValidator.WalkEdge` | backend/app/domain/workflow_validator.py:79-81 | one edge decrements its target's counter and queues the target when the counter reaches zero |
| `WorkflowValidator.ReleaseQueued` | backend/app/domain/workflow_validator.py:75-81 | popping the front node updates the counters for the visited set and keeps the rest of the queue in order |
| `WorkflowValidator.CountNodeInDegrees` | backend/app/domain/workflow_validator.py:66-70 | every node's counter is its number of incoming edges |
| `WorkflowValidator.DrainQueue` | backend/app/domain/workflow_validator.py:72-81 | the nodes the queue visits are exactly the nodes of the reference peeling; the remaining positive counters mark exactly the unvisited nodes |
| `WorkflowValidator.AssertAcyclic` | backend/app/domain/workflow_validator.py:65-85 | the queue-based check reports exactly what the reference cycle check reports: nothing, or the sorted stuck nodes |
| `WorkflowValidator.CheckNodes` | backend/app/domain/workflow_validator.py:24-44 | accepted nodes are pairwise distinct and are exactly the task ids, and `graph` and `tasks` are objects |
| `WorkflowValidator.CheckEdges` | backend/app/domain/workflow_validator.py:46-60 | accepted edges join known nodes only |
| `WorkflowValidator.NodeChecks` | backend/app/domain/workflow_validator.py:31-32 | comparing set size with list length detects exactly a repeated node |
| `WorkflowValidator.CheckNodesAccepts` | backend/app/domain/workflow_validator.py:24-44 | the node checks pass exactly when `graph` and `tasks` are objects and the nodes are distinct strings naming exactly the tasks |
| `WorkflowValidator.CheckEdgesAccepts` | backend/app/domain/workflow_validator.py:46-60 | the edge checks pass exactly when every edge is well shaped and joins known nodes, and then yield the template's edges |
| `WorkflowValidator.ValidateGraphAccepts` | backend/app/domain/workflow_validator.py:23-62 | a template passes exactly when its graph is well formed and has a topological order |
| `WorkflowValidator.MismatchReport` | backend/app/domain/workflow_validator.py:34-44 | the mismatch error lists, sorted, exactly the nodes without a task and the tasks without a node, and at least one of them |
| `WorkflowValidator.CycleDetectedMeaning` | backend/app/domain/workflow_validator.py:62-85 | a cycle error is raised only for a well-formed graph with no topological order, and names nodes that each have a predecessor among the named |
| `WorkflowValidator.MissingEdgesAreEmpty` | backend/app/domain/workflow_validator.py:46 | a graph without `edges` is validated as one with an empty edge list |
| `WorkflowValidator.CycleExample` | backend/app/tests/test_workflow_validation.py:23-39 | two tasks depending on each other raise the cycle error naming both |
| `WorkflowValidator.UnknownNodeExample` | backend/app/tests/test_workflow_validation.py:42-54 | an edge to `t_missing` raises the unknown-node error |
| `WorkflowValidator.MissingInTasksExample` | backend/app/tests/test_workflow_validation.py:57-66 | node `t_b` without a task raises the mismatch error listing it |
| `WorkflowValidator.DuplicateNodeExample` | backend/app/tests/test_workflow_validation.py:69-78 | a repeated node id raises the duplicate-node error |
| `WorkflowRunner.EntryActive` | backend/app/domain/workflow_test_runner.py:45-61 | a non-object entry is an error; no `eligibility` means active; otherwise the runner's rule decides, errors passed through |
| `WorkflowRunner.ActiveEntries` | backend/app/domain/workflow_test_runner.py:45-61 | the active set is exactly the entries whose rule holds; the first failing entry decides the error |
| `WorkflowRunner.ActiveRecommendations` | backend/app/domain/workflow_test_runner.py:53-61 | `recommendations` that are not an object activate nothing; for an object the run succeeds exactly when every entry is an object whose eligibility evaluates, and a recommendation is active exactly when it is an entry whose eligibility holds (or that has none) |
| `WorkflowRunner.EdgeItems` | backend/app/domain/workflow_test_runner.py:64 | iterating `graph.edges`: a list yields its items, a dict or string yields only strings (all skipped), `None`, a bool or a number is not iterable |
| `WorkflowRunner.PyInSet` | backend/app/domain/workflow_test_runner.py:69 | `x in active_tasks` is true only for a string in the set, and raises for an unhashable list or dict |
| `WorkflowRunner.KeptEdges` | backend/app/domain/workflow_test_runner.py:64-70 | the kept edges are exactly the dict edges with both ends active, each kept once per entry that names it; an unhashable end raises |
| `WorkflowRunner.ParseDate` | backend/app/domain/workflow_test_runner.py:171-176 | a date string parses to its day; anything else is a `ValueError` |
| `WorkflowRunner.ComputeDeadline` | backend/app/domain/workflow_test_runner.py:149-168 | `None` for a non-`relative_days` type or a null reference fact; errors for a non-string reference, non-int shifts or a bad date; otherwise the ISO text of reference plus offset plus grace |
| `WorkflowRunner.TaskDeadline` | backend/app/domain/workflow_test_runner.py:74-80 | a task without a dict `deadline` has no deadline |
| `WorkflowRunner.TaskDeadlines` | backend/app/domain/workflow_test_runner.py:72-80 | the deadline map holds exactly the tasks whose deadline is computed, with that value |
| `WorkflowRunner.ActiveTasks` | backend/app/domain/workflow_test_runner.py:42-51 | the active tasks are exactly the object tasks whose rule holds |
| `WorkflowRunner.BlockedBy` | backend/app/domain/workflow_test_runner.py:63-70 | every active task has an entry, sorted, holding exactly the active sources of its kept edges, each once per edge entry that keeps it; errors exactly for non-iterable edges or an unhashable end |
| `WorkflowRunner.BlockedCounts` | backend/app/domain/workflow_test_runner.py:63-70 | sorting the kept sources of each task keeps one entry per edge entry that blocks it |
| `WorkflowRunner.ActiveDeadlines` | backend/app/domain/workflow_test_runner.py:72-80 | deadlines exist exactly for active tasks with a dict deadline whose computation gives a date |
| `WorkflowRunner.RunTemplate` | backend/app/domain/workflow_test_runner.py:41-43 | `tasks` and then `graph` must be objects |
| `WorkflowRunner.RunStages` | backend/app/domain/workflow_test_runner.py:41-87 | a run's result is made of the active tasks, the active recommendations, `blocked_by` and the deadlines, each as its stage computes it |
| `WorkflowRunner.MissingFactComparesAsNull` | backend/app/domain/workflow_test_runner.py:120-128 | a missing fact compares as null in the runner, so `!=` against a non-null value is true, where the planner says false |
| `WorkflowRunner.RunnerDeadlineMatchesPlanner` | backend/app/domain/workflow_test_runner.py:149-168 | on a parsable reference date the runner computes the same deadline as the planner, and both overflow together |
| `PlanView.IsOverdue` | frontend/lib/plan.ts:16-28 | a task without a due date or with status `done` is never overdue; otherwise it is overdue exactly when its due day is strictly before today's local day |
| `PlanView.IsOverdueAsWritten` | frontend/lib/plan.ts:16-27 | the code as written, which reads the date as UTC midnight and then truncates it in local time: still never overdue without a date or when done |
| `PlanView.OverdueAsWrittenEastOfUtc` | frontend/lib/plan.ts:21-27 | at or east of UTC the code as written agrees with the calendar-day comparison |
| `PlanView.OverdueAsWrittenWestOfUtc` | frontend/lib/plan.ts:21-27 | west of UTC a task due today is reported overdue by the code as written |
| `PlanView.IdsSnoc` | frontend/lib/plan.ts:34-36 | the ids of the items grow by the last item's id |
| `PlanView.MapDependencies` | frontend/lib/plan.ts:30-39 | the map's keys are exactly the item ids; each id maps to its last item's `depends_on`, or to the empty list when absent |
| `PlanView.MapDependenciesByTask` | frontend/lib/plan.ts:31 | a plan without a snapshot, planner plan or task list gives the empty map; otherwise the keys are exactly the snapshot's task ids and each id maps to the dependency list of its last entry, `[]` when it has none |
| `PlanView.MapDependenciesDistinct` | frontend/lib/plan.ts:30-39 | with distinct ids every item has its own entry and the map has one entry per item |
| `PlanView.IdsCard` | frontend/lib/plan.ts:34-36 | distinct ids give as many keys as items |
| `PlanView.DoneCount` | frontend/lib/plan.ts:45 | the done count never exceeds the number of tasks |
| `PlanView.RoundRatio` | frontend/lib/plan.ts:46 | the result is the ratio rounded half up: within half a unit, ties upward |
| `PlanView.RoundRatioUnique` | frontend/lib/plan.ts:46 | the half-up rounding is the only integer within that bound |
| `PlanView.ComputeProgress` | frontend/lib/plan.ts:41-47 | 0 for no tasks; otherwise a percentage in 0..100 that is the done share times 100 rounded half up |
| `PlanView.ProgressUnique` | frontend/lib/plan.ts:41-47 | any integer within half a unit of the exact percentage, ties up, is the progress |
| `PlanView.ProgressExtremes` | frontend/lib/plan.ts:41-47 | all done gives 100 and none done gives 0 |
| `PlanView.CompareIsTotalPreorder` | frontend/lib/plan.ts:50-65 | the comparator is reflexive, total and transitive, and ties exactly on equal due date, priority and sort key |
| `PlanView.Insert` | frontend/lib/plan.ts:50-65 | inserting into an ordered list keeps it ordered and adds exactly the element |
| `PlanView.PrecedesAll` | frontend/lib/plan.ts:50-65 | an element before the head of an ordered list is before all of it |
| `PlanView.HeadPrecedesInserted` | frontend/lib/plan.ts:50-65 | the head of an ordered list stays before everything in the rest after an insertion |
| `PlanView.ConsInOrder` | frontend/lib/plan.ts:50-65 | an element before every member of an ordered list can be put in front |
| `PlanView.SortTasksByDeadlinePriority` | frontend/lib/plan.ts:49-66 | the result is a permutation of the input, ordered by due date (undated last), then higher priority first, then sort key |
| `PlanView.SameFirst` | frontend/lib/plan.ts:50-65 | two ordered permutations of tasks with distinct sort keys start with the same task |
| `PlanView.DropFirst` | frontend/lib/plan.ts:50-65 | the tail of an ordered list is ordered, with distinct keys kept |
| `PlanView.DeadlineOrderUnique` | frontend/lib/plan.ts:50-65 | with distinct sort keys there is exactly one ordered arrangement of a set of tasks |
| `PlanView.SortIsTheOrdering` | frontend/lib/plan.ts:49-66 | the sort returns that one ordered arrangement |
| `PlanView.UndatedLast` | frontend/lib/plan.ts:51-56 | in the sorted list undated tasks come after dated ones, and dated tasks come in due-date order |
| `TaskService.Select` | backend/app/services/task_service.py:21-23 | every row is kept as often as it occurs exactly when it belongs to the plan and, when a status filter is given, has that status |
| `TaskService.ListTasks` | backend/app/services/task_service.py:14-25 | the listing holds exactly the selected rows, with their multiplicity, in ascending sort key |
| `TaskService.ListedRowsSelected` | backend/app/services/task_service.py:14-25 | a task is listed if and only if it is a row of the plan that passes the status filter |
| `TaskService.UpdateStatus` | backend/app/services/task_service.py:27-58 | fails with `TASK_NOT_FOUND` exactly when the task is missing or belongs to another plan; otherwise sets the status and `updated_at`, stamps `completed_at` only on a first completion, keeps it on a repeated one, clears it when reopening, and changes nothing else |
| `TaskService.UpdateStatusKeepsCompletion` | backend/app/services/task_service.py:46-53 | after an update every task still has `completed_at` set exactly when it is done |
| `TaskService.CompleteTwice` | backend/app/services/task_service.py:49-51 | completing a task twice keeps the first completion time |
| `TaskService.ReopenThenComplete` | backend/app/services/task_service.py:49-53 | reopening and then completing stamps the new completion time |
| `PlanService.GetPlan` | backend/app/services/plan_service.py:293-301 | a plan is returned exactly when its id is stored; otherwise `PLAN_NOT_FOUND` |
| `PlanService.PlannerFailureAsWritten` | backend/app/services/plan_service.py:34-46 | the handler as written turns the planner's errors and `ValueError` into `PLANNER_INPUT_INVALID`, and lets any other failure, such as the deadline overflow, escape unhandled |
| `PlanService.DueDateOf` | backend/app/services/plan_service.py:81-97 | a null deadline gives no due date; a parsable date string gives that day; any other value is `PLANNER_INPUT_INVALID` |
| `PlanService.StrList` | backend/app/services/plan_service.py:111-115 | the dependency ids become a JSON list of the same strings in the same order |
| `PlanService.Metadata` | backend/app/services/plan_service.py:99-117 | the task metadata keeps the planner's `meta` entries and overrides `category`, `priority`, `tags` (a list or empty), `blocked_by` and `block_type: hard` |
| `PlanService.MakeRow` | backend/app/services/plan_service.py:265-276 | a row carries the plan id, the item's id and title, its position as sort key, its due date and metadata; it is done, with the old completion time, exactly when the item was done before |
| `PlanService.DueDates` | backend/app/services/plan_service.py:81-97 | reading the deadlines succeeds exactly when every one reads, with one due date per item |
| `PlanService.BuildRows` | backend/app/services/plan_service.py:74-129 | rows are built exactly when every deadline reads, one per planned item in plan order |
| `PlanService.PlannedDeadlinesParse` | backend/app/services/plan_service.py:90-91 | every deadline the planner produces parses back as a date |
| `PlanService.PlannedRows` | backend/app/services/plan_service.py:74-129 | a generated plan always yields its rows, so the deadline error branch is not reached from the planner |
| `PlanService.Plan` | backend/app/services/plan_service.py:30-46 | a template error is passed through; a facts normalisation error escapes as an unhandled `TypeError`; a planner error is `PLANNER_INPUT_INVALID`; a result carries the loaded template, the normalised facts and the generated plan |
| `PlanService.PlanAsWritten` | backend/app/services/plan_service.py:30-46 | the code as written differs from `Plan` exactly when the planner overflows the date range, where it escapes as an unhandled `OverflowError` instead of a 400 |
| `PlanService.OtherRows` | backend/app/services/plan_service.py:216-217 | the rows of other plans are kept, with their multiplicity |
| `PlanService.OtherRowsAppend` | backend/app/services/plan_service.py:216-217 | keeping other plans' rows distributes over concatenation |
| `PlanService.OtherRowsOfPlan` | backend/app/services/plan_service.py:216-217 | rows all of other plans are kept whole; rows all of this plan are dropped |
| `PlanService.SelectAppend` | backend/app/services/plan_service.py:203-205 | selecting a plan's rows distributes over concatenation |
| `PlanService.SelectOfPlan` | backend/app/services/plan_service.py:203-205 | selecting a plan's rows from rows all of it keeps them and from rows of other plans gives none |
| `PlanService.DoneKeys` | backend/app/services/plan_service.py:202-208 | a task key is recorded exactly when some row of the plan with that key is done |
| `PlanService.DoneKeysLatest` | backend/app/services/plan_service.py:206-208 | the recorded completion time is the one of the last done row with that key |
| `PlanService.CreatePlan` | backend/app/services/plan_service.py:27-132 | creation succeeds exactly when planning succeeds; the plan record holds the normalised facts and task count, the old rows are kept in front and one new row per planned item follows, carrying the item's title, due date, position and the metadata built from the item and the template's entry for its task |
| `PlanService.CreatePlanAsWritten` | backend/app/services/plan_service.py:27-46 | the code as written fails exactly when its planning step fails, with the same error |
| `PlanService.CreatePlanCorrection` | backend/app/services/plan_service.py:36-46 | the code as written and the corrected creation differ exactly on a deadline overflow: 500-style unhandled `OverflowError` against `PLANNER_INPUT_INVALID` |
| `PlanService.AddPlan` | backend/app/services/plan_service.py:63-132 | storing a plan replaces its record, keeps all old rows and appends a fresh `todo` row per item, with the item's metadata merged with the template's entry for it |
| `PlanService.AppendCreated` | backend/app/services/plan_service.py:74-129 | appending the new rows keeps the old ones as a prefix, and each built row is a created row for its item, metadata included |
| `PlanService.CreatedRowsConsistent` | backend/app/services/plan_service.py:119-128 | every new row is `todo` and has no completion time |
| `PlanService.CurrentFacts` | backend/app/services/plan_service.py:167 | stored facts that are not an object read as the empty object |
| `PlanService.RecomputePlan` | backend/app/services/plan_service.py:164-291 | the corrected recompute: a missing plan is `PLAN_NOT_FOUND`; recomputation succeeds exactly when planning the stored facts succeeds, replacing facts, snapshot and count and rebuilding only this plan's rows, each with the metadata built from its item and the template's entry; a planner failure, an overflowing deadline included, is `PLANNER_INPUT_INVALID` |
| `PlanService.Replan` | backend/app/services/plan_service.py:187-281 | after planning: a failed planning step is the answer; a successful one replaces facts, task list and count and rebuilds only this plan's rows, metadata included |
| `PlanService.RecomputePlanAsWritten` | backend/app/services/plan_service.py:164-185 | the code as written: a missing plan is `PLAN_NOT_FOUND`, and otherwise it fails exactly when its planning step as written fails, with the same error |
| `PlanService.RecomputePlanCorrection` | backend/app/services/plan_service.py:169-185 | the code as written and the corrected recompute differ exactly when replanning the stored facts overflows: unhandled `OverflowError` (a 500) against `PLANNER_INPUT_INVALID` |
| `PlanService.AppendRebuilt` | backend/app/services/plan_service.py:210-277 | other plans' rows followed by the rebuilt rows are a rebuild of the store |
| `PlanService.RecomputedRows` | backend/app/services/plan_service.py:216-277 | after a rebuild the plan's rows are exactly the new ones and other plans' rows are untouched |
| `PlanService.RecomputeKeepsDone` | backend/app/services/plan_service.py:202-275 | a rebuilt task is done exactly when a task with its key was done before, keeps the last such completion time, and a `todo` task has none |
| `PlanService.UpdateFacts` | backend/app/services/plan_service.py:143-162 | the corrected update: a missing plan is `PLAN_NOT_FOUND`; the patch is merged over the stored facts and normalised and committed before any recompute, so a failing recompute leaves the new facts stored |
| `PlanService.CommitFacts` | backend/app/services/plan_service.py:151-158 | a missing plan is `PLAN_NOT_FOUND`; a facts object that does not normalise is a `TypeError`; otherwise only the plan's facts and update time change |
| `PlanService.UpdateFactsAsWritten` | backend/app/services/plan_service.py:143-162 | the code as written: the commit, then the recompute as written when asked |
| `PlanService.UpdateFactsCorrection` | backend/app/services/plan_service.py:160-185 | the two updates differ exactly when a recompute is asked for and replanning the committed facts overflows; both keep the committed facts, but the code as written fails with `OverflowError` instead of `PLANNER_INPUT_INVALID` |
| `PlanService.UpdateFactsStoresPatch` | backend/app/services/plan_service.py:152-154 | after a successful update every patched key holds its patched value, except the birth template's derived kind |
| `TemplateRepository.IndexOf` | backend/app/services/template_repository.py:29 | the position found is the first `/` in the key, or the end when there is none |
| `TemplateRepository.KeyMatches` | backend/app/services/template_repository.py:12-22 | a key is accepted exactly when it is a non-empty run of letters, digits, `_` or `-`, then `/v`, then one or more digits |
| `TemplateRepository.SplitKey` | backend/app/services/template_repository.py:29 | an accepted key splits at its one `/` into a non-empty event and a version starting with `v` that join back to the key |
| `TemplateRepository.AcceptedKeyStaysUnderRoot` | backend/app/services/template_repository.py:12-30 | an accepted key has exactly one `/` and no `.`, so neither path part can be `.` or `..` or climb out of the workflows root |
| `TemplateRepository.SlashCount` | backend/app/services/template_repository.py:29 | joining two slash-free parts with `/` gives exactly one slash |
| `TemplateRepository.Load` | backend/app/services/template_repository.py:21-56 | a key off the pattern or a missing file is `TEMPLATE_NOT_FOUND`; a non-object payload or one the graph validator rejects is `PLANNER_INPUT_INVALID`; otherwise the payload is returned |
| `TemplateRepository.LoadedTemplatesAreValid` | backend/app/services/template_repository.py:48-56 | a loaded template is well formed and its task graph has a topological order |
| `TemplateRepository.PublishedKeyAccepted` | backend/app/services/template_repository.py:12-29 | `birth_de/v1` is accepted and splits into `birth_de` and `v1` |
| `TemplateRepository.TraversalRejected` | backend/app/services/template_repository.py:12-27 | `../etc/v1` is rejected |
| `TemplateRepository.NestedPathRejected` | backend/app/services/template_repository.py:12-27 | `birth_de/v1/x` is rejected |
| `ValidateAll.Missing` | backend/app/tools/validate_all_workflows.py:33-34 | the missing keys are exactly the required keys absent from the template, in the listed order |
| `ValidateAll.MissingInListedOrder` | backend/app/tools/validate_all_workflows.py:33-36 | a template without `version` and `tasks` reports `["version", "tasks"]` |
| `ValidateAll.RequiredKeysPresent` | backend/app/tools/validate_all_workflows.py:33-36 | nothing is missing exactly when all five required keys are present |
| `ValidateAll.Duplicated` | backend/app/tools/validate_all_workflows.py:57 | `len(nodes) != len(set(nodes))` holds exactly when two node entries are equal |
| `ValidateAll.BasicChecks` | backend/app/tools/validate_all_workflows.py:32-58 | the basic checks pass exactly when the required keys are present, `template_id` is a non-empty string, `version` an int, `graph` an object with `nodes` and `edges`, `tasks` an object, and a node list has no duplicates; missing keys are reported first, all of them |
| `ValidateAll.ValidateOne` | backend/app/tools/validate_all_workflows.py:20-64 | a file passes exactly when it is JSON, its root is an object, the basic checks pass and the graph validator accepts it |
| `ValidateAll.PassingFileIsValid` | backend/app/tools/validate_all_workflows.py:61-64 | a passing file has every required key, a well-formed graph and a topological order of its tasks |
| `ValidateAll.IssueOf` | backend/app/tools/validate_all_workflows.py:73-77 | a file yields an issue exactly when its validation fails, naming the file and the failure |
| `ValidateAll.Collect` | backend/app/tools/validate_all_workflows.py:72-77 | collecting keeps the produced results: none exactly when nothing is produced, all exactly when everything is, each from some element |
| `ValidateAll.CollectSnoc` | backend/app/tools/validate_all_workflows.py:73-77 | one more element appends at most its own result |
| `ValidateAll.Issues` | backend/app/tools/validate_all_workflows.py:72-77 | there are no issues exactly when every file passes, and each issue comes from a failing file |
| `ValidateAll.IssuesSnoc` | backend/app/tools/validate_all_workflows.py:73-77 | validating one more file appends its issue, if any, at the end |
| `ValidateAll.ValidateAllWorkflows` | backend/app/tools/validate_all_workflows.py:67-79 | no files gives one `No compiled.json files found` issue; otherwise the issues of the files, with the count equal to their number |
| `ValidateAll.ExitCode` | backend/app/tools/validate_all_workflows.py:94-102 | the exit code is 0 or 1 |
| `ValidateAll.ExitCodeZeroIff` | backend/app/tools/validate_all_workflows.py:94-102 | the exit code is 0 exactly when there are files and every one passes |
| `EmailTemplate.FormatDateDe` | backend/app/notifications/templates.py:16-17 | the German date is ten characters with dots at positions 2 and 5 |
| `EmailTemplate.FormatDateDeReversesIso` | backend/app/notifications/templates.py:16-17 | `%d.%m.%Y` is the ISO date with its three fields reversed, and reading it back that way gives the same day |
| `EmailTemplate.BucketOf` | backend/app/notifications/templates.py:33-45 | a task is due today for zero or fewer days, tomorrow for 1, in 2 or 3 days for 2 or 3, and later for more or a missing `due_in_days` (default 99) |
| `EmailTemplate.Grouped` | backend/app/notifications/templates.py:33-45 | a group holds only tasks of its bucket, taken from the list |
| `EmailTemplate.GroupedNone` | backend/app/notifications/templates.py:33-45 | a bucket no task falls in stays empty |
| `EmailTemplate.GroupedCounts` | backend/app/notifications/templates.py:33-45 | a group holds every task of its bucket exactly as often as the list does, and nothing else |
| `EmailTemplate.GroupsPartitionTasks` | backend/app/notifications/templates.py:25-45 | the five groups together are a partition of the task list: every task lands in exactly one |
| `EmailTemplate.SubjectZero` | backend/app/notifications/templates.py:47-48 | no tasks gives `0 Aufgaben bald fällig` |
| `EmailTemplate.SubjectSingularIff` | backend/app/notifications/templates.py:47-48 | the singular subject is used exactly for one task; otherwise the subject starts with the count |
| `EmailTemplate.Greeting` | backend/app/notifications/templates.py:50-53 | a non-empty string name is greeted by name; anything else gets `Hallo,` |
| `EmailTemplate.TaskTexts` | backend/app/notifications/templates.py:61-70 | one task text per task, in order |
| `EmailTemplate.Prefixed` | backend/app/notifications/templates.py:68-99 | each line wraps its text in the same prefix and suffix |
| `EmailTemplate.Bullets` | backend/app/notifications/templates.py:61-70 | one bullet line per task, in order |
| `EmailTemplate.TextLinesOf` | backend/app/notifications/templates.py:60-73 | a section is its label, at most ten bullets, a `... und n weitere` line when more, and a blank line |
| `EmailTemplate.TextSection` | backend/app/notifications/templates.py:56-73 | an empty bucket is skipped; otherwise the section lists the first ten tasks of the bucket in list order and the overflow count |
| `EmailTemplate.GroupedDatesValid` | backend/app/notifications/templates.py:62-67 | grouping keeps every task's date valid |
| `EmailTemplate.HtmlLinesOf` | backend/app/notifications/templates.py:89-102 | a group opens with `<h3>label</h3><ul>`, lists its first ten tasks in order as `<li>title (DD.MM.YYYY)</li>`, adds `<li>... und n weitere</li>` after the tenth when it has more, and closes with `</ul>`; as many lines as its text section |
| `EmailTemplate.HtmlSection` | backend/app/notifications/templates.py:86-102 | an empty bucket has no HTML section; a non-empty one has the heading, one item per shown task of the bucket in order, the overflow item past ten, and the list end |
| `EmailTemplate.HtmlLines` | backend/app/notifications/templates.py:81-111 | the HTML body opens with the greeting and intro paragraphs and ends with the three link paragraphs; its length is five plus the four sections |
| `EmailTemplate.HtmlLinesInOrder` | backend/app/notifications/templates.py:81-111 | between those paragraphs come the sections of today, tomorrow, in two days and in three days, in that order and nothing else |
| `EmailTemplate.TextLines` | backend/app/notifications/templates.py:55-77 | the text opens with the four-line greeting header and ends with the three link lines; its length is seven plus the four sections |
| `EmailTemplate.TextLinesInOrder` | backend/app/notifications/templates.py:55-77 | between header and links come the sections of today, tomorrow, in two days and in three days, in that order and nothing else |
| `EmailTemplate.RenderTaskDueSoon` | backend/app/notifications/templates.py:20-119 | the subject counts all tasks and is also the short text; the text and HTML bodies are their line lists joined by newlines |
| `EmailTemplate.ListedTaskInTextBody` | backend/app/notifications/templates.py:56-72 | each of the first ten tasks of a near bucket appears as a bullet in the text, and an overflow line appears when the bucket has more |
| `EmailTemplate.ListedTaskInHtmlBody` | backend/app/notifications/templates.py:86-102 | each of the first ten tasks of a near bucket appears as a list item in the HTML, and the overflow item appears when the bucket has more |
| `EmailTemplate.SectionLineInHtmlBody` | backend/app/notifications/templates.py:81-111 | every line of a near bucket's HTML section is a line of the HTML body |
| `EmailTemplate.LaterTasksNotListed` | backend/app/notifications/templates.py:56-88 | adding a task due later changes only the subject count, never the text or HTML lines |
| `EmailTemplate.SectionsIgnoreLater` | backend/app/notifications/templates.py:56-59 | the sections do not depend on tasks due later |
| `EmailTemplate.SectionIgnoresLater` | backend/app/notifications/templates.py:56-88 | a near bucket's text and HTML sections do not change when a later task is added |
| `EmailTemplate.GroupedSnoc` | backend/app/notifications/templates.py:33-45 | appending a task appends it to its own bucket only |
| `Outbox.UpdateById` | backend/app/services/notification_outbox_service.py:104-113 | updating an item by id changes the rows with that id and leaves every other row alone |
| `Outbox.NewItem` | backend/app/services/notification_outbox_service.py:33-43 | a new outbox item is a pending email `task_due_soon` with no attempts, no failure, no send time, due now |
| `Outbox.EnqueueDueSoon` | backend/app/services/notification_outbox_service.py:24-51 | an item is created and appended exactly when its dedupe key (and id) is new; otherwise the table is unchanged and nothing is returned |
| `Outbox.EnqueueKeepsKeysUnique` | backend/app/services/notification_outbox_service.py:44-51 | enqueueing keeps dedupe keys unique, and a second enqueue with the same key is refused |
| `Outbox.CountCreatedToday` | backend/app/services/notification_outbox_service.py:53-71 | the count is zero exactly when no item of the profile was created on the current Berlin day |
| `Outbox.CountAfterEnqueue` | backend/app/services/notification_outbox_service.py:24-71 | a successful enqueue raises today's count of its own profile by one and no other profile's |
| `Outbox.DueRows` | backend/app/services/notification_outbox_service.py:78-81 | the positions found are exactly the pending rows due by now, each once |
| `Outbox.DueOrder` | backend/app/services/notification_outbox_service.py:76-86 | all due rows, each once, in ascending `next_attempt_at` |
| `Outbox.AscendingKeys` | backend/app/services/notification_outbox_service.py:82 | positions ascending by key are ascending in `next_attempt_at` |
| `Outbox.LockPendingBatch` | backend/app/services/notification_outbox_service.py:73-94 | at most `limit` distinct due rows are locked, earliest first; each becomes `sending` stamped now; no other row changes; a due row is left out only when the batch is full of rows due no later |
| `Outbox.FirstDue` | backend/app/services/notification_outbox_service.py:76-86 | the first `limit` due rows, distinct and ascending, none later than a due row left out |
| `Outbox.PrefixDue` | backend/app/services/notification_outbox_service.py:83 | a prefix of the due order holds distinct due rows |
| `Outbox.PrefixAscending` | backend/app/services/notification_outbox_service.py:82-83 | a prefix of the due order is ascending |
| `Outbox.PrefixEarliest` | backend/app/services/notification_outbox_service.py:82-83 | the limit prefix leaves out only rows due no earlier than all it takes, and only when full |
| `Outbox.LockedItems` | backend/app/services/notification_outbox_service.py:88-94 | the returned items are the locked rows, in batch order |
| `Outbox.LockRows` | backend/app/services/notification_outbox_service.py:88-91 | exactly the batch rows are locked |
| `Outbox.EarliestFirst` | backend/app/services/notification_outbox_service.py:82-83 | a due row outside a prefix of the due order comes no earlier than any row in it |
| `Outbox.MarkSent` | backend/app/services/notification_outbox_service.py:96-113 | the item becomes `sent` with no failure class, the provider message id and the send time; an unknown id changes nothing |
| `Outbox.Truncated` | backend/app/services/notification_outbox_service.py:133 | the stored message is a prefix of at most 500 characters, the whole message when it fits, and empty when there is none |
| `Outbox.BackoffIndex` | backend/app/services/notification_outbox_service.py:145-146 | the backoff index is clamped into the table |
| `Outbox.BackoffMonotone` | backend/app/services/notification_outbox_service.py:145-147 | more attempts never shorten the backoff, which stays between 1 and 180 minutes |
| `Outbox.JitteredDelay` | backend/app/services/notification_outbox_service.py:148-149 | the jittered delay is positive and between 0.9 and 1.1 times the base delay |
| `Outbox.RetryAt` | backend/app/services/notification_outbox_service.py:145-153 | the next attempt is the first send-window instant at or after now plus the jittered backoff for the attempt (1, 5, 15 and 60 minutes for attempts 1 to 4, 180 from the fifth on): never before that candidate, with no window instant in between, and exactly the candidate, at most 1.1 of the backoff away, when the candidate is inside the window |
| `Outbox.FailedItem` | backend/app/services/notification_outbox_service.py:130-153 | one more attempt is counted; the item dies exactly on a permanent failure or when attempts reach the maximum, marked permanent (with `retry_exhausted` for an exhausted retry); otherwise it is pending and retryable at the retry time for its new attempt count; the message is truncated |
| `Outbox.MarkFailedOrRetry` | backend/app/services/notification_outbox_service.py:115-156 | the item with the id becomes its failed-attempt form (`Outbox.FailedItem`): one more attempt, dead on a permanent failure or at the attempt limit, otherwise pending at the backoff retry time; every other row is unchanged and an unknown id changes nothing |
| `Outbox.RetriesExhaust` | backend/app/services/notification_outbox_service.py:130-143 | after n retryable failures the attempt count grows by n and the item is dead exactly when the count reaches the maximum |
| `Outbox.RecoverStuckSending` | backend/app/services/notification_outbox_service.py:158-179 | every row stuck in `sending` for more than 15 minutes goes back to pending at the next window start, retryable, with the recovery code and message and the update time now; other rows are unchanged; the count is the number of stuck rows, zero exactly when nothing changed |
| `Outbox.RecoverIdempotent` | backend/app/services/notification_outbox_service.py:158-179 | recovering twice at the same instant finds nothing the second time |
| `Outbox.SentIsFinal` | backend/app/services/notification_outbox_service.py:78-165 | a sent item is never locked again nor recovered |
| `Outbox.RescheduleQuietHours` | backend/app/services/outbox_dispatcher_service.py:54-61 | the corrected quiet-hours step puts the item back to pending at the next window start, without counting an attempt, and changes nothing else |
| `Outbox.RescheduledWaitsForWindow` | backend/app/services/outbox_dispatcher_service.py:54-61 | a rescheduled item is due again exactly from the next window start, which lies inside the window |
| `BrevoProvider.RecipientDomain` | backend/app/notifications/brevo_provider.py:39 | the domain is the text after the last `@` (the whole address when there is none), lower-cased, so it contains no `@` |
| `BrevoProvider.HttpCode` | backend/app/notifications/brevo_provider.py:120-128 | the error code is `HTTP_` followed by the status code |
| `BrevoProvider.HttpCodeParses` | backend/app/notifications/brevo_provider.py:120-128 | the digits after `HTTP_` read back as the status code |
| `BrevoProvider.Send` | backend/app/notifications/brevo_provider.py:24-131 | dry run always succeeds with `dry-run`; a domain outside a non-empty whitelist and a missing API key are permanent failures; a timeout or transport error is retryable; a 2xx response is sent with its `messageId`; 408, 409, 429 and 5xx are retryable and other codes permanent, with `HTTP_<code>` and the first 500 characters of the response |
| `BrevoProvider.SendResultConsistent` | backend/app/notifications/brevo_provider.py:24-131 | a result is never `sending`; it has no failure class and no error code exactly when sent; pending goes with retryable and dead with permanent; only a sent result carries a message id |
| `BrevoProvider.LocalChecksComeFirst` | backend/app/notifications/brevo_provider.py:30-59 | dry run, the domain whitelist and a missing key decide before any request is made |
| `BrevoProvider.RecipientDomainOfAddress` | backend/app/notifications/brevo_provider.py:39 | the domain of `local@domain` is the lower-cased domain |
| `BrevoProvider.AfterLastSuffix` | backend/app/notifications/brevo_provider.py:39 | the text after the last separator is the final part when that part has none |
| `Dispatcher.HandleItem` | backend/app/services/outbox_dispatcher_service.py:48-93 | one item: quiet hours reschedule it; otherwise it is sent exactly when the provider reports `sent`, and is never left `sending`; other rows are unchanged |
| `Dispatcher.HandleItemRoutes` | backend/app/services/outbox_dispatcher_service.py:63-93 | the provider's answer routes the item: `sent` marks it sent with the provider's message id; a permanent failure, and only that, marks it failed as permanent (counted dead); any other failure marks it failed as retryable (counted retried) |
| `Dispatcher.OutcomeFollowsAnswer` | backend/app/services/outbox_dispatcher_service.py:54-93 | inside the send window an item counts as sent, dead or retried exactly when the provider answers sent, a permanent failure or a retryable failure; outside it counts as none of the three |
| `Dispatcher.Process` | backend/app/services/outbox_dispatcher_service.py:48-93 | every picked item is counted once; in quiet hours all are skipped and none is sent; inside the window `sent`, `dead` and `retried` count the items the provider answers with sent, a permanent and a retryable failure |
| `Dispatcher.DispatchPending` | backend/app/services/outbox_dispatcher_service.py:34-102 | the summary's picks are the locked batch, at most the batch size, split into sent, retried, dead and skipped; `recovered_stuck` is the recovery count; quiet hours skip all and send nothing; inside the window `sent`, `dead` and `retried` count the locked items the provider answers with sent, a permanent and a retryable failure |
| `Dispatcher.DryRunAnswers` | backend/app/services/outbox_dispatcher_service.py:63-73 | in dry-run mode the provider answers every item `sent`, so no item counts as dead or retried |
| `Dispatcher.ProcessDryRun` | backend/app/services/outbox_dispatcher_service.py:63-73 | in dry-run mode inside the window every item counts as sent |
| `Dispatcher.DispatchDryRun` | backend/app/services/outbox_dispatcher_service.py:34-102 | a dry run inside the window sends every picked item and retries or kills none |
| `Dispatcher.DispatchPendingAsWritten` | backend/app/services/outbox_dispatcher_service.py:54-61 | the code as written fails exactly when quiet hours meet a non-empty batch, leaving the table as locking left it |
| `Dispatcher.QuietHoursNeverSend` | backend/app/services/outbox_dispatcher_service.py:54-61 | in quiet hours the provider's behaviour does not matter |
| `Dispatcher.ProcessQuietIgnoresOutcomes` | backend/app/services/outbox_dispatcher_service.py:54-61 | in quiet hours processing does not depend on the provider |
| `Dispatcher.ProcessSettlesRows` | backend/app/services/outbox_dispatcher_service.py:48-93 | processing touches only the rows of the picked items and none of them stays `sending` |
| `Dispatcher.DispatchSettlesBatch` | backend/app/services/outbox_dispatcher_service.py:34-102 | no locked row is left `sending` after a dispatch |
| `Dispatcher.QuietKeepsAttempts` | backend/app/services/outbox_dispatcher_service.py:54-61 | quiet-hours handling counts no attempt |
| `Dispatcher.QuietProcess` | backend/app/services/outbox_dispatcher_service.py:54-61 | in quiet hours every picked item is rescheduled |
| `Dispatcher.QuietStep` | backend/app/services/outbox_dispatcher_service.py:54-61 | rescheduling one item and then the rest reschedules them all |
| `Dispatcher.QuietBatchNotEmpty` | backend/app/services/notification_outbox_service.py:76-86 | a positive batch size and a due row lock at least one row |
| `Dispatcher.QuietHoursAsWrittenStrandsRows` | backend/app/services/outbox_dispatcher_service.py:54-61 | in quiet hours with a due row, the code as written raises `AttributeError` for `reschedule_quiet_hours` and leaves the locked rows `sending` |
| `Dispatcher.LockedRowsSending` | backend/app/services/notification_outbox_service.py:88-91 | every locked row is `sending` |
| `Dispatcher.QuietHoursRescheduled` | backend/app/services/outbox_dispatcher_service.py:54-61 | with the reschedule step, quiet hours skip exactly the locked rows, each put back to pending without counting an attempt |
| `Profiles.NewProfile` | backend/alembic/versions/20260225_01_notifications.py:23-50 | a new profile has no email, no consent, reminders on, locale `de-DE`, time zone `Europe/Berlin`, one reminder a day, token version 1, and is not unsubscribed |
| `Profiles.FindPlan` | backend/app/services/notification_profile_service.py:23-25 | the profile found is the first one of the plan, and none is found exactly when the plan has no profile |
| `Profiles.GetOrCreate` | backend/app/services/notification_profile_service.py:22-33 | an existing profile of the plan is returned unchanged; otherwise a fresh profile is appended and returned |
| `Profiles.GetOrCreateIdempotent` | backend/app/services/notification_profile_service.py:22-33 | a second call returns the same profile without creating another, and plans keep one profile each |
| `Profiles.NormalizedEmail` | backend/app/services/notification_profile_service.py:47-49 | an email is stored stripped, and a missing or blank one is stored as none |
| `Profiles.SetRow` | backend/app/services/notification_profile_service.py:56-57 | writing a profile back changes only its row |
| `Profiles.UpsertProfile` | backend/app/services/notification_profile_service.py:35-59 | the plan's profile carries the normalised email and the given consent, locale, time zone and reminder switch; an existing profile keeps its id, unsubscription, token and limit; no other profile changes |
| `Profiles.UpsertIdempotent` | backend/app/services/notification_profile_service.py:35-59 | upserting the same settings twice changes only the update time |
| `Profiles.FindPlanSetRow` | backend/app/services/notification_profile_service.py:23-25 | rewriting a profile of the same plan does not change which profile is found |
| `Profiles.SendableAfterUpsert` | backend/app/services/notification_profile_service.py:35-68 | after an upsert the profile is sendable exactly when the email is non-blank, consent and reminders are on, and it was not unsubscribed before |
| `Profiles.Token` | backend/app/services/notification_profile_service.py:119-126 | a token starts with the profile id followed by a dot |
| `Profiles.TokenInjective` | backend/app/services/notification_profile_service.py:119-126 | for dot-free ids, two tokens are equal exactly when id and version are |
| `Profiles.FirstDot` | backend/app/services/notification_profile_service.py:126 | splitting at the first dot is unique when the first part has no dot |
| `Profiles.VersionDotFree` | backend/app/services/notification_profile_service.py:120-126 | a version number is written without a dot |
| `Profiles.IntToStringSign` | backend/app/services/notification_profile_service.py:120 | a number's decimal text is non-empty and starts with `-` exactly for negatives |
| `Profiles.IntToStringInjective` | backend/app/services/notification_profile_service.py:120 | different versions have different decimal texts |
| `Profiles.NatToStringInjective` | backend/app/services/notification_profile_service.py:120 | different naturals have different decimal texts |
| `Profiles.IssueUnsubscribeToken` | backend/app/services/notification_profile_service.py:70-82 | the issued token is the one of the current version, and its digest becomes the stored hash |
| `Profiles.IssueStable` | backend/app/services/notification_profile_service.py:70-82 | issuing again gives the same token and hash |
| `Profiles.RotateUnsubscribeToken` | backend/app/services/notification_profile_service.py:84-96 | rotation bumps the version by one, issues that version's token and stores its digest |
| `Profiles.RotateRevokesOldToken` | backend/app/services/notification_profile_service.py:84-96 | after rotation the old token differs from the new one and its digest is no longer stored |
| `Profiles.FindHash` | backend/app/services/notification_profile_service.py:100-104 | the profile found is the first with the digest, and none exactly when no profile has it |
| `Profiles.UnsubscribeByToken` | backend/app/services/notification_profile_service.py:98-114 | the result is true exactly when a profile holds the token's digest; that profile is unsubscribed, keeping an earlier unsubscription time; nothing else changes |
| `Profiles.UnsubscribeIdempotent` | backend/app/services/notification_profile_service.py:109-114 | unsubscribing twice is the same as once |
| `Profiles.UnsubscribeIssuedToken` | backend/app/services/notification_profile_service.py:98-114 | the current token of a profile finds exactly that profile and makes it unsendable |
| `Profiles.IssueKeepsOwnDigests` | backend/app/services/notification_profile_service.py:70-96 | issuing or rotating keeps every stored hash the digest of its profile's own token |
| `Profiles.IssuedTokenUnsubscribes` | backend/app/services/notification_profile_service.py:70-114 | a freshly issued token unsubscribes its profile |
| `Scanner.Filter` | backend/app/services/reminder_scanner_service.py:66-72 | a row is kept, as often as it occurs, exactly when it is a `todo` task of the plan due between today and three days ahead |
| `Scanner.DueSoonTasks` | backend/app/services/reminder_scanner_service.py:65-75 | the query returns exactly the matching rows, ordered by due date and then sort key |
| `Scanner.TaskEntry` | backend/app/services/reminder_scanner_service.py:95-112 | a payload task carries `due_date` and `due_in_days` |
| `Scanner.TaskEntries` | backend/app/services/reminder_scanner_service.py:91-113 | one payload entry per matched task, in query order |
| `Scanner.PayloadDatesReadBack` | backend/app/services/reminder_scanner_service.py:100-101 | the payload's `due_date` parses back to the task's date and `due_in_days` is its distance from today, between 0 and 3 |
| `Scanner.DueTasks` | backend/app/services/reminder_scanner_service.py:91-113 | the e-mail view has one task per payload entry |
| `Scanner.ScannedEmailListsEveryTask` | backend/app/services/reminder_scanner_service.py:91-133 | every scanned task falls in one of the four listed buckets, none in `später`, and the subject counts them all |
| `Scanner.TasksQueryInWindow` | backend/app/services/reminder_scanner_service.py:65-75 | the task query only returns matching rows inside the window |
| `Scanner.ScanProfile` | backend/app/services/reminder_scanner_service.py:49-144 | one profile: it is skipped as not sendable exactly when it is not sendable; its settings are unchanged; at most one outbox item, with the new id, is appended |
| `Scanner.ScanProfileDecides` | backend/app/services/reminder_scanner_service.py:49-144 | skipped as not sendable, daily cap reached, no tasks, or created, each exactly under its own condition; created needs a new dedupe key |
| `Scanner.CreatedStepIssues` | backend/app/services/reminder_scanner_service.py:82-133 | a created reminder issues the profile's token and puts it in the unsubscribe link |
| `Scanner.ReminderLinkUnsubscribes` | backend/app/services/reminder_scanner_service.py:82-133 | the token in a reminder's link unsubscribes its profile |
| `Scanner.ScanAll` | backend/app/services/reminder_scanner_service.py:40-160 | a scan keeps every profile, only appends to the outbox, as many items as it reports created, each with a supplied id |
| `Scanner.AllSameSnoc` | backend/app/services/reminder_scanner_service.py:49-151 | settings kept for each profile are kept for the list |
| `Scanner.ScanKeepsSettings` | backend/app/services/reminder_scanner_service.py:49-151 | a scan changes no profile's settings |
| `Scanner.ScanCounts` | backend/app/services/reminder_scanner_service.py:49-160 | every profile is scanned, the not-sendable count is the number of unsendable profiles, and created plus skipped never exceeds the profiles |
| `Scanner.BlockedPersists` | backend/app/services/reminder_scanner_service.py:52-141 | a profile that cannot get a reminder today stays so while the outbox only grows |
| `Scanner.AllBlockedPersist` | backend/app/services/reminder_scanner_service.py:52-141 | the same for all profiles |
| `Scanner.AllBlockedSameDay` | backend/app/services/reminder_scanner_service.py:37-89 | being blocked depends only on the Berlin day |
| `Scanner.AllBlockedSnoc` | backend/app/services/reminder_scanner_service.py:49-151 | blocked profiles extend by a blocked one |
| `Scanner.BlockedNotCreated` | backend/app/services/reminder_scanner_service.py:52-144 | a blocked profile gets no reminder |
| `Scanner.StepBlocks` | backend/app/services/reminder_scanner_service.py:52-144 | after its step, a profile is blocked for the rest of the day |
| `Scanner.StillFresh` | backend/app/services/reminder_scanner_service.py:135-141 | an unused id stays new while other ids are appended |
| `Scanner.ScanBlocksAll` | backend/app/services/reminder_scanner_service.py:40-160 | after a scan every profile is blocked for the day |
| `Scanner.BlockedScanCreatesNothing` | backend/app/services/reminder_scanner_service.py:40-160 | a scan of blocked profiles creates nothing |
| `Scanner.RescanCreatesNothing` | backend/app/services/reminder_scanner_service.py:40-160 | scanning twice on the same Berlin day creates no second reminder |
| `Scanner.ScanDueSoon` | backend/app/services/reminder_scanner_service.py:34-40 | the scan fails exactly when three days ahead of today leaves the date range; otherwise it is the scan of every profile over the open tasks due in the next three local days, and the outbox only grows |
| `Calendar.FromOrdinal` | backend/app/planner/deadlines.py:25 | a day number in `date`'s range converts to a valid year, month and day that convert back to it |
| `Calendar.FromToOrdinal` | backend/app/planner/deadlines.py:25 | converting a valid date to its day number and back gives the same date |
| `Calendar.IsoFormat` | backend/app/services/reminder_scanner_service.py:100 | `isoformat()` is ten characters with dashes at positions 4 and 7 |
| `Calendar.IsoFormatOfYmd` | backend/app/services/reminder_scanner_service.py:100 | `isoformat()` is the zero-padded year, month and day joined by dashes |
| `Calendar.FromParts` | backend/app/planner/deadlines.py:12-17 | three numbers form a day exactly when they are a valid date in years 1 to 9999 |
| `Calendar.ParseIsoDate` | backend/app/planner/deadlines.py:9-17 | an accepted date is in range and is written `YYYY-MM-DD` or `YYYYMMDD` |
| `Calendar.ParseIsoFormat` | backend/app/planner/deadlines.py:9-17 | every `isoformat()` text parses back to its day |
| `Calendar.FormatParseIso` | backend/app/planner/deadlines.py:9-17 | a parsed ten-character date is exactly the `isoformat()` of its day |
| `Calendar.IsoFormatInjective` | backend/app/services/reminder_scanner_service.py:100 | different days have different ISO texts |
| `Strings.Sort` | backend/app/domain/workflow_test_runner.py:84 | `sorted()` of strings is an ordered permutation |
| `Strings.Strip` | backend/app/services/notification_profile_service.py:48-62 | `strip()` removes exactly the leading and trailing whitespace |
| `Strings.StripIdempotent` | backend/app/services/notification_profile_service.py:48-62 | stripping twice is stripping once |
| `Strings.AfterLast` | backend/app/notifications/brevo_provider.py:39 | `split(c)[-1]` is the suffix after the last `c`, or the whole text when there is none |

## Left out

- PlanView.ComputeProgress: rounds the exact ratio `100·done/total` half up. The source rounds an IEEE double, which can land just below `.5` and round down: 23 of 40 is 57 in the source and 58 here, and 29 of 200 is 14 in the source and 15 here. Floating point is not modelled.
- Calendar.ParseIsoDate: accepts `YYYY-MM-DD` and `YYYYMMDD`, the calendar-date forms of `date.fromisoformat` since Python 3.11 (the code imports `datetime.UTC`, so it needs 3.11 or later). ISO week dates such as `2024-W01-1`, which 3.11 also accepts, are rejected here.
- PlanService.DueDateOf: reads a deadline with `Calendar.ParseIsoDate`, but the source's `datetime.fromisoformat(raw).date()` also accepts date-times such as `2026-04-01T10:00`. The planner only writes `isoformat()` dates, and `PlanService.PlannedDeadlinesParse` shows those always parse back.
- Rules.CompareNumeric: numbers are integers. Python's int/float comparison, float precision and the `OverflowError` of converting a huge int to float are not modelled.
- Outbox.JitteredDelay: truncates the jittered delay to whole microseconds, while `timedelta(minutes=…)` rounds to the nearest microsecond. The jitter itself is a parameter in [0.9, 1.1], not a random draw.
- BrevoProvider.RecipientDomain: lower-cases ASCII letters only; Python's `str.lower()` also folds non-ASCII letters.
- BrevoProvider.Send: a 2xx response whose body is not valid JSON raises in the source; here the body is an already parsed optional JSON value. A 2xx body whose `messageId` is not a string (a number, say) has its value stored by the source; here the message id is a string, so such a value is dropped and no id is recorded.
- Scanner.ScanCounts: `errors` is always 0, because no step of a profile can fail in the model; the source's `except Exception` path (rollback, `errors += 1`, log) at reminder_scanner_service.py:145-151 is not modelled.
- EmailTemplate.RenderTaskDueSoon: the exceptions the source can raise are not modelled. This includes `int(due_in_days)` on a non-number, `fromisoformat` on a bad `due_date` string, and a task entry that is not a dict. In the model `due_in_days` is an optional integer, a title is a string or absent, and dates are valid days. A missing `due_date` falls back to `date.today()`; here that is a `today` parameter.
- TemplateRepository.Load: a template file that is not valid JSON raises `json.JSONDecodeError` in the source; files are already parsed JSON values here.
- PlanService.CreatePlan: database failures (`SQLAlchemyError` mapped to 500 `PERSISTENCE_ERROR`, plan_service.py:135-141 and 285-291) are not modelled; the store never fails. Generated plan ids are a parameter.
- PlanService.RecomputePlan: the same `SQLAlchemyError` path and rollback are not modelled.
- Engine.GeneratePlan: when several tasks or edges are bad, the source reports the first one in Python set or dict order; the model checks tasks in topological order and edges in list order, so only the choice among several errors may differ.
- WorkflowRunner.RunTemplate: the model visits object entries in sorted key order, while the source visits them in document order; this only decides which of several errors is reported. Facts that YAML loads as `date` objects are not modelled; reference dates are strings.
- SendWindow.NextSendWindowStart: time is Berlin wall-clock time with 24-hour days; `ZoneInfo` offsets and daylight-saving transitions are not modelled. On 9999-12-31 at 08:00 or later the source's `+ timedelta(days=1)` raises `OverflowError`, while the model returns 08:00 of a day in year 10000.
- PlanView.SortTasksByDeadlinePriority: due dates are compared as calendar days; JavaScript `Date` parsing of the date string (as UTC) does not change the order of whole days, and is not modelled.
- Profiles.Token: HMAC-SHA256 and SHA-256 are uninterpreted functions; where a property needs collision freedom the lemma assumes it as `DigestInjective`.
- Outbox.CountCreatedToday: database timestamps are model instants; the query's conversion of the Berlin day to UTC bounds is not modelled.
- TaskService.ListTasks: rows with equal `sort_key` come in one fixed order here; SQL leaves their order unspecified, and the contract does not pin it.
- The HTTP routers, schemas and error handlers, the Celery workers, the configuration loading and the frontend pages are not part of this model: they are plumbing around the operations above.
- The completion gate for blocked tasks (409 `TASK_BLOCKED` and a force override) is not in the service code (task_service.py:27-58), so it is not modelled.

## Findings

| source | as written | input that shows it | evidently intended | confidence | as-written member | corrected member |
|---|---|---|---|---|---|---|
| frontend/lib/plan.ts:21-27 | `new Date("YYYY-MM-DD")` reads the due date as UTC midnight, then `setHours(0,0,0,0)` truncates it in local time, so west of UTC the due day moves back one day | browser at UTC−05:00, task due 2024-04-24 (day 739000 here), now 12:00 local on that day: reported overdue | a task due today is not overdue: compare the due day with today's local day | not executed | `PlanView.IsOverdueAsWritten` (witness `PlanView.OverdueAsWrittenWestOfUtc`) | `PlanView.IsOverdue` |
| backend/app/planner/deadlines.py:25 | `event_date + timedelta(...)` raises `OverflowError` past 9999-12-31; plan_service.py:36-41 and 175-180 catch the planner errors and `ValueError` only, so it escapes as a 500 from `create_plan`, `recompute_plan` and `update_facts` with a recompute | facts with event date `9999-12-31` and a task with `offset_days` 1 | a deadline out of range is bad planner input: 400 `PLANNER_INPUT_INVALID` | not executed | `PlanService.CreatePlanAsWritten`, `PlanService.RecomputePlanAsWritten` and `PlanService.UpdateFactsAsWritten` (with `PlanService.PlanAsWritten`, `Deadlines.LastDayOverflows`) | `PlanService.CreatePlan`, `PlanService.RecomputePlan` and `PlanService.UpdateFacts` (proved different exactly on overflow by `PlanService.CreatePlanCorrection`, `PlanService.RecomputePlanCorrection` and `PlanService.UpdateFactsCorrection`) |
| backend/app/services/outbox_dispatcher_service.py:54-61 | calls `outbox_service.reschedule_quiet_hours`, which `NotificationOutboxService` does not define: the first item in quiet hours raises `AttributeError`, and the locked batch stays `sending` | dispatch at 22:00 Berlin time with one pending row due | reschedule each item to the next window start as pending with `QUIET_HOURS`, attempt count unchanged | not executed | `Dispatcher.DispatchPendingAsWritten` (witness `Dispatcher.QuietHoursAsWrittenStrandsRows`) | `Dispatcher.DispatchPending` (with `Outbox.RescheduleQuietHours`, proved by `Dispatcher.QuietHoursRescheduled`) |

=== FILE: api_errors.dfy ===
/** The service layer's `ApiError`: an HTTP status and a machine-readable
    code (the human-readable message is not modelled). */
module ApiErrors {
  datatype ApiError = ApiError(status: int, code: string)

  const TemplateNotFound: ApiError := ApiError(404, "TEMPLATE_NOT_FOUND")
  const PlanNotFound: ApiError := ApiError(404, "PLAN_NOT_FOUND")
  const TaskNotFound: ApiError := ApiError(404, "TASK_NOT_FOUND")
  const PlannerInputInvalid: ApiError := ApiError(400, "PLANNER_INPUT_INVALID")
}

=== FILE: calendar.dfy ===
/** Calendar dates of the proleptic Gregorian calendar, as Python's
    `datetime.date` holds them: a date is its ordinal day number (day 1 is
    0001-01-01, the last representable day is 9999-12-31), and the ISO 8601
    calendar-date forms of section 5.2.1.1 of ISO 8601:2004 are the external
    text form: `YYYY-MM-DD` (extended) and `YYYYMMDD` (basic). */
module Calendar {
  import opened Wrappers
  import opened Strings

  /** `date(9999, 12, 31).toordinal()`. */
  const MaxOrdinal: int := 3652059

  /** A day number that Python's `date` can represent. */
  predicate ValidDay(n: int) { 1 <= n <= MaxOrdinal }

  predicate IsLeap(y: int)
  {
    y % 4 == 0 && (y % 100 != 0 || y % 400 == 0)
  }

  function DaysInYear(y: int): int
  {
    if IsLeap(y) then 366 else 365
  }

  function DaysInMonth(y: int, m: int): int
    requires 1 <= m <= 12
  {
    if m == 2 then (if IsLeap(y) then 29 else 28)
    else if m == 4 || m == 6 || m == 9 || m == 11 then 30
    else 31
  }

  function DaysBeforeMonth(y: int, m: int): int
    requires 1 <= m <= 12
  {
    var table := [0, 31, 59, 90, 120, 151, 181, 212, 243, 273, 304, 334];
    table[m - 1] + (if m > 2 && IsLeap(y) then 1 else 0)
  }

  /** Number of days in the years 1 .. y-1. */
  function DaysBeforeYear(y: int): int
    requires y >= 1
  {
    var p := y - 1;
    365 * p + p / 4 - p / 100 + p / 400
  }

  /** Stepping from y-1 to y adds one multiple of `k` exactly when `k`
      divides y (stated for the three divisors of the leap-year rule). */
  lemma MultiplesStep(y: int)
    requires y >= 1
    ensures y / 4 - (y - 1) / 4 == (if y % 4 == 0 then 1 else 0)
    ensures y / 100 - (y - 1) / 100 == (if y % 100 == 0 then 1 else 0)
    ensures y / 400 - (y - 1) / 400 == (if y % 400 == 0 then 1 else 0)
  {
  }

  /** The divisors of the leap-year rule divide one another. */
  lemma Div400Div100(y: int)
    requires y % 400 == 0
    ensures y % 100 == 0
  {
    var q := y / 400;
    assert y == 400 * q;
    assert y - 100 * (4 * q) == 0;
  }

  lemma Div100Div4(y: int)
    requires y % 100 == 0
    ensures y % 4 == 0
  {
    var q := y / 100;
    assert y == 100 * q;
    assert y == 4 * (25 * q);
  }

  lemma DaysBeforeNextYear(y: int)
    requires y >= 1
    ensures DaysBeforeYear(y + 1) == DaysBeforeYear(y) + DaysInYear(y)
  {
    MultiplesStep(y);
    if y % 400 == 0 {
      Div400Div100(y);
    }
    if y % 100 == 0 {
      Div100Div4(y);
    }
    assert DaysBeforeYear(y + 1) - DaysBeforeYear(y)
        == 365 + (y / 4 - (y - 1) / 4) - (y / 100 - (y - 1) / 100) + (y / 400 - (y - 1) / 400);
  }

  lemma {:induction false} DaysBeforeYearMonotone(y1: int, y2: int)
    requires 1 <= y1 < y2
    ensures DaysBeforeYear(y1) + DaysInYear(y1) <= DaysBeforeYear(y2)
    decreases y2 - y1
  {
    DaysBeforeNextYear(y1);
    if y1 + 1 < y2 {
      DaysBeforeYearMonotone(y1 + 1, y2);
    }
  }

  lemma MonthStep(y: int, m: int)
    requires 1 <= m < 12
    ensures DaysBeforeMonth(y, m + 1) == DaysBeforeMonth(y, m) + DaysInMonth(y, m)
  {
  }

  lemma MonthsFillYear(y: int)
    ensures DaysBeforeMonth(y, 12) + DaysInMonth(y, 12) == DaysInYear(y)
  {
  }

  lemma {:induction false} DaysBeforeMonthMonotone(y: int, m1: int, m2: int)
    requires 1 <= m1 < m2 <= 12
    ensures DaysBeforeMonth(y, m1) + DaysInMonth(y, m1) <= DaysBeforeMonth(y, m2)
    decreases m2 - m1
  {
    MonthStep(y, m1);
    if m1 + 1 < m2 {
      DaysBeforeMonthMonotone(y, m1 + 1, m2);
    }
  }

  /** A (year, month, day) triple. */
  datatype Ymd = Ymd(year: int, month: int, day: int)

  /** The triple names a date Python's `date(year, month, day)` accepts. */
  predicate ValidYmd(d: Ymd)
  {
    && 1 <= d.year <= 9999
    && 1 <= d.month <= 12
    && 1 <= d.day <= DaysInMonth(d.year, d.month)
  }

  /** `date(y, m, d).toordinal()`. */
  function ToOrdinal(d: Ymd): int
    requires ValidYmd(d)
  {
    DaysBeforeYear(d.year) + DaysBeforeMonth(d.year, d.month) + d.day
  }

  /** The ordinal of a date lies within the days of its own year and month. */
  lemma ToOrdinalBounds(d: Ymd)
    requires ValidYmd(d)
    ensures DaysBeforeYear(d.year) < ToOrdinal(d) <= DaysBeforeYear(d.year) + DaysInYear(d.year)
    ensures ValidDay(ToOrdinal(d))
  {
    if d.month < 12 {
      DaysBeforeMonthMonotone(d.year, d.month, 12);
    }
    MonthsFillYear(d.year);
    if d.year < 9999 {
      DaysBeforeYearMonotone(d.year, 9999);
    }
  }

  /** The year whose days contain day number `n`, searching upwards from `y`. */
  function YearFrom(n: int, y: int): (r: int)
    requires 1 <= y && DaysBeforeYear(y) < n
    ensures r >= y && DaysBeforeYear(r) < n <= DaysBeforeYear(r) + DaysInYear(r)
    decreases n - DaysBeforeYear(y)
  {
    DaysBeforeNextYear(y);
    if n <= DaysBeforeYear(y) + DaysInYear(y) then y else YearFrom(n, y + 1)
  }

  /** The month of year `y` containing day `r` of that year, searching
      upwards from `m`. */
  function MonthFrom(y: int, r: int, m: int): (res: int)
    requires 1 <= m <= 12 && DaysBeforeMonth(y, m) < r <= DaysInYear(y)
    ensures m <= res <= 12
    ensures DaysBeforeMonth(y, res) < r <= DaysBeforeMonth(y, res) + DaysInMonth(y, res)
    decreases 12 - m
  {
    MonthsFillYear(y);
    if r <= DaysBeforeMonth(y, m) + DaysInMonth(y, m) then m
    else
      MonthStep(y, m);
      MonthFrom(y, r, m + 1)
  }

  /** `date.fromordinal(n)`: the date whose ordinal is `n`. */
  function FromOrdinal(n: int): (d: Ymd)
    requires ValidDay(n)
    ensures ValidYmd(d) && ToOrdinal(d) == n
  {
    var y := YearFrom(n, 1);
    assert y <= 9999 by {
      if y > 9999 {
        DaysBeforeYearMonotone(9999, y);
      }
    }
    var r := n - DaysBeforeYear(y);
    var m := MonthFrom(y, r, 1);
    Ymd(y, m, r - DaysBeforeMonth(y, m))
  }

  /** Distinct valid triples have distinct ordinals, so converting a triple to
      its day number and back gives the same triple. */
  lemma FromToOrdinal(d: Ymd)
    requires ValidYmd(d)
    ensures ValidDay(ToOrdinal(d))
    ensures FromOrdinal(ToOrdinal(d)) == d
  {
    ToOrdinalBounds(d);
    var n := ToOrdinal(d);
    var e := FromOrdinal(n);
    ToOrdinalBounds(e);
    if d.year < e.year {
      DaysBeforeYearMonotone(d.year, e.year);
    } else if e.year < d.year {
      DaysBeforeYearMonotone(e.year, d.year);
    }
    assert d.year == e.year;
    if d.month < e.month {
      DaysBeforeMonthMonotone(d.year, d.month, e.month);
    } else if e.month < d.month {
      DaysBeforeMonthMonotone(d.year, e.month, d.month);
    }
  }

  // ---------------------------------------------------------------------
  // ISO 8601 text form

  /** `date.isoformat()`: the extended form `YYYY-MM-DD`. */
  function IsoFormat(n: int): (s: string)
    requires ValidDay(n)
    ensures |s| == 10 && s[4] == '-' && s[7] == '-'
  {
    var d := FromOrdinal(n);
    Fixed(d.year, 4) + "-" + Fixed(d.month, 2) + "-" + Fixed(d.day, 2)
  }

  /** The text of a date is its zero-padded year, month and day. */
  lemma IsoFormatOfYmd(d: Ymd)
    requires ValidYmd(d)
    ensures ValidDay(ToOrdinal(d))
    ensures IsoFormat(ToOrdinal(d)) == Fixed(d.year, 4) + "-" + Fixed(d.month, 2) + "-" + Fixed(d.day, 2)
  {
    FromToOrdinal(d);
  }

  /** The day number of a (year, month, day) triple, if it names a date. */
  function FromParts(y: int, m: int, d: int): (r: Option<int>)
    ensures r.Some? <==> ValidYmd(Ymd(y, m, d))
    ensures r.Some? ==> ValidDay(r.value) && FromOrdinal(r.value) == Ymd(y, m, d)
  {
    if ValidYmd(Ymd(y, m, d)) then
      FromToOrdinal(Ymd(y, m, d));
      Some(ToOrdinal(Ymd(y, m, d)))
    else None
  }

  predicate IsExtendedForm(s: string)
  {
    |s| == 10 && s[4] == '-' && s[7] == '-'
    && AllDigits(s[..4]) && AllDigits(s[5..7]) && AllDigits(s[8..])
  }

  predicate IsBasicForm(s: string)
  {
    |s| == 8 && AllDigits(s)
  }

  /** `date.fromisoformat(s)` on the calendar-date forms: `None` where Python
      raises `ValueError`. */
  function ParseIsoDate(s: string): (r: Option<int>)
    ensures r.Some? ==> ValidDay(r.value)
    ensures r.Some? ==> IsExtendedForm(s) || IsBasicForm(s)
  {
    if IsExtendedForm(s) then
      FromParts(ParseDigits(s[..4]), ParseDigits(s[5..7]), ParseDigits(s[8..]))
    else if IsBasicForm(s) then
      FromParts(ParseDigits(s[..4]), ParseDigits(s[4..6]), ParseDigits(s[6..]))
    else None
  }

  /** Formatting a day and parsing the text back gives the same day. */
  lemma ParseIsoFormat(n: int)
    requires ValidDay(n)
    ensures ParseIsoDate(IsoFormat(n)) == Some(n)
  {
    var d := FromOrdinal(n);
    var s := IsoFormat(n);
    assert s[..4] == Fixed(d.year, 4);
    assert s[5..7] == Fixed(d.month, 2);
    assert s[8..] == Fixed(d.day, 2);
    ParseFixed(d.year, 4);
    ParseFixed(d.month, 2);
    ParseFixed(d.day, 2);
  }

  /** The extended form is canonical: text that parses is exactly the
      formatting of the day it parses to. */
  lemma FormatParseIso(s: string)
    requires ParseIsoDate(s).Some? && |s| == 10
    ensures IsoFormat(ParseIsoDate(s).value) == s
  {
    assert IsExtendedForm(s);
    var y, m, d := ParseDigits(s[..4]), ParseDigits(s[5..7]), ParseDigits(s[8..]);
    assert FromOrdinal(ParseIsoDate(s).value) == Ymd(y, m, d);
    FixedParse(s[..4]);
    FixedParse(s[5..7]);
    FixedParse(s[8..]);
    assert IsoFormat(ParseIsoDate(s).value) == Fixed(y, 4) + "-" + Fixed(m, 2) + "-" + Fixed(d, 2);
    assert s == s[..4] + "-" + s[5..7] + "-" + s[8..];
  }

  /** Distinct days have distinct ISO texts. */
  lemma IsoFormatInjective(n1: int, n2: int)
    requires ValidDay(n1) && ValidDay(n2)
    requires IsoFormat(n1) == IsoFormat(n2)
    ensures n1 == n2
  {
    ParseIsoFormat(n1);
    ParseIsoFormat(n2);
  }
}

=== FILE: counting.dfy ===
/** Counting the rows of a table that satisfy a condition, as an SQL
    `COUNT(*) ... WHERE` or a Python counter incremented in a loop does. */
module Counting {
  /** The positions of `s` whose element satisfies `p`. */
  ghost function Positions<T>(s: seq<T>, p: T -> bool): set<int>
  {
    set k | 0 <= k < |s| && p(s[k])
  }

  /** The number of elements of `s` that satisfy `p`. */
  function CountWhere<T>(s: seq<T>, p: T -> bool): (n: nat)
    ensures n <= |s|
  {
    if |s| == 0 then 0
    else CountWhere(s[..|s| - 1], p) + (if p(s[|s| - 1]) then 1 else 0)
  }

  /** The count is the number of positions whose element satisfies `p`. */
  lemma {:induction false} CountIsPositions<T>(s: seq<T>, p: T -> bool)
    ensures CountWhere(s, p) == |Positions(s, p)|
    decreases |s|
  {
    if |s| == 0 {
      assert Positions(s, p) == {};
    } else {
      var init := s[..|s| - 1];
      CountIsPositions(init, p);
      assert Positions(s, p) == Positions(init, p) + (if p(s[|s| - 1]) then {|s| - 1} else {}) by {
        forall k ensures k in Positions(s, p) <==> k in Positions(init, p) || (k == |s| - 1 && p(s[|s| - 1])) {
          if 0 <= k < |s| - 1 {
            assert s[k] == init[k];
          }
        }
      }
    }
  }

  /** Nothing is counted exactly when no element satisfies `p`. */
  lemma CountZeroIff<T>(s: seq<T>, p: T -> bool)
    ensures CountWhere(s, p) == 0 <==> forall k :: 0 <= k < |s| ==> !p(s[k])
  {
    CountIsPositions(s, p);
    if CountWhere(s, p) == 0 {
      forall k | 0 <= k < |s| ensures !p(s[k]) {
        assert p(s[k]) ==> k in Positions(s, p);
      }
    } else {
      var k :| k in Positions(s, p);
    }
  }

  /** An element appended at the end adds one to the count when it
      satisfies `p`. */
  lemma CountSnoc<T>(s: seq<T>, x: T, p: T -> bool)
    ensures CountWhere(s + [x], p) == CountWhere(s, p) + (if p(x) then 1 else 0)
  {
    assert (s + [x])[..|s|] == s;
  }

  /** Rows appended to a table never lower a count over it. */
  lemma {:induction false} CountPrefix<T>(s: seq<T>, t: seq<T>, p: T -> bool)
    requires |s| <= |t| && t[..|s|] == s
    ensures CountWhere(s, p) <= CountWhere(t, p)
    decreases |t|
  {
    if |s| < |t| {
      var init := t[..|t| - 1];
      assert init[..|s|] == s;
      CountPrefix(s, init, p);
      CountSnoc(init, t[|t| - 1], p);
      assert init + [t[|t| - 1]] == t;
    } else {
      assert t == s;
    }
  }
}

=== FILE: deadlines.dfy ===
/** The planner's date handling: reading the event date and shifting it by a
    task's offset and grace days. */
module Deadlines {
  import opened Wrappers
  import opened Json
  import opened Strings
  import Calendar
  import opened PlannerErrors

  /** `parse_iso_date`: a string in one of the ISO 8601 calendar-date forms,
      read as a day number; anything else is an input error. */
  function ParseIsoDate(value: Json): (r: Result<int, Failure>)
    ensures r.Err? ==> r.error == InputError
    ensures r.Ok? <==> value.JStr? && Calendar.ParseIsoDate(value.s).Some?
    ensures r.Ok? ==> Calendar.ValidDay(r.value)
  {
    if !value.JStr? then Err(InputError)
    else match Calendar.ParseIsoDate(value.s)
      case None => Err(InputError)
      case Some(n) => Ok(n)
  }

  /** `compute_deadline`: both shifts must be Python ints (a `bool` is one),
      and the shifted day must still be a `date`. */
  function ComputeDeadline(eventDay: int, relativeDays: Json, graceDays: Json): (r: Result<int, Failure>)
    requires Calendar.ValidDay(eventDay)
    ensures !IsPyInt(relativeDays) || !IsPyInt(graceDays) ==> r == Err(InputError)
    ensures r.Ok? ==>
      Calendar.ValidDay(r.value) && r.value - eventDay == PyIntValue(relativeDays) + PyIntValue(graceDays)
    ensures r.Err? && IsPyInt(relativeDays) && IsPyInt(graceDays) ==> r.error == DateOverflow
  {
    if !IsPyInt(relativeDays) || !IsPyInt(graceDays) then Err(InputError)
    else
      var due := eventDay + PyIntValue(relativeDays) + PyIntValue(graceDays);
      if Calendar.ValidDay(due) then Ok(due) else Err(DateOverflow)
  }

  /** Only a date outside the range of `date` makes integer shifts fail. */
  lemma ComputeDeadlineTotal(eventDay: int, relativeDays: int, graceDays: int)
    requires Calendar.ValidDay(eventDay)
    ensures ComputeDeadline(eventDay, JInt(relativeDays), JInt(graceDays)).Ok?
      <==> Calendar.ValidDay(eventDay + relativeDays + graceDays)
  {
  }

  /** Shifting by the negated total days returns to the event day. */
  lemma ComputeDeadlineInverse(eventDay: int, relativeDays: int, graceDays: int)
    requires Calendar.ValidDay(eventDay)
    requires ComputeDeadline(eventDay, JInt(relativeDays), JInt(graceDays)).Ok?
    ensures var due := ComputeDeadline(eventDay, JInt(relativeDays), JInt(graceDays)).value;
      ComputeDeadline(due, JInt(-(relativeDays + graceDays)), JInt(0)) == Ok(eventDay)
  {
  }

  /** Offset and grace add up: shifting by the offset and then by the grace
      is one shift by their sum, and a zero shift is the identity. */
  lemma ComputeDeadlineAdditive(eventDay: int, relativeDays: int, graceDays: int)
    requires Calendar.ValidDay(eventDay)
    requires ComputeDeadline(eventDay, JInt(relativeDays), JInt(0)).Ok?
    ensures var mid := ComputeDeadline(eventDay, JInt(relativeDays), JInt(0)).value;
      ComputeDeadline(mid, JInt(graceDays), JInt(0))
        == ComputeDeadline(eventDay, JInt(relativeDays), JInt(graceDays))
    ensures ComputeDeadline(eventDay, JInt(0), JInt(0)) == Ok(eventDay)
  {
  }

  /** The engine writes the deadline with `isoformat()` and the plan service
      reads it back: every representable day survives the round trip. */
  lemma DeadlineTextRoundTrip(day: int)
    requires Calendar.ValidDay(day)
    ensures ParseIsoDate(JStr(Calendar.IsoFormat(day))) == Ok(day)
  {
    Calendar.ParseIsoFormat(day);
  }

  // ---------------------------------------------------------------------
  // Worked examples

  function Day(y: int, m: int, d: int): int
    requires Calendar.ValidYmd(Calendar.Ymd(y, m, d))
  {
    Calendar.ToOrdinal(Calendar.Ymd(y, m, d))
  }

  lemma Fixed2026()
    ensures Fixed(2026, 4) == "2026"
  {
    assert Fixed(2, 1) == "2";
    assert Fixed(20, 2) == "20";
    assert Fixed(202, 3) == "202";
  }

  lemma FixedSmall(n: int)
    requires 0 <= n < 10
    ensures Fixed(n, 2) == ['0', DigitChar(n)]
  {
    assert n / 10 == 0 && n % 10 == n;
    assert Fixed(n, 2) == Fixed(0, 1) + [DigitChar(n)];
    assert Fixed(0, 1) == "0";
  }

  /** The event date `2026-04-01` is read as that day. */
  lemma AcceptsExtendedDate()
    ensures ParseIsoDate(JStr("2026-04-01")) == Ok(Day(2026, 4, 1))
  {
    var s := "2026-04-01";
    Fixed2026();
    FixedSmall(4);
    FixedSmall(1);
    assert s[..4] == Fixed(2026, 4);
    assert s[5..7] == Fixed(4, 2);
    assert s[8..] == Fixed(1, 2);
    ParseFixed(2026, 4);
    ParseFixed(4, 2);
    ParseFixed(1, 2);
  }

  /** A date-time string and a bare number are both rejected. */
  lemma RejectsNonDates()
    ensures ParseIsoDate(JStr("2026-04-01T00:00:00Z")) == Err(InputError)
    ensures ParseIsoDate(JInt(20260401)) == Err(InputError)
  {
  }

  /** The day numbers of the worked examples, as `date.toordinal()` gives
      them. */
  lemma ExampleDays()
    ensures Day(2026, 4, 1) == 739707 && Day(2026, 3, 25) == 739700
    ensures Day(2026, 5, 1) == 739737 && Day(2026, 5, 3) == 739739
  {
    assert Calendar.DaysBeforeYear(2026) == 739616;
    assert Calendar.DaysBeforeMonth(2026, 3) == 59;
    assert Calendar.DaysBeforeMonth(2026, 4) == 90;
    assert Calendar.DaysBeforeMonth(2026, 5) == 120;
  }

  /** A task one day after an event on 9999-12-31 has no representable
      deadline: the planner raises `OverflowError`. */
  lemma LastDayOverflows()
    ensures Day(9999, 12, 31) == Calendar.MaxOrdinal
    ensures ComputeDeadline(Day(9999, 12, 31), JInt(1), JInt(0)) == Err(DateOverflow)
  {
    assert Calendar.DaysBeforeYear(9999) == 3651694;
    assert Calendar.DaysBeforeMonth(9999, 12) == 334;
  }

  /** Shifting 2026-04-01 by -7, 0, 30, and 30 plus 2 grace days. */
  lemma DeadlineExamples()
    ensures ComputeDeadline(Day(2026, 4, 1), JInt(-7), JInt(0)) == Ok(Day(2026, 3, 25))
    ensures ComputeDeadline(Day(2026, 4, 1), JInt(0), JInt(0)) == Ok(Day(2026, 4, 1))
    ensures ComputeDeadline(Day(2026, 4, 1), JInt(30), JInt(0)) == Ok(Day(2026, 5, 1))
    ensures ComputeDeadline(Day(2026, 4, 1), JInt(30), JInt(2)) == Ok(Day(2026, 5, 3))
  {
    ExampleDays();
    ComputeDeadlineTotal(739707, -7, 0);
    ComputeDeadlineTotal(739707, 0, 0);
    ComputeDeadlineTotal(739707, 30, 0);
    ComputeDeadlineTotal(739707, 30, 2);
  }
}

=== FILE: dedupe.dfy ===
/** The idempotency key of a due-soon reminder: one per profile and local
    day. */
module Dedupe {
  import opened Wrappers
  import Calendar

  const KeyPrefix: string := "task_due_soon|email|profile:"

  /** `build_due_soon_dedupe_key_raw`. */
  function DueSoonKey(profileId: string, day: int): (key: string)
    requires Calendar.ValidDay(day)
    ensures |key| == |KeyPrefix| + |profileId| + 11
    ensures key[..|KeyPrefix|] == KeyPrefix
    ensures key[|key| - 11] == '|'
  {
    KeyPrefix + profileId + "|" + Calendar.IsoFormat(day)
  }

  /** The profile id and the day can be read back from a key: its last ten
      characters are the ISO day, and what lies between the prefix and the
      last bar is the profile id. */
  lemma DueSoonKeyParts(profileId: string, day: int)
    requires Calendar.ValidDay(day)
    ensures var key := DueSoonKey(profileId, day);
      && key[|KeyPrefix|..|key| - 11] == profileId
      && Calendar.ParseIsoDate(key[|key| - 10..]) == Some(day)
  {
    var key := DueSoonKey(profileId, day);
    assert key[|KeyPrefix|..|key| - 11] == profileId;
    assert key[|key| - 10..] == Calendar.IsoFormat(day);
    Calendar.ParseIsoFormat(day);
  }

  /** Equal keys come from equal (profile, day) pairs: a second scan on the
      same day for the same profile collides, and no other pair does. */
  lemma DueSoonKeyInjective(p1: string, d1: int, p2: string, d2: int)
    requires Calendar.ValidDay(d1) && Calendar.ValidDay(d2)
    ensures DueSoonKey(p1, d1) == DueSoonKey(p2, d2) <==> p1 == p2 && d1 == d2
  {
    if DueSoonKey(p1, d1) == DueSoonKey(p2, d2) {
      DueSoonKeyParts(p1, d1);
      DueSoonKeyParts(p2, d2);
    }
  }
}

=== FILE: dispatcher.dfy ===
/** The outbox dispatcher: recover stuck rows, lock a batch, and hand each
    locked row to the provider, recording the outcome in the outbox.

    Two versions are modelled. `DispatchPendingAsWritten` follows the code:
    outside the send window it calls an outbox operation that does not
    exist, so the run fails with an `AttributeError` after the batch was
    locked. `DispatchPending` calls `Outbox.RescheduleQuietHours` there
    instead, the behaviour the quiet-hours test expects.

    The provider's HTTP outcome and the retry jitter of the j-th row of the
    batch are given by `outcomes(j)`. */
module Dispatcher {
  import opened Wrappers
  import opened Json
  import Outbox
  import BrevoProvider
  import SendWindow

  /** `random.uniform(0.9, 1.1)`. */
  type Jitter = j: real | 0.9 <= j <= 1.1 witness 1.0

  datatype Attempt = Attempt(transport: BrevoProvider.Transport, jitter: Jitter)

  datatype DispatchSummary = DispatchSummary(
    picked: nat, sent: nat, retried: nat, dead: nat, recoveredStuck: nat, skippedQuietHours: nat)

  /** What happened to one row of the batch. */
  datatype Outcome = WasSent | WasRetried | WasDead | WasQuiet

  datatype Counts = Counts(sent: nat, retried: nat, dead: nat, quiet: nat)

  /** The `to_email` of a row's payload, `""` when it is missing or not a
      string. */
  function RecipientOf(item: Outbox.Item): string
  {
    var payload := if item.payload.JObj? then item.payload.fields else map[];
    var toEmail := Get(payload, "to_email");
    if toEmail.JStr? then toEmail.s else ""
  }

  /** One row of the batch: rescheduled outside the send window, otherwise
      sent and marked according to the provider's answer. */
  function HandleItem(table: Outbox.Table, item: Outbox.Item, attempt: Attempt, now: int,
                      config: BrevoProvider.Config): (r: (Outbox.Table, Outcome))
    ensures |r.0| == |table|
    ensures r.1 == WasQuiet <==> !SendWindow.IsWithinSendWindow(now)
    ensures forall k :: 0 <= k < |table| && table[k].id != item.id ==> r.0[k] == table[k]
    ensures forall k :: 0 <= k < |table| && table[k].id == item.id ==>
      r.0[k].id == item.id && r.0[k].status != Outbox.Sending
    ensures r.1 == WasSent <==>
      SendWindow.IsWithinSendWindow(now) && BrevoProvider.Send(config, RecipientOf(item), attempt.transport).status == Outbox.Sent
    ensures r.1 == WasQuiet ==> r.0 == Outbox.RescheduleQuietHours(table, item.id, now)
  {
    if !SendWindow.IsWithinSendWindow(now) then (Outbox.RescheduleQuietHours(table, item.id, now), WasQuiet)
    else
      var result := BrevoProvider.Send(config, RecipientOf(item), attempt.transport);
      BrevoProvider.SendResultConsistent(config, RecipientOf(item), attempt.transport);
      if result.status == Outbox.Sent then
        (Outbox.MarkSent(table, item.id, result.providerMessageId, now), WasSent)
      else if result.failureClass == Some(Outbox.Permanent) then
        (Outbox.MarkFailedOrRetry(table, item.id, Outbox.Permanent, result.errorCode, result.errorMessage,
                                  now, Outbox.DefaultMaxAttempts, attempt.jitter), WasDead)
      else
        (Outbox.MarkFailedOrRetry(table, item.id, Outbox.Retryable, result.errorCode, result.errorMessage,
                                  now, Outbox.DefaultMaxAttempts, attempt.jitter), WasRetried)
  }

  function Tally(c: Counts, o: Outcome): Counts
  {
    match o
    case WasSent => c.(sent := c.sent + 1)
    case WasRetried => c.(retried := c.retried + 1)
    case WasDead => c.(dead := c.dead + 1)
    case WasQuiet => c.(quiet := c.quiet + 1)
  }

  function Total(c: Counts): nat
  {
    c.sent + c.retried + c.dead + c.quiet
  }

  /** How many rows of the batch from position `from` on get the answer
      `status` from the provider, each asked with its own attempt. */
  function AnswerCount(items: seq<Outbox.Item>, from: nat, config: BrevoProvider.Config,
                       outcomes: nat -> Attempt, status: Outbox.Status): nat
    requires from <= |items|
    decreases |items| - from
  {
    if from == |items| then 0
    else
      var answer := BrevoProvider.Send(config, RecipientOf(items[from]), outcomes(from).transport);
      (if answer.status == status then 1 else 0) + AnswerCount(items, from + 1, config, outcomes, status)
  }

  /** The rows of the batch from position `from` on, in order. */
  function Process(table: Outbox.Table, items: seq<Outbox.Item>, from: nat, now: int,
                   config: BrevoProvider.Config, outcomes: nat -> Attempt): (r: (Outbox.Table, Counts))
    requires from <= |items|
    ensures |r.0| == |table|
    ensures Total(r.1) == |items| - from
    ensures !SendWindow.IsWithinSendWindow(now) ==> r.1 == Counts(0, 0, 0, |items| - from)
    ensures SendWindow.IsWithinSendWindow(now) ==> r.1.quiet == 0
    ensures SendWindow.IsWithinSendWindow(now) ==>
      && r.1.sent == AnswerCount(items, from, config, outcomes, Outbox.Sent)
      && r.1.dead == AnswerCount(items, from, config, outcomes, Outbox.Dead)
      && r.1.retried == AnswerCount(items, from, config, outcomes, Outbox.Pending)
    decreases |items| - from
  {
    if from == |items| then (table, Counts(0, 0, 0, 0))
    else
      var handled := HandleItem(table, items[from], outcomes(from), now, config);
      OutcomeFollowsAnswer(table, items[from], outcomes(from), now, config);
      var rest := Process(handled.0, items, from + 1, now, config, outcomes);
      (rest.0, Tally(rest.1, handled.1))
  }

  /** Inside the send window the provider's answer routes a row: `sent`
      marks it sent with the provider's message id, a permanent failure
      marks it failed as permanent, any other failure as retryable. */
  lemma HandleItemRoutes(table: Outbox.Table, item: Outbox.Item, attempt: Attempt, now: int,
                         config: BrevoProvider.Config)
    ensures var r := HandleItem(table, item, attempt, now, config);
      var s := BrevoProvider.Send(config, RecipientOf(item), attempt.transport);
      && (r.1 == WasDead <==> SendWindow.IsWithinSendWindow(now) && s.failureClass == Some(Outbox.Permanent))
      && (r.1 == WasRetried <==> SendWindow.IsWithinSendWindow(now) && s.failureClass == Some(Outbox.Retryable))
      && (r.1 == WasSent ==> r.0 == Outbox.MarkSent(table, item.id, s.providerMessageId, now))
      && (r.1 == WasDead ==> r.0 == Outbox.MarkFailedOrRetry(table, item.id, Outbox.Permanent, s.errorCode,
                                                             s.errorMessage, now, Outbox.DefaultMaxAttempts, attempt.jitter))
      && (r.1 == WasRetried ==> r.0 == Outbox.MarkFailedOrRetry(table, item.id, Outbox.Retryable, s.errorCode,
                                                                s.errorMessage, now, Outbox.DefaultMaxAttempts, attempt.jitter))
  {
    BrevoProvider.SendResultConsistent(config, RecipientOf(item), attempt.transport);
  }

  /** Inside the send window a row's outcome is the provider's answer. */
  lemma OutcomeFollowsAnswer(table: Outbox.Table, item: Outbox.Item, attempt: Attempt, now: int,
                             config: BrevoProvider.Config)
    ensures var s := BrevoProvider.Send(config, RecipientOf(item), attempt.transport).status;
      var o := HandleItem(table, item, attempt, now, config).1;
      var open := SendWindow.IsWithinSendWindow(now);
      && (o == WasSent <==> open && s == Outbox.Sent)
      && (o == WasDead <==> open && s == Outbox.Dead)
      && (o == WasRetried <==> open && s == Outbox.Pending)
  {
    BrevoProvider.SendResultConsistent(config, RecipientOf(item), attempt.transport);
  }

  /** The batch a run locks, after recovering stuck rows. */
  function Locked(table: Outbox.Table, now: int, batchSize: int): Outbox.Batch
    requires batchSize >= 0
  {
    Outbox.LockPendingBatch(Outbox.RecoverStuckSending(table, now).0, now, batchSize)
  }

  /** `dispatch_pending` with the quiet-hours branch rescheduling the row. */
  function DispatchPending(table: Outbox.Table, now: int, batchSize: int, config: BrevoProvider.Config,
                           outcomes: nat -> Attempt): (r: (Outbox.Table, DispatchSummary))
    requires batchSize >= 0
    ensures var s := r.1;
      && s.picked <= batchSize
      && s.sent + s.retried + s.dead + s.skippedQuietHours == s.picked
      && s.recoveredStuck == Outbox.RecoverStuckSending(table, now).1
    ensures !SendWindow.IsWithinSendWindow(now) ==>
      r.1.sent == 0 && r.1.retried == 0 && r.1.dead == 0 && r.1.skippedQuietHours == r.1.picked
    ensures SendWindow.IsWithinSendWindow(now) ==> r.1.skippedQuietHours == 0
    ensures r.1.picked == |Locked(table, now, batchSize).items|
    ensures var items := Locked(table, now, batchSize).items;
      SendWindow.IsWithinSendWindow(now) ==>
        && r.1.sent == AnswerCount(items, 0, config, outcomes, Outbox.Sent)
        && r.1.dead == AnswerCount(items, 0, config, outcomes, Outbox.Dead)
        && r.1.retried == AnswerCount(items, 0, config, outcomes, Outbox.Pending)
  {
    var recovered := Outbox.RecoverStuckSending(table, now);
    var batch := Locked(table, now, batchSize);
    var processed := Process(batch.table, batch.items, 0, now, config, outcomes);
    var c := processed.1;
    assert SendWindow.IsWithinSendWindow(now) ==>
      && c.sent == AnswerCount(batch.items, 0, config, outcomes, Outbox.Sent)
      && c.dead == AnswerCount(batch.items, 0, config, outcomes, Outbox.Dead)
      && c.retried == AnswerCount(batch.items, 0, config, outcomes, Outbox.Pending);
    (processed.0, DispatchSummary(|batch.items|, processed.1.sent, processed.1.retried, processed.1.dead,
                                  recovered.1, processed.1.quiet))
  }

  /** In dry-run mode the provider answers every row with `sent`. */
  lemma {:induction false} DryRunAnswers(items: seq<Outbox.Item>, from: nat, config: BrevoProvider.Config,
                                        outcomes: nat -> Attempt)
    requires from <= |items| && config.dryRun
    ensures AnswerCount(items, from, config, outcomes, Outbox.Sent) == |items| - from
    ensures AnswerCount(items, from, config, outcomes, Outbox.Dead) == 0
    ensures AnswerCount(items, from, config, outcomes, Outbox.Pending) == 0
    decreases |items| - from
  {
    if from < |items| {
      DryRunAnswers(items, from + 1, config, outcomes);
    }
  }

  /** In dry-run mode inside the window every row of the run is sent. */
  lemma ProcessDryRun(table: Outbox.Table, items: seq<Outbox.Item>, from: nat, now: int,
                      config: BrevoProvider.Config, outcomes: nat -> Attempt)
    requires from <= |items| && SendWindow.IsWithinSendWindow(now) && config.dryRun
    ensures Process(table, items, from, now, config, outcomes).1 == Counts(|items| - from, 0, 0, 0)
  {
    DryRunAnswers(items, from, config, outcomes);
  }

  /** In dry-run mode inside the window every picked row counts as sent. */
  lemma DispatchDryRun(table: Outbox.Table, now: int, batchSize: int, config: BrevoProvider.Config,
                       outcomes: nat -> Attempt)
    requires batchSize >= 0 && SendWindow.IsWithinSendWindow(now) && config.dryRun
    ensures var r := DispatchPending(table, now, batchSize, config, outcomes).1;
      r.sent == r.picked && r.retried == 0 && r.dead == 0
  {
    var batch := Locked(table, now, batchSize);
    ProcessDryRun(batch.table, batch.items, 0, now, config, outcomes);
  }

  /** Why the dispatcher as written stops. */
  datatype DispatchError = AttributeError(name: string)

  /** The state a run leaves behind, and its summary or the exception. */
  datatype DispatchRun = DispatchRun(table: Outbox.Table, summary: Result<DispatchSummary, DispatchError>)

  /** `dispatch_pending` as written: the first row of a batch picked
      outside the send window reaches `reschedule_quiet_hours`, which the
      outbox service lacks. The recovery and the lock are already committed
      then. */
  function DispatchPendingAsWritten(table: Outbox.Table, now: int, batchSize: int, config: BrevoProvider.Config,
                                    outcomes: nat -> Attempt): (r: DispatchRun)
    requires batchSize >= 0
    ensures r.summary.Err? <==>
      !SendWindow.IsWithinSendWindow(now) && DispatchPending(table, now, batchSize, config, outcomes).1.picked > 0
    ensures r.summary.Err? ==> r.table == Locked(table, now, batchSize).table
    ensures r.summary.Ok? ==> r == DispatchRun(DispatchPending(table, now, batchSize, config, outcomes).0,
                                               Ok(DispatchPending(table, now, batchSize, config, outcomes).1))
  {
    var fixed := DispatchPending(table, now, batchSize, config, outcomes);
    if !SendWindow.IsWithinSendWindow(now) && fixed.1.picked > 0 then
      DispatchRun(Locked(table, now, batchSize).table, Err(AttributeError("reschedule_quiet_hours")))
    else DispatchRun(fixed.0, Ok(fixed.1))
  }

  // ---------------------------------------------------------------------
  // Properties

  /** Outside the send window the provider is never asked: the outcome of a
      run does not depend on it. */
  lemma QuietHoursNeverSend(table: Outbox.Table, now: int, batchSize: int, config: BrevoProvider.Config,
                            o1: nat -> Attempt, o2: nat -> Attempt)
    requires batchSize >= 0 && !SendWindow.IsWithinSendWindow(now)
    ensures DispatchPending(table, now, batchSize, config, o1) == DispatchPending(table, now, batchSize, config, o2)
  {
    var recovered := Outbox.RecoverStuckSending(table, now);
    var batch := Outbox.LockPendingBatch(recovered.0, now, batchSize);
    ProcessQuietIgnoresOutcomes(batch.table, batch.items, 0, now, config, o1, o2);
  }

  lemma {:induction false} ProcessQuietIgnoresOutcomes(table: Outbox.Table, items: seq<Outbox.Item>, from: nat, now: int,
                                                      config: BrevoProvider.Config, o1: nat -> Attempt, o2: nat -> Attempt)
    requires from <= |items| && !SendWindow.IsWithinSendWindow(now)
    ensures Process(table, items, from, now, config, o1) == Process(table, items, from, now, config, o2)
    decreases |items| - from
  {
    if from < |items| {
      var handled := HandleItem(table, items[from], o1(from), now, config);
      assert handled == HandleItem(table, items[from], o2(from), now, config);
      ProcessQuietIgnoresOutcomes(handled.0, items, from + 1, now, config, o1, o2);
    }
  }

  /** Some row of the batch from position `from` on has primary key `id`. */
  predicate IdIn(id: string, items: seq<Outbox.Item>, from: nat)
  {
    exists j :: from <= j < |items| && items[j].id == id
  }

  /** Every row a run handles leaves the `sending` state, and rows whose
      key is not in the rest of the batch are left as they are. */
  lemma {:induction false} ProcessSettlesRows(table: Outbox.Table, items: seq<Outbox.Item>, from: nat,
                                             now: int, config: BrevoProvider.Config, outcomes: nat -> Attempt)
    requires from <= |items|
    ensures var r := Process(table, items, from, now, config, outcomes).0;
      && (forall k :: 0 <= k < |table| ==> r[k].id == table[k].id)
      && (forall k :: 0 <= k < |table| && IdIn(table[k].id, items, from) ==> r[k].status != Outbox.Sending)
      && (forall k :: 0 <= k < |table| && !IdIn(table[k].id, items, from) ==> r[k] == table[k])
    decreases |items| - from
  {
    if from < |items| {
      var t := HandleItem(table, items[from], outcomes(from), now, config).0;
      ProcessSettlesRows(t, items, from + 1, now, config, outcomes);
      var r := Process(table, items, from, now, config, outcomes).0;
      assert r == Process(t, items, from + 1, now, config, outcomes).0;
      forall k | 0 <= k < |table| && IdIn(table[k].id, items, from) ensures r[k].status != Outbox.Sending {
        if table[k].id != items[from].id {
          var j :| from <= j < |items| && items[j].id == table[k].id;
          assert IdIn(t[k].id, items, from + 1);
        }
      }
      forall k | 0 <= k < |table| && !IdIn(table[k].id, items, from) ensures r[k] == table[k] {
        assert items[from].id != table[k].id;
        assert !IdIn(t[k].id, items, from + 1);
      }
    }
  }

  /** In the corrected dispatcher no row of the batch is left `sending`:
      each ends sent, pending again, or dead. */
  lemma DispatchSettlesBatch(table: Outbox.Table, now: int, batchSize: int, config: BrevoProvider.Config,
                             outcomes: nat -> Attempt)
    requires batchSize >= 0
    ensures var batch := Locked(table, now, batchSize);
      var after := DispatchPending(table, now, batchSize, config, outcomes).0;
      forall j :: 0 <= j < |batch.rows| ==> after[batch.rows[j]].status != Outbox.Sending
  {
    var batch := Locked(table, now, batchSize);
    ProcessSettlesRows(batch.table, batch.items, 0, now, config, outcomes);
    forall j | 0 <= j < |batch.rows| ensures IdIn(batch.table[batch.rows[j]].id, batch.items, 0) {
      assert batch.items[j].id == batch.table[batch.rows[j]].id;
    }
  }

  /** A run keeps every row's key and attempt count when it runs outside
      the window. */
  lemma {:induction false} QuietKeepsAttempts(table: Outbox.Table, items: seq<Outbox.Item>, from: nat,
                                             now: int, config: BrevoProvider.Config, outcomes: nat -> Attempt)
    requires from <= |items| && !SendWindow.IsWithinSendWindow(now)
    ensures var r := Process(table, items, from, now, config, outcomes).0;
      forall k :: 0 <= k < |table| ==> r[k].id == table[k].id && r[k].attemptCount == table[k].attemptCount
    decreases |items| - from
  {
    if from < |items| {
      var t := HandleItem(table, items[from], outcomes(from), now, config).0;
      assert t == Outbox.RescheduleQuietHours(table, items[from].id, now);
      QuietKeepsAttempts(t, items, from + 1, now, config, outcomes);
      assert forall k :: 0 <= k < |table| ==> t[k].id == table[k].id && t[k].attemptCount == table[k].attemptCount;
    }
  }

  /** Outside the window every handled row is rescheduled. */
  lemma {:induction false} QuietProcess(table: Outbox.Table, items: seq<Outbox.Item>, from: nat,
                                       now: int, config: BrevoProvider.Config, outcomes: nat -> Attempt)
    requires from <= |items| && !SendWindow.IsWithinSendWindow(now)
    ensures var r := Process(table, items, from, now, config, outcomes).0;
      forall k :: 0 <= k < |table| && IdIn(table[k].id, items, from) ==> Rescheduled(r[k])
    decreases |items| - from
  {
    if from == |items| {
      assert forall k :: 0 <= k < |table| ==> !IdIn(table[k].id, items, from);
    } else {
      var t := HandleItem(table, items[from], outcomes(from), now, config).0;
      assert t == Outbox.RescheduleQuietHours(table, items[from].id, now);
      QuietProcess(t, items, from + 1, now, config, outcomes);
      ProcessSettlesRows(t, items, from + 1, now, config, outcomes);
      QuietStep(table, t, Process(t, items, from + 1, now, config, outcomes).0, items, from, now);
    }
  }

  /** A row the quiet-hours branch left behind. */
  predicate Rescheduled(item: Outbox.Item)
  {
    item.status == Outbox.Pending && item.lastErrorCode == Some("QUIET_HOURS")
  }

  /** One step of `QuietProcess`: the row handled now is rescheduled, and
      the rest of the run reschedules or leaves alone the others. */
  lemma QuietStep(table: Outbox.Table, t: Outbox.Table, r: Outbox.Table, items: seq<Outbox.Item>, from: nat, now: int)
    requires from < |items| && |t| == |table| && |r| == |table|
    requires t == Outbox.RescheduleQuietHours(table, items[from].id, now)
    requires forall k :: 0 <= k < |table| ==> t[k].id == table[k].id
    requires forall k :: 0 <= k < |t| && IdIn(t[k].id, items, from + 1) ==> Rescheduled(r[k])
    requires forall k :: 0 <= k < |t| && !IdIn(t[k].id, items, from + 1) ==> r[k] == t[k]
    ensures forall k :: 0 <= k < |table| && IdIn(table[k].id, items, from) ==> Rescheduled(r[k])
  {
    forall k | 0 <= k < |table| && IdIn(table[k].id, items, from) ensures Rescheduled(r[k]) {
      var j :| from <= j < |items| && items[j].id == table[k].id;
      if j > from {
        assert IdIn(t[k].id, items, from + 1);
      } else if !IdIn(t[k].id, items, from + 1) {
        assert r[k] == t[k];
      }
    }
  }

  /** A due row outside the window is picked by a batch of any positive
      size. */
  lemma QuietBatchNotEmpty(table: Outbox.Table, now: int, batchSize: int)
    requires batchSize > 0
    requires exists k :: 0 <= k < |table| && Outbox.Due(table[k], now)
    ensures |Locked(table, now, batchSize).rows| > 0
  {
    var recovered := Outbox.RecoverStuckSending(table, now).0;
    var k :| 0 <= k < |table| && Outbox.Due(table[k], now);
    assert Outbox.Due(recovered[k], now);
  }

  /** The quiet-hours discrepancy, as written: a due row picked outside the
      window makes the run fail, with every locked row left `sending` until
      the stuck-row recovery a quarter of an hour later. */
  lemma QuietHoursAsWrittenStrandsRows(table: Outbox.Table, now: int, batchSize: int, config: BrevoProvider.Config,
                                       outcomes: nat -> Attempt)
    requires batchSize > 0 && !SendWindow.IsWithinSendWindow(now)
    requires exists k :: 0 <= k < |table| && Outbox.Due(table[k], now)
    ensures var batch := Locked(table, now, batchSize);
      var asWritten := DispatchPendingAsWritten(table, now, batchSize, config, outcomes);
      && asWritten.summary == Err(AttributeError("reschedule_quiet_hours"))
      && |batch.rows| > 0
      && (forall j :: 0 <= j < |batch.rows| ==> asWritten.table[batch.rows[j]].status == Outbox.Sending)
  {
    QuietBatchNotEmpty(table, now, batchSize);
    LockedRowsSending(table, now, batchSize);
  }

  /** The rows a batch locks are `sending` in the locked table. */
  lemma LockedRowsSending(table: Outbox.Table, now: int, batchSize: int)
    requires batchSize >= 0
    ensures var batch := Locked(table, now, batchSize);
      forall j :: 0 <= j < |batch.rows| ==> batch.table[batch.rows[j]].status == Outbox.Sending
  {
  }

  /** The quiet-hours behaviour, corrected: every locked row goes back to
      `pending` with the code `QUIET_HOURS` (`Rescheduled`) and its attempt
      count unchanged. */
  lemma QuietHoursRescheduled(table: Outbox.Table, now: int, batchSize: int, config: BrevoProvider.Config,
                              outcomes: nat -> Attempt)
    requires batchSize >= 0 && !SendWindow.IsWithinSendWindow(now)
    ensures var batch := Locked(table, now, batchSize);
      var fixed := DispatchPending(table, now, batchSize, config, outcomes);
      && fixed.1.skippedQuietHours == |batch.rows|
      && (forall j :: 0 <= j < |batch.rows| ==>
            && Rescheduled(fixed.0[batch.rows[j]])
            && fixed.0[batch.rows[j]].attemptCount == batch.table[batch.rows[j]].attemptCount)
  {
    var batch := Locked(table, now, batchSize);
    QuietProcess(batch.table, batch.items, 0, now, config, outcomes);
    QuietKeepsAttempts(batch.table, batch.items, 0, now, config, outcomes);
    forall j | 0 <= j < |batch.rows| ensures IdIn(batch.table[batch.rows[j]].id, batch.items, 0) {
      assert batch.items[j].id == batch.table[batch.rows[j]].id;
    }
  }
}

=== FILE: email_template.dfy ===
/** The text of the due-soon reminder e-mail: tasks are grouped by how many
    days remain, the four near groups are listed with at most ten lines
    each, and the subject counts every task.

    The payload is typed as the reminder scanner builds it: each task has a
    title, a due date and a day count, any of which may be missing. */
module EmailTemplate {
  import opened Wrappers
  import opened Json
  import Strings
  import Calendar

  datatype DueTask = DueTask(title: Option<string>, dueDate: Option<int>, dueInDays: Option<int>)

  /** `tasks` is `None` when the payload's `tasks` is not a list. */
  datatype Payload = Payload(
    tasks: Option<seq<DueTask>>,
    userDisplayName: Json,
    planUrl: string,
    settingsUrl: string,
    unsubscribeUrl: string)

  datatype RenderedEmail = RenderedEmail(subject: string, textBody: string, htmlBody: string, shortText: string)

  datatype Bucket = Today | Tomorrow | InTwoDays | InThreeDays | Later

  /** At most this many task lines per group. */
  const MaxLinesPerBucket: int := 10

  // ---------------------------------------------------------------------
  // Dates

  /** `_format_date_de`: `dd.mm.yyyy`. */
  function FormatDateDe(day: int): (r: string)
    requires Calendar.ValidDay(day)
    ensures |r| == 10 && r[2] == '.' && r[5] == '.'
  {
    var d := Calendar.FromOrdinal(day);
    Strings.Fixed(d.day, 2) + "." + Strings.Fixed(d.month, 2) + "." + Strings.Fixed(d.year, 4)
  }

  /** The German form holds the ISO form's parts in reverse order, so it
      names the same day. */
  lemma FormatDateDeReversesIso(day: int)
    requires Calendar.ValidDay(day)
    ensures var iso := Calendar.IsoFormat(day);
      FormatDateDe(day) == iso[8..] + "." + iso[5..7] + "." + iso[..4]
    ensures var de := FormatDateDe(day);
      Calendar.ParseIsoDate(de[6..] + "-" + de[3..5] + "-" + de[..2]) == Some(day)
  {
    var d := Calendar.FromOrdinal(day);
    var y, m, dd := Strings.Fixed(d.year, 4), Strings.Fixed(d.month, 2), Strings.Fixed(d.day, 2);
    var iso := Calendar.IsoFormat(day);
    var de := FormatDateDe(day);
    assert iso == y + "-" + m + "-" + dd;
    assert de == dd + "." + m + "." + y;
    assert iso[..4] == y && iso[5..7] == m && iso[8..] == dd;
    assert de[..2] == dd && de[3..5] == m && de[6..] == y;
    Calendar.ParseIsoFormat(day);
  }

  // ---------------------------------------------------------------------
  // Grouping

  /** The group of a task by its `due_in_days`, 99 when missing. */
  function BucketOf(t: DueTask): (b: Bucket)
    ensures b == Today <==> t.dueInDays.Some? && t.dueInDays.value <= 0
    ensures b == Tomorrow <==> t.dueInDays == Some(1)
    ensures b == InTwoDays <==> t.dueInDays == Some(2)
    ensures b == InThreeDays <==> t.dueInDays == Some(3)
    ensures b == Later <==> t.dueInDays.None? || t.dueInDays.value > 3
  {
    var days := GetOr(t.dueInDays, 99);
    if days <= 0 then Today
    else if days == 1 then Tomorrow
    else if days == 2 then InTwoDays
    else if days == 3 then InThreeDays
    else Later
  }

  function GetOr(o: Option<int>, default: int): int
  {
    if o.Some? then o.value else default
  }

  /** The label a group is listed under. */
  function Label(b: Bucket): string
  {
    match b
    case Today => "heute"
    case Tomorrow => "morgen"
    case InTwoDays => "in 2 Tagen"
    case InThreeDays => "in 3 Tagen"
    case Later => "später"
  }

  /** The tasks of one group, in payload order. */
  function Grouped(tasks: seq<DueTask>, b: Bucket): (r: seq<DueTask>)
    ensures |r| <= |tasks|
    ensures forall k :: 0 <= k < |r| ==> BucketOf(r[k]) == b && r[k] in tasks
  {
    if |tasks| == 0 then []
    else (if BucketOf(tasks[0]) == b then [tasks[0]] else []) + Grouped(tasks[1..], b)
  }

  /** A group no task belongs to is empty. */
  lemma {:induction false} GroupedNone(tasks: seq<DueTask>, b: Bucket)
    requires forall k :: 0 <= k < |tasks| ==> BucketOf(tasks[k]) != b
    ensures Grouped(tasks, b) == []
    decreases |tasks|
  {
    if |tasks| > 0 {
      GroupedNone(tasks[1..], b);
    }
  }

  /** A group holds exactly the tasks of that group, as many times as the
      payload does. */
  lemma {:induction false} GroupedCounts(tasks: seq<DueTask>, b: Bucket, t: DueTask)
    ensures multiset(Grouped(tasks, b))[t] == if BucketOf(t) == b then multiset(tasks)[t] else 0
    decreases |tasks|
  {
    if |tasks| > 0 {
      assert tasks == [tasks[0]] + tasks[1..];
      GroupedCounts(tasks[1..], b, t);
    }
  }

  /** Every task lands in exactly one group. */
  lemma GroupsPartitionTasks(tasks: seq<DueTask>)
    ensures multiset(tasks) == multiset(Grouped(tasks, Today)) + multiset(Grouped(tasks, Tomorrow))
      + multiset(Grouped(tasks, InTwoDays)) + multiset(Grouped(tasks, InThreeDays)) + multiset(Grouped(tasks, Later))
    ensures |tasks| == |Grouped(tasks, Today)| + |Grouped(tasks, Tomorrow)| + |Grouped(tasks, InTwoDays)|
      + |Grouped(tasks, InThreeDays)| + |Grouped(tasks, Later)|
  {
    var parts := multiset(Grouped(tasks, Today)) + multiset(Grouped(tasks, Tomorrow))
      + multiset(Grouped(tasks, InTwoDays)) + multiset(Grouped(tasks, InThreeDays)) + multiset(Grouped(tasks, Later));
    forall t ensures multiset(tasks)[t] == parts[t] {
      GroupedCounts(tasks, Today, t);
      GroupedCounts(tasks, Tomorrow, t);
      GroupedCounts(tasks, InTwoDays, t);
      GroupedCounts(tasks, InThreeDays, t);
      GroupedCounts(tasks, Later, t);
    }
    assert multiset(tasks) == parts;
    assert |multiset(tasks)| == |parts|;
  }

  // ---------------------------------------------------------------------
  // Text

  /** The payload's task list, `[]` when it is not a list. */
  function TaskList(p: Payload): seq<DueTask>
  {
    if p.tasks.Some? then p.tasks.value else []
  }

  /** The payload's dates are dates: every due date and today lie in
      Python's date range. */
  predicate DatesValid(p: Payload, today: int)
  {
    Calendar.ValidDay(today) && TaskDatesValid(TaskList(p))
  }

  /** What follows the count in the plural subject. */
  const PluralTail := " Aufgaben bald fällig"

  /** The subject: singular for exactly one task. */
  function Subject(total: nat): (s: string)
  {
    if total == 1 then "1 Aufgabe bald fällig" else Strings.IntToString(total) + PluralTail
  }

  /** With no tasks the subject still counts them: zero, in the plural. */
  lemma SubjectZero()
    ensures Subject(0) == "0" + PluralTail
  {
    assert Strings.NatToString(0) == [Strings.DigitChar(0)] == "0";
  }

  /** The singular subject is used exactly when there is one task. */
  lemma SubjectSingularIff(total: nat)
    ensures Subject(total) == "1 Aufgabe bald fällig" <==> total == 1
    ensures total != 1 ==> Subject(total)[..|Strings.IntToString(total)|] == Strings.IntToString(total)
  {
    if total != 1 {
      assert |Subject(total)| > |"1 Aufgabe bald fällig"|;
    }
  }

  /** The greeting: the display name when it is a non-empty string. */
  function Greeting(name: Json): (g: string)
    ensures name.JStr? && name.s != "" ==> g == "Hallo " + name.s + ","
    ensures !(name.JStr? && name.s != "") ==> g == "Hallo,"
  {
    if name.JStr? && name.s != "" then "Hallo " + name.s + "," else "Hallo,"
  }

  /** A task's line: its title (`Aufgabe` when missing) and its due date,
      today's when missing. */
  function TaskText(t: DueTask, today: int): string
    requires Calendar.ValidDay(today) && (t.dueDate.None? || Calendar.ValidDay(t.dueDate.value))
  {
    var title := if t.title.Some? then t.title.value else "Aufgabe";
    var day := if t.dueDate.Some? then t.dueDate.value else today;
    title + " (" + FormatDateDe(day) + ")"
  }

  predicate TaskDatesValid(tasks: seq<DueTask>)
  {
    forall k :: 0 <= k < |tasks| ==> tasks[k].dueDate.None? || Calendar.ValidDay(tasks[k].dueDate.value)
  }

  function TaskTexts(tasks: seq<DueTask>, today: int): (r: seq<string>)
    requires Calendar.ValidDay(today) && TaskDatesValid(tasks)
    ensures |r| == |tasks|
    ensures forall k :: 0 <= k < |tasks| ==> r[k] == TaskText(tasks[k], today)
  {
    if |tasks| == 0 then [] else [TaskText(tasks[0], today)] + TaskTexts(tasks[1..], today)
  }

  function Prefixed(prefix: string, suffix: string, xs: seq<string>): (r: seq<string>)
    ensures |r| == |xs|
    ensures forall k :: 0 <= k < |xs| ==> r[k] == prefix + xs[k] + suffix
  {
    if |xs| == 0 then [] else [prefix + xs[0] + suffix] + Prefixed(prefix, suffix, xs[1..])
  }

  /** The "... und k weitere" line of a group with more than ten tasks. */
  function MoreText(count: int): string
  {
    "... und " + Strings.IntToString(count - MaxLinesPerBucket) + " weitere"
  }

  /** A task's line in the text body. */
  function Bullet(t: DueTask, today: int): string
    requires Calendar.ValidDay(today) && (t.dueDate.None? || Calendar.ValidDay(t.dueDate.value))
  {
    "- " + TaskText(t, today)
  }

  function Bullets(tasks: seq<DueTask>, today: int): (r: seq<string>)
    requires Calendar.ValidDay(today) && TaskDatesValid(tasks)
    ensures |r| == |tasks|
    ensures forall k :: 0 <= k < |tasks| ==> r[k] == Bullet(tasks[k], today)
  {
    if |tasks| == 0 then [] else [Bullet(tasks[0], today)] + Bullets(tasks[1..], today)
  }

  /** The lines of a non-empty group in the text body: its label, at most
      ten task lines, the count of the rest, and a blank line. */
  function TextLinesOf(g: seq<DueTask>, b: Bucket, today: int): (r: seq<string>)
    requires Calendar.ValidDay(today) && TaskDatesValid(g)
    ensures var shown := if |g| > MaxLinesPerBucket then MaxLinesPerBucket else |g|;
      && |r| == shown + (if |g| > MaxLinesPerBucket then 1 else 0) + 2
      && r[0] == Label(b) + ":"
      && (forall k :: 0 <= k < shown ==> r[1 + k] == Bullet(g[k], today))
      && (|g| > MaxLinesPerBucket ==> r[1 + shown] == "- " + MoreText(|g|))
      && r[|r| - 1] == ""
  {
    if |g| > MaxLinesPerBucket then
      var shown := g[..MaxLinesPerBucket];
      var lines := Bullets(shown, today);
      var r := [Label(b) + ":"] + lines + ["- " + MoreText(|g|), ""];
      forall k | 0 <= k < |lines| ensures r[1 + k] == Bullet(g[k], today) {
        IndexAfterHead(Label(b) + ":", lines, ["- " + MoreText(|g|), ""], k);
        assert shown[k] == g[k];
      }
      r
    else
      var lines := Bullets(g, today);
      var r := [Label(b) + ":"] + lines + [""];
      forall k | 0 <= k < |lines| ensures r[1 + k] == Bullet(g[k], today) {
        IndexAfterHead(Label(b) + ":", lines, [""], k);
      }
      r
  }

  lemma AppendAssoc<T>(a: seq<T>, b: seq<T>, c: seq<T>)
    ensures a + (b + c) == (a + b) + c
  {
  }

  lemma IndexAfterHead<T>(head: T, xs: seq<T>, tail: seq<T>, k: int)
    requires 0 <= k < |xs|
    ensures ([head] + xs + tail)[1 + k] == xs[k]
  {
  }

  /** How many of a group's `n` tasks get a line of their own. */
  function Shown(n: int): int
  {
    if n > MaxLinesPerBucket then MaxLinesPerBucket else n
  }

  /** The number of text lines a group of `n` tasks takes. */
  function SectionLength(n: int): int
  {
    if n == 0 then 0 else Shown(n) + (if n > MaxLinesPerBucket then 1 else 0) + 2
  }

  /** A group's lines in the text body, none for an empty group; otherwise
      the label, the first ten tasks in payload order, the count of the
      rest. */
  function TextSection(tasks: seq<DueTask>, b: Bucket, today: int): (r: seq<string>)
    requires Calendar.ValidDay(today) && TaskDatesValid(tasks)
    ensures |Grouped(tasks, b)| == 0 <==> r == []
    ensures |r| == SectionLength(|Grouped(tasks, b)|)
    ensures forall k :: 0 <= k < Shown(|Grouped(tasks, b)|) ==> r[1 + k] == Bullet(Grouped(tasks, b)[k], today)
    ensures |Grouped(tasks, b)| > MaxLinesPerBucket ==>
      r[1 + MaxLinesPerBucket] == "- " + MoreText(|Grouped(tasks, b)|)
  {
    var g := Grouped(tasks, b);
    GroupedDatesValid(tasks, b);
    if |g| == 0 then [] else TextLinesOf(g, b, today)
  }

  lemma GroupedDatesValid(tasks: seq<DueTask>, b: Bucket)
    requires TaskDatesValid(tasks)
    ensures TaskDatesValid(Grouped(tasks, b))
  {
    var g := Grouped(tasks, b);
    forall k | 0 <= k < |g| ensures g[k].dueDate.None? || Calendar.ValidDay(g[k].dueDate.value) {
      var i :| 0 <= i < |tasks| && tasks[i] == g[k];
    }
  }

  /** A task's list item in the HTML body. */
  function ListItem(t: DueTask, today: int): string
    requires Calendar.ValidDay(today) && (t.dueDate.None? || Calendar.ValidDay(t.dueDate.value))
  {
    "<li>" + TaskText(t, today) + "</li>"
  }

  /** A non-empty group's part of the HTML body, shaped like its text
      lines: the label opening the list, at most ten list items, the count
      of the rest as one more item, and the list's end. */
  function HtmlLinesOf(g: seq<DueTask>, b: Bucket, today: int): (r: seq<string>)
    requires Calendar.ValidDay(today) && TaskDatesValid(g)
    ensures |r| == |TextLinesOf(g, b, today)|
    ensures r[0] == "<h3>" + Label(b) + "</h3><ul>" && r[|r| - 1] == "</ul>"
    ensures forall k :: 0 <= k < Shown(|g|) ==> r[1 + k] == ListItem(g[k], today)
    ensures |g| > MaxLinesPerBucket ==> r[1 + MaxLinesPerBucket] == "<li>" + MoreText(|g|) + "</li>"
  {
    var shown := if |g| > MaxLinesPerBucket then g[..MaxLinesPerBucket] else g;
    var more := if |g| > MaxLinesPerBucket then ["<li>" + MoreText(|g|) + "</li>"] else [];
    var items := Prefixed("<li>", "</li>", TaskTexts(shown, today));
    var r := ["<h3>" + Label(b) + "</h3><ul>"] + items + (more + ["</ul>"]);
    forall k | 0 <= k < |items| ensures r[1 + k] == ListItem(g[k], today) {
      IndexAfterHead("<h3>" + Label(b) + "</h3><ul>", items, more + ["</ul>"], k);
      assert shown[k] == g[k];
    }
    assert |g| > MaxLinesPerBucket ==> r[1 + MaxLinesPerBucket] == (more + ["</ul>"])[0];
    AppendAssoc(["<h3>" + Label(b) + "</h3><ul>"] + items, more, ["</ul>"]);
    r
  }

  /** A group's part of the HTML body, none for an empty group. */
  function HtmlSection(tasks: seq<DueTask>, b: Bucket, today: int): (r: seq<string>)
    requires Calendar.ValidDay(today) && TaskDatesValid(tasks)
    ensures |Grouped(tasks, b)| == 0 <==> r == []
    ensures |r| == SectionLength(|Grouped(tasks, b)|)
    ensures |Grouped(tasks, b)| > 0 ==> r[0] == "<h3>" + Label(b) + "</h3><ul>" && r[|r| - 1] == "</ul>"
    ensures forall k :: 0 <= k < Shown(|Grouped(tasks, b)|) ==> r[1 + k] == ListItem(Grouped(tasks, b)[k], today)
    ensures |Grouped(tasks, b)| > MaxLinesPerBucket ==>
      r[1 + MaxLinesPerBucket] == "<li>" + MoreText(|Grouped(tasks, b)|) + "</li>"
  {
    var g := Grouped(tasks, b);
    GroupedDatesValid(tasks, b);
    if |g| == 0 then [] else HtmlLinesOf(g, b, today)
  }

  function Sections(tasks: seq<DueTask>, today: int, html: bool): seq<string>
    requires Calendar.ValidDay(today) && TaskDatesValid(tasks)
  {
    if html then
      HtmlSection(tasks, Today, today) + HtmlSection(tasks, Tomorrow, today)
        + HtmlSection(tasks, InTwoDays, today) + HtmlSection(tasks, InThreeDays, today)
    else
      TextSection(tasks, Today, today) + TextSection(tasks, Tomorrow, today)
        + TextSection(tasks, InTwoDays, today) + TextSection(tasks, InThreeDays, today)
  }

  /** The text body's lines: the greeting and the intro, the four listed
      groups in order, and the three links. */
  function TextLines(p: Payload, today: int): (r: seq<string>)
    requires DatesValid(p, today)
    ensures |r| == 7 + SectionLength(|Grouped(TaskList(p), Today)|) + SectionLength(|Grouped(TaskList(p), Tomorrow)|)
      + SectionLength(|Grouped(TaskList(p), InTwoDays)|) + SectionLength(|Grouped(TaskList(p), InThreeDays)|)
    ensures r[..4] == [Greeting(p.userDisplayName), "", "die folgenden Aufgaben stehen bald an:", ""]
    ensures r[|r| - 3..] == ["Plan öffnen: " + p.planUrl, "Einstellungen: " + p.settingsUrl, "Abmelden: " + p.unsubscribeUrl]
  {
    var head := [Greeting(p.userDisplayName), "", "die folgenden Aufgaben stehen bald an:", ""];
    var tail := ["Plan öffnen: " + p.planUrl, "Einstellungen: " + p.settingsUrl, "Abmelden: " + p.unsubscribeUrl];
    var middle := Sections(TaskList(p), today, false);
    Framed(head, middle, tail);
    head + middle + tail
  }

  lemma Framed<T>(head: seq<T>, middle: seq<T>, tail: seq<T>)
    ensures |head + middle + tail| == |head| + |middle| + |tail|
    ensures (head + middle + tail)[..|head|] == head
    ensures (head + middle + tail)[|head| + |middle|..] == tail
  {
  }

  lemma Regrouped<T>(head: seq<T>, a: seq<T>, b: seq<T>, c: seq<T>, d: seq<T>, tail: seq<T>)
    ensures var r := head + (a + b + c + d) + tail;
      r == r[..|head|] + a + b + c + d + r[|r| - |tail|..]
  {
    var r := head + (a + b + c + d) + tail;
    Framed(head, a + b + c + d, tail);
    assert r[..|head|] == head;
    assert r[|r| - |tail|..] == tail;
  }

  /** The HTML body's lines: the greeting and the intro as paragraphs, the
      four listed groups in order, and the three links. */
  function HtmlLines(p: Payload, today: int): (r: seq<string>)
    requires DatesValid(p, today)
    ensures |r| == 5 + SectionLength(|Grouped(TaskList(p), Today)|) + SectionLength(|Grouped(TaskList(p), Tomorrow)|)
      + SectionLength(|Grouped(TaskList(p), InTwoDays)|) + SectionLength(|Grouped(TaskList(p), InThreeDays)|)
    ensures r[..2] == ["<p>" + Greeting(p.userDisplayName) + "</p>", "<p>die folgenden Aufgaben stehen bald an:</p>"]
    ensures r[|r| - 3..] == ["<p><a href=\"" + p.planUrl + "\">Plan öffnen</a></p>",
                             "<p><a href=\"" + p.settingsUrl + "\">Benachrichtigungseinstellungen</a></p>",
                             "<p><a href=\"" + p.unsubscribeUrl + "\">Abmelden</a></p>"]
  {
    var head := ["<p>" + Greeting(p.userDisplayName) + "</p>", "<p>die folgenden Aufgaben stehen bald an:</p>"];
    var tail := ["<p><a href=\"" + p.planUrl + "\">Plan öffnen</a></p>",
                 "<p><a href=\"" + p.settingsUrl + "\">Benachrichtigungseinstellungen</a></p>",
                 "<p><a href=\"" + p.unsubscribeUrl + "\">Abmelden</a></p>"];
    var middle := Sections(TaskList(p), today, true);
    Framed(head, middle, tail);
    head + middle + tail
  }

  /** Between its header and its three links the text body holds the
      sections of today, tomorrow, in two days and in three days, in that
      order. */
  lemma TextLinesInOrder(p: Payload, today: int)
    requires DatesValid(p, today)
    ensures var r := TextLines(p, today);
      var tasks := TaskList(p);
      r == r[..4] + TextSection(tasks, Today, today) + TextSection(tasks, Tomorrow, today)
             + TextSection(tasks, InTwoDays, today) + TextSection(tasks, InThreeDays, today) + r[|r| - 3..]
  {
    var tasks := TaskList(p);
    var head := [Greeting(p.userDisplayName), "", "die folgenden Aufgaben stehen bald an:", ""];
    var tail := ["Plan öffnen: " + p.planUrl, "Einstellungen: " + p.settingsUrl, "Abmelden: " + p.unsubscribeUrl];
    Regrouped(head, TextSection(tasks, Today, today), TextSection(tasks, Tomorrow, today),
              TextSection(tasks, InTwoDays, today), TextSection(tasks, InThreeDays, today), tail);
  }

  /** The same for the HTML body, between its two opening paragraphs and
      its three links. */
  lemma HtmlLinesInOrder(p: Payload, today: int)
    requires DatesValid(p, today)
    ensures var r := HtmlLines(p, today);
      var tasks := TaskList(p);
      r == r[..2] + HtmlSection(tasks, Today, today) + HtmlSection(tasks, Tomorrow, today)
             + HtmlSection(tasks, InTwoDays, today) + HtmlSection(tasks, InThreeDays, today) + r[|r| - 3..]
  {
    var tasks := TaskList(p);
    var head := ["<p>" + Greeting(p.userDisplayName) + "</p>", "<p>die folgenden Aufgaben stehen bald an:</p>"];
    var tail := ["<p><a href=\"" + p.planUrl + "\">Plan öffnen</a></p>",
                 "<p><a href=\"" + p.settingsUrl + "\">Benachrichtigungseinstellungen</a></p>",
                 "<p><a href=\"" + p.unsubscribeUrl + "\">Abmelden</a></p>"];
    Regrouped(head, HtmlSection(tasks, Today, today), HtmlSection(tasks, Tomorrow, today),
              HtmlSection(tasks, InTwoDays, today), HtmlSection(tasks, InThreeDays, today), tail);
  }

  /** `render_task_due_soon`; `today` stands for `date.today()`. The bodies
      are their lines joined by newlines. */
  function RenderTaskDueSoon(p: Payload, today: int): (r: RenderedEmail)
    requires DatesValid(p, today)
    ensures r.subject == Subject(|TaskList(p)|) && r.shortText == r.subject
    ensures p.tasks.None? ==> r.subject == "0" + PluralTail
    ensures r.textBody == Strings.Join("\n", TextLines(p, today))
    ensures r.htmlBody == Strings.Join("\n", HtmlLines(p, today))
  {
    SubjectZero();
    RenderedEmail(
      Subject(|TaskList(p)|),
      Strings.Join("\n", TextLines(p, today)),
      Strings.Join("\n", HtmlLines(p, today)),
      Subject(|TaskList(p)|))
  }

  /** Each of the first ten tasks of a listed group has its line in the
      text body, and a group of more than ten says how many it leaves out. */
  lemma ListedTaskInTextBody(p: Payload, today: int, b: Bucket, k: int)
    requires DatesValid(p, today) && b != Later
    requires 0 <= k < Shown(|Grouped(TaskList(p), b)|)
    ensures Bullet(Grouped(TaskList(p), b)[k], today) in TextLines(p, today)
    ensures |Grouped(TaskList(p), b)| > MaxLinesPerBucket ==>
      "- " + MoreText(|Grouped(TaskList(p), b)|) in TextLines(p, today)
  {
    var tasks := TaskList(p);
    var section := TextSection(tasks, b, today);
    assert Bullet(Grouped(tasks, b)[k], today) in section by {
      assert section[1 + k] == Bullet(Grouped(tasks, b)[k], today);
    }
    if |Grouped(tasks, b)| > MaxLinesPerBucket {
      assert section[1 + MaxLinesPerBucket] == "- " + MoreText(|Grouped(tasks, b)|);
    }
    assert forall x :: x in section ==> x in Sections(tasks, today, false);
  }

  /** Each of the first ten tasks of a listed group has its list item in
      the HTML body, and a group of more than ten says how many it leaves
      out. */
  lemma ListedTaskInHtmlBody(p: Payload, today: int, b: Bucket, k: int)
    requires DatesValid(p, today) && b != Later
    requires 0 <= k < Shown(|Grouped(TaskList(p), b)|)
    ensures ListItem(Grouped(TaskList(p), b)[k], today) in HtmlLines(p, today)
    ensures |Grouped(TaskList(p), b)| > MaxLinesPerBucket ==>
      "<li>" + MoreText(|Grouped(TaskList(p), b)|) + "</li>" in HtmlLines(p, today)
  {
    ItemInHtmlBody(p, today, b, k);
    if |Grouped(TaskList(p), b)| > MaxLinesPerBucket {
      MoreInHtmlBody(p, today, b);
    }
  }

  lemma ItemInHtmlBody(p: Payload, today: int, b: Bucket, k: int)
    requires DatesValid(p, today) && b != Later
    requires 0 <= k < Shown(|Grouped(TaskList(p), b)|)
    ensures ListItem(Grouped(TaskList(p), b)[k], today) in HtmlLines(p, today)
  {
    var section := HtmlSection(TaskList(p), b, today);
    assert section[1 + k] == ListItem(Grouped(TaskList(p), b)[k], today);
    SectionLineInHtmlBody(p, today, b, section[1 + k]);
  }

  lemma MoreInHtmlBody(p: Payload, today: int, b: Bucket)
    requires DatesValid(p, today) && b != Later
    requires |Grouped(TaskList(p), b)| > MaxLinesPerBucket
    ensures "<li>" + MoreText(|Grouped(TaskList(p), b)|) + "</li>" in HtmlLines(p, today)
  {
    var section := HtmlSection(TaskList(p), b, today);
    assert section[1 + MaxLinesPerBucket] == "<li>" + MoreText(|Grouped(TaskList(p), b)|) + "</li>";
    SectionLineInHtmlBody(p, today, b, section[1 + MaxLinesPerBucket]);
  }

  /** A line of a listed group's HTML section is a line of the HTML body. */
  lemma SectionLineInHtmlBody(p: Payload, today: int, b: Bucket, x: string)
    requires DatesValid(p, today) && b != Later
    requires x in HtmlSection(TaskList(p), b, today)
    ensures x in HtmlLines(p, today)
  {
    var middle := Sections(TaskList(p), today, true);
    assert x in middle;
    var head := ["<p>" + Greeting(p.userDisplayName) + "</p>", "<p>die folgenden Aufgaben stehen bald an:</p>"];
    var tail := ["<p><a href=\"" + p.planUrl + "\">Plan öffnen</a></p>",
                 "<p><a href=\"" + p.settingsUrl + "\">Benachrichtigungseinstellungen</a></p>",
                 "<p><a href=\"" + p.unsubscribeUrl + "\">Abmelden</a></p>"];
    assert HtmlLines(p, today) == head + middle + tail;
  }

  /** Tasks due later than in three days count in the subject but are not
      listed: adding one changes neither body. */
  lemma LaterTasksNotListed(p: Payload, today: int, t: DueTask)
    requires DatesValid(p, today) && p.tasks.Some?
    requires BucketOf(t) == Later && (t.dueDate.None? || Calendar.ValidDay(t.dueDate.value))
    ensures var q := p.(tasks := Some(p.tasks.value + [t]));
      && DatesValid(q, today)
      && TextLines(q, today) == TextLines(p, today)
      && HtmlLines(q, today) == HtmlLines(p, today)
      && RenderTaskDueSoon(q, today).subject == Subject(|TaskList(p)| + 1)
  {
    var tasks := p.tasks.value;
    var more := tasks + [t];
    var q := p.(tasks := Some(more));
    assert TaskList(q) == more;
    assert TaskDatesValid(more) by {
      assert forall k :: 0 <= k < |tasks| ==> more[k] == tasks[k];
    }
    SectionsIgnoreLater(tasks, t, today);
  }

  lemma SectionsIgnoreLater(tasks: seq<DueTask>, t: DueTask, today: int)
    requires Calendar.ValidDay(today) && TaskDatesValid(tasks) && TaskDatesValid(tasks + [t])
    requires BucketOf(t) == Later
    ensures Sections(tasks + [t], today, false) == Sections(tasks, today, false)
    ensures Sections(tasks + [t], today, true) == Sections(tasks, today, true)
  {
    SectionIgnoresLater(tasks, t, Today, today);
    SectionIgnoresLater(tasks, t, Tomorrow, today);
    SectionIgnoresLater(tasks, t, InTwoDays, today);
    SectionIgnoresLater(tasks, t, InThreeDays, today);
  }

  lemma SectionIgnoresLater(tasks: seq<DueTask>, t: DueTask, b: Bucket, today: int)
    requires Calendar.ValidDay(today) && TaskDatesValid(tasks) && TaskDatesValid(tasks + [t])
    requires BucketOf(t) == Later && b != Later
    ensures TextSection(tasks + [t], b, today) == TextSection(tasks, b, today)
    ensures HtmlSection(tasks + [t], b, today) == HtmlSection(tasks, b, today)
  {
    GroupedSnoc(tasks, t, b);
    var g := Grouped(tasks, b);
    assert Grouped(tasks + [t], b) == g + [] == g;
    GroupedDatesValid(tasks, b);
    if |g| > 0 {
      assert TextSection(tasks + [t], b, today) == TextLinesOf(g, b, today);
      assert HtmlSection(tasks + [t], b, today) == HtmlLinesOf(g, b, today);
    }
  }

  lemma {:induction false} GroupedSnoc(tasks: seq<DueTask>, t: DueTask, b: Bucket)
    ensures Grouped(tasks + [t], b) == Grouped(tasks, b) + (if BucketOf(t) == b then [t] else [])
    decreases |tasks|
  {
    var last: seq<DueTask> := if BucketOf(t) == b then [t] else [];
    if |tasks| == 0 {
      assert tasks + [t] == [t];
    } else {
      var s := tasks + [t];
      var head: seq<DueTask> := if BucketOf(tasks[0]) == b then [tasks[0]] else [];
      assert s[0] == tasks[0] && s[1..] == tasks[1..] + [t];
      GroupedSnoc(tasks[1..], t, b);
      assert Grouped(s, b) == head + (Grouped(tasks[1..], b) + last);
      assert Grouped(tasks, b) == head + Grouped(tasks[1..], b);
      AppendAssoc(head, Grouped(tasks[1..], b), last);
    }
  }
}

=== FILE: engine.dfy ===
/** `generate_plan`: read a compiled workflow, keep the tasks whose
    eligibility rule holds for the user's facts, prune the dependency edges
    to those between kept tasks, order the kept tasks topologically and give
    each its deadline.

    The source walks the kept tasks in Python set order when it builds the
    plan items; that order is unspecified, and it only shows when two kept
    tasks fail in different ways. The model builds the items in the order of
    the plan, so when several kept tasks are malformed the one reported is
    the first of them in the plan. */
module Engine {
  import opened Wrappers
  import opened Json
  import opened Strings
  import Calendar
  import Rules
  import Toposort
  import opened PlannerErrors
  import Deadlines
  import opened WorkflowJson

  type Edge = Toposort.Edge

  /** One entry of the plan's `tasks` list (`TaskPlanItem`). */
  datatype PlanItem = PlanItem(
    id: string,
    title: string,
    relativeDays: Json,
    deadline: string,
    dependsOn: seq<string>,
    meta: Object)

  /** The generated plan (`Plan`). */
  datatype Plan = Plan(workflowId: string, eventDate: string, tasks: seq<PlanItem>)

  /** What the engine reads from a workflow before it looks at any fact. */
  datatype Template = Template(
    templateId: string,
    eventDateKey: string,
    tasks: map<string, Object>,
    edges: seq<Edge>)

  // ---------------------------------------------------------------------
  // Reading the workflow

  /** `_read_str`. */
  function ReadStr(payload: Object, key: string): (r: Result<string, Failure>)
    ensures r.Ok? <==> Get(payload, key).JStr?
    ensures r.Ok? ==> r.value == Get(payload, key).s
    ensures r.Err? ==> r.error == InputError
  {
    var value := Get(payload, key);
    if value.JStr? then Ok(value.s) else Err(InputError)
  }

  /** `_read_tasks`: `workflow.tasks` is an object whose values are all
      objects. */
  function ReadTasks(workflow: Object): (r: Result<map<string, Object>, Failure>)
    ensures var raw := Get(workflow, "tasks");
      r.Ok? <==> raw.JObj? && forall id :: id in raw.fields ==> raw.fields[id].JObj?
    ensures r.Err? ==> r.error == InputError
    ensures r.Ok? ==> var raw := Get(workflow, "tasks").fields;
      r.value.Keys == raw.Keys && forall id :: id in r.value ==> raw[id] == JObj(r.value[id])
  {
    var raw := Get(workflow, "tasks");
    if !raw.JObj? then Err(InputError)
    else if exists id :: id in raw.fields && !raw.fields[id].JObj? then Err(InputError)
    else Ok(map id | id in raw.fields :: raw.fields[id].fields)
  }

  /** The error the first rejected edge raises. */
  function EdgeError(e: Json): Failure
  {
    if EdgeShaped(e) then DependencyError else InputError
  }

  /** The loop of `_read_edges`: edges are checked in list order, and the
      first bad one decides the error, an input error for a malformed edge
      and a dependency error for an unknown end. */
  function ParseEdges(items: seq<Json>, known: set<string>): (r: Result<seq<Edge>, Failure>)
    ensures r.Ok? <==> AcceptedBefore(items, known, |items|)
    ensures r.Ok? ==> |r.value| == |items| && forall k :: 0 <= k < |items| ==> r.value[k] == EdgeOf(items[k])
    ensures r.Err? ==>
      exists k :: 0 <= k < |items| && AcceptedBefore(items, known, k)
        && !EdgeAccepted(items[k], known) && r.error == EdgeError(items[k])
  {
    if |items| == 0 then Ok([])
    else if !EdgeShaped(items[0]) then Err(InputError)
    else if !EdgeAccepted(items[0], known) then Err(DependencyError)
    else match ParseEdges(items[1..], known)
      case Err(e) =>
        ghost var k :| 0 <= k < |items| - 1 && AcceptedBefore(items[1..], known, k)
          && !EdgeAccepted(items[1..][k], known) && e == EdgeError(items[1..][k]);
        assert items[k + 1] == items[1..][k];
        assert forall j :: 1 <= j < k + 1 ==> items[j] == items[1..][j - 1];
        assert AcceptedBefore(items, known, k + 1);
        Err(e)
      case Ok(rest) =>
        assert forall k :: 1 <= k < |items| ==> items[k] == items[1..][k - 1];
        Ok([EdgeOf(items[0])] + rest)
  }

  /** `_read_edges`: `workflow.graph` is an object, and its `edges`, `[]`
      when absent, is a list. */
  function ReadEdges(workflow: Object, known: set<string>): (r: Result<seq<Edge>, Failure>)
    ensures !Get(workflow, "graph").JObj? ==> r == Err(InputError)
    ensures Get(workflow, "graph").JObj? && "edges" !in Get(workflow, "graph").fields ==> r == Ok([])
    ensures Get(workflow, "graph").JObj? && "edges" in Get(workflow, "graph").fields ==>
      var raw := Get(workflow, "graph").fields["edges"];
      if raw.JList? then r == ParseEdges(raw.items, known) else r == Err(InputError)
  {
    var graph := Get(workflow, "graph");
    if !graph.JObj? then Err(InputError)
    else
      var raw := GetOr(graph.fields, "edges", JList([]));
      if !raw.JList? then Err(InputError) else ParseEdges(raw.items, known)
  }

  /** The fact-independent reads at the start of `generate_plan`, in the
      source's order. */
  function ReadTemplate(workflow: Object): (r: Result<Template, Failure>)
    ensures r.Ok? ==> Toposort.EdgesKnown(r.value.tasks.Keys, r.value.edges)
  {
    var templateId :- ReadStr(workflow, "template_id");
    var eventDateKey :- ReadStr(workflow, "event_date_key");
    var tasks :- ReadTasks(workflow);
    var edges :- ReadEdges(workflow, tasks.Keys);
    assert Toposort.EdgesKnown(tasks.Keys, edges) by {
      var raw := GetOr(Get(workflow, "graph").fields, "edges", JList([]));
      if raw.JList? {
        forall j | 0 <= j < |edges|
          ensures edges[j].0 in tasks.Keys && edges[j].1 in tasks.Keys
        {
          assert EdgeAccepted(raw.items[j], tasks.Keys);
        }
      }
    }
    Ok(Template(templateId, eventDateKey, tasks, edges))
  }

  // ---------------------------------------------------------------------
  // Eligibility and pruning

  /** The rules of the tasks before position `k` evaluate without error. */
  ghost predicate RulesOkBefore(ids: seq<string>, tasks: map<string, Object>, facts: Object, k: int)
    requires 0 <= k <= |ids|
    requires forall k :: 0 <= k < |ids| ==> ids[k] in tasks
  {
    forall j :: 0 <= j < k ==> Rules.IsTaskActive(tasks[ids[j]], facts).Ok?
  }

  /** The set comprehension over `sorted(tasks_by_id)`: rules are evaluated
      in id order and the first rule error is raised. */
  function ActiveAmong(ids: seq<string>, tasks: map<string, Object>, facts: Object): (r: Result<set<string>, Failure>)
    requires forall k :: 0 <= k < |ids| ==> ids[k] in tasks
    ensures r.Ok? <==> RulesOkBefore(ids, tasks, facts, |ids|)
    ensures r.Ok? ==> forall x :: x in r.value <==> x in ids && Rules.IsTaskActive(tasks[x], facts) == Ok(true)
    ensures r.Err? ==>
      exists k :: 0 <= k < |ids| && RulesOkBefore(ids, tasks, facts, k)
        && Rules.IsTaskActive(tasks[ids[k]], facts).Err?
        && r.error == RuleError(Rules.IsTaskActive(tasks[ids[k]], facts).error)
  {
    if |ids| == 0 then Ok({})
    else match Rules.IsTaskActive(tasks[ids[0]], facts)
      case Err(e) => Err(RuleError(e))
      case Ok(b) =>
        match ActiveAmong(ids[1..], tasks, facts)
        case Err(e) =>
          ghost var k :| 0 <= k < |ids| - 1 && RulesOkBefore(ids[1..], tasks, facts, k)
            && Rules.IsTaskActive(tasks[ids[1..][k]], facts).Err?
            && e == RuleError(Rules.IsTaskActive(tasks[ids[1..][k]], facts).error);
          assert ids[k + 1] == ids[1..][k];
          assert forall j :: 1 <= j < k + 1 ==> ids[j] == ids[1..][j - 1];
          assert RulesOkBefore(ids, tasks, facts, k + 1);
          Err(e)
        case Ok(rest) =>
          assert forall k :: 1 <= k < |ids| ==> ids[k] == ids[1..][k - 1];
          assert forall x :: x in ids <==> x == ids[0] || x in ids[1..];
          assert RulesOkBefore(ids, tasks, facts, |ids|);
          Ok(if b then {ids[0]} + rest else rest)
  }

  /** The ids of the tasks whose eligibility rule holds. */
  function ActiveTasks(tasks: map<string, Object>, facts: Object): (r: Result<set<string>, Failure>)
    ensures r.Ok? <==> forall id :: id in tasks ==> Rules.IsTaskActive(tasks[id], facts).Ok?
    ensures r.Ok? ==> forall id :: id in r.value <==> id in tasks && Rules.IsTaskActive(tasks[id], facts) == Ok(true)
    ensures r.Err? ==> r.error.RuleError?
  {
    ActiveAmong(SortedElems(tasks.Keys), tasks, facts)
  }

  /** `active_edges`: the edges between two kept tasks, in template order. */
  function PruneEdges(edges: seq<Edge>, active: set<string>): (r: seq<Edge>)
    ensures forall e :: e in r <==> e in edges && e.0 in active && e.1 in active
    ensures forall e :: multiset(r)[e] == if e.0 in active && e.1 in active then multiset(edges)[e] else 0
    ensures Toposort.EdgesKnown(active, r)
  {
    if |edges| == 0 then []
    else
      var rest := PruneEdges(edges[1..], active);
      assert forall e :: e in edges <==> e == edges[0] || e in edges[1..];
      var r := if edges[0].0 in active && edges[0].1 in active then [edges[0]] + rest else rest;
      PruneCountStep(edges, active, rest, r);
      r
  }

  /** One step of `PruneEdges`: keeping or dropping the first edge keeps
      the count of each edge between kept tasks. */
  lemma PruneCountStep(edges: seq<Edge>, active: set<string>, rest: seq<Edge>, r: seq<Edge>)
    requires |edges| > 0
    requires forall e :: multiset(rest)[e] == if e.0 in active && e.1 in active then multiset(edges[1..])[e] else 0
    requires r == if edges[0].0 in active && edges[0].1 in active then [edges[0]] + rest else rest
    ensures forall e :: multiset(r)[e] == if e.0 in active && e.1 in active then multiset(edges)[e] else 0
  {
    assert edges == [edges[0]] + edges[1..];
    assert multiset(edges) == multiset{edges[0]} + multiset(edges[1..]);
  }

  /** The sources of the edges into `t`, in edge order, repeated as often as
      the edge is. */
  function SourcesInto(edges: seq<Edge>, t: string): (r: seq<string>)
    ensures forall s :: s in r <==> (s, t) in edges
    ensures forall s :: multiset(r)[s] == multiset(edges)[(s, t)]
  {
    if |edges| == 0 then []
    else
      var rest := SourcesInto(edges[1..], t);
      assert forall e :: e in edges <==> e == edges[0] || e in edges[1..];
      assert edges == [edges[0]] + edges[1..];
      if edges[0].1 == t then [edges[0].0] + rest else rest
  }

  /** `depends_on_map[t]`: the sorted sources of the kept edges into `t`,
      a source repeated once per edge. */
  function DependsOn(pruned: seq<Edge>, t: string): (r: seq<string>)
    ensures Sorted(r)
    ensures forall s :: s in r <==> (s, t) in pruned
    ensures CountsSources(r, pruned, t)
  {
    var sources := SourcesInto(pruned, t);
    var r := Sort(sources);
    assert forall s :: s in r <==> s in multiset(r);
    assert forall s :: s in sources <==> s in multiset(sources);
    r
  }

  /** `sources` holds each source once per edge from it into `t`. */
  ghost predicate CountsSources(sources: seq<string>, edges: seq<Edge>, t: string)
  {
    forall s :: multiset(sources)[s] == multiset(edges)[(s, t)]
  }

  /** `toposort_task_ids` on the kept tasks and edges. */
  function TopoOrder(active: set<string>, pruned: seq<Edge>): (r: Result<seq<string>, Failure>)
    ensures r.Ok? ==> forall k :: 0 <= k < |r.value| ==> r.value[k] in active
    ensures r.Err? ==> r.error == CycleError || r.error == DependencyError
  {
    match Toposort.SmallestReadyFirst(active, pruned)
    case Ok(order) =>
      assert forall k :: 0 <= k < |order| ==> order[k] in Toposort.Elems(order);
      Ok(order)
    case Err(e) => Err(FromTopoError(e))
  }

  // ---------------------------------------------------------------------
  // Plan items

  /** The task's `deadline` object, or no fields when it is not one. */
  function DeadlineDef(task: Object): Object
  {
    var d := Get(task, "deadline");
    if d.JObj? then d.fields else map[]
  }

  function Offset(task: Object): Json
  {
    Get(DeadlineDef(task), "offset_days")
  }

  /** `grace_days`, `0` when absent. */
  function Grace(task: Object): Json
  {
    GetOr(DeadlineDef(task), "grace_days", JInt(0))
  }

  /** Everything about a task except the range of its due day is as the
      engine requires: a string title, a `relative_days` deadline object
      and integer offset and grace. */
  predicate ItemShaped(task: Object)
  {
    && Get(task, "title").JStr?
    && Get(task, "deadline").JObj?
    && Get(DeadlineDef(task), "type") == JStr("relative_days")
    && IsPyInt(Offset(task))
    && IsPyInt(Grace(task))
  }

  /** The due day of a well-shaped task. */
  function DueDay(task: Object, eventDay: int): int
    requires ItemShaped(task)
  {
    eventDay + PyIntValue(Offset(task)) + PyIntValue(Grace(task))
  }

  /** The body of the item loop of `generate_plan` for one task. */
  function BuildItem(id: string, task: Object, eventDay: int, dependsOn: seq<string>): (r: Result<PlanItem, Failure>)
    requires Calendar.ValidDay(eventDay)
    ensures r.Ok? <==> ItemShaped(task) && Calendar.ValidDay(DueDay(task, eventDay))
    ensures r.Err? ==> (r.error == DateOverflow <==> ItemShaped(task))
    ensures r.Err? ==> r.error == InputError || r.error == DateOverflow
    ensures r.Ok? ==>
      && r.value.id == id
      && r.value.title == Get(task, "title").s
      && r.value.relativeDays == Offset(task)
      && Deadlines.ParseIsoDate(JStr(r.value.deadline)) == Ok(DueDay(task, eventDay))
      && r.value.dependsOn == dependsOn
      && r.value.meta == map[]
  {
    var title :- ReadStr(task, "title");
    var deadline := Get(task, "deadline");
    if !deadline.JObj? then Err(InputError)
    else if Get(deadline.fields, "type") != JStr("relative_days") then Err(InputError)
    else
      var offset := Get(deadline.fields, "offset_days");
      if !IsPyInt(offset) then Err(InputError)
      else
        var grace := GetOr(deadline.fields, "grace_days", JInt(0));
        if !IsPyInt(grace) then Err(InputError)
        else
          assert DeadlineDef(task) == deadline.fields && Offset(task) == offset && Grace(task) == grace;
          var due :- Deadlines.ComputeDeadline(eventDay, offset, grace);
          assert due == DueDay(task, eventDay);
          Deadlines.DeadlineTextRoundTrip(due);
          Ok(PlanItem(id, title, offset, Calendar.IsoFormat(due), dependsOn, map[]))
  }

  /** Each of the first `n` tasks of `order` builds, and `items` holds what
      they build. */
  ghost predicate BuiltUpTo(order: seq<string>, tasks: map<string, Object>, eventDay: int, pruned: seq<Edge>,
                            items: seq<PlanItem>, n: int)
    requires Calendar.ValidDay(eventDay)
    requires forall k :: 0 <= k < |order| ==> order[k] in tasks
    requires 0 <= n <= |order| && n <= |items|
  {
    forall k :: 0 <= k < n ==>
      BuildItem(order[k], tasks[order[k]], eventDay, DependsOn(pruned, order[k])) == Ok(items[k])
  }

  /** The items of the tasks in `order`, or the first failure among them. */
  function BuildItems(order: seq<string>, tasks: map<string, Object>, eventDay: int, pruned: seq<Edge>): (r: Result<seq<PlanItem>, Failure>)
    requires Calendar.ValidDay(eventDay)
    requires forall k :: 0 <= k < |order| ==> order[k] in tasks
    ensures r.Ok? ==> |r.value| == |order| && BuiltUpTo(order, tasks, eventDay, pruned, r.value, |order|)
    ensures r.Err? ==>
      exists k :: 0 <= k < |order|
        && BuildItem(order[k], tasks[order[k]], eventDay, DependsOn(pruned, order[k])).Err?
    ensures r.Err? ==> r.error == InputError || r.error == DateOverflow
  {
    if |order| == 0 then Ok([])
    else
      var item :- BuildItem(order[0], tasks[order[0]], eventDay, DependsOn(pruned, order[0]));
      match BuildItems(order[1..], tasks, eventDay, pruned)
      case Err(e) =>
        FailsInTail(order, tasks, eventDay, pruned);
        Err(e)
      case Ok(rest) =>
        BuiltCons(order, tasks, eventDay, pruned, item, rest);
        Ok([item] + rest)
  }

  /** A task after the first that fails to build is a task that fails. */
  lemma FailsInTail(order: seq<string>, tasks: map<string, Object>, eventDay: int, pruned: seq<Edge>)
    requires Calendar.ValidDay(eventDay)
    requires forall k :: 0 <= k < |order| ==> order[k] in tasks
    requires |order| > 0
    requires exists k :: 0 <= k < |order[1..]| &&
               BuildItem(order[1..][k], tasks[order[1..][k]], eventDay, DependsOn(pruned, order[1..][k])).Err?
    ensures exists k :: 0 <= k < |order| &&
              BuildItem(order[k], tasks[order[k]], eventDay, DependsOn(pruned, order[k])).Err?
  {
    var k :| 0 <= k < |order[1..]|
      && BuildItem(order[1..][k], tasks[order[1..][k]], eventDay, DependsOn(pruned, order[1..][k])).Err?;
    assert order[k + 1] == order[1..][k];
  }

  /** The item of the first task followed by the items of the others. */
  lemma BuiltCons(order: seq<string>, tasks: map<string, Object>, eventDay: int, pruned: seq<Edge>,
                  item: PlanItem, rest: seq<PlanItem>)
    requires Calendar.ValidDay(eventDay)
    requires forall k :: 0 <= k < |order| ==> order[k] in tasks
    requires |order| > 0 && |rest| == |order| - 1
    requires BuildItem(order[0], tasks[order[0]], eventDay, DependsOn(pruned, order[0])) == Ok(item)
    requires BuiltUpTo(order[1..], tasks, eventDay, pruned, rest, |rest|)
    ensures BuiltUpTo(order, tasks, eventDay, pruned, [item] + rest, |order|)
  {
    var items := [item] + rest;
    forall k | 0 < k < |order|
      ensures BuildItem(order[k], tasks[order[k]], eventDay, DependsOn(pruned, order[k])) == Ok(items[k])
    {
      assert order[k] == order[1..][k - 1] && items[k] == rest[k - 1];
    }
  }

  // ---------------------------------------------------------------------
  // The plan

  /** `generate_plan`. */
  function GeneratePlan(workflow: Object, facts: Object): Result<Plan, Failure>
  {
    var t :- ReadTemplate(workflow);
    PlanFrom(t, facts)
  }

  /** The part of `generate_plan` after the workflow has been read. */
  function PlanFrom(t: Template, facts: Object): Result<Plan, Failure>
  {
    if t.eventDateKey !in facts then Err(InputError)
    else
      var eventDay :- Deadlines.ParseIsoDate(facts[t.eventDateKey]);
      var active :- ActiveTasks(t.tasks, facts);
      PlanOf(t, eventDay, active)
  }

  /** The plan of the kept tasks `active`: order them along the kept edges
      and build their items. */
  function PlanOf(t: Template, eventDay: int, active: set<string>): Result<Plan, Failure>
    requires Calendar.ValidDay(eventDay) && active <= t.tasks.Keys
  {
    var pruned := PruneEdges(t.edges, active);
    var order :- TopoOrder(active, pruned);
    var items :- BuildItems(order, t.tasks, eventDay, pruned);
    Ok(Plan(t.templateId, Calendar.IsoFormat(eventDay), items))
  }

  function Ids(items: seq<PlanItem>): (ids: seq<string>)
    ensures |ids| == |items| && forall k :: 0 <= k < |items| ==> ids[k] == items[k].id
  {
    seq(|items|, k requires 0 <= k < |items| => items[k].id)
  }

  // ---------------------------------------------------------------------
  // Properties of a generated plan

  /** The plan lists exactly the tasks whose eligibility rule holds, each
      once. */
  lemma GeneratePlanTasksAreActive(workflow: Object, facts: Object)
    requires GeneratePlan(workflow, facts).Ok?
    ensures ReadTemplate(workflow).Ok?
    ensures var tasks := ReadTemplate(workflow).value.tasks;
      var ids := Ids(GeneratePlan(workflow, facts).value.tasks);
      && Toposort.Distinct(ids)
      && forall id :: id in ids <==> id in tasks && Rules.IsTaskActive(tasks[id], facts) == Ok(true)
  {
    var t := ReadTemplate(workflow).value;
    var active := ActiveTasks(t.tasks, facts).value;
    var pruned := PruneEdges(t.edges, active);
    PlanFollowsOrder(workflow, facts);
    Toposort.SmallestReadyFirstCorrect(active, pruned);
  }

  /** The plan's ids are the topological order of the kept tasks along the
      kept edges. */
  lemma PlanFollowsOrder(workflow: Object, facts: Object)
    requires GeneratePlan(workflow, facts).Ok?
    ensures ReadTemplate(workflow).Ok?
    ensures var t := ReadTemplate(workflow).value;
      && t.eventDateKey in facts
      && Deadlines.ParseIsoDate(facts[t.eventDateKey]).Ok?
      && ActiveTasks(t.tasks, facts).Ok?
    ensures var t := ReadTemplate(workflow).value;
      var active := ActiveTasks(t.tasks, facts).value;
      var pruned := PruneEdges(t.edges, active);
      var eventDay := Deadlines.ParseIsoDate(facts[t.eventDateKey]).value;
      var plan := GeneratePlan(workflow, facts).value;
      && Toposort.SmallestReadyFirst(active, pruned).Ok?
      && Ids(plan.tasks) == Toposort.SmallestReadyFirst(active, pruned).value
      && plan.workflowId == t.templateId
      && plan.eventDate == Calendar.IsoFormat(eventDay)
      && (forall b :: 0 <= b < |plan.tasks| ==>
            BuildItem(plan.tasks[b].id, t.tasks[plan.tasks[b].id], eventDay, DependsOn(pruned, plan.tasks[b].id))
              == Ok(plan.tasks[b]))
  {
    var t := ReadTemplate(workflow).value;
    var eventDay := Deadlines.ParseIsoDate(facts[t.eventDateKey]).value;
    var active := ActiveTasks(t.tasks, facts).value;
    var pruned := PruneEdges(t.edges, active);
    var order := TopoOrder(active, pruned).value;
    var items := BuildItems(order, t.tasks, eventDay, pruned).value;
    assert BuiltUpTo(order, t.tasks, eventDay, pruned, items, |order|);
    forall b | 0 <= b < |items|
      ensures items[b].id == order[b]
    {
      assert BuildItem(order[b], t.tasks[order[b]], eventDay, DependsOn(pruned, order[b])) == Ok(items[b]);
    }
    assert Ids(items) == order;
  }

  /** Every dependency between two kept tasks is respected: its source comes
      before its target in the plan. */
  lemma GeneratePlanTopological(workflow: Object, facts: Object)
    requires GeneratePlan(workflow, facts).Ok?
    ensures ReadTemplate(workflow).Ok?
    ensures var t := ReadTemplate(workflow).value;
      var ids := Ids(GeneratePlan(workflow, facts).value.tasks);
      forall j, b ::
        (0 <= j < |t.edges| && 0 <= b < |ids| && t.edges[j].1 == ids[b]
         && Rules.IsTaskActive(t.tasks[t.edges[j].0], facts) == Ok(true)) ==> t.edges[j].0 in ids[..b]
  {
    var t := ReadTemplate(workflow).value;
    var active := ActiveTasks(t.tasks, facts).value;
    var pruned := PruneEdges(t.edges, active);
    PlanFollowsOrder(workflow, facts);
    Toposort.SmallestReadyFirstCorrect(active, pruned);
    EdgesRespected(t, facts, active, pruned, Ids(GeneratePlan(workflow, facts).value.tasks));
  }

  lemma EdgesRespected(t: Template, facts: Object, active: set<string>, pruned: seq<Edge>, ids: seq<string>)
    requires Toposort.EdgesKnown(t.tasks.Keys, t.edges)
    requires forall x :: x in active <==> x in t.tasks && Rules.IsTaskActive(t.tasks[x], facts) == Ok(true)
    requires forall e :: e in pruned <==> e in t.edges && e.0 in active && e.1 in active
    requires Toposort.IsTopologicalOrder(active, pruned, ids)
    ensures forall j, b ::
        (0 <= j < |t.edges| && 0 <= b < |ids| && t.edges[j].1 == ids[b]
         && Rules.IsTaskActive(t.tasks[t.edges[j].0], facts) == Ok(true)) ==> t.edges[j].0 in ids[..b]
  {
    forall j, b | 0 <= j < |t.edges| && 0 <= b < |ids| && t.edges[j].1 == ids[b]
        && Rules.IsTaskActive(t.tasks[t.edges[j].0], facts) == Ok(true)
      ensures t.edges[j].0 in ids[..b]
    {
      var e := t.edges[j];
      assert ids[b] in Toposort.Elems(ids);
      assert e.0 in active && e.1 in active;
      assert e in pruned;
      var i :| 0 <= i < |pruned| && pruned[i] == e;
      assert pruned[i].1 == ids[b];
    }
  }

  /** `depends_on` lists, in ascending order, exactly the kept tasks with an
      edge into the task; each of them comes earlier in the plan. */
  lemma GeneratePlanDependsOn(workflow: Object, facts: Object)
    requires GeneratePlan(workflow, facts).Ok?
    ensures ReadTemplate(workflow).Ok?
    ensures var t := ReadTemplate(workflow).value;
      var items := GeneratePlan(workflow, facts).value.tasks;
      forall b :: 0 <= b < |items| ==> DependsOnAt(t, facts, items, b)
  {
    var items := GeneratePlan(workflow, facts).value.tasks;
    forall b | 0 <= b < |items|
      ensures DependsOnAt(ReadTemplate(workflow).value, facts, items, b)
    {
      ItemDependsOn(workflow, facts, b);
    }
  }

  /** What `depends_on` of the item at `b` promises. */
  ghost predicate DependsOnAt(t: Template, facts: Object, items: seq<PlanItem>, b: int)
    requires 0 <= b < |items|
  {
    && Sorted(items[b].dependsOn)
    && (forall s :: s in items[b].dependsOn <==>
          (s, items[b].id) in t.edges && s in t.tasks && Rules.IsTaskActive(t.tasks[s], facts) == Ok(true))
    && (forall s :: s in items[b].dependsOn ==> s in Ids(items)[..b])
    && (forall s :: multiset(items[b].dependsOn)[s] ==
          if s in t.tasks && Rules.IsTaskActive(t.tasks[s], facts) == Ok(true) then multiset(t.edges)[(s, items[b].id)] else 0)
  }

  lemma ItemDependsOn(workflow: Object, facts: Object, b: int)
    requires GeneratePlan(workflow, facts).Ok?
    requires 0 <= b < |GeneratePlan(workflow, facts).value.tasks|
    ensures ReadTemplate(workflow).Ok?
    ensures DependsOnAt(ReadTemplate(workflow).value, facts, GeneratePlan(workflow, facts).value.tasks, b)
  {
    var t := ReadTemplate(workflow).value;
    var active := ActiveTasks(t.tasks, facts).value;
    var pruned := PruneEdges(t.edges, active);
    var eventDay := Deadlines.ParseIsoDate(facts[t.eventDateKey]).value;
    var items := GeneratePlan(workflow, facts).value.tasks;
    PlanFollowsOrder(workflow, facts);
    Toposort.SmallestReadyFirstCorrect(active, pruned);
    var id := items[b].id;
    assert BuildItem(id, t.tasks[id], eventDay, DependsOn(pruned, id)) == Ok(items[b]);
    DependsOnFromPruned(t, facts, active, pruned, items, b);
  }

  /** The step of `ItemDependsOn` that needs only the kept tasks, the kept
      edges and the order. */
  lemma DependsOnFromPruned(t: Template, facts: Object, active: set<string>, pruned: seq<Edge>,
                            items: seq<PlanItem>, b: int)
    requires 0 <= b < |items|
    requires ActiveTasks(t.tasks, facts) == Ok(active)
    requires pruned == PruneEdges(t.edges, active)
    requires Toposort.IsTopologicalOrder(active, pruned, Ids(items))
    requires items[b].dependsOn == DependsOn(pruned, items[b].id)
    ensures DependsOnAt(t, facts, items, b)
  {
    var ids := Ids(items);
    var id := items[b].id;
    assert ids[b] == id;
    forall s | s in items[b].dependsOn
      ensures s in ids[..b]
    {
      assert (s, id) in pruned;
      var i :| 0 <= i < |pruned| && pruned[i] == (s, id);
    }
    assert id in active by {
      assert id in Toposort.Elems(ids);
    }
    DependsOnCount(t, facts, active, pruned, id);
  }

  /** A kept task's `depends_on` holds each kept source once per template
      edge from it. */
  lemma DependsOnCount(t: Template, facts: Object, active: set<string>, pruned: seq<Edge>, id: string)
    requires ActiveTasks(t.tasks, facts) == Ok(active)
    requires pruned == PruneEdges(t.edges, active)
    requires id in active
    ensures forall s :: (multiset(DependsOn(pruned, id))[s] ==
      if s in t.tasks && Rules.IsTaskActive(t.tasks[s], facts) == Ok(true) then multiset(t.edges)[(s, id)] else 0)
  {
    forall s
      ensures multiset(DependsOn(pruned, id))[s] ==
        if s in t.tasks && Rules.IsTaskActive(t.tasks[s], facts) == Ok(true) then multiset(t.edges)[(s, id)] else 0
    {
      assert multiset(DependsOn(pruned, id))[s] == multiset(pruned)[(s, id)];
      assert (s in active) == (s in t.tasks && Rules.IsTaskActive(t.tasks[s], facts) == Ok(true));
    }
  }

  /** Each item's deadline is the event date shifted by the task's offset
      and grace days, `relative_days` is the offset as written, and `meta`
      is empty. */
  lemma GeneratePlanDeadlines(workflow: Object, facts: Object)
    requires GeneratePlan(workflow, facts).Ok?
    ensures ReadTemplate(workflow).Ok?
    ensures var t := ReadTemplate(workflow).value;
      t.eventDateKey in facts && Deadlines.ParseIsoDate(facts[t.eventDateKey]).Ok?
    ensures var t := ReadTemplate(workflow).value;
      var eventDay := Deadlines.ParseIsoDate(facts[t.eventDateKey]).value;
      var plan := GeneratePlan(workflow, facts).value;
      && plan.workflowId == t.templateId
      && Deadlines.ParseIsoDate(JStr(plan.eventDate)) == Ok(eventDay)
      && forall b :: 0 <= b < |plan.tasks| ==>
           var item := plan.tasks[b];
           && item.id in t.tasks
           && ItemShaped(t.tasks[item.id])
           && item.title == Get(t.tasks[item.id], "title").s
           && item.relativeDays == Offset(t.tasks[item.id])
           && Deadlines.ParseIsoDate(JStr(item.deadline)) == Ok(DueDay(t.tasks[item.id], eventDay))
           && item.meta == map[]
  {
    var t := ReadTemplate(workflow).value;
    var eventDay := Deadlines.ParseIsoDate(facts[t.eventDateKey]).value;
    PlanFollowsOrder(workflow, facts);
    GeneratePlanTasksAreActive(workflow, facts);
    Deadlines.DeadlineTextRoundTrip(eventDay);
  }

  // ---------------------------------------------------------------------
  // Errors

  /** Errors in the workflow itself are raised whatever the facts. */
  lemma TemplateErrorsComeFirst(workflow: Object, facts: Object)
    requires ReadTemplate(workflow).Err?
    ensures GeneratePlan(workflow, facts) == Err(ReadTemplate(workflow).error)
  {
  }

  /** A workflow whose event-date fact is missing is an input error. */
  lemma MissingEventDateRejected(workflow: Object, facts: Object)
    requires ReadTemplate(workflow).Ok?
    requires ReadTemplate(workflow).value.eventDateKey !in facts
    ensures GeneratePlan(workflow, facts) == Err(InputError)
  {
  }

  /** Among well-formed edges, one naming an id that is not a task is a
      dependency error, whatever the facts and even when no task using it
      would be kept. */
  lemma UnknownDependencyRejected(workflow: Object, facts: Object)
    requires Get(workflow, "template_id").JStr? && Get(workflow, "event_date_key").JStr?
    requires ReadTasks(workflow).Ok?
    requires Get(workflow, "graph").JObj? && Get(Get(workflow, "graph").fields, "edges").JList?
    requires var items := Get(Get(workflow, "graph").fields, "edges").items;
      && (forall k :: 0 <= k < |items| ==> EdgeShaped(items[k]))
      && exists k :: 0 <= k < |items| && !EdgeAccepted(items[k], ReadTasks(workflow).value.Keys)
    ensures GeneratePlan(workflow, facts) == Err(DependencyError)
  {
    var items := Get(Get(workflow, "graph").fields, "edges").items;
    var known := ReadTasks(workflow).value.Keys;
    var k :| 0 <= k < |items| && !EdgeAccepted(items[k], known);
    assert !AcceptedBefore(items, known, |items|);
  }

  /** The workflow with `deadline` of task `id` replaced by `v`. */
  function WithTaskDeadline(workflow: Object, id: string, v: Json): Object
    requires "tasks" in workflow && workflow["tasks"].JObj?
    requires id in workflow["tasks"].fields && workflow["tasks"].fields[id].JObj?
  {
    var tasks := workflow["tasks"].fields;
    workflow["tasks" := JObj(tasks[id := JObj(tasks[id].fields["deadline" := v])])]
  }

  lemma ActiveAmongSameRules(ids: seq<string>, t1: map<string, Object>, t2: map<string, Object>, facts: Object)
    requires forall k :: 0 <= k < |ids| ==> ids[k] in t1 && ids[k] in t2
    requires forall k :: 0 <= k < |ids| ==>
      Rules.IsTaskActive(t1[ids[k]], facts) == Rules.IsTaskActive(t2[ids[k]], facts)
    ensures ActiveAmong(ids, t1, facts) == ActiveAmong(ids, t2, facts)
  {
    if |ids| > 0 {
      assert forall k :: 1 <= k < |ids| ==> ids[k] == ids[1..][k - 1];
      ActiveAmongSameRules(ids[1..], t1, t2, facts);
    }
  }

  lemma BuildItemsSameTasks(order: seq<string>, t1: map<string, Object>, t2: map<string, Object>,
                            eventDay: int, pruned: seq<Edge>)
    requires Calendar.ValidDay(eventDay)
    requires forall k :: 0 <= k < |order| ==> order[k] in t1 && order[k] in t2 && t1[order[k]] == t2[order[k]]
    ensures BuildItems(order, t1, eventDay, pruned) == BuildItems(order, t2, eventDay, pruned)
  {
    if |order| > 0 {
      var rest := order[1..];
      assert forall k :: 0 <= k < |rest| ==> rest[k] == order[k + 1];
      BuildItemsSameTasks(rest, t1, t2, eventDay, pruned);
      assert t1[order[0]] == t2[order[0]];
    }
  }

  /** Changing a task's deadline changes only that task in what the engine
      reads from the workflow. */
  lemma ReadTemplateWithDeadline(workflow: Object, id: string, v: Json)
    requires "tasks" in workflow && workflow["tasks"].JObj?
    requires id in workflow["tasks"].fields && workflow["tasks"].fields[id].JObj?
    ensures var w2 := WithTaskDeadline(workflow, id, v);
      var task2 := workflow["tasks"].fields[id].fields["deadline" := v];
      && (ReadTemplate(workflow).Err? <==> ReadTemplate(w2).Err?)
      && (ReadTemplate(w2).Err? ==> ReadTemplate(workflow) == ReadTemplate(w2))
      && (ReadTemplate(w2).Ok? ==>
            && id in ReadTemplate(workflow).value.tasks
            && ReadTemplate(workflow).value.tasks[id] == workflow["tasks"].fields[id].fields
            && ReadTemplate(w2).value
               == ReadTemplate(workflow).value.(tasks := ReadTemplate(workflow).value.tasks[id := task2]))
  {
    var w2 := WithTaskDeadline(workflow, id, v);
    var raw := workflow["tasks"].fields;
    var raw2 := raw[id := JObj(raw[id].fields["deadline" := v])];
    assert Get(w2, "template_id") == Get(workflow, "template_id");
    assert Get(w2, "event_date_key") == Get(workflow, "event_date_key");
    assert Get(w2, "graph") == Get(workflow, "graph");
    assert Get(w2, "tasks") == JObj(raw2);
    assert (forall x :: x in raw ==> raw[x].JObj?) <==> (forall x :: x in raw2 ==> raw2[x].JObj?) by {
      assert raw.Keys == raw2.Keys;
      assert forall x :: x in raw && x != id ==> raw2[x] == raw[x];
    }
    if ReadTasks(workflow).Ok? {
      assert ReadTasks(w2).value == ReadTasks(workflow).value[id := raw[id].fields["deadline" := v]];
    }
  }

  /** The rest of generation sees only the rules of all tasks and the kept
      tasks themselves. */
  lemma PlanFromSameKept(t1: Template, t2: Template, facts: Object)
    requires t2 == t1.(tasks := t2.tasks) && t2.tasks.Keys == t1.tasks.Keys
    requires forall x :: x in t1.tasks ==> Rules.IsTaskActive(t1.tasks[x], facts) == Rules.IsTaskActive(t2.tasks[x], facts)
    requires forall x :: x in t1.tasks && Rules.IsTaskActive(t1.tasks[x], facts) == Ok(true) ==> t1.tasks[x] == t2.tasks[x]
    ensures PlanFrom(t2, facts) == PlanFrom(t1, facts)
  {
    ActiveTasksSameRules(t1.tasks, t2.tasks, facts);
    var key := t1.eventDateKey;
    if ActiveTasks(t1.tasks, facts).Ok? && key in facts && Deadlines.ParseIsoDate(facts[key]).Ok? {
      PlanOfSameKept(t1, t2, Deadlines.ParseIsoDate(facts[key]).value, ActiveTasks(t1.tasks, facts).value);
    }
  }

  /** Planning a set of kept tasks reads only those tasks. */
  lemma PlanOfSameKept(t1: Template, t2: Template, eventDay: int, active: set<string>)
    requires Calendar.ValidDay(eventDay) && active <= t1.tasks.Keys
    requires t2 == t1.(tasks := t2.tasks) && t2.tasks.Keys == t1.tasks.Keys
    requires forall x :: x in active ==> t1.tasks[x] == t2.tasks[x]
    ensures PlanOf(t2, eventDay, active) == PlanOf(t1, eventDay, active)
  {
    var pruned := PruneEdges(t1.edges, active);
    if TopoOrder(active, pruned).Ok? {
      var order := TopoOrder(active, pruned).value;
      BuildItemsSameTasks(order, t1.tasks, t2.tasks, eventDay, pruned);
    }
  }

  /** Two task maps with the same keys and the same rule outcomes keep the
      same tasks. */
  lemma ActiveTasksSameRules(t1: map<string, Object>, t2: map<string, Object>, facts: Object)
    requires t2.Keys == t1.Keys
    requires forall x :: x in t1 ==> Rules.IsTaskActive(t1[x], facts) == Rules.IsTaskActive(t2[x], facts)
    ensures ActiveTasks(t2, facts) == ActiveTasks(t1, facts)
  {
    var ids := SortedElems(t1.Keys);
    ActiveAmongSameRules(ids, t1, t2, facts);
  }

  /** Deadlines are read only for kept tasks: whatever the deadline of a task
      whose rule is false, the plan (or error) is the same. */
  lemma InactiveDeadlineIgnored(workflow: Object, facts: Object, id: string, v: Json)
    requires "tasks" in workflow && workflow["tasks"].JObj?
    requires id in workflow["tasks"].fields && workflow["tasks"].fields[id].JObj?
    requires Rules.IsTaskActive(workflow["tasks"].fields[id].fields, facts) == Ok(false)
    ensures GeneratePlan(WithTaskDeadline(workflow, id, v), facts) == GeneratePlan(workflow, facts)
  {
    var w2 := WithTaskDeadline(workflow, id, v);
    var task1 := workflow["tasks"].fields[id].fields;
    var task2 := task1["deadline" := v];
    ReadTemplateWithDeadline(workflow, id, v);
    assert Rules.IsTaskActive(task2, facts) == Rules.IsTaskActive(task1, facts) by {
      assert GetOr(task2, "eligibility", Rules.DefaultEligibility())
        == GetOr(task1, "eligibility", Rules.DefaultEligibility());
    }
    if ReadTemplate(workflow).Ok? {
      PlanFromSameKept(ReadTemplate(workflow).value, ReadTemplate(w2).value, facts);
    }
  }

  /** A kept task with a malformed deadline (or title) makes generation
      fail. */
  lemma ActiveBadDeadlineRejected(workflow: Object, facts: Object, id: string)
    requires ReadTemplate(workflow).Ok?
    requires var t := ReadTemplate(workflow).value;
      id in t.tasks && Rules.IsTaskActive(t.tasks[id], facts) == Ok(true) && !ItemShaped(t.tasks[id])
    ensures GeneratePlan(workflow, facts).Err?
  {
    if GeneratePlan(workflow, facts).Ok? {
      GeneratePlanTasksAreActive(workflow, facts);
      GeneratePlanDeadlines(workflow, facts);
      assert false;
    }
  }
}

=== FILE: facts_normalizer.dfy ===
/** Normalisation of a plan's facts before planning: for the birth
    workflows the child's insurance kind is derived from the two insurance
    flags unless it is already `gkv` or `pkv`. */
module FactsNormalizer {
  import opened Wrappers
  import opened Json

  /** `current in {"gkv", "pkv"}` raises `TypeError` for a list or object. */
  datatype TypeError = Unhashable

  const KindKey: string := "child_insurance_kind"

  /** The insurance kinds the normaliser produces. */
  predicate IsKind(v: Json)
  {
    v == JStr("gkv") || v == JStr("pkv") || v == JStr("unknown")
  }

  predicate IsBirthTemplate(templateKey: string)
  {
    |templateKey| >= 9 && templateKey[..9] == "birth_de/"
  }

  /** The kind the two flags decide: both must be exactly `True`/`False`
      (an identity test, so `1` and `0` do not count). */
  function DerivedKind(facts: Object): (r: Json)
    ensures IsKind(r)
    ensures r == JStr("gkv") <==> Get(facts, "public_insurance") == JBool(true) && Get(facts, "private_insurance") == JBool(false)
    ensures r == JStr("pkv") <==> Get(facts, "public_insurance") == JBool(false) && Get(facts, "private_insurance") == JBool(true)
  {
    var publicInsurance, privateInsurance := Get(facts, "public_insurance"), Get(facts, "private_insurance");
    if publicInsurance == JBool(true) && privateInsurance == JBool(false) then JStr("gkv")
    else if publicInsurance == JBool(false) && privateInsurance == JBool(true) then JStr("pkv")
    else JStr("unknown")
  }

  /** `_normalize_birth_facts`. */
  function NormalizeBirthFacts(facts: Object): (r: Result<Object, TypeError>)
    ensures r.Err? <==> Get(facts, KindKey).JList? || Get(facts, KindKey).JObj?
    ensures r.Ok? ==> KindKey in r.value && IsKind(r.value[KindKey])
    ensures r.Ok? && Get(facts, KindKey) in {JStr("gkv"), JStr("pkv")} ==> r.value == facts
    ensures r.Ok? && Get(facts, KindKey) !in {JStr("gkv"), JStr("pkv")} ==> r.value[KindKey] == DerivedKind(facts)
    ensures r.Ok? ==> forall k :: k != KindKey ==> (k in r.value <==> k in facts) && (k in facts ==> r.value[k] == facts[k])
  {
    var current := Get(facts, KindKey);
    if current.JList? || current.JObj? then Err(Unhashable)
    else if current == JStr("gkv") || current == JStr("pkv") then Ok(facts)
    else
      var derived := DerivedKind(facts);
      if !IsKind(current) || current == JStr("unknown") then Ok(facts[KindKey := derived])
      else Ok(facts)
  }

  /** `normalize_facts`: other workflows get an unchanged copy. */
  function NormalizeFacts(templateKey: string, facts: Object): (r: Result<Object, TypeError>)
    ensures !IsBirthTemplate(templateKey) ==> r == Ok(facts)
    ensures IsBirthTemplate(templateKey) ==> r == NormalizeBirthFacts(facts)
  {
    if IsBirthTemplate(templateKey) then NormalizeBirthFacts(facts) else Ok(facts)
  }

  /** Normalising twice changes nothing more. */
  lemma NormalizeIdempotent(templateKey: string, facts: Object)
    requires NormalizeFacts(templateKey, facts).Ok?
    ensures var once := NormalizeFacts(templateKey, facts).value;
      NormalizeFacts(templateKey, once) == Ok(once)
  {
    if IsBirthTemplate(templateKey) {
      var once := NormalizeBirthFacts(facts).value;
      assert Get(once, "public_insurance") == Get(facts, "public_insurance");
      assert Get(once, "private_insurance") == Get(facts, "private_insurance");
      if Get(once, KindKey) == JStr("unknown") {
        assert once[KindKey := JStr("unknown")] == once;
      }
    }
  }

  /** The kind a birth workflow's facts end up with: a `gkv`/`pkv` already
      there wins, otherwise the flags decide. */
  lemma NormalizedKind(facts: Object)
    requires NormalizeBirthFacts(facts).Ok?
    ensures var kind := NormalizeBirthFacts(facts).value[KindKey];
      && (Get(facts, KindKey) == JStr("gkv") ==> kind == JStr("gkv"))
      && (Get(facts, KindKey) == JStr("pkv") ==> kind == JStr("pkv"))
      && (Get(facts, KindKey) != JStr("gkv") && Get(facts, KindKey) != JStr("pkv") ==> kind == DerivedKind(facts))
  {
  }
}

=== FILE: json.dfy ===
/** JSON-like values as the Python code sees them after `json.load`: `None`,
    `bool`, `int`, `str`, `list` and `dict`. Floating-point numbers are not
    modelled. */
module Json {

  datatype Json =
    | JNull
    | JBool(b: bool)
    | JInt(i: int)
    | JStr(s: string)
    | JList(items: seq<Json>)
    | JObj(fields: map<string, Json>)

  type Object = map<string, Json>

  /** `d.get(key)`: the value under `key`, or `None` when it is absent. */
  function Get(d: Object, key: string): Json
  {
    if key in d then d[key] else JNull
  }

  /** `d.get(key, default)`. */
  function GetOr(d: Object, key: string, default: Json): Json
  {
    if key in d then d[key] else default
  }

  /** Python's `isinstance(v, int)`, which also holds for `bool`. */
  predicate IsPyInt(v: Json)
  {
    v.JInt? || v.JBool?
  }

  /** Python's `bool` values are the integers 0 and 1. */
  function PyIntValue(v: Json): int
    requires IsPyInt(v)
  {
    match v
    case JInt(i) => i
    case JBool(b) => if b then 1 else 0
  }

  /** Python's `==` on decoded JSON values, where `True == 1` and
      `False == 0`. */
  predicate PyEq(a: Json, b: Json)
    decreases a
  {
    if IsPyInt(a) && IsPyInt(b) then PyIntValue(a) == PyIntValue(b)
    else match a
      case JNull => b.JNull?
      case JStr(s) => b.JStr? && b.s == s
      case JList(xs) =>
        b.JList? && |xs| == |b.items|
        && forall k :: 0 <= k < |xs| ==> PyEq(xs[k], b.items[k])
      case JObj(f) =>
        b.JObj? && f.Keys == b.fields.Keys
        && forall k :: k in f ==> PyEq(f[k], b.fields[k])
      case _ => false
  }

  /** Python's `x in xs` for a list `xs`. */
  predicate PyIn(x: Json, xs: seq<Json>)
  {
    exists k :: 0 <= k < |xs| && PyEq(x, xs[k])
  }

  lemma {:induction false} PyEqReflexive(a: Json)
    ensures PyEq(a, a)
    decreases a
  {
    match a
    case JList(xs) =>
      forall k | 0 <= k < |xs|
        ensures PyEq(xs[k], xs[k])
      {
        PyEqReflexive(xs[k]);
      }
    case JObj(f) =>
      forall k | k in f
        ensures PyEq(f[k], f[k])
      {
        PyEqReflexive(f[k]);
      }
    case _ =>
  }
}

=== FILE: outbox.dfy ===
/** The notification outbox: one row per reminder to deliver, enqueued
    once per dedupe key, locked in batches by the dispatcher, and marked
    sent, retried with back-off, or dead.

    The table is a sequence of rows; a row's position stands for the row
    itself, its `id` for the primary key. Instants are those of
    `SendWindow`. */
module Outbox {
  import opened Wrappers
  import opened Json
  import Sorting
  import Counting
  import SendWindow

  datatype Status = Pending | Sending | Sent | Dead

  datatype FailureClass = Retryable | Permanent

  datatype Item = Item(
    id: string,
    profileId: string,
    channel: string,
    kind: string,
    dedupeKey: string,
    payload: Json,
    status: Status,
    failureClass: Option<FailureClass>,
    nextAttemptAt: int,
    attemptCount: int,
    lastErrorCode: Option<string>,
    lastErrorMessage: Option<string>,
    providerMessageId: Option<string>,
    sentAt: Option<int>,
    createdAt: int,
    updatedAt: int)

  type Table = seq<Item>

  const EmailChannel: string := "email"
  const DueSoonType: string := "task_due_soon"

  /** The back-off of the n-th retry, in minutes; later retries use the
      last entry. */
  const BackoffMinutes: seq<int> := [1, 5, 15, 60, 180]

  /** `max_attempts`' default. */
  const DefaultMaxAttempts: int := 5

  /** Stored error messages are cut to this many characters. */
  const MaxErrorMessage: int := 500

  /** A row still `sending` this long after its last update is stuck. */
  const StuckAfter: int := 15 * SendWindow.MicrosPerMinute

  predicate HasKey(table: Table, key: string)
  {
    exists k :: 0 <= k < |table| && table[k].dedupeKey == key
  }

  predicate HasId(table: Table, id: string)
  {
    exists k :: 0 <= k < |table| && table[k].id == id
  }

  /** The unique constraint on `dedupe_key_raw`. */
  ghost predicate UniqueKeys(table: Table)
  {
    forall i, j :: 0 <= i < j < |table| ==> table[i].dedupeKey != table[j].dedupeKey
  }

  /** The primary key. */
  ghost predicate UniqueIds(table: Table)
  {
    forall i, j :: 0 <= i < j < |table| ==> table[i].id != table[j].id
  }

  /** The rows whose primary key is `id` are replaced by `f` of themselves. */
  function UpdateById(table: Table, id: string, f: Item -> Item): (r: Table)
    ensures |r| == |table|
    ensures forall k :: 0 <= k < |table| ==> r[k] == if table[k].id == id then f(table[k]) else table[k]
  {
    seq(|table|, k requires 0 <= k < |table| => if table[k].id == id then f(table[k]) else table[k])
  }

  // ---------------------------------------------------------------------
  // Enqueue

  /** A fresh due-soon row: pending, never attempted, due at once. */
  function NewItem(id: string, profileId: string, key: string, payload: Object, now: int): (item: Item)
    ensures item.status == Pending && item.attemptCount == 0 && item.nextAttemptAt == now
    ensures item.failureClass.None? && item.sentAt.None? && item.createdAt == now
    ensures item.channel == EmailChannel && item.kind == DueSoonType
  {
    Item(id, profileId, EmailChannel, DueSoonType, key, JObj(payload), Pending, None, now, 0,
         None, None, None, None, now, now)
  }

  datatype Enqueued = Enqueued(table: Table, item: Option<Item>, created: bool)

  /** `enqueue_due_soon`: the insert fails on an existing dedupe key or
      primary key, and then nothing is added. */
  function EnqueueDueSoon(table: Table, id: string, profileId: string, key: string, payload: Object, now: int): (r: Enqueued)
    ensures r.created <==> !HasKey(table, key) && !HasId(table, id)
    ensures r.created ==> r.item == Some(NewItem(id, profileId, key, payload, now)) && r.table == table + [r.item.value]
    ensures !r.created ==> r.table == table && r.item.None?
  {
    if HasKey(table, key) || HasId(table, id) then Enqueued(table, None, false)
    else
      var item := NewItem(id, profileId, key, payload, now);
      Enqueued(table + [item], Some(item), true)
  }

  /** Enqueueing keeps dedupe keys unique, and a key that was enqueued once
      is never enqueued again. */
  lemma EnqueueKeepsKeysUnique(table: Table, id: string, profileId: string, key: string, payload: Object, now: int,
                               id2: string, profileId2: string, payload2: Object, now2: int)
    requires UniqueKeys(table)
    ensures var r := EnqueueDueSoon(table, id, profileId, key, payload, now);
      && UniqueKeys(r.table)
      && HasKey(r.table, key) == (r.created || HasKey(table, key))
      && (r.created ==> !EnqueueDueSoon(r.table, id2, profileId2, key, payload2, now2).created)
  {
    var r := EnqueueDueSoon(table, id, profileId, key, payload, now);
    if r.created {
      assert r.table[|table|].dedupeKey == key;
    }
  }

  // ---------------------------------------------------------------------
  // Daily count

  /** The rows of a profile created on a given local day. */
  function CreatedOn(profileId: string, day: int): Item -> bool
  {
    (item: Item) => item.profileId == profileId && SendWindow.LocalDay(item.createdAt) == day
  }

  /** `count_created_today`: the profile's rows created on `now`'s local
      day. */
  function CountCreatedToday(table: Table, profileId: string, now: int): (n: nat)
    ensures n <= |table|
    ensures n == 0 <==> forall k :: 0 <= k < |table| ==>
      table[k].profileId != profileId || SendWindow.LocalDay(table[k].createdAt) != SendWindow.LocalDay(now)
  {
    Counting.CountZeroIff(table, CreatedOn(profileId, SendWindow.LocalDay(now)));
    Counting.CountWhere(table, CreatedOn(profileId, SendWindow.LocalDay(now)))
  }

  /** A row created now counts for its own profile today, and for no other
      profile. */
  lemma CountAfterEnqueue(table: Table, id: string, profileId: string, key: string, payload: Object, now: int, other: string)
    ensures var r := EnqueueDueSoon(table, id, profileId, key, payload, now);
      CountCreatedToday(r.table, other, now)
        == CountCreatedToday(table, other, now) + (if r.created && other == profileId then 1 else 0)
  {
    var r := EnqueueDueSoon(table, id, profileId, key, payload, now);
    if r.created {
      Counting.CountSnoc(table, r.item.value, CreatedOn(other, SendWindow.LocalDay(now)));
    }
  }

  // ---------------------------------------------------------------------
  // Locking a batch

  /** A row the dispatcher may pick: pending and due. */
  predicate Due(item: Item, now: int)
  {
    item.status == Pending && item.nextAttemptAt <= now
  }

  /** The positions from `from` on whose rows are due, in table order. */
  function DueRows(table: Table, now: int, from: nat): (r: seq<int>)
    requires from <= |table|
    ensures forall j :: 0 <= j < |r| ==> from <= r[j] < |table| && Due(table[r[j]], now)
    ensures forall k :: from <= k < |table| && Due(table[k], now) ==> k in multiset(r)
    ensures forall x :: multiset(r)[x] <= 1
    decreases |table| - from
  {
    if from == |table| then []
    else
      var rest := DueRows(table, now, from + 1);
      if Due(table[from], now) then
        assert from !in rest;
        [from] + rest
      else rest
  }

  /** The ordering key of a position: its row's `next_attempt_at`. */
  function NextAttemptKey(table: Table): int -> int
  {
    k => if 0 <= k < |table| then table[k].nextAttemptAt else 0
  }

  function Lock(item: Item, now: int): Item
  {
    item.(status := Sending, updatedAt := now)
  }

  /** The locked rows, their positions, and the table after locking. */
  datatype Batch = Batch(table: Table, rows: seq<int>, items: seq<Item>)

  /** A sequence without repeated elements. */
  predicate Distinct(s: seq<int>)
  {
    forall i, j :: 0 <= i < j < |s| ==> s[i] != s[j]
  }

  lemma DistinctFromCounts(s: seq<int>)
    requires forall x :: multiset(s)[x] <= 1
    ensures Distinct(s)
  {
    forall i, j | 0 <= i < j < |s| ensures s[i] != s[j] {
      var x := s[j];
      assert s == s[..j] + s[j..];
      assert multiset(s)[x] == multiset(s[..j])[x] + multiset(s[j..])[x];
      assert s[j..][0] == x;
      assert multiset(s[..j])[x] == 0;
      assert s[..j][i] == s[i];
    }
  }

  /** The due positions in ascending `next_attempt_at` order. */
  function DueOrder(table: Table, now: int): (r: seq<int>)
    ensures forall j :: 0 <= j < |r| ==> 0 <= r[j] < |table| && Due(table[r[j]], now)
    ensures forall k :: 0 <= k < |table| && Due(table[k], now) ==> k in r
    ensures Distinct(r)
    ensures forall i, j :: 0 <= i < j < |r| ==> table[r[i]].nextAttemptAt <= table[r[j]].nextAttemptAt
  {
    var due := DueRows(table, now, 0);
    var r := Sorting.SortBy(due, NextAttemptKey(table));
    SameElements(due, r);
    DistinctFromCounts(r);
    AscendingKeys(table, r);
    r
  }

  /** A permutation holds the same elements and no repeats where the
      original has none. */
  lemma SameElements(a: seq<int>, b: seq<int>)
    requires multiset(a) == multiset(b)
    requires forall x :: multiset(a)[x] <= 1
    ensures forall j :: 0 <= j < |b| ==> b[j] in a
    ensures forall x :: x in a ==> x in b
    ensures forall x :: multiset(b)[x] <= 1
  {
    forall j | 0 <= j < |b| ensures b[j] in a {
      assert b[j] in multiset(b);
    }
    forall x | x in a ensures x in b {
      assert x in multiset(a);
    }
  }

  lemma AscendingKeys(table: Table, r: seq<int>)
    requires Sorting.AscendingBy(r, NextAttemptKey(table))
    requires forall j :: 0 <= j < |r| ==> 0 <= r[j] < |table|
    ensures forall i, j :: 0 <= i < j < |r| ==> table[r[i]].nextAttemptAt <= table[r[j]].nextAttemptAt
  {
    forall i, j | 0 <= i < j < |r| ensures table[r[i]].nextAttemptAt <= table[r[j]].nextAttemptAt {
      assert NextAttemptKey(table)(r[i]) <= NextAttemptKey(table)(r[j]);
    }
  }

  /** `lock_pending_batch`: up to `limit` due rows, earliest first, are set
      to `sending`. `limit` is not negative, as PostgreSQL requires of
      `LIMIT`. */
  function LockPendingBatch(table: Table, now: int, limit: int): (r: Batch)
    requires limit >= 0
    ensures LockedBatch(table, now, limit, r)
  {
    var rows := FirstDue(table, now, limit);
    var items := LockedItems(table, rows, now);
    var locked := LockRows(table, rows, now);
    assert forall j :: 0 <= j < |rows| ==> rows[j] in rows;
    forall i, j | 0 <= i < j < |items| ensures items[i].nextAttemptAt <= items[j].nextAttemptAt {
      assert items[i].nextAttemptAt == table[rows[i]].nextAttemptAt;
    }
    Batch(locked, rows, items)
  }

  ghost predicate LockedBatch(table: Table, now: int, limit: int, r: Batch)
  {
    && |r.table| == |table| && |r.rows| == |r.items| <= limit
    && Distinct(r.rows)
    && (forall j :: 0 <= j < |r.rows| ==>
      && 0 <= r.rows[j] < |table| && Due(table[r.rows[j]], now)
      && r.items[j] == Lock(table[r.rows[j]], now) && r.table[r.rows[j]] == r.items[j])
    && (forall k :: 0 <= k < |table| && k !in r.rows ==> r.table[k] == table[k])
    && (forall i, j :: 0 <= i < j < |r.items| ==> r.items[i].nextAttemptAt <= r.items[j].nextAttemptAt)
    && (forall k :: 0 <= k < |table| && Due(table[k], now) && k !in r.rows ==>
      && |r.rows| == limit
      && forall j :: 0 <= j < |r.items| ==> r.items[j].nextAttemptAt <= table[k].nextAttemptAt)
  }

  /** The positions of the first `limit` due rows in `next_attempt_at`
      order. */
  function FirstDue(table: Table, now: int, limit: int): (rows: seq<int>)
    requires limit >= 0
    ensures |rows| <= limit && Distinct(rows)
    ensures forall j :: 0 <= j < |rows| ==> 0 <= rows[j] < |table| && Due(table[rows[j]], now)
    ensures forall i, j :: 0 <= i < j < |rows| ==> table[rows[i]].nextAttemptAt <= table[rows[j]].nextAttemptAt
    ensures forall k :: 0 <= k < |table| && Due(table[k], now) && k !in rows ==>
      && |rows| == limit
      && forall j :: 0 <= j < |rows| ==> table[rows[j]].nextAttemptAt <= table[k].nextAttemptAt
  {
    var order := DueOrder(table, now);
    var n := if limit < |order| then limit else |order|;
    PrefixDue(table, now, n);
    PrefixAscending(table, now, n);
    PrefixEarliest(table, now, n, limit);
    order[..n]
  }

  lemma PrefixDue(table: Table, now: int, n: int)
    requires 0 <= n <= |DueOrder(table, now)|
    ensures var rows := DueOrder(table, now)[..n];
      && Distinct(rows)
      && forall j :: 0 <= j < |rows| ==> 0 <= rows[j] < |table| && Due(table[rows[j]], now)
  {
    var order := DueOrder(table, now);
    assert forall j :: 0 <= j < n ==> order[..n][j] == order[j];
  }

  lemma PrefixAscending(table: Table, now: int, n: int)
    requires 0 <= n <= |DueOrder(table, now)|
    ensures var rows := DueOrder(table, now)[..n];
      forall i, j :: 0 <= i < j < |rows| ==> table[rows[i]].nextAttemptAt <= table[rows[j]].nextAttemptAt
  {
    var order := DueOrder(table, now);
    assert forall j :: 0 <= j < n ==> order[..n][j] == order[j];
  }

  lemma PrefixEarliest(table: Table, now: int, n: int, limit: int)
    requires 0 <= limit && n == if limit < |DueOrder(table, now)| then limit else |DueOrder(table, now)|
    ensures var rows := DueOrder(table, now)[..n];
      forall k :: 0 <= k < |table| && Due(table[k], now) && k !in rows ==>
        && |rows| == limit
        && forall j :: 0 <= j < |rows| ==> table[rows[j]].nextAttemptAt <= table[k].nextAttemptAt
  {
    var order := DueOrder(table, now);
    assert forall j :: 0 <= j < n ==> order[..n][j] == order[j];
    forall k | 0 <= k < |table| && Due(table[k], now) && k !in order[..n]
      ensures n == limit && forall j :: 0 <= j < n ==> table[order[j]].nextAttemptAt <= table[k].nextAttemptAt
    {
      EarliestFirst(table, now, n, k);
    }
  }

  /** The rows at the given positions, locked. */
  function LockedItems(table: Table, rows: seq<int>, now: int): (items: seq<Item>)
    requires forall j :: 0 <= j < |rows| ==> 0 <= rows[j] < |table|
    ensures |items| == |rows|
    ensures forall j :: 0 <= j < |rows| ==> items[j] == Lock(table[rows[j]], now)
  {
    seq(|rows|, j requires 0 <= j < |rows| => Lock(table[rows[j]], now))
  }

  /** The table with the rows at the given positions locked. */
  function LockRows(table: Table, rows: seq<int>, now: int): (r: Table)
    ensures |r| == |table|
    ensures forall k :: 0 <= k < |table| ==> r[k] == if k in rows then Lock(table[k], now) else table[k]
  {
    seq(|table|, k requires 0 <= k < |table| => if k in rows then Lock(table[k], now) else table[k])
  }

  /** A due row left out of the first `n` of the order comes after all of
      them. */
  lemma EarliestFirst(table: Table, now: int, n: int, k: int)
    requires 0 <= n <= |DueOrder(table, now)|
    requires 0 <= k < |table| && Due(table[k], now) && k !in DueOrder(table, now)[..n]
    ensures n < |DueOrder(table, now)|
    ensures forall j :: 0 <= j < n ==> table[DueOrder(table, now)[j]].nextAttemptAt <= table[k].nextAttemptAt
  {
    var order := DueOrder(table, now);
    var p :| 0 <= p < |order| && order[p] == k;
    assert p >= n by {
      assert forall q :: 0 <= q < n ==> order[..n][q] == order[q];
    }
  }

  // ---------------------------------------------------------------------
  // Outcomes of a send

  function SentItem(item: Item, providerMessageId: Option<string>, now: int): Item
  {
    item.(status := Sent, failureClass := None, providerMessageId := providerMessageId, sentAt := Some(now), updatedAt := now)
  }

  /** `mark_sent`; an unknown id changes nothing. */
  function MarkSent(table: Table, id: string, providerMessageId: Option<string>, now: int): (r: Table)
    ensures |r| == |table|
    ensures forall k :: 0 <= k < |table| && table[k].id == id ==>
      r[k].status == Sent && r[k].failureClass.None? && r[k].sentAt == Some(now)
      && r[k].providerMessageId == providerMessageId && r[k].attemptCount == table[k].attemptCount
      && r[k].dedupeKey == table[k].dedupeKey
    ensures forall k :: 0 <= k < |table| && table[k].id != id ==> r[k] == table[k]
  {
    UpdateById(table, id, (item: Item) => SentItem(item, providerMessageId, now))
  }

  /** `(s or "")[:n]`. */
  function Truncated(s: Option<string>, n: nat): (r: string)
    ensures |r| <= n
    ensures s.None? ==> r == ""
    ensures s.Some? ==> |r| <= |s.value| && r == s.value[..|r|] && (|s.value| <= n ==> r == s.value)
  {
    if s.None? then "" else if |s.value| <= n then s.value else s.value[..n]
  }

  /** The position in `BackoffMinutes` of the back-off after the given
      attempt count: `max(0, min(attempt - 1, 4))`. */
  function BackoffIndex(attempt: int): (i: int)
    ensures 0 <= i < |BackoffMinutes|
  {
    var i := if attempt - 1 < |BackoffMinutes| - 1 then attempt - 1 else |BackoffMinutes| - 1;
    if i < 0 then 0 else i
  }

  /** The back-off never shrinks as attempts accumulate. */
  lemma BackoffMonotone(a: int, b: int)
    requires a <= b
    ensures BackoffMinutes[BackoffIndex(a)] <= BackoffMinutes[BackoffIndex(b)]
    ensures 1 <= BackoffMinutes[BackoffIndex(a)] <= 180
  {
  }

  /** `timedelta(minutes=minutes * jitter)` in microseconds, for a jitter
      drawn from [0.9, 1.1]. */
  function JitteredDelay(minutes: int, jitter: real): (d: int)
    requires 1 <= minutes && 0.9 <= jitter <= 1.1
    ensures 9 * minutes * SendWindow.MicrosPerMinute <= 10 * d + 10
    ensures 10 * d <= 11 * minutes * SendWindow.MicrosPerMinute
    ensures d > 0
  {
    var x := (minutes as real) * jitter * (SendWindow.MicrosPerMinute as real);
    assert (minutes as real) * jitter >= (minutes as real) * 0.9;
    assert (minutes as real) * jitter <= (minutes as real) * 1.1;
    x.Floor
  }

  /** The instant the jittered back-off after `attempt` attempts ends. */
  function RetryCandidate(now: int, attempt: int, jitter: real): int
    requires 0.9 <= jitter <= 1.1
  {
    now + JitteredDelay(BackoffMinutes[BackoffIndex(attempt)], jitter)
  }

  /** When a retryable failure is tried again: the jittered back-off, moved
      to the next window start when it falls outside the send window. So the
      retry is the first instant inside the window at or after the end of
      the back-off, and inside the window it is at most 1.1 times the
      back-off away. */
  function RetryAt(now: int, attempt: int, jitter: real): (t: int)
    requires 0.9 <= jitter <= 1.1
    ensures t > now && SendWindow.IsWithinSendWindow(t)
    ensures 9 * BackoffMinutes[BackoffIndex(attempt)] * SendWindow.MicrosPerMinute <= 10 * (t - now) + 10
    ensures t >= RetryCandidate(now, attempt, jitter)
    ensures forall u :: RetryCandidate(now, attempt, jitter) <= u < t ==> !SendWindow.IsWithinSendWindow(u)
    ensures SendWindow.IsWithinSendWindow(RetryCandidate(now, attempt, jitter)) ==>
      10 * (t - now) <= 11 * BackoffMinutes[BackoffIndex(attempt)] * SendWindow.MicrosPerMinute
  {
    var candidate := RetryCandidate(now, attempt, jitter);
    if SendWindow.IsWithinSendWindow(candidate) then candidate
    else
      SendWindow.NextSendWindowStartIsNext(candidate, candidate);
      assert forall u :: candidate <= u < SendWindow.NextSendWindowStart(candidate) ==> !SendWindow.IsWithinSendWindow(u) by {
        forall u | candidate <= u < SendWindow.NextSendWindowStart(candidate)
          ensures !SendWindow.IsWithinSendWindow(u)
        {
          SendWindow.QuietUntilNextStart(candidate, u);
        }
      }
      SendWindow.NextSendWindowStart(candidate)
  }

  /** One failed attempt of a row. */
  function FailedItem(item: Item, failureClass: FailureClass, errorCode: Option<string>, errorMessage: Option<string>,
                      now: int, maxAttempts: int, jitter: real): (r: Item)
    requires 0.9 <= jitter <= 1.1
    ensures r.attemptCount == item.attemptCount + 1
    ensures r.status == Dead <==> failureClass == Permanent || item.attemptCount + 1 >= maxAttempts
    ensures r.status != Dead ==> r.status == Pending && r.failureClass == Some(Retryable)
    ensures r.status != Dead ==> r.lastErrorCode == errorCode
    ensures r.status != Dead ==> r.nextAttemptAt > now && SendWindow.IsWithinSendWindow(r.nextAttemptAt)
    ensures r.status != Dead ==> r.nextAttemptAt == RetryAt(now, item.attemptCount + 1, jitter)
    ensures r.status == Dead ==> r.failureClass == Some(Permanent) && r.nextAttemptAt == now
    ensures r.status == Dead && failureClass == Retryable ==> r.lastErrorCode == Some("retry_exhausted")
    ensures failureClass == Permanent ==> r.lastErrorCode == errorCode
    ensures r.lastErrorMessage == Some(Truncated(errorMessage, MaxErrorMessage))
    ensures r.updatedAt == now
    ensures r.id == item.id && r.dedupeKey == item.dedupeKey && r.payload == item.payload
      && r.sentAt == item.sentAt && r.createdAt == item.createdAt
  {
    var attempted := item.(attemptCount := item.attemptCount + 1, failureClass := Some(failureClass),
      lastErrorCode := errorCode, lastErrorMessage := Some(Truncated(errorMessage, MaxErrorMessage)), updatedAt := now);
    if failureClass == Permanent then attempted.(status := Dead, nextAttemptAt := now)
    else if attempted.attemptCount >= maxAttempts then
      attempted.(status := Dead, failureClass := Some(Permanent), lastErrorCode := Some("retry_exhausted"), nextAttemptAt := now)
    else
      assert failureClass == Retryable;
      attempted.(status := Pending, nextAttemptAt := RetryAt(now, attempted.attemptCount, jitter))
  }

  /** `mark_failed_or_retry`; an unknown id changes nothing. */
  function MarkFailedOrRetry(table: Table, id: string, failureClass: FailureClass, errorCode: Option<string>,
                             errorMessage: Option<string>, now: int, maxAttempts: int, jitter: real): (r: Table)
    requires 0.9 <= jitter <= 1.1
    ensures |r| == |table|
    ensures forall k :: 0 <= k < |table| && table[k].id == id ==>
      r[k] == FailedItem(table[k], failureClass, errorCode, errorMessage, now, maxAttempts, jitter)
    ensures forall k :: 0 <= k < |table| && table[k].id != id ==> r[k] == table[k]
  {
    UpdateById(table, id, (item: Item) => FailedItem(item, failureClass, errorCode, errorMessage, now, maxAttempts, jitter))
  }

  /** A row after a series of retryable failures, one per (instant, jitter)
      pair. */
  function RetriedItem(item: Item, attempts: seq<(int, real)>, maxAttempts: int): Item
    requires forall i :: 0 <= i < |attempts| ==> 0.9 <= attempts[i].1 <= 1.1
  {
    if |attempts| == 0 then item
    else
      var last := attempts[|attempts| - 1];
      FailedItem(RetriedItem(item, attempts[..|attempts| - 1], maxAttempts), Retryable, None, None, last.0, maxAttempts, last.1)
  }

  /** Retrying is bounded: each failure adds one attempt, and a row dies
      exactly when its attempts reach `max_attempts`. */
  lemma {:induction false} RetriesExhaust(item: Item, attempts: seq<(int, real)>, maxAttempts: int)
    requires forall i :: 0 <= i < |attempts| ==> 0.9 <= attempts[i].1 <= 1.1
    ensures RetriedItem(item, attempts, maxAttempts).attemptCount == item.attemptCount + |attempts|
    ensures |attempts| > 0 ==>
      (RetriedItem(item, attempts, maxAttempts).status == Dead <==> item.attemptCount + |attempts| >= maxAttempts)
  {
    if |attempts| > 0 {
      RetriesExhaust(item, attempts[..|attempts| - 1], maxAttempts);
    }
  }

  // ---------------------------------------------------------------------
  // Stuck rows

  predicate Stuck(item: Item, now: int)
  {
    item.status == Sending && item.updatedAt < now - StuckAfter
  }

  function RecoveredItem(item: Item, now: int): Item
  {
    item.(status := Pending, failureClass := Some(Retryable), lastErrorCode := Some("stuck_sending_recovered"),
          lastErrorMessage := Some("Recovered stale sending item"),
          nextAttemptAt := SendWindow.NextSendWindowStart(now), updatedAt := now)
  }

  /** `recover_stuck_sending`: rows left `sending` for more than 15 minutes
      go back to `pending` for the next window start; the result counts
      them. */
  function RecoverStuckSending(table: Table, now: int): (r: (Table, nat))
    ensures |r.0| == |table| && r.1 <= |table|
    ensures forall k :: 0 <= k < |table| && Stuck(table[k], now) ==>
      && r.0[k].status == Pending && r.0[k].lastErrorCode == Some("stuck_sending_recovered")
      && r.0[k].nextAttemptAt == SendWindow.NextSendWindowStart(now)
      && r.0[k].attemptCount == table[k].attemptCount && r.0[k].id == table[k].id
      && r.0[k].failureClass == Some(Retryable) && r.0[k].lastErrorMessage == Some("Recovered stale sending item")
      && r.0[k].updatedAt == now
    ensures forall k :: 0 <= k < |table| && !Stuck(table[k], now) ==> r.0[k] == table[k]
    ensures r.1 == 0 <==> r.0 == table
    ensures r.1 == |Counting.Positions(table, (item: Item) => Stuck(item, now))|
  {
    var recovered := seq(|table|, k requires 0 <= k < |table| =>
      if Stuck(table[k], now) then RecoveredItem(table[k], now) else table[k]);
    var count := Counting.CountWhere(table, (item: Item) => Stuck(item, now));
    Counting.CountZeroIff(table, (item: Item) => Stuck(item, now));
    Counting.CountIsPositions(table, (item: Item) => Stuck(item, now));
    assert count != 0 ==> recovered != table by {
      if count != 0 {
        var k :| 0 <= k < |table| && Stuck(table[k], now);
        assert recovered[k].status != table[k].status;
      }
    }
    (recovered, count)
  }

  /** Recovery is idempotent: right after it nothing is stuck. */
  lemma RecoverIdempotent(table: Table, now: int)
    ensures var r := RecoverStuckSending(table, now);
      RecoverStuckSending(r.0, now) == (r.0, 0)
  {
    var r := RecoverStuckSending(table, now);
    assert forall k :: 0 <= k < |r.0| ==> !Stuck(r.0[k], now);
    Counting.CountZeroIff(r.0, (item: Item) => Stuck(item, now));
  }

  /** A sent row is final: no later batch picks it and recovery leaves it
      alone. */
  lemma SentIsFinal(table: Table, id: string, providerMessageId: Option<string>, now: int, later: int, limit: int)
    requires limit >= 0
    ensures var t := MarkSent(table, id, providerMessageId, now);
      && (forall k :: 0 <= k < |t| && table[k].id == id ==> k !in LockPendingBatch(t, later, limit).rows)
      && (forall k :: 0 <= k < |t| && table[k].id == id ==> RecoverStuckSending(t, later).0[k] == t[k])
  {
  }

  // ---------------------------------------------------------------------
  // Quiet hours

  function QuietHoursItem(item: Item, now: int): Item
  {
    item.(status := Pending, lastErrorCode := Some("QUIET_HOURS"),
          nextAttemptAt := SendWindow.NextSendWindowStart(now), updatedAt := now)
  }

  /** Putting a locked row back for the next window start without counting
      an attempt: the behaviour the dispatcher's quiet-hours branch calls
      for, which the outbox service itself does not define. */
  function RescheduleQuietHours(table: Table, id: string, now: int): (r: Table)
    ensures |r| == |table|
    ensures forall k :: 0 <= k < |table| && table[k].id == id ==>
      && r[k].status == Pending && r[k].lastErrorCode == Some("QUIET_HOURS")
      && r[k].attemptCount == table[k].attemptCount
      && r[k].nextAttemptAt == SendWindow.NextSendWindowStart(now)
    ensures forall k :: 0 <= k < |table| && table[k].id != id ==> r[k] == table[k]
  {
    UpdateById(table, id, (item: Item) => QuietHoursItem(item, now))
  }

  /** A rescheduled row waits exactly until the window opens: it is not due
      before the next window start and is due from then on. */
  lemma RescheduledWaitsForWindow(table: Table, id: string, now: int, k: int, later: int)
    requires 0 <= k < |table| && table[k].id == id
    ensures var r := RescheduleQuietHours(table, id, now);
      Due(r[k], later) <==> later >= SendWindow.NextSendWindowStart(now)
    ensures SendWindow.IsWithinSendWindow(RescheduleQuietHours(table, id, now)[k].nextAttemptAt)
  {
    SendWindow.NextSendWindowStartIsNext(now, now);
  }
}

=== FILE: plan_service.dfy ===
/** The plan service: creating a plan from a workflow and the user's facts,
    recomputing its tasks, and merging new facts into it.

    The database is a map of plan rows and a sequence of task rows; the
    clock (`now`) and new ids are parameters, and the workflow files are
    the map `TemplateRepository.Load` reads. Persistence failures are not
    modelled. */
module PlanService {
  import opened Wrappers
  import opened Json
  import opened ApiErrors
  import opened PlannerErrors
  import Calendar
  import Deadlines
  import Engine
  import FactsNormalizer
  import TemplateRepository
  import TaskService

  type Task = TaskService.Task
  type Files = map<(string, string), Json>

  /** What escapes the service: an `ApiError`, or an exception no handler
      catches (a `TypeError` from the facts normaliser, an `OverflowError`
      from date arithmetic). */
  datatype ServiceError = Api(error: ApiError) | Unhandled(exception: string)

  /** A row of the `plans` table, with the parts of the snapshot the model
      keeps: the planner's task list and `task_count`. */
  datatype PlanRecord = PlanRecord(
    id: string,
    templateKey: string,
    facts: Json,
    plannerTasks: seq<Engine.PlanItem>,
    taskCount: int,
    updatedAt: int)

  // ---------------------------------------------------------------------
  // Errors

  /** `get_plan`. */
  function GetPlan(plans: map<string, PlanRecord>, planId: string): (r: Result<PlanRecord, ApiError>)
    ensures r.Ok? <==> planId in plans
    ensures r.Ok? ==> r.value == plans[planId]
    ensures r.Err? ==> r.error == PlanNotFound
  {
    if planId in plans then Ok(plans[planId]) else Err(PlanNotFound)
  }

  /** The service's handler for planner failures as written: it catches the
      planner's error classes and `ValueError`, so an `OverflowError` from a
      deadline outside the range of `date` escapes it. */
  function PlannerFailureAsWritten(f: Failure): (r: ServiceError)
    ensures IsValueError(f) ==> r == Api(PlannerInputInvalid)
    ensures !IsValueError(f) ==> r.Unhandled?
  {
    if IsValueError(f) then Api(PlannerInputInvalid) else Unhandled("OverflowError")
  }

  // ---------------------------------------------------------------------
  // Task rows

  /** `datetime.fromisoformat(raw).date()` on a planner deadline: `null`
      means no due date, anything but a date string is bad input. */
  function DueDateOf(raw: Json): (r: Result<Option<int>, ApiError>)
    ensures raw.JNull? ==> r == Ok(None)
    ensures r.Ok? && r.value.Some? <==> raw.JStr? && Calendar.ParseIsoDate(raw.s).Some?
    ensures r.Ok? && r.value.Some? ==> r.value.value == Calendar.ParseIsoDate(raw.s).value
    ensures r.Err? <==> !raw.JNull? && !(raw.JStr? && Calendar.ParseIsoDate(raw.s).Some?)
    ensures r.Err? ==> r.error == PlannerInputInvalid
  {
    if raw.JNull? then Ok(None)
    else if !raw.JStr? then Err(PlannerInputInvalid)
    else match Calendar.ParseIsoDate(raw.s)
      case None => Err(PlannerInputInvalid)
      case Some(d) => Ok(Some(d))
  }

  /** The template's entry for a task, `{}` when it is missing or not an
      object. */
  function TemplateTask(template: Object, id: string): Object
  {
    var tasks := GetOr(template, "tasks", JObj(map[]));
    if tasks.JObj? && id in tasks.fields && tasks.fields[id].JObj? then tasks.fields[id].fields else map[]
  }

  function StrList(xs: seq<string>): (r: seq<Json>)
    ensures |r| == |xs| && forall k :: 0 <= k < |xs| ==> r[k] == JStr(xs[k])
  {
    if |xs| == 0 then [] else [JStr(xs[0])] + StrList(xs[1..])
  }

  /** A task row's metadata: the planner's `meta` (`{}` when falsy or not
      an object) overridden by the template's `category` and `priority`,
      its `tags` list (or `[]`), the item's dependencies as `blocked_by`,
      and `block_type` "hard". */
  function Metadata(item: Engine.PlanItem, templateTask: Object): (r: Object)
    ensures r.Keys == item.meta.Keys + {"category", "priority", "tags", "blocked_by", "block_type"}
    ensures r["category"] == Get(templateTask, "category") && r["priority"] == Get(templateTask, "priority")
    ensures r["tags"] == if Get(templateTask, "tags").JList? then Get(templateTask, "tags") else JList([])
    ensures r["blocked_by"] == JList(StrList(item.dependsOn))
    ensures r["block_type"] == JStr("hard")
    ensures forall k :: k in item.meta && k !in {"category", "priority", "tags", "blocked_by", "block_type"} ==> r[k] == item.meta[k]
  {
    var tags := Get(templateTask, "tags");
    item.meta + map[
      "category" := Get(templateTask, "category"),
      "priority" := Get(templateTask, "priority"),
      "tags" := (if tags.JList? then tags else JList([])),
      "blocked_by" := JList(StrList(item.dependsOn)),
      "block_type" := JStr("hard")]
  }

  /** The task row for the planner's item at position `index` with due
      date `due`; `done` holds the completion time of every key that was
      done before. */
  function MakeRow(planId: string, index: int, item: Engine.PlanItem, due: Option<int>, template: Object,
                   done: map<string, Option<int>>, now: int): (r: Task)
    ensures r.planId == planId && r.taskKey == item.id && r.title == item.title
    ensures r.sortKey == index && r.dueDate == due
    ensures r.metadata == Metadata(item, TemplateTask(template, item.id))
    ensures r.status == TaskService.Done <==> item.id in done
    ensures item.id !in done ==> r.status == TaskService.Todo && r.completedAt.None?
    ensures item.id in done ==> r.completedAt == done[item.id]
  {
    var wasDone := item.id in done;
    TaskService.Task(planId, item.id, item.title,
      if wasDone then TaskService.Done else TaskService.Todo,
      due, Metadata(item, TemplateTask(template, item.id)), index,
      if wasDone then done[item.id] else None, now)
  }

  /** Every item's deadline from position `start` on reads as a due date. */
  ghost predicate DeadlinesRead(items: seq<Engine.PlanItem>, start: nat)
  {
    forall k :: start <= k < |items| ==> DueDateOf(JStr(items[k].deadline)).Ok?
  }

  /** `due` is what the deadline of `items[k]` reads as. */
  ghost predicate DueRead(items: seq<Engine.PlanItem>, k: int, due: Option<int>)
    requires 0 <= k < |items|
  {
    DueDateOf(JStr(items[k].deadline)) == Ok(due)
  }

  /** The due dates of the items from position `start` on; the first bad
      deadline is raised. */
  function DueDates(items: seq<Engine.PlanItem>, start: nat): (r: Result<seq<Option<int>>, ApiError>)
    requires start <= |items|
    ensures r.Ok? <==> DeadlinesRead(items, start)
    ensures r.Err? ==> r.error == PlannerInputInvalid
    ensures r.Ok? ==> |r.value| == |items| - start
    ensures r.Ok? ==> forall k :: 0 <= k < |r.value| ==> DueRead(items, start + k, r.value[k])
    decreases |items| - start
  {
    if start == |items| then Ok([])
    else
      match DueDateOf(JStr(items[start].deadline))
      case Err(e) => Err(e)
      case Ok(due) =>
        match DueDates(items, start + 1)
        case Err(e) => Err(e)
        case Ok(rest) =>
          var r := [due] + rest;
          assert forall k :: start + 1 <= k < |items| ==> DueDateOf(JStr(items[k].deadline)).Ok?;
          assert forall k :: 0 <= k < |r| ==> DueRead(items, start + k, r[k]) by {
            forall k | 0 <= k < |r| ensures DueRead(items, start + k, r[k]) {
              if k > 0 {
                assert r[k] == rest[k - 1];
              }
            }
          }
          Ok(r)
  }

  /** The rows of a planner plan's items, `sort_key` numbering them from 0
      in the planner's order. */
  function BuildRows(planId: string, items: seq<Engine.PlanItem>, template: Object,
                     done: map<string, Option<int>>, now: int): (r: Result<seq<Task>, ApiError>)
    ensures r.Ok? <==> DeadlinesRead(items, 0)
    ensures r.Err? ==> r.error == PlannerInputInvalid
    ensures r.Ok? ==> |r.value| == |items|
    ensures r.Ok? ==> forall k :: 0 <= k < |items| ==>
      r.value[k] == MakeRow(planId, k, items[k], DueDateOf(JStr(items[k].deadline)).value, template, done, now)
  {
    var dues :- DueDates(items, 0);
    assert forall k :: 0 <= k < |items| ==> DueRead(items, k, dues[k]);
    Ok(seq(|items|, k requires 0 <= k < |items| => MakeRow(planId, k, items[k], dues[k], template, done, now)))
  }

  /** The planner's deadlines are ISO dates. */
  lemma PlannedDeadlinesParse(workflow: Object, facts: Object)
    requires Engine.GeneratePlan(workflow, facts).Ok?
    ensures var items := Engine.GeneratePlan(workflow, facts).value.tasks;
      forall k :: 0 <= k < |items| ==> Calendar.ParseIsoDate(items[k].deadline).Some?
  {
    Engine.GeneratePlanDeadlines(workflow, facts);
  }

  /** The planner's own deadlines always parse, so its items always build,
      each into the row for its position. */
  lemma PlannedRows(workflow: Object, facts: Object, planId: string, done: map<string, Option<int>>, now: int)
    requires Engine.GeneratePlan(workflow, facts).Ok?
    ensures var items := Engine.GeneratePlan(workflow, facts).value.tasks;
      var built := BuildRows(planId, items, workflow, done, now);
      && built.Ok? && |built.value| == |items|
      && forall k :: 0 <= k < |items| ==> RebuiltRow(workflow, planId, k, items[k], done, now, built.value[k])
  {
    var items := Engine.GeneratePlan(workflow, facts).value.tasks;
    PlannedDeadlinesParse(workflow, facts);
    assert DeadlinesRead(items, 0);
    var built := BuildRows(planId, items, workflow, done, now);
    forall k | 0 <= k < |items| ensures RebuiltRow(workflow, planId, k, items[k], done, now, built.value[k]) {
      assert DueDateOf(JStr(items[k].deadline)) == Ok(Calendar.ParseIsoDate(items[k].deadline));
    }
  }

  // ---------------------------------------------------------------------
  // Planning

  /** Load the workflow, normalise the facts and run the planner: the part
      `create_plan` and `recompute_plan` share. */
  function Plan(templateKey: string, facts: Object, files: Files)
    : (r: Result<(Object, Object, Engine.Plan), ServiceError>)
    ensures TemplateRepository.Load(templateKey, files).Err? ==> r == Err(Api(TemplateRepository.Load(templateKey, files).error))
    ensures r.Ok? ==>
      var (template, normalized, planned) := r.value;
      && TemplateRepository.Load(templateKey, files) == Ok(template)
      && FactsNormalizer.NormalizeFacts(templateKey, facts) == Ok(normalized)
      && Engine.GeneratePlan(template, normalized) == Ok(planned)
    ensures r.Err? && r.error.Api? ==> r.error.error in {TemplateNotFound, PlannerInputInvalid}
    ensures TemplateRepository.Load(templateKey, files).Ok? ==>
      var normalized := FactsNormalizer.NormalizeFacts(templateKey, facts);
      && (normalized.Err? ==> r == Err(Unhandled("TypeError")))
      && (normalized.Ok? && Engine.GeneratePlan(TemplateRepository.Load(templateKey, files).value, normalized.value).Err? ==>
            r == Err(Api(PlannerInputInvalid)))
  {
    match TemplateRepository.Load(templateKey, files)
    case Err(e) => Err(Api(e))
    case Ok(template) =>
      match FactsNormalizer.NormalizeFacts(templateKey, facts)
      case Err(_) => Err(Unhandled("TypeError"))
      case Ok(normalized) =>
        match Engine.GeneratePlan(template, normalized)
        case Err(_) => Err(Api(PlannerInputInvalid))
        case Ok(planned) =>
          Ok((template, normalized, planned))
  }

  /** The planner failed on the loaded template and the normalised facts
      with an `OverflowError`: some active deadline lands outside `date`. */
  ghost predicate PlannerOverflows(templateKey: string, facts: Object, files: Files)
  {
    var loaded := TemplateRepository.Load(templateKey, files);
    var normalized := FactsNormalizer.NormalizeFacts(templateKey, facts);
    && loaded.Ok? && normalized.Ok?
    && Engine.GeneratePlan(loaded.value, normalized.value) == Err(DateOverflow)
  }

  /** The planning step with the service's handler as written: it differs
      from the corrected `Plan` exactly when the planner overflows, where it
      lets the `OverflowError` through (a 500) instead of answering 400. */
  function PlanAsWritten(templateKey: string, facts: Object, files: Files)
    : (r: Result<(Object, Object, Engine.Plan), ServiceError>)
    ensures r != Plan(templateKey, facts, files) <==> PlannerOverflows(templateKey, facts, files)
    ensures PlannerOverflows(templateKey, facts, files) ==>
      r == Err(Unhandled("OverflowError")) && Plan(templateKey, facts, files) == Err(Api(PlannerInputInvalid))
  {
    match TemplateRepository.Load(templateKey, files)
    case Err(e) => Err(Api(e))
    case Ok(template) =>
      match FactsNormalizer.NormalizeFacts(templateKey, facts)
      case Err(_) => Err(Unhandled("TypeError"))
      case Ok(normalized) =>
        match Engine.GeneratePlan(template, normalized)
        case Err(f) => Err(PlannerFailureAsWritten(f))
        case Ok(planned) =>
          Ok((template, normalized, planned))
  }

  // ---------------------------------------------------------------------
  // The store

  /** The two tables: plans by id and the task rows in storage order. */
  datatype Store = Store(plans: map<string, PlanRecord>, rows: seq<Task>)

  /** The rows of every other plan, in order. */
  function OtherRows(rows: seq<Task>, planId: string): (r: seq<Task>)
    ensures forall t :: multiset(r)[t] == if t.planId != planId then multiset(rows)[t] else 0
    ensures forall t :: t in r ==> t.planId != planId
  {
    if |rows| == 0 then []
    else
      var rest := OtherRows(rows[1..], planId);
      assert rows == [rows[0]] + rows[1..];
      if rows[0].planId != planId then [rows[0]] + rest else rest
  }

  /** Filtering another plan's rows out of a concatenation filters each
      part. */
  lemma {:induction false} OtherRowsAppend(a: seq<Task>, b: seq<Task>, planId: string)
    ensures OtherRows(a + b, planId) == OtherRows(a, planId) + OtherRows(b, planId)
    decreases |a|
  {
    if |a| == 0 {
      assert a + b == b;
    } else {
      assert (a + b)[1..] == a[1..] + b;
      OtherRowsAppend(a[1..], b, planId);
    }
  }

  /** Filtering keeps a sequence of other plans' rows and drops the plan's
      own. */
  lemma {:induction false} OtherRowsOfPlan(rows: seq<Task>, planId: string)
    ensures (forall t :: t in rows ==> t.planId != planId) ==> OtherRows(rows, planId) == rows
    ensures (forall t :: t in rows ==> t.planId == planId) ==> OtherRows(rows, planId) == []
    decreases |rows|
  {
    if |rows| > 0 {
      OtherRowsOfPlan(rows[1..], planId);
      assert rows == [rows[0]] + rows[1..];
    }
  }

  /** The same for the task service's selection of one plan's rows. */
  lemma {:induction false} SelectAppend(a: seq<Task>, b: seq<Task>, planId: string)
    ensures TaskService.Select(a + b, planId, None) == TaskService.Select(a, planId, None) + TaskService.Select(b, planId, None)
    decreases |a|
  {
    if |a| == 0 {
      assert a + b == b;
    } else {
      assert (a + b)[1..] == a[1..] + b;
      SelectAppend(a[1..], b, planId);
    }
  }

  lemma {:induction false} SelectOfPlan(rows: seq<Task>, planId: string)
    ensures (forall t :: t in rows ==> t.planId != planId) ==> TaskService.Select(rows, planId, None) == []
    ensures (forall t :: t in rows ==> t.planId == planId) ==> TaskService.Select(rows, planId, None) == rows
    decreases |rows|
  {
    if |rows| > 0 {
      SelectOfPlan(rows[1..], planId);
      assert rows == [rows[0]] + rows[1..];
    }
  }

  /** Row `i` is a done row of the plan with key `key`. */
  predicate IsDoneRow(rows: seq<Task>, i: int, planId: string, key: string)
    requires 0 <= i < |rows|
  {
    rows[i].planId == planId && rows[i].status == TaskService.Done && rows[i].taskKey == key
  }

  /** `done_status_by_task_key`: the keys of the plan's done rows with
      their completion times. */
  function DoneKeys(rows: seq<Task>, planId: string): (r: map<string, Option<int>>)
    ensures forall key :: key in r <==> exists i :: 0 <= i < |rows| && IsDoneRow(rows, i, planId, key)
  {
    if |rows| == 0 then map[]
    else
      var init := rows[..|rows| - 1];
      var last := rows[|rows| - 1];
      var m := DoneKeys(init, planId);
      assert forall i, key :: 0 <= i < |init| ==> (IsDoneRow(init, i, planId, key) <==> IsDoneRow(rows, i, planId, key));
      if last.planId == planId && last.status == TaskService.Done then
        assert IsDoneRow(rows, |rows| - 1, planId, last.taskKey);
        m[last.taskKey := last.completedAt]
      else
        m
  }

  /** Of two done rows with one key the later one wins: a done row with no
      later done row of its key gives the key's completion time. */
  lemma {:induction false} DoneKeysLatest(rows: seq<Task>, planId: string, i: int)
    requires 0 <= i < |rows| && IsDoneRow(rows, i, planId, rows[i].taskKey)
    requires forall j :: i < j < |rows| ==> !IsDoneRow(rows, j, planId, rows[i].taskKey)
    ensures rows[i].taskKey in DoneKeys(rows, planId)
    ensures DoneKeys(rows, planId)[rows[i].taskKey] == rows[i].completedAt
    decreases |rows|
  {
    var init := rows[..|rows| - 1];
    if i < |rows| - 1 {
      assert init[i] == rows[i];
      forall j | i < j < |init| ensures !IsDoneRow(init, j, planId, init[i].taskKey) {
        assert init[j] == rows[j];
        assert !IsDoneRow(rows, j, planId, rows[i].taskKey);
      }
      DoneKeysLatest(init, planId, i);
      assert !IsDoneRow(rows, |rows| - 1, planId, rows[i].taskKey);
    }
  }

  // ---------------------------------------------------------------------
  // Creating and recomputing plans

  /** A row as `create_plan` inserts it: open, never completed, due on the
      planner's deadline, numbered by its position. */
  ghost predicate CreatedRow(template: Object, planId: string, k: int, item: Engine.PlanItem, now: int, row: Task)
  {
    && row.planId == planId && row.taskKey == item.id && row.title == item.title
    && row.status == TaskService.Todo && row.completedAt.None?
    && row.dueDate == Calendar.ParseIsoDate(item.deadline) && row.dueDate.Some?
    && row.metadata == Metadata(item, TemplateTask(template, item.id))
    && row.sortKey == k && row.updatedAt == now
  }

  /** `create_plan`: the facts are stored normalised, the snapshot keeps the
      planner's tasks and their count, and one open row per planned task is
      appended. The new id is a parameter. */
  function CreatePlan(store: Store, planId: string, templateKey: string, facts: Object, files: Files, now: int)
    : (r: Result<Store, ServiceError>)
    ensures r.Ok? <==> Plan(templateKey, facts, files).Ok?
    ensures r.Err? ==> r.error == Plan(templateKey, facts, files).error
    ensures r.Ok? ==>
      var (template, normalized, planned) := Plan(templateKey, facts, files).value;
      && r.value.plans == store.plans[planId := PlanRecord(planId, templateKey, JObj(normalized), planned.tasks, |planned.tasks|, now)]
      && |r.value.rows| == |store.rows| + |planned.tasks|
      && r.value.rows[..|store.rows|] == store.rows
      && forall k :: 0 <= k < |planned.tasks| ==>
           CreatedRow(template, planId, k, planned.tasks[k], now, r.value.rows[|store.rows| + k])
  {
    var planning := Plan(templateKey, facts, files);
    if planning.Err? then Err(planning.error)
    else
      var (template, normalized, planned) := planning.value;
      Ok(AddPlan(store, planId, templateKey, template, normalized, planned, now))
  }

  /** `create_plan` with the service's handler as written. */
  function CreatePlanAsWritten(store: Store, planId: string, templateKey: string, facts: Object, files: Files, now: int)
    : (r: Result<Store, ServiceError>)
    ensures r.Err? <==> PlanAsWritten(templateKey, facts, files).Err?
    ensures r.Err? ==> r.error == PlanAsWritten(templateKey, facts, files).error
  {
    var planning := PlanAsWritten(templateKey, facts, files);
    if planning.Err? then Err(planning.error)
    else
      var (template, normalized, planned) := planning.value;
      Ok(AddPlan(store, planId, templateKey, template, normalized, planned, now))
  }

  /** The corrected `create_plan` answers 400 where the one as written
      fails with an unhandled `OverflowError`, and the two agree on every
      other request. */
  lemma CreatePlanCorrection(store: Store, planId: string, templateKey: string, facts: Object, files: Files, now: int)
    ensures CreatePlanAsWritten(store, planId, templateKey, facts, files, now) != CreatePlan(store, planId, templateKey, facts, files, now)
      <==> PlannerOverflows(templateKey, facts, files)
    ensures PlannerOverflows(templateKey, facts, files) ==>
      && CreatePlanAsWritten(store, planId, templateKey, facts, files, now) == Err(Unhandled("OverflowError"))
      && CreatePlan(store, planId, templateKey, facts, files, now) == Err(Api(PlannerInputInvalid))
  {
    var written := PlanAsWritten(templateKey, facts, files);
    var corrected := Plan(templateKey, facts, files);
    if !PlannerOverflows(templateKey, facts, files) {
      assert written == corrected;
    }
  }

  /** The store after `create_plan` has planned: the record added and the
      plan's rows appended. */
  function AddPlan(store: Store, planId: string, templateKey: string, template: Object, normalized: Object,
                   planned: Engine.Plan, now: int): (r: Store)
    requires Engine.GeneratePlan(template, normalized) == Ok(planned)
    ensures r.plans == store.plans[planId := PlanRecord(planId, templateKey, JObj(normalized), planned.tasks, |planned.tasks|, now)]
    ensures |r.rows| == |store.rows| + |planned.tasks|
    ensures r.rows[..|store.rows|] == store.rows
    ensures forall k :: 0 <= k < |planned.tasks| ==>
      CreatedRow(template, planId, k, planned.tasks[k], now, r.rows[|store.rows| + k])
  {
    var rows := CreatedRows(template, normalized, planned, planId, store.rows, now);
    var record := PlanRecord(planId, templateKey, JObj(normalized), planned.tasks, |planned.tasks|, now);
    Store(store.plans[planId := record], rows)
  }

  /** The stored rows followed by one new open row per planned item. */
  function CreatedRows(template: Object, normalized: Object, planned: Engine.Plan, planId: string,
                       before: seq<Task>, now: int): (r: seq<Task>)
    requires Engine.GeneratePlan(template, normalized) == Ok(planned)
    ensures |r| == |before| + |planned.tasks|
    ensures r[..|before|] == before
    ensures forall k :: 0 <= k < |planned.tasks| ==> CreatedRow(template, planId, k, planned.tasks[k], now, r[|before| + k])
  {
    PlannedRows(template, normalized, planId, map[], now);
    var rows := BuildRows(planId, planned.tasks, template, map[], now).value;
    AppendCreated(template, before, planId, planned.tasks, now, rows);
    before + rows
  }

  /** The stored rows followed by the rows built for a new plan: the
      stored rows first, then one open row per item. */
  lemma AppendCreated(template: Object, before: seq<Task>, planId: string, items: seq<Engine.PlanItem>, now: int, rows: seq<Task>)
    requires |rows| == |items|
    requires forall k :: 0 <= k < |items| ==> RebuiltRow(template, planId, k, items[k], map[], now, rows[k])
    ensures (before + rows)[..|before|] == before
    ensures forall k :: 0 <= k < |items| ==> CreatedRow(template, planId, k, items[k], now, (before + rows)[|before| + k])
  {
    assert (before + rows)[..|before|] == before;
    forall k | 0 <= k < |items| ensures CreatedRow(template, planId, k, items[k], now, (before + rows)[|before| + k]) {
      assert (before + rows)[|before| + k] == rows[k];
    }
  }

  /** A created plan's rows are all open and without a completion time. */
  lemma CreatedRowsConsistent(store: Store, planId: string, templateKey: string, facts: Object, files: Files, now: int)
    requires CreatePlan(store, planId, templateKey, facts, files, now).Ok?
    ensures var after := CreatePlan(store, planId, templateKey, facts, files, now).value;
      forall i :: |store.rows| <= i < |after.rows| ==>
        after.rows[i].status == TaskService.Todo && TaskService.CompletionConsistent(after.rows[i])
  {
    var after := CreatePlan(store, planId, templateKey, facts, files, now).value;
    var (template, _, planned) := Plan(templateKey, facts, files).value;
    forall i | |store.rows| <= i < |after.rows|
      ensures after.rows[i].status == TaskService.Todo && TaskService.CompletionConsistent(after.rows[i])
    {
      assert CreatedRow(template, planId, i - |store.rows|, planned.tasks[i - |store.rows|], now, after.rows[i]);
    }
  }

  /** The facts `recompute_plan` starts from: the stored ones when they are
      an object, `{}` otherwise. */
  function CurrentFacts(record: PlanRecord): (r: Object)
    ensures record.facts.JObj? ==> r == record.facts.fields
    ensures !record.facts.JObj? ==> r == map[]
  {
    if record.facts.JObj? then record.facts.fields else map[]
  }

  /** A row as `recompute_plan` inserts it: done with its old completion
      time when a done row had its key, open and never completed
      otherwise. */
  ghost predicate RebuiltRow(template: Object, planId: string, k: int, item: Engine.PlanItem, done: map<string, Option<int>>, now: int, row: Task)
  {
    && row.planId == planId && row.taskKey == item.id && row.title == item.title
    && (item.id in done ==> row.status == TaskService.Done && row.completedAt == done[item.id])
    && (item.id !in done ==> row.status == TaskService.Todo && row.completedAt.None?)
    && row.dueDate == Calendar.ParseIsoDate(item.deadline) && row.dueDate.Some?
    && row.metadata == Metadata(item, TemplateTask(template, item.id))
    && row.sortKey == k && row.updatedAt == now
  }

  /** `after` holds the other plans' rows in their order followed by one
      rebuilt row per planned item, the done state taken from `before`. */
  ghost predicate Rebuilt(template: Object, before: seq<Task>, planId: string, items: seq<Engine.PlanItem>, now: int, after: seq<Task>)
  {
    var others := OtherRows(before, planId);
    && |after| == |others| + |items|
    && after[..|others|] == others
    && forall k :: 0 <= k < |items| ==> RebuiltRow(template, planId, k, items[k], DoneKeys(before, planId), now, after[|others| + k])
  }

  /** `recompute_plan`: replan from the stored facts; the plan's rows are
      replaced by one row per planned task, keeping the done state of every
      key that was done, and the other plans' rows stay as they were. A
      missing plan, a missing or invalid workflow and a planner failure
      change nothing. */
  function RecomputePlan(store: Store, planId: string, files: Files, now: int): (r: Result<Store, ServiceError>)
    ensures planId !in store.plans ==> r == Err(Api(PlanNotFound))
    ensures planId in store.plans ==>
      var record := store.plans[planId];
      var planning := Plan(record.templateKey, CurrentFacts(record), files);
      && (r.Ok? <==> planning.Ok?)
      && (r.Err? ==> r.error == planning.error)
      && (r.Ok? ==>
            var (template, normalized, planned) := planning.value;
            && r.value.plans == store.plans[planId := record.(facts := JObj(normalized), plannerTasks := planned.tasks,
                                                                taskCount := |planned.tasks|, updatedAt := now)]
            && Rebuilt(template, store.rows, planId, planned.tasks, now, r.value.rows))
  {
    if planId !in store.plans then Err(Api(PlanNotFound))
    else
      var record := store.plans[planId];
      Replan(store, planId, Plan(record.templateKey, CurrentFacts(record), files), now)
  }

  /** `recompute_plan` with the service's handler as written. */
  function RecomputePlanAsWritten(store: Store, planId: string, files: Files, now: int): (r: Result<Store, ServiceError>)
    ensures planId !in store.plans ==> r == Err(Api(PlanNotFound))
    ensures planId in store.plans ==>
      var record := store.plans[planId];
      var planning := PlanAsWritten(record.templateKey, CurrentFacts(record), files);
      && (r.Ok? <==> planning.Ok?)
      && (r.Err? ==> r.error == planning.error)
  {
    if planId !in store.plans then Err(Api(PlanNotFound))
    else
      var record := store.plans[planId];
      Replan(store, planId, PlanAsWritten(record.templateKey, CurrentFacts(record), files), now)
  }

  /** The part of `recompute_plan` after planning: a failed planning step
      is the answer, a successful one replaces the record's facts and task
      list and rebuilds the plan's rows. */
  function Replan(store: Store, planId: string, planning: Result<(Object, Object, Engine.Plan), ServiceError>, now: int)
    : (r: Result<Store, ServiceError>)
    requires planId in store.plans
    requires planning.Ok? ==> Engine.GeneratePlan(planning.value.0, planning.value.1) == Ok(planning.value.2)
    ensures r.Ok? <==> planning.Ok?
    ensures r.Err? ==> r.error == planning.error
    ensures r.Ok? ==>
      var record := store.plans[planId];
      var (template, normalized, planned) := planning.value;
      && r.value.plans == store.plans[planId := record.(facts := JObj(normalized), plannerTasks := planned.tasks,
                                                          taskCount := |planned.tasks|, updatedAt := now)]
      && Rebuilt(template, store.rows, planId, planned.tasks, now, r.value.rows)
  {
    match planning
    case Err(e) => Err(e)
    case Ok((template, normalized, planned)) =>
      var record := store.plans[planId];
      var done := DoneKeys(store.rows, planId);
      PlannedRows(template, normalized, planId, done, now);
      var rows := BuildRows(planId, planned.tasks, template, done, now).value;
      var updated := record.(facts := JObj(normalized), plannerTasks := planned.tasks,
                             taskCount := |planned.tasks|, updatedAt := now);
      AppendRebuilt(template, store.rows, planId, planned.tasks, now, rows);
      Ok(Store(store.plans[planId := updated], OtherRows(store.rows, planId) + rows))
  }

  /** The corrected `recompute_plan` answers 400 where the one as written
      fails with an unhandled `OverflowError`, and the two agree on every
      other request. */
  lemma RecomputePlanCorrection(store: Store, planId: string, files: Files, now: int)
    ensures RecomputePlanAsWritten(store, planId, files, now) != RecomputePlan(store, planId, files, now)
      <==> planId in store.plans && RecomputeOverflows(store.plans[planId], files)
    ensures planId in store.plans && RecomputeOverflows(store.plans[planId], files) ==>
      && RecomputePlanAsWritten(store, planId, files, now) == Err(Unhandled("OverflowError"))
      && RecomputePlan(store, planId, files, now) == Err(Api(PlannerInputInvalid))
  {
    if planId in store.plans {
      var record := store.plans[planId];
      var written := PlanAsWritten(record.templateKey, CurrentFacts(record), files);
      var corrected := Plan(record.templateKey, CurrentFacts(record), files);
      if !RecomputeOverflows(record, files) {
        assert written == corrected;
      }
    }
  }

  /** Replanning a stored plan from its own facts makes the planner
      overflow. */
  ghost predicate RecomputeOverflows(record: PlanRecord, files: Files)
  {
    PlannerOverflows(record.templateKey, CurrentFacts(record), files)
  }

  /** The other plans' rows followed by one rebuilt row per item make a
      rebuilt table. */
  lemma AppendRebuilt(template: Object, before: seq<Task>, planId: string, items: seq<Engine.PlanItem>, now: int, rows: seq<Task>)
    requires |rows| == |items|
    requires forall k :: 0 <= k < |items| ==> RebuiltRow(template, planId, k, items[k], DoneKeys(before, planId), now, rows[k])
    ensures Rebuilt(template, before, planId, items, now, OtherRows(before, planId) + rows)
  {
    var others := OtherRows(before, planId);
    var after := others + rows;
    assert after[..|others|] == others;
    forall k | 0 <= k < |items|
      ensures RebuiltRow(template, planId, k, items[k], DoneKeys(before, planId), now, after[|others| + k])
    {
      assert after[|others| + k] == rows[k];
    }
  }

  /** After a recompute the plan's rows, as the task service lists them,
      are exactly the rebuilt ones, and every other plan keeps its rows in
      order. */
  lemma RecomputedRows(template: Object, before: seq<Task>, planId: string, items: seq<Engine.PlanItem>, now: int, after: seq<Task>)
    requires Rebuilt(template, before, planId, items, now, after)
    ensures TaskService.Select(after, planId, None) == after[|OtherRows(before, planId)|..]
    ensures OtherRows(after, planId) == OtherRows(before, planId)
  {
    var others := OtherRows(before, planId);
    var rebuilt := after[|others|..];
    assert after == others + rebuilt;
    RebuiltOfPlan(template, planId, items, DoneKeys(before, planId), now, |others|, after);
    SelectAppend(others, rebuilt, planId);
    SelectOfPlan(others, planId);
    SelectOfPlan(rebuilt, planId);
    OtherRowsAppend(others, rebuilt, planId);
    OtherRowsOfPlan(others, planId);
    OtherRowsOfPlan(rebuilt, planId);
  }

  /** Rows rebuilt for a plan, from position `n` on, all belong to it. */
  lemma RebuiltOfPlan(template: Object, planId: string, items: seq<Engine.PlanItem>, done: map<string, Option<int>>,
                      now: int, n: nat, after: seq<Task>)
    requires |after| == n + |items|
    requires forall k :: 0 <= k < |items| ==> RebuiltRow(template, planId, k, items[k], done, now, after[n + k])
    ensures forall t :: t in after[n..] ==> t.planId == planId
  {
    forall t | t in after[n..] ensures t.planId == planId {
      var k :| 0 <= k < |after[n..]| && after[n..][k] == t;
      assert after[n + k] == t;
      assert RebuiltRow(template, planId, k, items[k], done, now, after[n + k]);
    }
  }

  /** A recompute keeps a task done: for a row rebuilt from `before`, when
      the latest done row of the plan with the task's key is row `i`, the
      rebuilt row is done with row `i`'s completion time; a key with no done
      row comes back open. */
  lemma RecomputeKeepsDone(template: Object, before: seq<Task>, planId: string, k: int, item: Engine.PlanItem, now: int, row: Task)
    requires RebuiltRow(template, planId, k, item, DoneKeys(before, planId), now, row)
    ensures row.taskKey == item.id
    ensures (exists i :: 0 <= i < |before| && IsDoneRow(before, i, planId, item.id)) <==> row.status == TaskService.Done
    ensures forall i :: 0 <= i < |before| && IsDoneRow(before, i, planId, item.id)
              && (forall j :: i < j < |before| ==> !IsDoneRow(before, j, planId, item.id))
              ==> row.completedAt == before[i].completedAt
    ensures row.status == TaskService.Todo ==> row.completedAt.None?
  {
    forall i | 0 <= i < |before| && IsDoneRow(before, i, planId, item.id)
        && (forall j :: i < j < |before| ==> !IsDoneRow(before, j, planId, item.id))
      ensures row.completedAt == before[i].completedAt
    {
      DoneKeysLatest(before, planId, i);
    }
  }

  // ---------------------------------------------------------------------
  // Updating facts

  /** What `update_facts` leaves behind: the store, and the error it raised
      if any. The merged facts are committed before the recompute, so a
      failing recompute still leaves them stored. */
  datatype UpdateOutcome = UpdateOutcome(store: Store, error: Option<ServiceError>)

  /** `update_facts`: the patch is merged over the stored facts (the patch
      wins), normalised and committed; then the plan is recomputed when
      asked. */
  function UpdateFacts(store: Store, planId: string, patch: Object, recompute: bool, files: Files, now: int)
    : (r: UpdateOutcome)
    ensures planId !in store.plans ==> r == UpdateOutcome(store, Some(Api(PlanNotFound)))
    ensures planId in store.plans ==>
      var record := store.plans[planId];
      var normalizing := FactsNormalizer.NormalizeFacts(record.templateKey, CurrentFacts(record) + patch);
      && (normalizing.Err? ==> r == UpdateOutcome(store, Some(Unhandled("TypeError"))))
      && (normalizing.Ok? ==>
            var committed := Store(store.plans[planId := record.(facts := JObj(normalizing.value), updatedAt := now)], store.rows);
            && (!recompute ==> r == UpdateOutcome(committed, None))
            && (recompute && RecomputePlan(committed, planId, files, now).Err? ==>
                  r == UpdateOutcome(committed, Some(RecomputePlan(committed, planId, files, now).error)))
            && (recompute && RecomputePlan(committed, planId, files, now).Ok? ==>
                  r == UpdateOutcome(RecomputePlan(committed, planId, files, now).value, None)))
  {
    match CommitFacts(store, planId, patch, now)
    case Err(e) => UpdateOutcome(store, Some(e))
    case Ok(committed) =>
      if !recompute then UpdateOutcome(committed, None)
      else
        match RecomputePlan(committed, planId, files, now)
        case Err(e) => UpdateOutcome(committed, Some(e))
        case Ok(after) => UpdateOutcome(after, None)
  }

  /** `update_facts` with `recompute_plan`'s handler as written. */
  function UpdateFactsAsWritten(store: Store, planId: string, patch: Object, recompute: bool, files: Files, now: int)
    : (r: UpdateOutcome)
    ensures CommitFacts(store, planId, patch, now).Err? ==>
      r == UpdateOutcome(store, Some(CommitFacts(store, planId, patch, now).error))
    ensures CommitFacts(store, planId, patch, now).Ok? ==>
      var committed := CommitFacts(store, planId, patch, now).value;
      var recomputing := RecomputePlanAsWritten(committed, planId, files, now);
      && (!recompute ==> r == UpdateOutcome(committed, None))
      && (recompute && recomputing.Err? ==> r == UpdateOutcome(committed, Some(recomputing.error)))
      && (recompute && recomputing.Ok? ==> r == UpdateOutcome(recomputing.value, None))
  {
    match CommitFacts(store, planId, patch, now)
    case Err(e) => UpdateOutcome(store, Some(e))
    case Ok(committed) =>
      if !recompute then UpdateOutcome(committed, None)
      else
        match RecomputePlanAsWritten(committed, planId, files, now)
        case Err(e) => UpdateOutcome(committed, Some(e))
        case Ok(after) => UpdateOutcome(after, None)
  }

  /** The first half of `update_facts`: look the plan up, merge the patch
      over its facts, normalise and commit. The committed store differs from
      the old one only in the plan's facts and update time. */
  function CommitFacts(store: Store, planId: string, patch: Object, now: int): (r: Result<Store, ServiceError>)
    ensures planId !in store.plans ==> r == Err(Api(PlanNotFound))
    ensures planId in store.plans ==>
      var record := store.plans[planId];
      var normalizing := FactsNormalizer.NormalizeFacts(record.templateKey, CurrentFacts(record) + patch);
      && (normalizing.Err? ==> r == Err(Unhandled("TypeError")))
      && (normalizing.Ok? ==>
            r == Ok(Store(store.plans[planId := record.(facts := JObj(normalizing.value), updatedAt := now)], store.rows)))
  {
    if planId !in store.plans then Err(Api(PlanNotFound))
    else
      var record := store.plans[planId];
      match FactsNormalizer.NormalizeFacts(record.templateKey, CurrentFacts(record) + patch)
      case Err(_) => Err(Unhandled("TypeError"))
      case Ok(normalized) =>
        Ok(Store(store.plans[planId := record.(facts := JObj(normalized), updatedAt := now)], store.rows))
  }

  /** The corrected `update_facts` and the one as written differ exactly
      when a recompute is asked for and replanning the committed facts
      overflows: the facts stay committed either way, but the one as
      written fails with an unhandled `OverflowError` instead of 400. */
  lemma UpdateFactsCorrection(store: Store, planId: string, patch: Object, recompute: bool, files: Files, now: int)
    ensures UpdateFactsAsWritten(store, planId, patch, recompute, files, now) != UpdateFacts(store, planId, patch, recompute, files, now)
      <==> recompute && CommitFacts(store, planId, patch, now).Ok?
           && RecomputeOverflows(CommitFacts(store, planId, patch, now).value.plans[planId], files)
    ensures recompute && CommitFacts(store, planId, patch, now).Ok?
            && RecomputeOverflows(CommitFacts(store, planId, patch, now).value.plans[planId], files) ==>
      && UpdateFactsAsWritten(store, planId, patch, recompute, files, now).error == Some(Unhandled("OverflowError"))
      && UpdateFacts(store, planId, patch, recompute, files, now).error == Some(Api(PlannerInputInvalid))
      && UpdateFactsAsWritten(store, planId, patch, recompute, files, now).store
         == UpdateFacts(store, planId, patch, recompute, files, now).store
  {
    var committing := CommitFacts(store, planId, patch, now);
    if committing.Ok? {
      RecomputePlanCorrection(committing.value, planId, files, now);
    }
  }

  /** The patch wins over the stored facts: every patched key but the
      derived insurance kind of a birth workflow is stored with the
      patch's value, and the stored facts are already normalised, so a
      recompute stores the same facts again. */
  lemma UpdateFactsStoresPatch(store: Store, planId: string, patch: Object, recompute: bool, files: Files, now: int, key: string)
    requires planId in store.plans
    requires UpdateFacts(store, planId, patch, recompute, files, now).error.None?
    requires key in patch
    requires !FactsNormalizer.IsBirthTemplate(store.plans[planId].templateKey) || key != FactsNormalizer.KindKey
    ensures var after := UpdateFacts(store, planId, patch, recompute, files, now).store;
      && planId in after.plans
      && after.plans[planId].facts.JObj?
      && key in after.plans[planId].facts.fields
      && after.plans[planId].facts.fields[key] == patch[key]
  {
    var record := store.plans[planId];
    var merged := CurrentFacts(record) + patch;
    var normalized := FactsNormalizer.NormalizeFacts(record.templateKey, merged).value;
    var committed := Store(store.plans[planId := record.(facts := JObj(normalized), updatedAt := now)], store.rows);
    assert key in normalized && normalized[key] == patch[key];
    if recompute {
      var again := committed.plans[planId];
      assert CurrentFacts(again) == normalized;
      FactsNormalizer.NormalizeIdempotent(record.templateKey, merged);
      assert FactsNormalizer.NormalizeFacts(record.templateKey, normalized) == Ok(normalized);
    }
  }
}

=== FILE: plan_view.dfy ===
/** The frontend's view helpers over a plan's tasks: the overdue badge, the
    dependency map read from the plan snapshot, the progress percentage and
    the deadline/priority order of the task list.

    A task's `due_date` is a calendar date, held as a day number; an absent
    (or empty) date is `None`. Instants are minutes since the epoch in UTC,
    and the browser's time zone is a fixed offset in minutes east of UTC. */
module PlanView {
  import opened Wrappers

  datatype TaskView = TaskView(
    id: string,
    status: string,
    dueDate: Option<int>,
    priority: Option<int>,   // `metadata?.priority`
    sortKey: int)

  const MinutesPerDay: int := 1440

  // ---------------------------------------------------------------------
  // Overdue

  /** The local calendar day of an instant. */
  function LocalDay(instant: int, offset: int): int
  {
    (instant + offset) / MinutesPerDay
  }

  /** A task is overdue when it is not done and its due day is strictly
      before today's local day: a task due today is not overdue. */
  function IsOverdue(task: TaskView, today: int): (r: bool)
    ensures task.dueDate.None? || task.status == "done" ==> !r
    ensures task.dueDate.Some? && task.status != "done" ==> (r <==> task.dueDate.value < today)
  {
    task.dueDate.Some? && task.status != "done" && task.dueDate.value < today
  }

  /** `isOverdue` as written: `new Date(due_date)` reads a date-only string
      as UTC midnight, and both instants are then truncated to local
      midnight before they are compared. */
  function IsOverdueAsWritten(task: TaskView, now: int, offset: int): (r: bool)
    ensures task.dueDate.None? || task.status == "done" ==> !r
  {
    if task.dueDate.None? || task.status == "done" then false
    else LocalDay(task.dueDate.value * MinutesPerDay, offset) < LocalDay(now, offset)
  }

  /** In a time zone at or east of UTC the code computes the intended
      badge. */
  lemma OverdueAsWrittenEastOfUtc(task: TaskView, now: int, offset: int)
    requires 0 <= offset < MinutesPerDay
    ensures IsOverdueAsWritten(task, now, offset) == IsOverdue(task, LocalDay(now, offset))
  {
    if task.dueDate.Some? {
      var d := task.dueDate.value;
      assert LocalDay(d * MinutesPerDay, offset) == d by {
        assert d * MinutesPerDay + offset == d * MinutesPerDay + offset;
        assert d * MinutesPerDay <= d * MinutesPerDay + offset < (d + 1) * MinutesPerDay;
      }
    }
  }

  /** West of UTC the due date's UTC midnight falls on the previous local
      day, so a task is shown overdue on its own due day: five hours west,
      at local noon of the due day. */
  lemma OverdueAsWrittenWestOfUtc()
    ensures var task := TaskView("t", "todo", Some(739000), None, 0);
      var offset := -300;
      var now := 739000 * MinutesPerDay + 720 - offset;
      && LocalDay(now, offset) == 739000
      && IsOverdueAsWritten(task, now, offset)
      && !IsOverdue(task, LocalDay(now, offset))
  {
    var offset := -300;
    var now := 739000 * MinutesPerDay + 720 - offset;
    assert now + offset == 739000 * MinutesPerDay + 720;
    assert LocalDay(739000 * MinutesPerDay, offset) == 738999;
  }

  // ---------------------------------------------------------------------
  // Dependencies from the snapshot

  datatype SnapshotTask = SnapshotTask(id: string, dependsOn: Option<seq<string>>)

  /** `plan.snapshot?.planner_plan?.tasks`, each level possibly absent. */
  datatype Snapshot = Snapshot(plannerPlan: Option<PlannerPlan>)
  datatype PlannerPlan = PlannerPlan(tasks: Option<seq<SnapshotTask>>)

  /** The snapshot's task list, `[]` where any level is missing. */
  function SnapshotTasks(snapshot: Option<Snapshot>): seq<SnapshotTask>
  {
    if snapshot.Some? && snapshot.value.plannerPlan.Some? && snapshot.value.plannerPlan.value.tasks.Some?
    then snapshot.value.plannerPlan.value.tasks.value
    else []
  }

  /** The ids of the listed tasks. */
  ghost function Ids(items: seq<SnapshotTask>): set<string>
  {
    set k | 0 <= k < |items| :: items[k].id
  }

  /** Adding a task adds its id. */
  lemma IdsSnoc(items: seq<SnapshotTask>)
    requires |items| > 0
    ensures Ids(items) == Ids(items[..|items| - 1]) + {items[|items| - 1].id}
  {
    var init := items[..|items| - 1];
    forall x | x in Ids(items) ensures x in Ids(init) + {items[|items| - 1].id} {
      var k :| 0 <= k < |items| && items[k].id == x;
      if k < |init| {
        assert init[k] == items[k];
      }
    }
    forall x | x in Ids(init) ensures x in Ids(items) {
      var k :| 0 <= k < |init| && init[k].id == x;
      assert items[k] == init[k];
    }
  }

  /** Every listed task is mapped to its dependencies, `[]` when it has
      none; a later entry with the same id wins. */
  function MapDependencies(items: seq<SnapshotTask>): (r: map<string, seq<string>>)
    ensures r.Keys == Ids(items)
    ensures forall k :: 0 <= k < |items| && (forall j :: k < j < |items| ==> items[j].id != items[k].id) ==>
      r[items[k].id] == items[k].dependsOn.GetOr([])
  {
    if |items| == 0 then map[]
    else
      var init, last := items[..|items| - 1], items[|items| - 1];
      var m := MapDependencies(init);
      var r := m[last.id := last.dependsOn.GetOr([])];
      IdsSnoc(items);
      forall k | 0 <= k < |items| && (forall j :: k < j < |items| ==> items[j].id != items[k].id)
        ensures r[items[k].id] == items[k].dependsOn.GetOr([])
      {
        if k < |init| {
          assert items[k] == init[k] && items[k].id != last.id;
          assert forall j :: k < j < |init| ==> init[j].id == items[j].id;
        }
      }
      r
  }

  /** `mapDependenciesByTask`: the snapshot's planner tasks mapped to their
      dependencies, nothing when the snapshot, its planner plan or its task
      list is missing. */
  function MapDependenciesByTask(snapshot: Option<Snapshot>): (r: map<string, seq<string>>)
    ensures snapshot.None? ==> r == map[]
    ensures snapshot.Some? && (snapshot.value.plannerPlan.None? || snapshot.value.plannerPlan.value.tasks.None?) ==>
      r == map[]
    ensures var items := SnapshotTasks(snapshot);
      && r.Keys == Ids(items)
      && forall k :: 0 <= k < |items| && (forall j :: k < j < |items| ==> items[j].id != items[k].id) ==>
           r[items[k].id] == items[k].dependsOn.GetOr([])
  {
    MapDependencies(SnapshotTasks(snapshot))
  }

  /** With distinct ids the map is exactly the snapshot's dependency lists. */
  lemma MapDependenciesDistinct(items: seq<SnapshotTask>)
    requires forall i, j :: 0 <= i < j < |items| ==> items[i].id != items[j].id
    ensures forall k :: 0 <= k < |items| ==>
      items[k].id in MapDependencies(items) && MapDependencies(items)[items[k].id] == items[k].dependsOn.GetOr([])
    ensures |MapDependencies(items)| == |items|
  {
    IdsCard(items);
  }

  /** Distinct ids give as many keys as entries. */
  lemma {:induction false} IdsCard(items: seq<SnapshotTask>)
    requires forall i, j :: 0 <= i < j < |items| ==> items[i].id != items[j].id
    ensures |Ids(items)| == |items|
  {
    if |items| > 0 {
      var init := items[..|items| - 1];
      IdsCard(init);
      IdsSnoc(items);
      assert items[|items| - 1].id !in Ids(init);
    }
  }

  // ---------------------------------------------------------------------
  // Progress

  function DoneCount(tasks: seq<TaskView>): (n: nat)
    ensures n <= |tasks|
  {
    if |tasks| == 0 then 0
    else (if tasks[0].status == "done" then 1 else 0) + DoneCount(tasks[1..])
  }

  /** Multiples of a positive `n` other than zero are at least `n` away
      from zero. */
  lemma MultipleAwayFromZero(k: int, n: int)
    requires n > 0
    ensures k >= 1 ==> k * n >= n
    ensures k <= -1 ==> k * n <= -n
  {
    if k >= 1 {
      assert k * n == (k - 1) * n + n;
    } else if k <= -1 {
      assert k * n == (k + 1) * n - n;
    }
  }

  /** `num / n` rounded to the nearest integer, halves up. */
  function RoundRatio(num: int, n: int): (r: int)
    requires n > 0
    ensures -n < 2 * (r * n - num) <= n
  {
    var q, rem := (2 * num + n) / (2 * n), (2 * num + n) % (2 * n);
    assert 2 * num + n == (2 * n) * q + rem;
    assert (2 * n) * q == 2 * (q * n);
    q
  }

  /** Two integers within half of `n` of the same value are equal. */
  lemma RoundRatioUnique(num: int, n: int, q: int)
    requires n > 0
    requires -n < 2 * (q * n - num) <= n
    ensures q == RoundRatio(num, n)
  {
    var r := RoundRatio(num, n);
    assert (q - r) * n == q * n - r * n;
    MultipleAwayFromZero(q - r, n);
  }

  /** `computeProgress`: `Math.round(done / total * 100)`, rounding halves
      up, and 0 for no tasks. */
  function ComputeProgress(tasks: seq<TaskView>): (r: int)
    ensures 0 <= r <= 100
    ensures |tasks| == 0 ==> r == 0
    ensures |tasks| > 0 ==>
      var n, d := |tasks|, DoneCount(tasks);
      -n < 2 * (r * n - 100 * d) <= n
  {
    if |tasks| == 0 then 0
    else
      var n, d := |tasks|, DoneCount(tasks);
      var r := RoundRatio(100 * d, n);
      MultipleAwayFromZero(r, n);
      MultipleAwayFromZero(r - 100, n);
      assert (r - 100) * n == r * n - 100 * n;
      r
  }

  /** The percentage is the only integer within half a point of the exact
      ratio, ties going up. */
  lemma ProgressUnique(tasks: seq<TaskView>, q: int)
    requires |tasks| > 0
    requires -|tasks| < 2 * (q * |tasks| - 100 * DoneCount(tasks)) <= |tasks|
    ensures q == ComputeProgress(tasks)
  {
    RoundRatioUnique(100 * DoneCount(tasks), |tasks|, q);
  }

  /** All tasks done gives 100 and none done gives 0. */
  lemma ProgressExtremes(tasks: seq<TaskView>)
    requires |tasks| > 0
    ensures DoneCount(tasks) == |tasks| ==> ComputeProgress(tasks) == 100
    ensures DoneCount(tasks) == 0 ==> ComputeProgress(tasks) == 0
  {
    if DoneCount(tasks) == |tasks| {
      ProgressUnique(tasks, 100);
    }
    if DoneCount(tasks) == 0 {
      ProgressUnique(tasks, 0);
    }
  }

  // ---------------------------------------------------------------------
  // Deadline/priority order

  /** `metadata?.priority ?? 0`. */
  function Priority(t: TaskView): int
  {
    t.priority.GetOr(0)
  }

  /** The sign of the list's comparator: earlier due day first, no due day
      last, then higher priority first, then lower `sort_key` first. */
  function Compare(a: TaskView, b: TaskView): int
  {
    if a.dueDate != b.dueDate then
      if a.dueDate.None? then 1
      else if b.dueDate.None? then -1
      else a.dueDate.value - b.dueDate.value
    else if Priority(a) != Priority(b) then Priority(b) - Priority(a)
    else a.sortKey - b.sortKey
  }

  /** `a` may come before `b`. */
  predicate Precedes(a: TaskView, b: TaskView)
  {
    Compare(a, b) <= 0
  }

  /** The comparator is a total preorder, which is what the sort needs. */
  lemma CompareIsTotalPreorder(a: TaskView, b: TaskView, c: TaskView)
    ensures Precedes(a, a)
    ensures Precedes(a, b) || Precedes(b, a)
    ensures Precedes(a, b) && Precedes(b, c) ==> Precedes(a, c)
    ensures Compare(a, b) == 0 <==> a.dueDate == b.dueDate && Priority(a) == Priority(b) && a.sortKey == b.sortKey
  {
  }

  ghost predicate InDeadlineOrder(s: seq<TaskView>)
  {
    forall i, j :: 0 <= i < j < |s| ==> Precedes(s[i], s[j])
  }

  function Insert(x: TaskView, s: seq<TaskView>): (r: seq<TaskView>)
    requires InDeadlineOrder(s)
    ensures InDeadlineOrder(r)
    ensures multiset(r) == multiset(s) + multiset{x}
  {
    if |s| == 0 then [x]
    else if Precedes(x, s[0]) then
      PrecedesAll(x, s);
      ConsInOrder(x, s);
      [x] + s
    else
      var tail := Insert(x, s[1..]);
      assert s == [s[0]] + s[1..];
      HeadPrecedesInserted(x, s, tail);
      ConsInOrder(s[0], tail);
      [s[0]] + tail
  }

  /** A task that may come before the first of an ordered list may come
      before all of it. */
  lemma PrecedesAll(x: TaskView, s: seq<TaskView>)
    requires InDeadlineOrder(s)
    requires |s| > 0 && Precedes(x, s[0])
    ensures forall j :: 0 <= j < |s| ==> Precedes(x, s[j])
  {
    forall j | 0 <= j < |s| ensures Precedes(x, s[j]) {
      CompareIsTotalPreorder(x, s[0], s[j]);
    }
  }

  /** When `x` does not come before the head, the head comes before
      everything `x` is inserted into the rest with. */
  lemma HeadPrecedesInserted(x: TaskView, s: seq<TaskView>, tail: seq<TaskView>)
    requires InDeadlineOrder(s)
    requires |s| > 0 && !Precedes(x, s[0])
    requires multiset(tail) == multiset(s[1..]) + multiset{x}
    ensures forall j :: 0 <= j < |tail| ==> Precedes(s[0], tail[j])
  {
    CompareIsTotalPreorder(x, s[0], s[0]);
    forall j | 0 <= j < |tail| ensures Precedes(s[0], tail[j]) {
      var y := tail[j];
      assert y in multiset(tail);
      if y != x {
        assert y in multiset(s[1..]);
        var m :| 0 <= m < |s[1..]| && s[1..][m] == y;
        assert s[m + 1] == y;
      }
    }
  }

  /** A task that may come before every task of an ordered list can be
      put in front of it. */
  lemma ConsInOrder(x: TaskView, s: seq<TaskView>)
    requires InDeadlineOrder(s)
    requires forall j :: 0 <= j < |s| ==> Precedes(x, s[j])
    ensures InDeadlineOrder([x] + s)
  {
    var r := [x] + s;
    forall i, j | 0 <= i < j < |r| ensures Precedes(r[i], r[j]) {
      if i > 0 {
        assert r[i] == s[i - 1] && r[j] == s[j - 1];
      }
    }
  }

  /** `sortTasksByDeadlinePriority`: a stable insertion sort of a copy. */
  function SortTasksByDeadlinePriority(tasks: seq<TaskView>): (r: seq<TaskView>)
    ensures InDeadlineOrder(r)
    ensures multiset(r) == multiset(tasks)
  {
    if |tasks| == 0 then []
    else
      assert tasks == [tasks[0]] + tasks[1..];
      Insert(tasks[0], SortTasksByDeadlinePriority(tasks[1..]))
  }

  /** Sort keys are distinct, as they are within a plan. */
  ghost predicate DistinctSortKeys(s: seq<TaskView>)
  {
    forall i, j :: 0 <= i < j < |s| ==> s[i].sortKey != s[j].sortKey
  }

  /** Two orderings of the same tasks with distinct sort keys start with
      the same task. */
  lemma SameFirst(s1: seq<TaskView>, s2: seq<TaskView>)
    requires |s1| > 0 && multiset(s1) == multiset(s2)
    requires DistinctSortKeys(s1)
    requires InDeadlineOrder(s1) && InDeadlineOrder(s2)
    ensures |s2| > 0 && s1[0] == s2[0]
  {
    assert s1[0] in multiset(s2);
    var a := s1[0];
    var i :| 0 <= i < |s2| && s2[i] == a;
    var b := s2[0];
    assert b in multiset(s1);
    var j :| 0 <= j < |s1| && s1[j] == b;
    assert Precedes(a, b) by {
      if j > 0 { assert Precedes(s1[0], s1[j]); }
    }
    assert Precedes(b, a) by {
      if i > 0 { assert Precedes(s2[0], s2[i]); }
    }
    CompareIsTotalPreorder(a, b, a);
  }

  /** Dropping the first task keeps an ordering in deadline order. */
  lemma DropFirst(s: seq<TaskView>)
    requires |s| > 0 && InDeadlineOrder(s)
    ensures InDeadlineOrder(s[1..])
    ensures DistinctSortKeys(s) ==> DistinctSortKeys(s[1..])
  {
    var t := s[1..];
    forall i, j | 0 <= i < j < |t| ensures Precedes(t[i], t[j]) {
      assert t[i] == s[i + 1] && t[j] == s[j + 1];
    }
    if DistinctSortKeys(s) {
      forall i, j | 0 <= i < j < |t| ensures t[i].sortKey != t[j].sortKey {
        assert t[i] == s[i + 1] && t[j] == s[j + 1];
      }
    }
  }

  /** Sequences with the same first element and the same multiset have
      tails with the same multiset. */
  lemma SameTails(s1: seq<TaskView>, s2: seq<TaskView>)
    requires |s1| > 0 && |s2| > 0 && s1[0] == s2[0]
    requires multiset(s1) == multiset(s2)
    ensures multiset(s1[1..]) == multiset(s2[1..])
  {
    assert s1 == [s1[0]] + s1[1..];
    assert s2 == [s2[0]] + s2[1..];
    assert multiset(s1) == multiset{s1[0]} + multiset(s1[1..]);
    assert multiset(s2) == multiset{s1[0]} + multiset(s2[1..]);
    assert multiset(s1[1..]) == multiset(s1) - multiset{s1[0]};
  }

  /** With distinct sort keys there is exactly one ordering: any
      permutation in deadline order is the sort's result. */
  lemma {:induction false} DeadlineOrderUnique(s1: seq<TaskView>, s2: seq<TaskView>)
    requires multiset(s1) == multiset(s2)
    requires DistinctSortKeys(s1)
    requires InDeadlineOrder(s1) && InDeadlineOrder(s2)
    ensures s1 == s2
    decreases |s1|
  {
    assert |s1| == |multiset(s1)| == |s2|;
    if |s1| > 0 {
      SameFirst(s1, s2);
      SameTails(s1, s2);
      DropFirst(s1);
      DropFirst(s2);
      DeadlineOrderUnique(s1[1..], s2[1..]);
      assert s1 == [s1[0]] + s1[1..];
      assert s2 == [s2[0]] + s2[1..];
    }
  }

  /** The sort's result is the one ordering of tasks with distinct sort
      keys. */
  lemma SortIsTheOrdering(tasks: seq<TaskView>, ordered: seq<TaskView>)
    requires DistinctSortKeys(ordered) && InDeadlineOrder(ordered)
    requires multiset(ordered) == multiset(tasks)
    ensures SortTasksByDeadlinePriority(tasks) == ordered
  {
    DeadlineOrderUnique(ordered, SortTasksByDeadlinePriority(tasks));
  }

  /** The sorted list starts with the tasks that have a due day, earliest
      first, and ends with those that have none. */
  lemma UndatedLast(tasks: seq<TaskView>, i: int, j: int)
    requires 0 <= i < j < |SortTasksByDeadlinePriority(tasks)|
    ensures var r := SortTasksByDeadlinePriority(tasks);
      && (r[i].dueDate.None? ==> r[j].dueDate.None?)
      && (r[i].dueDate.Some? && r[j].dueDate.Some? ==> r[i].dueDate.value <= r[j].dueDate.value)
  {
    var r := SortTasksByDeadlinePriority(tasks);
    assert Precedes(r[i], r[j]);
  }
}

=== FILE: planner_errors.dfy ===
/** The planner's failures. The four planner error classes all derive from
    Python's `ValueError`; a date pushed outside the range of `date` raises
    `OverflowError` instead, which is not one of them. */
module PlannerErrors {
  import Rules
  import Toposort

  datatype Failure =
    | InputError                       // PlannerInputError
    | DependencyError                  // PlannerDependencyError
    | RuleError(reason: Rules.RuleError)  // PlannerRuleError
    | CycleError                       // PlannerCycleError
    | DateOverflow                     // OverflowError from date arithmetic

  /** The failure is an instance of `ValueError`. */
  predicate IsValueError(f: Failure)
  {
    !f.DateOverflow?
  }

  /** The class `toposort_task_ids` raises for each of its errors. */
  function FromTopoError(e: Toposort.TopoError): Failure
  {
    match e
    case UnknownTask => DependencyError
    case Cycle => CycleError
  }
}

=== FILE: profiles.dfy ===
/** Notification profiles: one per plan, holding the e-mail address and the
    switches that decide whether reminders may be sent, and the hashed
    unsubscribe token.

    The table is a sequence of rows. The two keyed digests the service uses
    (HMAC-SHA256 under the server secret and SHA-256, both hex-encoded) are
    parameters; where a property depends on SHA-256 not colliding, the lemma
    says so in its `requires`. */
module Profiles {
  import opened Wrappers
  import Strings

  datatype Profile = Profile(
    id: string,
    planId: string,
    email: Option<string>,
    emailConsent: bool,
    locale: string,
    timezone: string,
    reminderEnabled: bool,
    maxRemindersPerDay: int,
    unsubscribedAt: Option<int>,
    tokenHash: Option<string>,
    tokenVersion: int,
    updatedAt: int)

  type Table = seq<Profile>

  /** `sign` is the HMAC of a payload under the secret, `digest` the
      SHA-256 of a token. */
  datatype Crypto = Crypto(sign: string -> string, digest: string -> string)

  /** The column defaults of a new row. */
  function NewProfile(id: string, planId: string, now: int): (p: Profile)
    ensures p.id == id && p.planId == planId
    ensures p.email.None? && !p.emailConsent && p.reminderEnabled
    ensures p.locale == "de-DE" && p.timezone == "Europe/Berlin"
    ensures p.maxRemindersPerDay == 1 && p.tokenVersion == 1
    ensures p.unsubscribedAt.None? && p.tokenHash.None?
  {
    Profile(id, planId, None, false, "de-DE", "Europe/Berlin", true, 1, None, None, 1, now)
  }

  // ---------------------------------------------------------------------
  // Lookup and creation

  /** The first row of the plan, if any. */
  function FindPlan(table: Table, planId: string): (r: Option<nat>)
    ensures r.Some? ==> r.value < |table| && table[r.value].planId == planId
    ensures r.Some? ==> forall k :: 0 <= k < r.value ==> table[k].planId != planId
    ensures r.None? <==> forall k :: 0 <= k < |table| ==> table[k].planId != planId
  {
    if |table| == 0 then None
    else if table[0].planId == planId then Some(0)
    else match FindPlan(table[1..], planId)
      case None => None
      case Some(k) => Some(k + 1)
  }

  /** The unique constraint on `plan_id`. */
  ghost predicate UniquePlans(table: Table)
  {
    forall i, j :: 0 <= i < j < |table| ==> table[i].planId != table[j].planId
  }

  datatype Found = Found(table: Table, row: nat)

  /** `get_or_create`: the plan's row, or a new row with the column
      defaults appended at the end. */
  function GetOrCreate(table: Table, planId: string, newId: string, now: int): (r: Found)
    ensures r.row < |r.table| && r.table[r.row].planId == planId
    ensures FindPlan(table, planId).Some? ==> r.table == table && r.row == FindPlan(table, planId).value
    ensures FindPlan(table, planId).None? ==>
      r.table == table + [NewProfile(newId, planId, now)] && r.row == |table|
  {
    match FindPlan(table, planId)
    case Some(k) => Found(table, k)
    case None => Found(table + [NewProfile(newId, planId, now)], |table|)
  }

  /** Creating keeps one row per plan, and a second call finds the row the
      first one returned without adding another. */
  lemma GetOrCreateIdempotent(table: Table, planId: string, newId: string, newId2: string, now: int, now2: int)
    requires UniquePlans(table)
    ensures var r := GetOrCreate(table, planId, newId, now);
      && UniquePlans(r.table)
      && GetOrCreate(r.table, planId, newId2, now2) == r
  {
    var r := GetOrCreate(table, planId, newId, now);
    if FindPlan(table, planId).None? {
      assert r.table[|table|].planId == planId;
      var f := FindPlan(r.table, planId);
      assert f.Some? && f.value == |table| by {
        assert forall k :: 0 <= k < |table| ==> r.table[k] == table[k];
      }
    } else {
      var k := FindPlan(table, planId).value;
      assert FindPlan(r.table, planId) == Some(k);
    }
  }

  /** `email.strip()` when that is not empty, otherwise no address. */
  function NormalizedEmail(email: Option<string>): (r: Option<string>)
    ensures r.Some? <==> email.Some? && Strings.Strip(email.value) != ""
    ensures r.Some? ==> r.value == Strings.Strip(email.value)
  {
    if email.Some? && Strings.Strip(email.value) != "" then Some(Strings.Strip(email.value)) else None
  }

  /** Replaces one row. */
  function SetRow(table: Table, k: nat, p: Profile): (r: Table)
    requires k < |table|
    ensures |r| == |table| && r[k] == p
    ensures forall j :: 0 <= j < |table| && j != k ==> r[j] == table[j]
  {
    table[k := p]
  }

  /** The settings the user may change. */
  datatype Settings = Settings(
    email: Option<string>,
    emailConsent: bool,
    locale: string,
    timezone: string,
    reminderEnabled: bool)

  function Apply(p: Profile, s: Settings, now: int): Profile
  {
    p.(email := NormalizedEmail(s.email), emailConsent := s.emailConsent, locale := s.locale,
       timezone := s.timezone, reminderEnabled := s.reminderEnabled, updatedAt := now)
  }

  /** `upsert_profile`: the plan's row, created if missing, takes the new
      settings; the unsubscribe state, the token and the daily cap are
      kept. */
  function UpsertProfile(table: Table, planId: string, newId: string, s: Settings, now: int): (r: Found)
    ensures r.row < |r.table| && |r.table| >= |table|
    ensures var p := r.table[r.row];
      && p.planId == planId
      && p.email == NormalizedEmail(s.email)
      && p.emailConsent == s.emailConsent && p.locale == s.locale && p.timezone == s.timezone
      && p.reminderEnabled == s.reminderEnabled
    ensures FindPlan(table, planId).Some? ==>
      var prev := table[FindPlan(table, planId).value];
      var p := r.table[r.row];
      && |r.table| == |table| && r.row == FindPlan(table, planId).value
      && p.id == prev.id && p.unsubscribedAt == prev.unsubscribedAt && p.tokenHash == prev.tokenHash
      && p.tokenVersion == prev.tokenVersion && p.maxRemindersPerDay == prev.maxRemindersPerDay
    ensures forall j :: 0 <= j < |table| && j != r.row ==> r.table[j] == table[j]
  {
    var f := GetOrCreate(table, planId, newId, now);
    Found(SetRow(f.table, f.row, Apply(f.table[f.row], s, now)), f.row)
  }

  /** Saving the same settings twice leaves the row as the first save left
      it, up to its modification time. */
  lemma UpsertIdempotent(table: Table, planId: string, newId: string, newId2: string, s: Settings, now: int, now2: int)
    requires UniquePlans(table)
    ensures var r1 := UpsertProfile(table, planId, newId, s, now);
      var r2 := UpsertProfile(r1.table, planId, newId2, s, now2);
      && r2.row == r1.row
      && r2.table == r1.table[r1.row := r1.table[r1.row].(updatedAt := now2)]
  {
    var f := GetOrCreate(table, planId, newId, now);
    GetOrCreateIdempotent(table, planId, newId, newId2, now, now2);
    var r1 := UpsertProfile(table, planId, newId, s, now);
    assert FindPlan(r1.table, planId) == FindPlan(f.table, planId) by {
      FindPlanSetRow(f.table, f.row, Apply(f.table[f.row], s, now), planId);
    }
    if s.email.Some? {
      Strings.StripIdempotent(s.email.value);
    }
  }

  /** Replacing a row by one of the same plan does not move the plan's
      first row. */
  lemma FindPlanSetRow(table: Table, k: nat, p: Profile, planId: string)
    requires k < |table| && p.planId == table[k].planId
    ensures FindPlan(table[k := p], planId) == FindPlan(table, planId)
  {
    var t := table[k := p];
    assert forall j :: 0 <= j < |table| ==> t[j].planId == table[j].planId;
    match FindPlan(table, planId)
    case None =>
    case Some(i) =>
      assert t[i].planId == planId;
  }

  // ---------------------------------------------------------------------
  // Whether reminders may be sent

  /** `is_sendable`: a non-blank address, consent, not unsubscribed, and
      due-soon reminders switched on. */
  predicate IsSendable(p: Profile)
  {
    && (p.email.Some? && Strings.Strip(p.email.value) != "")
    && p.emailConsent
    && p.unsubscribedAt.None?
    && p.reminderEnabled
  }

  /** After saving settings, reminders may be sent exactly when the saved
      address is not blank, consent and the switch are on, and the row had
      not been unsubscribed: saving settings never re-subscribes. */
  lemma SendableAfterUpsert(table: Table, planId: string, newId: string, s: Settings, now: int)
    ensures var r := UpsertProfile(table, planId, newId, s, now);
      var wasUnsubscribed := FindPlan(table, planId).Some? && table[FindPlan(table, planId).value].unsubscribedAt.Some?;
      IsSendable(r.table[r.row]) <==>
        NormalizedEmail(s.email).Some? && s.emailConsent && s.reminderEnabled && !wasUnsubscribed
  {
    var r := UpsertProfile(table, planId, newId, s, now);
    if NormalizedEmail(s.email).Some? {
      Strings.StripIdempotent(s.email.value);
    }
  }

  // ---------------------------------------------------------------------
  // Unsubscribe tokens

  /** `_stable_unsubscribe_token`: `<id>.<version>.<hmac of "<id>:<version>">`. */
  function Token(c: Crypto, id: string, version: int): (t: string)
    ensures |t| > |id| && t[..|id|] == id && t[|id|] == '.'
  {
    var v := Strings.IntToString(version);
    id + "." + v + "." + c.sign(id + ":" + v)
  }

  /** A string with no `.`, as the text form of a UUID. */
  predicate DotFree(s: string)
  {
    !Strings.HasChar(s, '.')
  }

  /** A token names its profile and its version: for dot-free ids, equal
      tokens come from the same id and the same version. */
  lemma TokenInjective(c: Crypto, id1: string, v1: int, id2: string, v2: int)
    requires DotFree(id1) && DotFree(id2)
    ensures Token(c, id1, v1) == Token(c, id2, v2) <==> id1 == id2 && v1 == v2
  {
    var t1 := Token(c, id1, v1);
    var t2 := Token(c, id2, v2);
    if t1 == t2 {
      var s1 := Strings.IntToString(v1);
      var s2 := Strings.IntToString(v2);
      assert t1 == id1 + "." + (s1 + "." + c.sign(id1 + ":" + s1));
      assert t2 == id2 + "." + (s2 + "." + c.sign(id2 + ":" + s2));
      FirstDot(id1, s1 + "." + c.sign(id1 + ":" + s1), id2, s2 + "." + c.sign(id2 + ":" + s2));
      VersionDotFree(v1);
      VersionDotFree(v2);
      FirstDot(s1, c.sign(id1 + ":" + s1), s2, c.sign(id2 + ":" + s2));
      IntToStringInjective(v1, v2);
    }
  }

  /** The part before the first `.` of `a + "." + b` is `a`. */
  lemma FirstDot(a: string, b: string, c: string, d: string)
    requires DotFree(a) && DotFree(c)
    requires a + "." + b == c + "." + d
    ensures a == c && b == d
  {
    var s := a + "." + b;
    assert forall k :: 0 <= k < |a| ==> s[k] == a[k] != '.';
    assert forall k :: 0 <= k < |c| ==> s[k] == c[k] != '.';
    assert s[|a|] == '.' && s[|c|] == '.';
    assert |a| == |c|;
    assert a == s[..|a|] && c == s[..|c|];
    assert b == s[|a| + 1..] && d == s[|c| + 1..];
  }

  lemma VersionDotFree(v: int)
    ensures DotFree(Strings.IntToString(v))
  {
    var s := Strings.IntToString(v);
    if v < 0 {
      var n := Strings.NatToString(-v);
      assert forall i :: 1 <= i < |s| ==> s[i] == n[i - 1];
    }
  }

  /** The text of a negative number, and only of one, starts with `-`. */
  lemma IntToStringSign(i: int)
    ensures |Strings.IntToString(i)| > 0
    ensures Strings.IntToString(i)[0] == '-' <==> i < 0
  {
    if i >= 0 {
      assert Strings.IsDigit(Strings.NatToString(i)[0]);
    }
  }

  lemma IntToStringInjective(a: int, b: int)
    requires Strings.IntToString(a) == Strings.IntToString(b)
    ensures a == b
  {
    IntToStringSign(a);
    IntToStringSign(b);
    if a < 0 {
      var na := Strings.NatToString(-a);
      var nb := Strings.NatToString(-b);
      assert na == ("-" + na)[1..] && nb == ("-" + nb)[1..];
      NatToStringInjective(-a, -b);
    } else {
      NatToStringInjective(a, b);
    }
  }

  lemma NatToStringInjective(a: nat, b: nat)
    requires Strings.NatToString(a) == Strings.NatToString(b)
    ensures a == b
  {
    Strings.ParseNatToString(a);
    Strings.ParseNatToString(b);
  }

  datatype Issued = Issued(profile: Profile, token: string)

  /** `issue_unsubscribe_token`: the token of the current version; its
      digest is stored. */
  function IssueUnsubscribeToken(c: Crypto, p: Profile, now: int): (r: Issued)
    ensures r.token == Token(c, p.id, p.tokenVersion)
    ensures r.profile == p.(tokenHash := Some(c.digest(r.token)), updatedAt := now)
  {
    var token := Token(c, p.id, p.tokenVersion);
    Issued(p.(tokenHash := Some(c.digest(token)), updatedAt := now), token)
  }

  /** Issuing is stable: a second issue hands out the same token and stores
      the same digest, so links in earlier e-mails keep working. */
  lemma IssueStable(c: Crypto, p: Profile, now: int, now2: int)
    ensures var r1 := IssueUnsubscribeToken(c, p, now);
      var r2 := IssueUnsubscribeToken(c, r1.profile, now2);
      r2.token == r1.token && r2.profile.tokenHash == r1.profile.tokenHash
  {
  }

  /** `rotate_unsubscribe_token`: the version moves on by one and the new
      token's digest is stored. */
  function RotateUnsubscribeToken(c: Crypto, p: Profile, now: int): (r: Issued)
    ensures r.profile.tokenVersion == p.tokenVersion + 1
    ensures r.token == Token(c, p.id, p.tokenVersion + 1)
    ensures r.profile == p.(tokenVersion := p.tokenVersion + 1, tokenHash := Some(c.digest(r.token)), updatedAt := now)
  {
    var q := p.(tokenVersion := p.tokenVersion + 1);
    var token := Token(c, q.id, q.tokenVersion);
    Issued(q.(tokenHash := Some(c.digest(token)), updatedAt := now), token)
  }

  /** SHA-256 has no collisions among the strings at hand. */
  ghost predicate DigestInjective(c: Crypto)
  {
    forall a, b :: c.digest(a) == c.digest(b) ==> a == b
  }

  /** After a rotation the token issued before no longer matches the row,
      and the new one differs from it. */
  lemma RotateRevokesOldToken(c: Crypto, p: Profile, now: int, now2: int)
    requires DigestInjective(c) && DotFree(p.id)
    ensures var before := IssueUnsubscribeToken(c, p, now).token;
      var r := RotateUnsubscribeToken(c, p, now2);
      r.token != before && r.profile.tokenHash != Some(c.digest(before))
  {
    TokenInjective(c, p.id, p.tokenVersion, p.id, p.tokenVersion + 1);
  }

  /** The first row whose stored digest is `hash`. */
  function FindHash(table: Table, hash: string): (r: Option<nat>)
    ensures r.Some? ==> r.value < |table| && table[r.value].tokenHash == Some(hash)
    ensures r.Some? ==> forall k :: 0 <= k < r.value ==> table[k].tokenHash != Some(hash)
    ensures r.None? <==> forall k :: 0 <= k < |table| ==> table[k].tokenHash != Some(hash)
  {
    if |table| == 0 then None
    else if table[0].tokenHash == Some(hash) then Some(0)
    else match FindHash(table[1..], hash)
      case None => None
      case Some(k) => Some(k + 1)
  }

  datatype Unsubscribed = Unsubscribed(table: Table, ok: bool)

  /** `unsubscribe_by_token`: an unknown token changes nothing and answers
      false; a known one marks its row unsubscribed, keeping the first
      time it was, and answers true. */
  function UnsubscribeByToken(c: Crypto, table: Table, token: string, now: int): (r: Unsubscribed)
    ensures r.ok <==> FindHash(table, c.digest(token)).Some?
    ensures !r.ok ==> r.table == table
    ensures r.ok ==>
      var k := FindHash(table, c.digest(token)).value;
      && |r.table| == |table|
      && r.table[k].unsubscribedAt.Some?
      && (table[k].unsubscribedAt.Some? ==> r.table == table)
      && (table[k].unsubscribedAt.None? ==> r.table[k] == table[k].(unsubscribedAt := Some(now), updatedAt := now))
      && (forall j :: 0 <= j < |table| && j != k ==> r.table[j] == table[j])
  {
    match FindHash(table, c.digest(token))
    case None => Unsubscribed(table, false)
    case Some(k) =>
      if table[k].unsubscribedAt.Some? then Unsubscribed(table, true)
      else Unsubscribed(SetRow(table, k, table[k].(unsubscribedAt := Some(now), updatedAt := now)), true)
  }

  /** Following the same link twice: the second time still answers true
      and changes nothing. */
  lemma UnsubscribeIdempotent(c: Crypto, table: Table, token: string, now: int, now2: int)
    ensures var r1 := UnsubscribeByToken(c, table, token, now);
      var r2 := UnsubscribeByToken(c, r1.table, token, now2);
      r2 == r1
  {
    var r1 := UnsubscribeByToken(c, table, token, now);
    if r1.ok {
      var k := FindHash(table, c.digest(token)).value;
      assert forall j :: 0 <= j < |table| ==> r1.table[j].tokenHash == table[j].tokenHash;
      assert FindHash(r1.table, c.digest(token)) == Some(k);
    }
  }

  // ---------------------------------------------------------------------
  // What the stored digests may be

  /** Every stored digest is the digest of one of the row's own tokens,
      which holds for rows only touched by the operations above. */
  ghost predicate OwnDigests(c: Crypto, table: Table)
  {
    forall k :: 0 <= k < |table| && table[k].tokenHash.Some? ==>
      exists v :: table[k].tokenHash.value == c.digest(Token(c, table[k].id, v))
  }

  /** Ids are distinct and dot-free, as the text forms of UUID keys are. */
  ghost predicate WellKeyed(table: Table)
  {
    && (forall k :: 0 <= k < |table| ==> DotFree(table[k].id))
    && (forall i, j :: 0 <= i < j < |table| ==> table[i].id != table[j].id)
  }

  /** The link in an e-mail unsubscribes the profile it was sent for: when
      row `k` stores the digest of its current token, following that token
      finds row `k` and no other, and afterwards no reminder may be sent to
      it. */
  lemma UnsubscribeIssuedToken(c: Crypto, table: Table, k: nat, now: int)
    requires DigestInjective(c) && WellKeyed(table) && OwnDigests(c, table)
    requires k < |table|
    requires table[k].tokenHash == Some(c.digest(Token(c, table[k].id, table[k].tokenVersion)))
    ensures var r := UnsubscribeByToken(c, table, Token(c, table[k].id, table[k].tokenVersion), now);
      && r.ok
      && FindHash(table, c.digest(Token(c, table[k].id, table[k].tokenVersion))) == Some(k)
      && !IsSendable(r.table[k])
  {
    var token := Token(c, table[k].id, table[k].tokenVersion);
    var f := FindHash(table, c.digest(token));
    assert f.Some?;
    var i := f.value;
    if i != k {
      var v :| table[i].tokenHash.value == c.digest(Token(c, table[i].id, v));
      TokenInjective(c, table[i].id, v, table[k].id, table[k].tokenVersion);
      assert false;
    }
  }

  /** Issuing a token keeps the stored digests the row's own. */
  lemma IssueKeepsOwnDigests(c: Crypto, table: Table, k: nat, now: int)
    requires OwnDigests(c, table) && k < |table|
    ensures OwnDigests(c, SetRow(table, k, IssueUnsubscribeToken(c, table[k], now).profile))
    ensures OwnDigests(c, SetRow(table, k, RotateUnsubscribeToken(c, table[k], now).profile))
  {
    var p := table[k];
    var t1 := SetRow(table, k, IssueUnsubscribeToken(c, p, now).profile);
    var t2 := SetRow(table, k, RotateUnsubscribeToken(c, p, now).profile);
    assert t1[k].tokenHash.value == c.digest(Token(c, t1[k].id, p.tokenVersion));
    assert t2[k].tokenHash.value == c.digest(Token(c, t2[k].id, p.tokenVersion + 1));
  }

  /** Storing a freshly issued token makes that token unsubscribe the row. */
  lemma IssuedTokenUnsubscribes(c: Crypto, table: Table, k: nat, now: int, later: int)
    requires DigestInjective(c) && WellKeyed(table) && OwnDigests(c, table)
    requires k < |table|
    ensures var issued := IssueUnsubscribeToken(c, table[k], now);
      var u := UnsubscribeByToken(c, SetRow(table, k, issued.profile), issued.token, later);
      u.ok && !IsSendable(u.table[k])
  {
    var issued := IssueUnsubscribeToken(c, table[k], now);
    var stored := SetRow(table, k, issued.profile);
    IssueKeepsOwnDigests(c, table, k, now);
    assert WellKeyed(stored) by {
      assert forall j :: 0 <= j < |table| ==> stored[j].id == table[j].id;
    }
    UnsubscribeIssuedToken(c, stored, k, later);
  }
}

=== FILE: provider.dfy ===
/** The Brevo e-mail provider: how one send attempt is classified into
    sent, retry later, or give up.

    The HTTP call is a parameter: `Transport` says how it ended. It only
    matters once the dry-run switch, the recipient allow-list and the API
    key have let the attempt through. */
module BrevoProvider {
  import opened Wrappers
  import opened Json
  import Strings
  import Outbox

  datatype Config = Config(dryRun: bool, allowedDomains: set<string>, apiKey: string)

  /** How the request ended: a timeout, another transport error, or a
      response with its status code, its text (cut to 500 characters when
      stored) and its decoded body (`None` for an empty body). */
  datatype Transport =
    | Timeout(message: string)
    | HttpError(message: string)
    | Response(statusCode: int, text: string, body: Option<Json>)

  datatype SendResult = SendResult(
    status: Outbox.Status,
    failureClass: Option<Outbox.FailureClass>,
    errorCode: Option<string>,
    errorMessage: Option<string>,
    providerMessageId: Option<string>)

  const DryRunMessageId: string := "dry-run"
  const MaxResponseText: int := 500

  /** `to_email.split("@")[-1].lower()`. */
  function RecipientDomain(toEmail: string): (d: string)
    ensures !Strings.HasChar(d, '@')
    ensures |d| <= |toEmail|
  {
    var raw := Strings.AfterLast(toEmail, '@');
    var d := Strings.AsciiLower(raw);
    assert forall i :: 0 <= i < |d| ==> (d[i] == '@' <==> raw[i] == '@');
    d
  }

  /** The recipient passes the allow-list: an empty list allows every
      domain. */
  predicate DomainAllowed(config: Config, toEmail: string)
  {
    config.allowedDomains == {} || RecipientDomain(toEmail) in config.allowedDomains
  }

  predicate Success(statusCode: int)
  {
    200 <= statusCode < 300
  }

  /** Request timeout, conflict, rate limit, or a server error: worth
      trying again. */
  predicate RetryableStatus(statusCode: int)
  {
    statusCode == 408 || statusCode == 409 || statusCode == 429 || statusCode >= 500
  }

  /** `f"HTTP_{status_code}"`. */
  function HttpCode(statusCode: int): (code: string)
    ensures |code| > 5 && code[..5] == "HTTP_"
  {
    "HTTP_" + Strings.IntToString(statusCode)
  }

  /** The status code can be read back from its error code. */
  lemma HttpCodeParses(statusCode: nat)
    ensures var code := HttpCode(statusCode);
      Strings.AllDigits(code[5..]) && Strings.ParseDigits(code[5..]) == statusCode
  {
    assert HttpCode(statusCode)[5..] == Strings.NatToString(statusCode);
    Strings.ParseNatToString(statusCode);
  }

  /** The `messageId` of a 2xx body, when it is a string. */
  function MessageId(body: Option<Json>): Option<string>
  {
    if body.Some? && body.value.JObj? && "messageId" in body.value.fields && body.value.fields["messageId"].JStr?
    then Some(body.value.fields["messageId"].s)
    else None
  }

  function Failure(status: Outbox.Status, failureClass: Outbox.FailureClass, code: string, message: string): SendResult
  {
    SendResult(status, Some(failureClass), Some(code), Some(message), None)
  }

  /** `BrevoEmailProvider.send`. */
  function Send(config: Config, toEmail: string, transport: Transport): (r: SendResult)
    ensures config.dryRun ==> r == SendResult(Outbox.Sent, None, None, None, Some(DryRunMessageId))
    ensures !config.dryRun && !DomainAllowed(config, toEmail) ==>
      r.status == Outbox.Dead && r.errorCode == Some("RECIPIENT_DOMAIN_NOT_ALLOWED")
    ensures !config.dryRun && DomainAllowed(config, toEmail) && config.apiKey == "" ==>
      r.status == Outbox.Dead && r.errorCode == Some("BREVO_API_KEY_MISSING")
    ensures r.status == Outbox.Sent <==>
      config.dryRun || (DomainAllowed(config, toEmail) && config.apiKey != ""
                        && transport.Response? && Success(transport.statusCode))
    ensures !config.dryRun && DomainAllowed(config, toEmail) && config.apiKey != "" ==>
      match transport
      case Timeout(m) => r == Failure(Outbox.Pending, Outbox.Retryable, "TIMEOUT", m)
      case HttpError(m) => r == Failure(Outbox.Pending, Outbox.Retryable, "HTTP_ERROR", m)
      case Response(code, text, body) =>
        if Success(code) then r.providerMessageId == MessageId(body)
        else
          && r.status == (if RetryableStatus(code) then Outbox.Pending else Outbox.Dead)
          && r.errorCode == Some(HttpCode(code))
          && r.errorMessage == Some(Outbox.Truncated(Some(text), MaxResponseText))
  {
    if config.dryRun then SendResult(Outbox.Sent, None, None, None, Some(DryRunMessageId))
    else if !DomainAllowed(config, toEmail) then
      Failure(Outbox.Dead, Outbox.Permanent, "RECIPIENT_DOMAIN_NOT_ALLOWED", "recipient domain is not in whitelist")
    else if config.apiKey == "" then
      Failure(Outbox.Dead, Outbox.Permanent, "BREVO_API_KEY_MISSING", "BREVO_API_KEY missing")
    else
      match transport
      case Timeout(m) => Failure(Outbox.Pending, Outbox.Retryable, "TIMEOUT", m)
      case HttpError(m) => Failure(Outbox.Pending, Outbox.Retryable, "HTTP_ERROR", m)
      case Response(code, text, body) =>
        if Success(code) then SendResult(Outbox.Sent, None, None, None, MessageId(body))
        else if RetryableStatus(code) then
          Failure(Outbox.Pending, Outbox.Retryable, HttpCode(code), Outbox.Truncated(Some(text), MaxResponseText))
        else Failure(Outbox.Dead, Outbox.Permanent, HttpCode(code), Outbox.Truncated(Some(text), MaxResponseText))
  }

  /** Status and failure class always agree: a sent message has no failure
      class and no error code, a retry is retryable and a dead message is
      permanent; the provider never answers `sending`. */
  lemma SendResultConsistent(config: Config, toEmail: string, transport: Transport)
    ensures var r := Send(config, toEmail, transport);
      && r.status != Outbox.Sending
      && (r.status == Outbox.Sent <==> r.failureClass.None?)
      && (r.status == Outbox.Sent <==> r.errorCode.None?)
      && (r.status == Outbox.Pending <==> r.failureClass == Some(Outbox.Retryable))
      && (r.status == Outbox.Dead <==> r.failureClass == Some(Outbox.Permanent))
      && (r.providerMessageId.Some? ==> r.status == Outbox.Sent)
  {
  }

  /** The request is only made once the local checks pass: before that the
      outcome does not depend on the transport. */
  lemma LocalChecksComeFirst(config: Config, toEmail: string, t1: Transport, t2: Transport)
    requires config.dryRun || !DomainAllowed(config, toEmail) || config.apiKey == ""
    ensures Send(config, toEmail, t1) == Send(config, toEmail, t2)
  {
  }

  /** The allow-list sees the part after the last `@`, lower-cased: an
      address whose domain part holds no `@` is judged by that domain. */
  lemma RecipientDomainOfAddress(local: string, domain: string)
    requires !Strings.HasChar(domain, '@')
    ensures RecipientDomain(local + "@" + domain) == Strings.AsciiLower(domain)
  {
    AfterLastSuffix(local, '@', domain);
  }

  lemma {:induction false} AfterLastSuffix(s: string, c: char, d: string)
    requires !Strings.HasChar(d, c)
    ensures Strings.AfterLast(s + [c] + d, c) == d
    decreases |d|
  {
    var t := s + [c] + d;
    if |d| > 0 {
      var init := d[..|d| - 1];
      assert t[..|t| - 1] == s + [c] + init;
      assert !Strings.HasChar(init, c) by {
        assert forall i :: 0 <= i < |init| ==> init[i] == d[i];
      }
      assert d[|d| - 1] != c;
      AfterLastSuffix(s, c, init);
      assert init + [d[|d| - 1]] == d;
    } else {
      assert t == s + [c];
    }
  }
}

=== FILE: rules.dfy ===
/** Eligibility rules: JSON objects built from `all`, `any`, `not` and
    predicates `{fact, op, value}` evaluated against a facts object.

    The repository has two evaluators of the same rule language, which
    differ in two places; both are modelled here, selected by a `Dialect`:
    - `Planner` (the plan generator): a `null` rule is an error, and a
      predicate over a missing fact is false for every operator but `exists`;
    - `Runner` (the regression test runner): a `null` rule holds, and a
      missing fact compares as `null`. */
module Rules {
  import opened Wrappers
  import opened Json

  datatype Dialect = Planner | Runner

  /** The reasons either evaluator raises. */
  datatype RuleError =
    | NullRule
    | NotAnObject
    | AllNotList
    | AnyNotList
    | BadPredicateShape
    | UnsupportedOp(op: string)

  /** Operators the predicate evaluator knows. */
  predicate IsSupportedOp(op: string)
  {
    op in {"exists", "=", "!=", "in", ">", ">=", "<", "<="}
  }

  predicate IsOrderingOp(op: string)
  {
    op in {">", ">=", "<", "<="}
  }

  /** A predicate object names its fact and operator as strings. */
  predicate HasPredicateShape(pred: Object)
  {
    Get(pred, "fact").JStr? && Get(pred, "op").JStr?
  }

  /** `_compare_numeric`: an ordering comparison holds only between two
      numbers. */
  function CompareNumeric(op: string, left: Json, right: Json): (r: bool)
    requires IsOrderingOp(op)
    ensures r ==> IsPyInt(left) && IsPyInt(right)
    ensures IsPyInt(left) && IsPyInt(right) ==> (r <==>
      || (op == ">" && PyIntValue(left) > PyIntValue(right))
      || (op == ">=" && PyIntValue(left) >= PyIntValue(right))
      || (op == "<" && PyIntValue(left) < PyIntValue(right))
      || (op == "<=" && PyIntValue(left) <= PyIntValue(right)))
  {
    if IsPyInt(left) && IsPyInt(right) then
      var a, b := PyIntValue(left), PyIntValue(right);
      if op == ">" then a > b
      else if op == ">=" then a >= b
      else if op == "<" then a < b
      else a <= b
    else false
  }

  /** `eval_predicate`. */
  function EvalPredicate(d: Dialect, pred: Object, facts: Object): (r: Result<bool, RuleError>)
    ensures !HasPredicateShape(pred) ==> r == Err(BadPredicateShape)
    ensures HasPredicateShape(pred) ==>
      var key, op := Get(pred, "fact").s, Get(pred, "op").s;
      var left, right := Get(facts, key), Get(pred, "value");
      && (r.Err? <==> !IsSupportedOp(op) && !(d == Planner && key !in facts))
      && (r.Err? ==> r.error == UnsupportedOp(op))
      && (d == Planner && op != "exists" && key !in facts ==> r == Ok(false))
      && (op == "exists" ==> r == Ok(key in facts))
      && (d == Runner || key in facts ==>
            && (op == "=" ==> r == Ok(PyEq(left, right)))
            && (op == "!=" ==> r == Ok(!PyEq(left, right)))
            && (op == "in" ==> r == Ok(right.JList? && PyIn(left, right.items)))
            && (op == ">" ==> r == Ok(IsPyInt(left) && IsPyInt(right) && PyIntValue(left) > PyIntValue(right)))
            && (op == ">=" ==> r == Ok(IsPyInt(left) && IsPyInt(right) && PyIntValue(left) >= PyIntValue(right)))
            && (op == "<" ==> r == Ok(IsPyInt(left) && IsPyInt(right) && PyIntValue(left) < PyIntValue(right)))
            && (op == "<=" ==> r == Ok(IsPyInt(left) && IsPyInt(right) && PyIntValue(left) <= PyIntValue(right))))
  {
    var factKey, op := Get(pred, "fact"), Get(pred, "op");
    if !factKey.JStr? || !op.JStr? then Err(BadPredicateShape)
    else if d == Planner && op.s != "exists" && factKey.s !in facts then Ok(false)
    else
      var left, right := Get(facts, factKey.s), Get(pred, "value");
      if op.s == "exists" then Ok(factKey.s in facts)
      else if op.s == "=" then Ok(PyEq(left, right))
      else if op.s == "!=" then Ok(!PyEq(left, right))
      else if op.s == "in" then Ok(if right.JList? then PyIn(left, right.items) else false)
      else if IsOrderingOp(op.s) then Ok(CompareNumeric(op.s, left, right))
      else Err(UnsupportedOp(op.s))
  }

  /** `eval_rule`: keys are looked at in the order `all`, `any`, `not`, and
      only an object with none of them is a predicate. */
  function EvalRule(d: Dialect, rule: Json, facts: Object): Result<bool, RuleError>
    decreases rule, 1
  {
    match rule
    case JNull => if d == Planner then Err(NullRule) else Ok(true)
    case JObj(f) =>
      if "all" in f then
        if f["all"].JList? then EvalClauses(d, f["all"].items, facts, true) else Err(AllNotList)
      else if "any" in f then
        if f["any"].JList? then EvalClauses(d, f["any"].items, facts, false) else Err(AnyNotList)
      else if "not" in f then
        match EvalRule(d, f["not"], facts)
        case Ok(b) => Ok(!b)
        case Err(e) => Err(e)
      else EvalPredicate(d, f, facts)
    case _ => Err(NotAnObject)
  }

  /** Python's `all(...)` (`unit` true) and `any(...)` (`unit` false) over a
      generator: clauses are evaluated left to right, and the first one whose
      value is not `unit` decides the result, so an error in a later clause
      is never raised. */
  function EvalClauses(d: Dialect, clauses: seq<Json>, facts: Object, unit: bool): Result<bool, RuleError>
    decreases clauses, 0
  {
    if |clauses| == 0 then Ok(unit)
    else match EvalRule(d, clauses[0], facts)
      case Err(e) => Err(e)
      case Ok(b) => if b != unit then Ok(b) else EvalClauses(d, clauses[1..], facts, unit)
  }

  /** The first `n` clauses all evaluate to `b`. */
  ghost predicate AllEvalTo(d: Dialect, clauses: seq<Json>, facts: Object, n: int, b: bool)
    requires 0 <= n <= |clauses|
  {
    forall j :: 0 <= j < n ==> EvalRule(d, clauses[j], facts) == Ok(b)
  }

  lemma AllEvalToShift(d: Dialect, clauses: seq<Json>, facts: Object, n: int, b: bool)
    requires 0 <= n < |clauses|
    ensures AllEvalTo(d, clauses, facts, n + 1, b) <==>
      EvalRule(d, clauses[0], facts) == Ok(b) && AllEvalTo(d, clauses[1..], facts, n, b)
  {
    var rest := clauses[1..];
    if EvalRule(d, clauses[0], facts) == Ok(b) && AllEvalTo(d, rest, facts, n, b) {
      forall j | 0 <= j < n + 1
        ensures EvalRule(d, clauses[j], facts) == Ok(b)
      {
        if j > 0 {
          assert clauses[j] == rest[j - 1];
        }
      }
    }
    if AllEvalTo(d, clauses, facts, n + 1, b) {
      forall j | 0 <= j < n
        ensures EvalRule(d, rest[j], facts) == Ok(b)
      {
        assert rest[j] == clauses[j + 1];
      }
    }
  }

  /** The short-circuit evaluation against its quantified meaning: the result
      is `unit` iff every clause evaluates to `unit`, and it is `!unit` iff
      some clause evaluates to `!unit` after clauses that all gave `unit`. */
  lemma {:induction false} ClausesMeaning(d: Dialect, clauses: seq<Json>, facts: Object, unit: bool)
    ensures EvalClauses(d, clauses, facts, unit) == Ok(unit) <==>
      AllEvalTo(d, clauses, facts, |clauses|, unit)
    ensures EvalClauses(d, clauses, facts, unit) == Ok(!unit) <==>
      exists k :: 0 <= k < |clauses| && EvalRule(d, clauses[k], facts) == Ok(!unit)
        && AllEvalTo(d, clauses, facts, k, unit)
    decreases clauses
  {
    if |clauses| > 0 {
      var rest := clauses[1..];
      ClausesMeaning(d, rest, facts, unit);
      AllEvalToShift(d, clauses, facts, |rest|, unit);
      var first := EvalRule(d, clauses[0], facts);
      if first == Ok(unit) {
        if EvalClauses(d, rest, facts, unit) == Ok(!unit) {
          var k :| 0 <= k < |rest| && EvalRule(d, rest[k], facts) == Ok(!unit)
            && AllEvalTo(d, rest, facts, k, unit);
          AllEvalToShift(d, clauses, facts, k, unit);
          assert clauses[k + 1] == rest[k];
        }
        if (exists k :: 0 <= k < |clauses| && EvalRule(d, clauses[k], facts) == Ok(!unit)
                          && AllEvalTo(d, clauses, facts, k, unit)) {
          var k :| 0 <= k < |clauses| && EvalRule(d, clauses[k], facts) == Ok(!unit)
            && AllEvalTo(d, clauses, facts, k, unit);
          assert k > 0;
          AllEvalToShift(d, clauses, facts, k - 1, unit);
          assert rest[k - 1] == clauses[k];
        }
      } else if first == Ok(!unit) {
        assert AllEvalTo(d, clauses, facts, 0, unit);
      } else {
        forall k | 0 < k < |clauses|
          ensures !AllEvalTo(d, clauses, facts, k, unit)
        {
          assert EvalRule(d, clauses[0], facts) != Ok(unit);
        }
      }
    }
  }

  /** How a rule object is dispatched: an `all` key wins over `any` and
      `not`, an `any` key wins over `not`, and `not` negates its operand. */
  lemma RuleDispatch(d: Dialect, f: Object, facts: Object)
    ensures "all" in f ==>
      EvalRule(d, JObj(f), facts) == (if f["all"].JList? then EvalClauses(d, f["all"].items, facts, true) else Err(AllNotList))
    ensures "all" !in f && "any" in f ==>
      EvalRule(d, JObj(f), facts) == (if f["any"].JList? then EvalClauses(d, f["any"].items, facts, false) else Err(AnyNotList))
    ensures "all" !in f && "any" !in f && "not" in f ==>
      (EvalRule(d, JObj(f), facts).Ok? <==> EvalRule(d, f["not"], facts).Ok?)
      && (EvalRule(d, f["not"], facts).Ok? ==>
            EvalRule(d, JObj(f), facts).value == !EvalRule(d, f["not"], facts).value)
    ensures "all" !in f && "any" !in f && "not" !in f ==>
      EvalRule(d, JObj(f), facts) == EvalPredicate(d, f, facts)
  {
  }

  /** A `null` rule is an error for the planner and holds for the runner; any
      other non-object is an error for both. */
  lemma NonObjectRules(d: Dialect, rule: Json, facts: Object)
    requires !rule.JObj?
    ensures rule.JNull? && d == Planner ==> EvalRule(d, rule, facts) == Err(NullRule)
    ensures rule.JNull? && d == Runner ==> EvalRule(d, rule, facts) == Ok(true)
    ensures !rule.JNull? ==> EvalRule(d, rule, facts) == Err(NotAnObject)
  {
  }

  /** The rule a task without an `eligibility` key gets. */
  function DefaultEligibility(): Json
  {
    JObj(map["all" := JList([])])
  }

  /** `is_task_active`. */
  function IsTaskActive(task: Object, facts: Object): (r: Result<bool, RuleError>)
    ensures "eligibility" !in task ==> r == Ok(true)
    ensures "eligibility" in task ==> r == EvalRule(Planner, task["eligibility"], facts)
  {
    EvalRule(Planner, GetOr(task, "eligibility", DefaultEligibility()), facts)
  }

  /** Where a predicate's fact is present the two evaluators agree. */
  lemma DialectsAgreeOnPresentFacts(pred: Object, facts: Object)
    requires HasPredicateShape(pred) && Get(pred, "fact").s in facts
    ensures EvalPredicate(Planner, pred, facts) == EvalPredicate(Runner, pred, facts)
  {
  }
}

=== FILE: scanner.dfy ===
/** The daily due-soon scan: for every notification profile, the open tasks
    of its plan due from today to three days ahead are gathered into one
    reminder, which is put in the outbox at most once per profile and local
    day.

    The profile table, the outbox and the tasks table are values; the scan
    returns their new contents with its summary. The ids the database would
    draw for new outbox rows are a parameter, one per profile. */
module Scanner {
  import opened Wrappers
  import opened Json
  import Calendar
  import SendWindow
  import Sorting
  import Counting
  import TaskService
  import Outbox
  import Dedupe
  import Profiles
  import EmailTemplate

  /** A row of the tasks table with its primary key. */
  datatype TaskRow = TaskRow(id: string, task: TaskService.Task)

  /** How many days past today the scan looks. */
  const Horizon: int := 3

  datatype ScanSummary = ScanSummary(
    profilesScanned: nat,
    tasksMatched: nat,
    outboxCreated: nat,
    skippedNotSendable: nat,
    skippedDailyCap: nat,
    errors: nat)

  /** Python's `date + timedelta(days=3)` raises past the last date. */
  datatype ScanError = DateOverflow

  // ---------------------------------------------------------------------
  // Selecting the tasks

  /** The task is open, belongs to the plan and falls due in the window. */
  predicate Matches(r: TaskRow, planId: string, today: int)
  {
    && r.task.planId == planId
    && r.task.status == TaskService.Todo
    && InWindow(r, today)
  }

  function DueOf(r: TaskRow): int
  {
    if r.task.dueDate.Some? then r.task.dueDate.value else 0
  }

  function SortKeyOf(r: TaskRow): int
  {
    r.task.sortKey
  }

  function Filter(rows: seq<TaskRow>, planId: string, today: int): (r: seq<TaskRow>)
    ensures forall t :: multiset(r)[t] == if Matches(t, planId, today) then multiset(rows)[t] else 0
  {
    if |rows| == 0 then []
    else
      assert rows == [rows[0]] + rows[1..];
      (if Matches(rows[0], planId, today) then [rows[0]] else []) + Filter(rows[1..], planId, today)
  }

  /** The tasks query: the matching rows, each as often as in the table,
      ordered by due date and then by sort key. */
  function DueSoonTasks(rows: seq<TaskRow>, planId: string, today: int): (r: seq<TaskRow>)
    ensures forall t :: multiset(r)[t] == if Matches(t, planId, today) then multiset(rows)[t] else 0
    ensures forall k :: 0 <= k < |r| ==> Matches(r[k], planId, today)
    ensures forall k :: 0 <= k < |r| ==> InWindow(r[k], today)
    ensures Sorting.AscendingLex(r, DueOf, SortKeyOf)
  {
    var r := Sorting.SortLex(Filter(rows, planId, today), DueOf, SortKeyOf);
    assert forall k :: 0 <= k < |r| ==> Matches(r[k], planId, today) by {
      forall k | 0 <= k < |r| ensures Matches(r[k], planId, today) {
        assert r[k] in multiset(r);
      }
    }
    r
  }

  // ---------------------------------------------------------------------
  // The reminder's payload

  /** The dates the scan works with exist: today, and three days ahead. */
  predicate WindowValid(today: int)
  {
    Calendar.ValidDay(today) && Calendar.ValidDay(today + Horizon)
  }

  /** The task falls due from today to three days ahead. */
  predicate InWindow(r: TaskRow, today: int)
  {
    r.task.dueDate.Some? && today <= r.task.dueDate.value <= today + Horizon
  }

  function TaskEntry(r: TaskRow, today: int): (j: Json)
    requires WindowValid(today) && InWindow(r, today)
    ensures j.JObj? && "due_in_days" in j.fields && "due_date" in j.fields
  {
    var t := r.task;
    var due := t.dueDate.value;
    JObj(map[
      "task_key" := JStr(t.taskKey),
      "task_instance_id" := JStr(r.id),
      "title" := JStr(t.title),
      "due_date" := JStr(Calendar.IsoFormat(due)),
      "due_in_days" := JInt(due - today),
      "category" := Get(t.metadata, "category"),
      "priority" := Get(t.metadata, "priority")])
  }

  function TaskEntries(tasks: seq<TaskRow>, today: int): (r: seq<Json>)
    requires WindowValid(today)
    requires forall k :: 0 <= k < |tasks| ==> InWindow(tasks[k], today)
    ensures |r| == |tasks|
    ensures forall k :: 0 <= k < |tasks| ==> r[k] == TaskEntry(tasks[k], today)
  {
    seq(|tasks|, k requires 0 <= k < |tasks| => TaskEntry(tasks[k], today))
  }

  const UnsubscribePath: string := "/notifications/unsubscribe?token="

  function UnsubscribeUrl(baseUrl: string, token: string): string
  {
    baseUrl + UnsubscribePath + token
  }

  function PlanUrl(baseUrl: string, planId: string): string
  {
    baseUrl + "/app/plan/" + planId
  }

  function EmailOrNull(email: Option<string>): Json
  {
    if email.Some? then JStr(email.value) else JNull
  }

  /** The payload stored with the reminder. The settings link is the
      unsubscribe link. */
  function Payload(p: Profiles.Profile, tasks: seq<TaskRow>, today: int, baseUrl: string, token: string): Object
    requires WindowValid(today)
    requires forall k :: 0 <= k < |tasks| ==> InWindow(tasks[k], today)
  {
    map[
      "profile_id" := JStr(p.id),
      "plan_id" := JStr(p.planId),
      "to_email" := EmailOrNull(p.email),
      "locale" := JStr(p.locale),
      "timezone" := JStr(p.timezone),
      "tasks" := JList(TaskEntries(tasks, today)),
      "user_display_name" := JNull,
      "plan_url" := JStr(PlanUrl(baseUrl, p.planId)),
      "settings_url" := JStr(UnsubscribeUrl(baseUrl, token)),
      "unsubscribe_url" := JStr(UnsubscribeUrl(baseUrl, token))]
  }

  /** Each payload entry carries its task's due date, which reads back, and
      a day count from zero to three that agrees with it. */
  lemma PayloadDatesReadBack(tasks: seq<TaskRow>, today: int, k: int)
    requires WindowValid(today)
    requires forall i :: 0 <= i < |tasks| ==> InWindow(tasks[i], today)
    requires 0 <= k < |tasks|
    ensures var e := TaskEntries(tasks, today)[k].fields;
      && e["due_date"].JStr?
      && Calendar.ParseIsoDate(e["due_date"].s) == tasks[k].task.dueDate
      && e["due_in_days"] == JInt(tasks[k].task.dueDate.value - today)
      && 0 <= e["due_in_days"].i <= Horizon
  {
    Calendar.ParseIsoFormat(tasks[k].task.dueDate.value);
  }

  /** The tasks as the e-mail template reads them. */
  function DueTaskOf(r: TaskRow, today: int): EmailTemplate.DueTask
  {
    EmailTemplate.DueTask(Some(r.task.title), r.task.dueDate, Some(DueOf(r) - today))
  }

  function DueTasks(tasks: seq<TaskRow>, today: int): (r: seq<EmailTemplate.DueTask>)
    ensures |r| == |tasks|
    ensures forall k :: 0 <= k < |tasks| ==> r[k] == DueTaskOf(tasks[k], today)
  {
    seq(|tasks|, k requires 0 <= k < |tasks| => DueTaskOf(tasks[k], today))
  }

  /** The e-mail built from a scanned reminder lists every task in one of
      its four groups (none is left to "later"), its dates can be rendered,
      and its subject counts all of them. */
  lemma ScannedEmailListsEveryTask(tasks: seq<TaskRow>, planId: string, today: int, baseUrl: string, token: string)
    requires WindowValid(today)
    requires forall i :: 0 <= i < |tasks| ==> Matches(tasks[i], planId, today)
    ensures var d := DueTasks(tasks, today);
      var view := EmailTemplate.Payload(Some(d), JNull, PlanUrl(baseUrl, planId),
                                        UnsubscribeUrl(baseUrl, token), UnsubscribeUrl(baseUrl, token));
      && EmailTemplate.DatesValid(view, today)
      && EmailTemplate.Grouped(d, EmailTemplate.Later) == []
      && |d| == |EmailTemplate.Grouped(d, EmailTemplate.Today)| + |EmailTemplate.Grouped(d, EmailTemplate.Tomorrow)|
           + |EmailTemplate.Grouped(d, EmailTemplate.InTwoDays)| + |EmailTemplate.Grouped(d, EmailTemplate.InThreeDays)|
      && EmailTemplate.RenderTaskDueSoon(view, today).subject == EmailTemplate.Subject(|tasks|)
  {
    var d := DueTasks(tasks, today);
    forall j | 0 <= j < |d| ensures EmailTemplate.BucketOf(d[j]) != EmailTemplate.Later {
      assert Matches(tasks[j], planId, today);
    }
    EmailTemplate.GroupedNone(d, EmailTemplate.Later);
    EmailTemplate.GroupsPartitionTasks(d);
  }

  // ---------------------------------------------------------------------
  // One profile

  /** The tasks query of a plan. The tasks table does not change during a
      scan, so the query is a function of the plan id. */
  type Query = string -> seq<TaskRow>

  /** The query the scan runs for a given table and day. */
  function TasksQuery(rows: seq<TaskRow>, today: int): Query
  {
    (planId: string) => DueSoonTasks(rows, planId, today)
  }

  /** Every task a query returns falls due in the window. */
  ghost predicate QueryInWindow(query: Query, today: int)
  {
    forall planId: string, k :: 0 <= k < |query(planId)| ==> InWindow(query(planId)[k], today)
  }

  lemma TasksQueryInWindow(rows: seq<TaskRow>, today: int)
    ensures QueryInWindow(TasksQuery(rows, today), today)
  {
    forall planId: string, k | 0 <= k < |TasksQuery(rows, today)(planId)|
      ensures InWindow(TasksQuery(rows, today)(planId)[k], today)
    {
      assert TasksQuery(rows, today)(planId) == DueSoonTasks(rows, planId, today);
    }
  }

  datatype Decision = NotSendable | DailyCap | NoTasks | Duplicate | Created

  datatype Step = Step(profile: Profiles.Profile, outbox: Outbox.Table, decision: Decision, matched: nat)

  /** What one pass of the loop body does with profile `p`: the checks in
      order, then the token, the key and the insert. An insert that hits an
      existing key or id rolls the transaction back, so the token's digest
      is only kept together with a new reminder. */
  ghost predicate StepSpec(c: Profiles.Crypto, p: Profiles.Profile, outbox: Outbox.Table, query: Query,
                           now: int, baseUrl: string, newId: string, r: Step)
    requires WindowValid(SendWindow.LocalDay(now)) && QueryInWindow(query, SendWindow.LocalDay(now))
  {
    var today := SendWindow.LocalDay(now);
    var count := Outbox.CountCreatedToday(outbox, p.id, now);
    var tasks := query(p.planId);
    var token := Profiles.Token(c, p.id, p.tokenVersion);
    var key := Dedupe.DueSoonKey(p.id, today);
    && (r.decision == NotSendable <==> !Profiles.IsSendable(p))
    && (r.decision == DailyCap <==> Profiles.IsSendable(p) && count >= p.maxRemindersPerDay)
    && (r.decision == NoTasks <==> Profiles.IsSendable(p) && count < p.maxRemindersPerDay && |tasks| == 0)
    && (r.decision == Created <==>
          && Profiles.IsSendable(p) && count < p.maxRemindersPerDay && |tasks| > 0
          && !Outbox.HasKey(outbox, key) && !Outbox.HasId(outbox, newId))
    && (r.matched == if r.decision in {Duplicate, Created} then |tasks| else 0)
    && (r.decision != Created ==> r.outbox == outbox && r.profile == p)
    && (r.decision == Created ==>
          && r.outbox == outbox + [Outbox.NewItem(newId, p.id, key, Payload(p, tasks, today, baseUrl, token), now)]
          && r.profile == p.(tokenHash := Some(c.digest(token)), updatedAt := now))
  }

  /** The profile is the same as before, up to its token digest and its
      modification time. */
  predicate SameSettings(a: Profiles.Profile, b: Profiles.Profile)
  {
    && a.id == b.id && a.planId == b.planId && a.email == b.email && a.emailConsent == b.emailConsent
    && a.locale == b.locale && a.timezone == b.timezone && a.reminderEnabled == b.reminderEnabled
    && a.maxRemindersPerDay == b.maxRemindersPerDay && a.unsubscribedAt == b.unsubscribedAt
    && a.tokenVersion == b.tokenVersion
  }

  /** `scan_due_soon`'s loop body for one profile. */
  function ScanProfile(c: Profiles.Crypto, p: Profiles.Profile, outbox: Outbox.Table, query: Query,
                       now: int, baseUrl: string, newId: string): (r: Step)
    requires WindowValid(SendWindow.LocalDay(now)) && QueryInWindow(query, SendWindow.LocalDay(now))
    ensures SameSettings(p, r.profile)
    ensures r.decision == NotSendable <==> !Profiles.IsSendable(p)
    ensures |r.outbox| == |outbox| + (if r.decision == Created then 1 else 0) && r.outbox[..|outbox|] == outbox
    ensures r.decision == Created ==> r.outbox[|outbox|].id == newId
  {
    var today := SendWindow.LocalDay(now);
    if !Profiles.IsSendable(p) then Step(p, outbox, NotSendable, 0)
    else if Outbox.CountCreatedToday(outbox, p.id, now) >= p.maxRemindersPerDay then Step(p, outbox, DailyCap, 0)
    else
      var tasks := query(p.planId);
      if |tasks| == 0 then Step(p, outbox, NoTasks, 0)
      else
        var issued := Profiles.IssueUnsubscribeToken(c, p, now);
        var key := Dedupe.DueSoonKey(p.id, today);
        var e := Outbox.EnqueueDueSoon(outbox, newId, p.id, key, Payload(p, tasks, today, baseUrl, issued.token), now);
        if e.created then Step(issued.profile, e.table, Created, |tasks|)
        else Step(p, outbox, Duplicate, |tasks|)
  }

  /** The loop body takes the source's decisions, in its order. */
  lemma ScanProfileDecides(c: Profiles.Crypto, p: Profiles.Profile, outbox: Outbox.Table, query: Query,
                           now: int, baseUrl: string, newId: string)
    requires WindowValid(SendWindow.LocalDay(now)) && QueryInWindow(query, SendWindow.LocalDay(now))
    ensures StepSpec(c, p, outbox, query, now, baseUrl, newId, ScanProfile(c, p, outbox, query, now, baseUrl, newId))
  {
  }

  /** A new reminder carries the link of the token whose digest the
      profile now stores. */
  lemma CreatedStepIssues(c: Profiles.Crypto, p: Profiles.Profile, outbox: Outbox.Table, query: Query,
                          now: int, baseUrl: string, newId: string)
    requires WindowValid(SendWindow.LocalDay(now)) && QueryInWindow(query, SendWindow.LocalDay(now))
    requires ScanProfile(c, p, outbox, query, now, baseUrl, newId).decision == Created
    ensures var s := ScanProfile(c, p, outbox, query, now, baseUrl, newId);
      var issued := Profiles.IssueUnsubscribeToken(c, p, now);
      && s.profile == issued.profile
      && s.outbox[|outbox|].payload.fields["unsubscribe_url"] == JStr(UnsubscribeUrl(baseUrl, issued.token))
  {
  }

  /** The unsubscribe link of a new reminder works: once the profile row
      is stored, following the token of the link (see `CreatedStepIssues`)
      finds that row, and no reminder may be sent to it afterwards. */
  lemma ReminderLinkUnsubscribes(c: Profiles.Crypto, table: Profiles.Table, k: nat, outbox: Outbox.Table,
                                 query: Query, now: int, baseUrl: string, newId: string, later: int)
    requires WindowValid(SendWindow.LocalDay(now)) && QueryInWindow(query, SendWindow.LocalDay(now))
    requires Profiles.DigestInjective(c) && Profiles.WellKeyed(table) && Profiles.OwnDigests(c, table)
    requires k < |table|
    requires ScanProfile(c, table[k], outbox, query, now, baseUrl, newId).decision == Created
    ensures var s := ScanProfile(c, table[k], outbox, query, now, baseUrl, newId);
      var token := Profiles.Token(c, table[k].id, table[k].tokenVersion);
      var u := Profiles.UnsubscribeByToken(c, Profiles.SetRow(table, k, s.profile), token, later);
      u.ok && !Profiles.IsSendable(u.table[k])
  {
    CreatedStepIssues(c, table[k], outbox, query, now, baseUrl, newId);
    Profiles.IssuedTokenUnsubscribes(c, table, k, now, later);
  }

  // ---------------------------------------------------------------------
  // The whole scan

  function Tally(s: ScanSummary, step: Step): (r: ScanSummary)
  {
    ScanSummary(
      s.profilesScanned + 1,
      s.tasksMatched + step.matched,
      s.outboxCreated + (if step.decision == Created then 1 else 0),
      s.skippedNotSendable + (if step.decision == NotSendable then 1 else 0),
      s.skippedDailyCap + (if step.decision == DailyCap then 1 else 0),
      s.errors)
  }

  datatype Scan = Scan(profiles: Profiles.Table, outbox: Outbox.Table, summary: ScanSummary)

  function NotSendableP(p: Profiles.Profile): bool
  {
    !Profiles.IsSendable(p)
  }

  /** The loop over `profiles`, in order. */
  function ScanAll(c: Profiles.Crypto, profiles: Profiles.Table, outbox: Outbox.Table, query: Query,
                   now: int, baseUrl: string, ids: seq<string>): (r: Scan)
    requires WindowValid(SendWindow.LocalDay(now)) && QueryInWindow(query, SendWindow.LocalDay(now))
    requires |ids| == |profiles|
    ensures |r.profiles| == |profiles|
    ensures |r.outbox| == |outbox| + r.summary.outboxCreated && r.outbox[..|outbox|] == outbox
    ensures forall j :: |outbox| <= j < |r.outbox| ==> r.outbox[j].id in ids
    decreases |profiles|
  {
    if |profiles| == 0 then Scan([], outbox, ScanSummary(0, 0, 0, 0, 0, 0))
    else
      var n := |profiles| - 1;
      var prev := ScanAll(c, profiles[..n], outbox, query, now, baseUrl, ids[..n]);
      var s := ScanProfile(c, profiles[n], prev.outbox, query, now, baseUrl, ids[n]);
      var r := Scan(prev.profiles + [s.profile], s.outbox, Tally(prev.summary, s));
      assert s.outbox[..|outbox|] == outbox by {
        assert s.outbox[..|prev.outbox|] == prev.outbox;
      }
      assert forall j :: |outbox| <= j < |r.outbox| ==> r.outbox[j].id in ids by {
        forall j | |outbox| <= j < |r.outbox| ensures r.outbox[j].id in ids {
          if j < |prev.outbox| {
            assert r.outbox[j] == prev.outbox[j];
            assert prev.outbox[j].id in ids[..n];
          } else {
            assert s.decision == Created && j == |prev.outbox|;
          }
        }
      }
      r
  }

  /** Two tables hold the same profiles row by row, up to token digests
      and modification times. */
  predicate AllSameSettings(ps: Profiles.Table, qs: Profiles.Table)
  {
    |ps| == |qs| && forall k :: 0 <= k < |ps| ==> SameSettings(ps[k], qs[k])
  }

  lemma AllSameSnoc(ps: Profiles.Table, qs: Profiles.Table, p: Profiles.Profile, q: Profiles.Profile)
    requires AllSameSettings(ps, qs) && SameSettings(p, q)
    ensures AllSameSettings(ps + [p], qs + [q])
  {
    forall k | 0 <= k < |ps| + 1 ensures SameSettings((ps + [p])[k], (qs + [q])[k]) {
      if k < |ps| {
        assert (ps + [p])[k] == ps[k] && (qs + [q])[k] == qs[k];
      }
    }
  }

  /** The scan changes no profile's settings: only token digests and
      modification times move. */
  lemma {:induction false} ScanKeepsSettings(c: Profiles.Crypto, profiles: Profiles.Table, outbox: Outbox.Table,
                                             query: Query, now: int, baseUrl: string, ids: seq<string>)
    requires WindowValid(SendWindow.LocalDay(now)) && QueryInWindow(query, SendWindow.LocalDay(now))
    requires |ids| == |profiles|
    ensures AllSameSettings(profiles, ScanAll(c, profiles, outbox, query, now, baseUrl, ids).profiles)
    decreases |profiles|
  {
    if |profiles| > 0 {
      var n := |profiles| - 1;
      var prev := ScanAll(c, profiles[..n], outbox, query, now, baseUrl, ids[..n]);
      ScanKeepsSettings(c, profiles[..n], outbox, query, now, baseUrl, ids[..n]);
      var s := ScanProfile(c, profiles[n], prev.outbox, query, now, baseUrl, ids[n]);
      AllSameSnoc(profiles[..n], prev.profiles, profiles[n], s.profile);
      assert profiles[..n] + [profiles[n]] == profiles;
    }
  }

  /** Every profile is counted once, those that may not be mailed are
      counted as such, and nothing raises. */
  lemma {:induction false} ScanCounts(c: Profiles.Crypto, profiles: Profiles.Table, outbox: Outbox.Table, query: Query,
                                      now: int, baseUrl: string, ids: seq<string>)
    requires WindowValid(SendWindow.LocalDay(now)) && QueryInWindow(query, SendWindow.LocalDay(now))
    requires |ids| == |profiles|
    ensures var r := ScanAll(c, profiles, outbox, query, now, baseUrl, ids).summary;
      && r.profilesScanned == |profiles| && r.errors == 0
      && r.skippedNotSendable == Counting.CountWhere(profiles, NotSendableP)
      && r.outboxCreated + r.skippedNotSendable + r.skippedDailyCap <= |profiles|
    decreases |profiles|
  {
    if |profiles| > 0 {
      var n := |profiles| - 1;
      var prev := ScanAll(c, profiles[..n], outbox, query, now, baseUrl, ids[..n]);
      var s := ScanProfile(c, profiles[n], prev.outbox, query, now, baseUrl, ids[n]);
      ScanAllStep(c, profiles, outbox, query, now, baseUrl, ids);
      ScanCounts(c, profiles[..n], outbox, query, now, baseUrl, ids[..n]);
      Counting.CountSnoc(profiles[..n], profiles[n], NotSendableP);
      assert profiles[..n] + [profiles[n]] == profiles;
    }
  }

  /** The last profile's step is tallied onto the scan of the others. */
  lemma ScanAllStep(c: Profiles.Crypto, profiles: Profiles.Table, outbox: Outbox.Table, query: Query,
                    now: int, baseUrl: string, ids: seq<string>)
    requires WindowValid(SendWindow.LocalDay(now)) && QueryInWindow(query, SendWindow.LocalDay(now))
    requires |ids| == |profiles| > 0
    ensures var n := |profiles| - 1;
      var prev := ScanAll(c, profiles[..n], outbox, query, now, baseUrl, ids[..n]);
      ScanAll(c, profiles, outbox, query, now, baseUrl, ids).summary
        == Tally(prev.summary, ScanProfile(c, profiles[n], prev.outbox, query, now, baseUrl, ids[n]))
  {
  }

  // ---------------------------------------------------------------------
  // Running the scan again on the same day

  /** A profile the loop body cannot create a reminder for: it may not be
      mailed, its daily cap is reached, its plan has nothing due, or the
      day's reminder is already in the outbox. */
  ghost predicate Blocked(outbox: Outbox.Table, p: Profiles.Profile, query: Query, now: int)
    requires Calendar.ValidDay(SendWindow.LocalDay(now))
  {
    || !Profiles.IsSendable(p)
    || Outbox.CountCreatedToday(outbox, p.id, now) >= p.maxRemindersPerDay
    || |query(p.planId)| == 0
    || Outbox.HasKey(outbox, Dedupe.DueSoonKey(p.id, SendWindow.LocalDay(now)))
  }

  /** The ids handed to a scan are new to the outbox and distinct. */
  ghost predicate FreshIds(outbox: Outbox.Table, ids: seq<string>)
  {
    && (forall i :: 0 <= i < |ids| ==> !Outbox.HasId(outbox, ids[i]))
    && (forall i, j :: 0 <= i < j < |ids| ==> ids[i] != ids[j])
  }

  /** A blocked profile stays blocked while the outbox grows, its settings
      stay and the local day stays. */
  lemma BlockedPersists(outbox: Outbox.Table, grown: Outbox.Table, p: Profiles.Profile, q: Profiles.Profile,
                        query: Query, now: int, now2: int)
    requires Calendar.ValidDay(SendWindow.LocalDay(now)) && SendWindow.LocalDay(now2) == SendWindow.LocalDay(now)
    requires |outbox| <= |grown| && grown[..|outbox|] == outbox
    requires SameSettings(p, q)
    requires Blocked(outbox, p, query, now)
    ensures Blocked(grown, q, query, now2)
  {
    var day := SendWindow.LocalDay(now);
    Counting.CountPrefix(outbox, grown, Outbox.CreatedOn(p.id, day));
    var key := Dedupe.DueSoonKey(p.id, day);
    if Outbox.HasKey(outbox, key) {
      var k :| 0 <= k < |outbox| && outbox[k].dedupeKey == key;
      assert grown[k] == outbox[k];
    }
  }

  ghost predicate AllBlocked(outbox: Outbox.Table, profiles: Profiles.Table, query: Query, now: int)
    requires Calendar.ValidDay(SendWindow.LocalDay(now))
  {
    forall k :: 0 <= k < |profiles| ==> Blocked(outbox, profiles[k], query, now)
  }

  /** Blocked profiles stay blocked while the outbox grows. */
  lemma AllBlockedPersist(outbox: Outbox.Table, grown: Outbox.Table, profiles: Profiles.Table, query: Query, now: int)
    requires Calendar.ValidDay(SendWindow.LocalDay(now))
    requires |outbox| <= |grown| && grown[..|outbox|] == outbox
    requires AllBlocked(outbox, profiles, query, now)
    ensures AllBlocked(grown, profiles, query, now)
  {
    forall k | 0 <= k < |profiles| ensures Blocked(grown, profiles[k], query, now) {
      BlockedPersists(outbox, grown, profiles[k], profiles[k], query, now, now);
    }
  }

  /** Being blocked depends on the local day only, not on the time of day. */
  lemma AllBlockedSameDay(outbox: Outbox.Table, profiles: Profiles.Table, query: Query, now: int, now2: int)
    requires Calendar.ValidDay(SendWindow.LocalDay(now)) && SendWindow.LocalDay(now2) == SendWindow.LocalDay(now)
    requires AllBlocked(outbox, profiles, query, now)
    ensures AllBlocked(outbox, profiles, query, now2)
  {
    forall k | 0 <= k < |profiles| ensures Blocked(outbox, profiles[k], query, now2) {
      BlockedPersists(outbox, outbox, profiles[k], profiles[k], query, now, now2);
    }
  }

  lemma AllBlockedSnoc(outbox: Outbox.Table, profiles: Profiles.Table, p: Profiles.Profile, query: Query, now: int)
    requires Calendar.ValidDay(SendWindow.LocalDay(now))
    requires AllBlocked(outbox, profiles, query, now) && Blocked(outbox, p, query, now)
    ensures AllBlocked(outbox, profiles + [p], query, now)
  {
    forall k | 0 <= k < |profiles| + 1 ensures Blocked(outbox, (profiles + [p])[k], query, now) {
      if k < |profiles| {
        assert (profiles + [p])[k] == profiles[k];
      }
    }
  }

  /** The loop body creates nothing for a blocked profile. */
  lemma BlockedNotCreated(c: Profiles.Crypto, p: Profiles.Profile, outbox: Outbox.Table, query: Query,
                          now: int, baseUrl: string, newId: string)
    requires WindowValid(SendWindow.LocalDay(now)) && QueryInWindow(query, SendWindow.LocalDay(now))
    requires Blocked(outbox, p, query, now)
    ensures ScanProfile(c, p, outbox, query, now, baseUrl, newId).decision != Created
  {
    ScanProfileDecides(c, p, outbox, query, now, baseUrl, newId);
  }

  /** After the loop body, its profile is blocked, unless the insert was
      refused for an id clash. */
  lemma StepBlocks(c: Profiles.Crypto, p: Profiles.Profile, outbox: Outbox.Table, query: Query,
                   now: int, baseUrl: string, newId: string)
    requires WindowValid(SendWindow.LocalDay(now)) && QueryInWindow(query, SendWindow.LocalDay(now))
    requires !Outbox.HasId(outbox, newId)
    ensures var s := ScanProfile(c, p, outbox, query, now, baseUrl, newId);
      Blocked(s.outbox, s.profile, query, now)
  {
    var s := ScanProfile(c, p, outbox, query, now, baseUrl, newId);
    ScanProfileDecides(c, p, outbox, query, now, baseUrl, newId);
    var key := Dedupe.DueSoonKey(p.id, SendWindow.LocalDay(now));
    if s.decision == Created {
      assert s.outbox[|outbox|].dedupeKey == key;
      BlockedPersists(s.outbox, s.outbox, p, s.profile, query, now, now);
    } else {
      assert s.profile == p && s.outbox == outbox;
    }
  }

  /** An id stays new to an outbox that only gained rows with other ids. */
  lemma StillFresh(outbox: Outbox.Table, grown: Outbox.Table, used: seq<string>, id: string)
    requires |outbox| <= |grown| && grown[..|outbox|] == outbox
    requires forall j :: |outbox| <= j < |grown| ==> grown[j].id in used
    requires !Outbox.HasId(outbox, id) && id !in used
    ensures !Outbox.HasId(grown, id)
  {
    forall j | 0 <= j < |grown| ensures grown[j].id != id {
      if j < |outbox| {
        assert grown[j] == outbox[j];
      }
    }
  }

  /** With fresh ids, every profile is blocked once the scan is over. */
  lemma {:induction false} ScanBlocksAll(c: Profiles.Crypto, profiles: Profiles.Table, outbox: Outbox.Table,
                                         query: Query, now: int, baseUrl: string, ids: seq<string>)
    requires WindowValid(SendWindow.LocalDay(now)) && QueryInWindow(query, SendWindow.LocalDay(now))
    requires |ids| == |profiles| && FreshIds(outbox, ids)
    ensures var r := ScanAll(c, profiles, outbox, query, now, baseUrl, ids);
      AllBlocked(r.outbox, r.profiles, query, now)
    decreases |profiles|
  {
    if |profiles| > 0 {
      var n := |profiles| - 1;
      var prev := ScanAll(c, profiles[..n], outbox, query, now, baseUrl, ids[..n]);
      ScanBlocksAll(c, profiles[..n], outbox, query, now, baseUrl, ids[..n]);
      assert ids[n] !in ids[..n];
      StillFresh(outbox, prev.outbox, ids[..n], ids[n]);
      StepBlocks(c, profiles[n], prev.outbox, query, now, baseUrl, ids[n]);
      var s := ScanProfile(c, profiles[n], prev.outbox, query, now, baseUrl, ids[n]);
      AllBlockedPersist(prev.outbox, s.outbox, prev.profiles, query, now);
      AllBlockedSnoc(s.outbox, prev.profiles, s.profile, query, now);
    }
  }

  /** A scan over blocked profiles creates nothing and leaves the outbox as
      it was. */
  lemma {:induction false} BlockedScanCreatesNothing(c: Profiles.Crypto, profiles: Profiles.Table, outbox: Outbox.Table,
                                                     query: Query, now: int, baseUrl: string, ids: seq<string>)
    requires WindowValid(SendWindow.LocalDay(now)) && QueryInWindow(query, SendWindow.LocalDay(now))
    requires |ids| == |profiles|
    requires AllBlocked(outbox, profiles, query, now)
    ensures var r := ScanAll(c, profiles, outbox, query, now, baseUrl, ids);
      r.summary.outboxCreated == 0 && r.outbox == outbox
    decreases |profiles|
  {
    if |profiles| > 0 {
      var n := |profiles| - 1;
      var prev := ScanAll(c, profiles[..n], outbox, query, now, baseUrl, ids[..n]);
      BlockedScanCreatesNothing(c, profiles[..n], outbox, query, now, baseUrl, ids[..n]);
      assert prev.outbox == outbox;
      BlockedNotCreated(c, profiles[n], outbox, query, now, baseUrl, ids[n]);
    }
  }

  /** Running the scan a second time on the same local day creates no
      reminder and leaves the outbox as the first run left it, provided
      the first run's ids were fresh. */
  lemma RescanCreatesNothing(c: Profiles.Crypto, profiles: Profiles.Table, outbox: Outbox.Table, query: Query,
                             now: int, now2: int, baseUrl: string, ids: seq<string>, ids2: seq<string>)
    requires WindowValid(SendWindow.LocalDay(now)) && QueryInWindow(query, SendWindow.LocalDay(now))
    requires SendWindow.LocalDay(now2) == SendWindow.LocalDay(now)
    requires |ids| == |profiles| && |ids2| == |profiles| && FreshIds(outbox, ids)
    ensures var first := ScanAll(c, profiles, outbox, query, now, baseUrl, ids);
      var second := ScanAll(c, first.profiles, first.outbox, query, now2, baseUrl, ids2);
      second.summary.outboxCreated == 0 && second.outbox == first.outbox
  {
    var first := ScanAll(c, profiles, outbox, query, now, baseUrl, ids);
    ScanBlocksAll(c, profiles, outbox, query, now, baseUrl, ids);
    AllBlockedSameDay(first.outbox, first.profiles, query, now, now2);
    BlockedScanCreatesNothing(c, first.profiles, first.outbox, query, now2, baseUrl, ids2);
  }

  /** `scan_due_soon`. */
  function ScanDueSoon(c: Profiles.Crypto, profiles: Profiles.Table, outbox: Outbox.Table, rows: seq<TaskRow>,
                       now: int, baseUrl: string, ids: seq<string>): (r: Result<Scan, ScanError>)
    requires Calendar.ValidDay(SendWindow.LocalDay(now))
    requires |ids| == |profiles|
    ensures r.Err? <==> SendWindow.LocalDay(now) + Horizon > Calendar.MaxOrdinal
    ensures r.Ok? ==> |r.value.outbox| >= |outbox| && r.value.outbox[..|outbox|] == outbox
    ensures var today := SendWindow.LocalDay(now);
      r.Ok? ==>
        && WindowValid(today) && QueryInWindow(TasksQuery(rows, today), today)
        && r.value == ScanAll(c, profiles, outbox, TasksQuery(rows, today), now, baseUrl, ids)
  {
    var today := SendWindow.LocalDay(now);
    if !Calendar.ValidDay(today + Horizon) then Err(DateOverflow)
    else
      TasksQueryInWindow(rows, today);
      Ok(ScanAll(c, profiles, outbox, TasksQuery(rows, today), now, baseUrl, ids))
  }
}

=== FILE: send_window.dfy ===
/** The reminder pipeline's clock arithmetic in Berlin local time: the daily
    send window 08:00–20:00, the next start of that window, and the
    three-day due-soon window.

    An instant is a Berlin wall-clock time, counted in microseconds from
    0001-01-01 00:00 (so `LocalDay` is the proleptic Gregorian ordinal of
    `Calendar`). The conversion from an aware `datetime` to Berlin time,
    and with it daylight-saving transitions, is not modelled. */
module SendWindow {
  import opened Wrappers
  import Calendar

  const MicrosPerSecond: int := 1_000_000
  const MicrosPerMinute: int := 60 * MicrosPerSecond
  const MicrosPerHour: int := 60 * MicrosPerMinute
  const MicrosPerDay: int := 24 * MicrosPerHour

  /** `QUIET_HOURS_START` (08:00) and `QUIET_HOURS_END` (20:00) as times of
      day. */
  const WindowStart: int := 8 * MicrosPerHour
  const WindowEnd: int := 20 * MicrosPerHour

  /** The local date of an instant, as a day ordinal. */
  function LocalDay(t: int): int
  {
    t / MicrosPerDay + 1
  }

  /** The local time of day of an instant, in microseconds after
      midnight. */
  function TimeOfDay(t: int): (r: int)
    ensures 0 <= r < MicrosPerDay
  {
    t % MicrosPerDay
  }

  /** An instant is its day's midnight plus its time of day. */
  lemma Decompose(t: int)
    ensures t == (LocalDay(t) - 1) * MicrosPerDay + TimeOfDay(t)
  {
  }

  /** The instant of the given day and time of day. */
  function At(day: int, timeOfDay: int): (t: int)
    requires 0 <= timeOfDay < MicrosPerDay
    ensures LocalDay(t) == day && TimeOfDay(t) == timeOfDay
  {
    DayTime(day, timeOfDay);
    (day - 1) * MicrosPerDay + timeOfDay
  }

  lemma DayTime(day: int, timeOfDay: int)
    requires 0 <= timeOfDay < MicrosPerDay
    ensures ((day - 1) * MicrosPerDay + timeOfDay) / MicrosPerDay == day - 1
    ensures ((day - 1) * MicrosPerDay + timeOfDay) % MicrosPerDay == timeOfDay
  {
    var t := (day - 1) * MicrosPerDay + timeOfDay;
    var q, r := t / MicrosPerDay, t % MicrosPerDay;
    assert (q - (day - 1)) * MicrosPerDay == timeOfDay - r;
    assert -MicrosPerDay < (q - (day - 1)) * MicrosPerDay < MicrosPerDay;
  }

  /** `is_within_send_window`: 08:00 up to and including 20:00:00.000000. */
  predicate IsWithinSendWindow(t: int)
  {
    WindowStart <= TimeOfDay(t) <= WindowEnd
  }

  /** `next_send_window_start`: today at 08:00 before 08:00, tomorrow at
      08:00 from 08:00 on. */
  function NextSendWindowStart(t: int): (r: int)
    ensures TimeOfDay(t) < WindowStart ==> LocalDay(r) == LocalDay(t)
    ensures TimeOfDay(t) >= WindowStart ==> LocalDay(r) == LocalDay(t) + 1
    ensures TimeOfDay(r) == WindowStart
  {
    if TimeOfDay(t) < WindowStart then At(LocalDay(t), WindowStart)
    else At(LocalDay(t) + 1, WindowStart)
  }

  /** Later instants fall on the same or a later day. */
  lemma LocalDayMonotone(a: int, b: int)
    requires a <= b
    ensures LocalDay(a) <= LocalDay(b)
  {
  }

  /** On one day, instants are ordered by their time of day. */
  lemma SameDayDistance(a: int, b: int)
    requires LocalDay(a) == LocalDay(b)
    ensures b - a == TimeOfDay(b) - TimeOfDay(a)
  {
    Decompose(a);
    Decompose(b);
  }

  /** Instants at one time of day are ordered by their day. */
  lemma SameTimeOrder(a: int, b: int)
    requires TimeOfDay(a) == TimeOfDay(b) && LocalDay(a) <= LocalDay(b)
    ensures a <= b
  {
    Decompose(a);
    Decompose(b);
    var da, db := LocalDay(a) - 1, LocalDay(b) - 1;
    assert (db - da) * MicrosPerDay >= 0;
  }

  /** The next window start is strictly later, inside the window, and the
      first 08:00 after the input. */
  lemma NextSendWindowStartIsNext(t: int, s: int)
    ensures NextSendWindowStart(t) > t
    ensures IsWithinSendWindow(NextSendWindowStart(t))
    ensures s > t && TimeOfDay(s) == WindowStart ==> NextSendWindowStart(t) <= s
  {
    var r := NextSendWindowStart(t);
    if TimeOfDay(t) < WindowStart {
      SameDayDistance(t, r);
    } else {
      assert At(LocalDay(t), MicrosPerDay - 1) < r by {
        SameDayDistance(t, At(LocalDay(t), MicrosPerDay - 1));
        Decompose(r);
        Decompose(At(LocalDay(t), MicrosPerDay - 1));
      }
      SameDayDistance(t, At(LocalDay(t), MicrosPerDay - 1));
    }
    if s > t && TimeOfDay(s) == WindowStart {
      LocalDayMonotone(t, s);
      if LocalDay(s) == LocalDay(t) {
        SameDayDistance(t, s);
      }
      SameTimeOrder(r, s);
    }
  }

  /** Outside the window nothing can be sent before the next window
      start. */
  lemma QuietUntilNextStart(t: int, s: int)
    requires !IsWithinSendWindow(t)
    requires t <= s < NextSendWindowStart(t)
    ensures !IsWithinSendWindow(s)
  {
    var r := NextSendWindowStart(t);
    LocalDayMonotone(t, s);
    LocalDayMonotone(s, r);
    if LocalDay(s) == LocalDay(t) {
      SameDayDistance(t, s);
    }
    if LocalDay(s) == LocalDay(r) {
      SameDayDistance(s, r);
    }
  }

  /** `due_soon_window`: the local day and three days later as ISO dates;
      `None` where Python's date arithmetic overflows past 9999-12-31. */
  function DueSoonWindow(t: int): (r: Option<(string, string)>)
    ensures r.Some? <==> Calendar.ValidDay(LocalDay(t)) && Calendar.ValidDay(LocalDay(t) + 3)
    ensures r.Some? ==>
      && Calendar.ParseIsoDate(r.value.0) == Some(LocalDay(t))
      && Calendar.ParseIsoDate(r.value.1) == Some(LocalDay(t) + 3)
  {
    var today := LocalDay(t);
    if Calendar.ValidDay(today) && Calendar.ValidDay(today + 3) then
      Calendar.ParseIsoFormat(today);
      Calendar.ParseIsoFormat(today + 3);
      Some((Calendar.IsoFormat(today), Calendar.IsoFormat(today + 3)))
    else None
  }

  /** The first instant of the window is 08:00 sharp and the last 20:00
      sharp. */
  lemma WindowBoundsInclusive(day: int)
    ensures IsWithinSendWindow(At(day, WindowStart))
    ensures IsWithinSendWindow(At(day, WindowEnd))
    ensures !IsWithinSendWindow(At(day, WindowStart - 1))
    ensures !IsWithinSendWindow(At(day, WindowEnd + 1))
  {
  }
}

=== FILE: sorting.dfy ===
/** Ordering rows by integer columns, as an SQL `ORDER BY a ASC, b ASC`
    does. The database leaves the order of rows with equal keys open; this
    sort keeps their input order. */
module Sorting {
  ghost predicate AscendingBy<T>(s: seq<T>, key: T -> int)
  {
    forall i, j :: 0 <= i < j < |s| ==> key(s[i]) <= key(s[j])
  }

  /** `a` comes no later than `b` under `ORDER BY k1, k2`. */
  predicate LexLe<T>(a: T, b: T, k1: T -> int, k2: T -> int)
  {
    k1(a) < k1(b) || (k1(a) == k1(b) && k2(a) <= k2(b))
  }

  ghost predicate AscendingLex<T>(s: seq<T>, k1: T -> int, k2: T -> int)
  {
    forall i, j :: 0 <= i < j < |s| ==> LexLe(s[i], s[j], k1, k2)
  }

  function InsertLex<T(==)>(x: T, s: seq<T>, k1: T -> int, k2: T -> int): (r: seq<T>)
    requires AscendingLex(s, k1, k2)
    ensures AscendingLex(r, k1, k2)
    ensures multiset(r) == multiset(s) + multiset{x}
  {
    if |s| == 0 then [x]
    else if LexLe(x, s[0], k1, k2) then
      HeadFirst(x, s, k1, k2);
      ConsAscending(x, s, k1, k2);
      [x] + s
    else
      var tail := InsertLex(x, s[1..], k1, k2);
      assert s == [s[0]] + s[1..];
      HeadBeforeInserted(x, s, tail, k1, k2);
      ConsAscending(s[0], tail, k1, k2);
      [s[0]] + tail
  }

  lemma HeadFirst<T>(x: T, s: seq<T>, k1: T -> int, k2: T -> int)
    requires AscendingLex(s, k1, k2)
    requires |s| > 0 && LexLe(x, s[0], k1, k2)
    ensures forall j :: 0 <= j < |s| ==> LexLe(x, s[j], k1, k2)
  {
    forall j | 0 <= j < |s| ensures LexLe(x, s[j], k1, k2) {
      if j > 0 {
        assert LexLe(s[0], s[j], k1, k2);
      }
    }
  }

  lemma HeadBeforeInserted<T>(x: T, s: seq<T>, tail: seq<T>, k1: T -> int, k2: T -> int)
    requires AscendingLex(s, k1, k2)
    requires |s| > 0 && !LexLe(x, s[0], k1, k2)
    requires multiset(tail) == multiset(s[1..]) + multiset{x}
    ensures forall j :: 0 <= j < |tail| ==> LexLe(s[0], tail[j], k1, k2)
  {
    forall j | 0 <= j < |tail| ensures LexLe(s[0], tail[j], k1, k2) {
      var y := tail[j];
      assert y in multiset(tail);
      if y != x {
        assert y in multiset(s[1..]);
        var m :| 0 <= m < |s[1..]| && s[1..][m] == y;
        assert s[m + 1] == y;
      }
    }
  }

  /** An element no later than every element of an ascending sequence can
      be put in front of it. */
  lemma ConsAscending<T>(x: T, s: seq<T>, k1: T -> int, k2: T -> int)
    requires AscendingLex(s, k1, k2)
    requires forall j :: 0 <= j < |s| ==> LexLe(x, s[j], k1, k2)
    ensures AscendingLex([x] + s, k1, k2)
  {
    var r := [x] + s;
    forall i, j | 0 <= i < j < |r| ensures LexLe(r[i], r[j], k1, k2) {
      if i > 0 {
        assert r[i] == s[i - 1] && r[j] == s[j - 1];
      }
    }
  }

  /** The rows ordered by `k1`, then by `k2`: a permutation of the input. */
  function SortLex<T(==)>(s: seq<T>, k1: T -> int, k2: T -> int): (r: seq<T>)
    ensures AscendingLex(r, k1, k2)
    ensures multiset(r) == multiset(s)
  {
    if |s| == 0 then []
    else
      assert s == [s[0]] + s[1..];
      InsertLex(s[0], SortLex(s[1..], k1, k2), k1, k2)
  }

  /** The rows ordered by a single key: a permutation of the input. */
  function SortBy<T(==)>(s: seq<T>, key: T -> int): (r: seq<T>)
    ensures AscendingBy(r, key)
    ensures multiset(r) == multiset(s)
  {
    SortLex(s, key, (x: T) => 0)
  }
}

=== FILE: strings.dfy ===
/** String helpers shared by the model: Python's ordering of `str` values,
    sorting, decimal digits, `str.strip()` and a few splitting helpers. */
module Strings {

  /** Python's `a < b` on `str`: lexicographic by code point, a proper prefix
      sorting first. */
  predicate Less(a: string, b: string)
    decreases |a|
  {
    if |a| == 0 then |b| > 0
    else if |b| == 0 then false
    else if a[0] != b[0] then a[0] < b[0]
    else Less(a[1..], b[1..])
  }

  lemma LessIrreflexive(a: string)
    ensures !Less(a, a)
  {
  }

  lemma LessAsymmetric(a: string, b: string)
    ensures Less(a, b) ==> !Less(b, a)
  {
  }

  lemma LessTransitive(a: string, b: string, c: string)
    requires Less(a, b) && Less(b, c)
    ensures Less(a, c)
  {
    if |a| > 0 && |b| > 0 && |c| > 0 && a[0] == b[0] && b[0] == c[0] {
      LessTransitive(a[1..], b[1..], c[1..]);
    }
  }

  lemma LessTotal(a: string, b: string)
    ensures a == b || Less(a, b) || Less(b, a)
  {
    if |a| > 0 && |b| > 0 && a[0] == b[0] {
      LessTotal(a[1..], b[1..]);
      if a[1..] == b[1..] {
        assert a == [a[0]] + a[1..] && b == [b[0]] + b[1..];
      }
    }
  }

  /** `m` is the smallest element of `s` in Python's string order. */
  predicate IsLeast(m: string, s: set<string>)
  {
    m in s && forall x :: x in s ==> x == m || Less(m, x)
  }

  lemma LeastExists(s: set<string>)
    requires s != {}
    ensures exists m :: IsLeast(m, s)
    decreases |s|
  {
    var x :| x in s;
    if s != {x} {
      LeastExists(s - {x});
      var m :| IsLeast(m, s - {x});
      LessTotal(x, m);
      if Less(x, m) {
        forall y | y in s
          ensures y == x || Less(x, y)
        {
          if y != x && y != m {
            LessTransitive(x, m, y);
          }
        }
        assert IsLeast(x, s);
      } else {
        assert IsLeast(m, s);
      }
    } else {
      assert IsLeast(x, s);
    }
  }

  lemma LeastUnique(m1: string, m2: string, s: set<string>)
    requires IsLeast(m1, s) && IsLeast(m2, s)
    ensures m1 == m2
  {
    LessAsymmetric(m1, m2);
  }

  /** The smallest element of a non-empty set: what `heapq.heappop` returns
      from a heap holding exactly the elements of `s`. */
  function Least(s: set<string>): (m: string)
    requires s != {}
    ensures IsLeast(m, s)
  {
    LeastExists(s);
    assert forall m1, m2 :: IsLeast(m1, s) && IsLeast(m2, s) ==> m1 == m2 by {
      forall m1, m2 | IsLeast(m1, s) && IsLeast(m2, s)
        ensures m1 == m2
      {
        LeastUnique(m1, m2, s);
      }
    }
    var m :| IsLeast(m, s);
    m
  }

  /** Each string is less than every later one. */
  ghost predicate StrictlyIncreasing(r: seq<string>)
  {
    forall i, j :: 0 <= i < j < |r| ==> Less(r[i], r[j])
  }

  /** `sorted(s)` for a set: its elements in strictly increasing order. */
  function SortedElems(s: set<string>): (r: seq<string>)
    ensures |r| == |s|
    ensures forall x :: x in r <==> x in s
    ensures StrictlyIncreasing(r)
    decreases |s|
  {
    if s == {} then []
    else
      var m := Least(s);
      var rest := SortedElems(s - {m});
      assert forall j :: 0 <= j < |rest| ==> Less(m, rest[j]) by {
        forall j | 0 <= j < |rest|
          ensures Less(m, rest[j])
        {
          assert rest[j] in s - {m};
        }
      }
      [m] + rest
  }

  /** Non-decreasing in Python's string order (duplicates allowed). */
  ghost predicate Sorted(s: seq<string>)
  {
    forall i, j :: 0 <= i < j < |s| ==> !Less(s[j], s[i])
  }

  lemma NotLessTransitive(a: string, b: string, c: string)
    requires !Less(b, a) && !Less(c, b)
    ensures !Less(c, a)
  {
    LessTotal(a, b);
    LessTotal(b, c);
    if Less(a, b) && Less(b, c) {
      LessTransitive(a, b, c);
    }
    LessAsymmetric(a, c);
    LessIrreflexive(a);
  }

  lemma SortedCons(x: string, s: seq<string>)
    requires Sorted(s)
    requires forall k :: 0 <= k < |s| ==> !Less(s[k], x)
    ensures Sorted([x] + s)
  {
    forall i, j | 0 <= i < j < |[x] + s|
      ensures !Less(([x] + s)[j], ([x] + s)[i])
    {
      if i > 0 {
        assert ([x] + s)[i] == s[i - 1] && ([x] + s)[j] == s[j - 1];
      }
    }
  }

  function Insert(x: string, s: seq<string>): (r: seq<string>)
    requires Sorted(s)
    ensures Sorted(r)
    ensures multiset(r) == multiset(s) + multiset{x}
  {
    if |s| == 0 then [x]
    else if !Less(s[0], x) then
      assert forall k :: 0 <= k < |s| ==> !Less(s[k], x) by {
        forall k | 0 <= k < |s|
          ensures !Less(s[k], x)
        {
          if k > 0 {
            NotLessTransitive(x, s[0], s[k]);
          }
        }
      }
      SortedCons(x, s);
      [x] + s
    else
      var t := Insert(x, s[1..]);
      assert s == [s[0]] + s[1..];
      assert forall k :: 0 <= k < |t| ==> !Less(t[k], s[0]) by {
        forall k | 0 <= k < |t|
          ensures !Less(t[k], s[0])
        {
          var y := t[k];
          assert y in multiset(t);
          if y == x {
            LessAsymmetric(s[0], x);
          } else {
            assert y in multiset(s[1..]);
            var m :| 0 <= m < |s[1..]| && s[1..][m] == y;
            assert s[m + 1] == y;
          }
        }
      }
      SortedCons(s[0], t);
      [s[0]] + t
  }

  /** Python's `sorted()` on a list of strings. */
  function Sort(s: seq<string>): (r: seq<string>)
    ensures Sorted(r)
    ensures multiset(r) == multiset(s)
  {
    if |s| == 0 then []
    else
      assert s == [s[0]] + s[1..];
      Insert(s[0], Sort(s[1..]))
  }

  // ---------------------------------------------------------------------
  // Decimal digits

  predicate IsDigit(c: char) { '0' <= c <= '9' }

  predicate AllDigits(s: string) { forall i :: 0 <= i < |s| ==> IsDigit(s[i]) }

  function DigitChar(d: int): (c: char)
    requires 0 <= d < 10
    ensures IsDigit(c)
  {
    (d + '0' as int) as char
  }

  function DigitValue(c: char): (d: int)
    requires IsDigit(c)
    ensures 0 <= d < 10 && DigitChar(d) == c
  {
    c as int - '0' as int
  }

  function Pow10(n: nat): (p: nat)
    ensures p >= 1
  {
    if n == 0 then 1 else 10 * Pow10(n - 1)
  }

  /** The value of a string of decimal digits (leading zeros allowed). */
  function ParseDigits(s: string): (n: nat)
    requires AllDigits(s)
    ensures n < Pow10(|s|)
  {
    if |s| == 0 then 0
    else ParseDigits(s[..|s| - 1]) * 10 + DigitValue(s[|s| - 1])
  }

  /** `n` written with exactly `width` digits, zero-padded on the left, as
      `%0<width>d` does. */
  function Fixed(n: nat, width: nat): (r: string)
    requires n < Pow10(width)
    ensures |r| == width && AllDigits(r)
  {
    if width == 0 then ""
    else Fixed(n / 10, width - 1) + [DigitChar(n % 10)]
  }

  lemma {:induction false} ParseFixed(n: nat, width: nat)
    requires n < Pow10(width)
    ensures ParseDigits(Fixed(n, width)) == n
  {
    if width > 0 {
      var r := Fixed(n, width);
      assert r[..|r| - 1] == Fixed(n / 10, width - 1);
      ParseFixed(n / 10, width - 1);
    }
  }

  lemma {:induction false} FixedParse(s: string)
    requires AllDigits(s)
    ensures Fixed(ParseDigits(s), |s|) == s
  {
    if |s| > 0 {
      var p := s[..|s| - 1];
      FixedParse(p);
      var n := ParseDigits(s);
      assert n / 10 == ParseDigits(p) && n % 10 == DigitValue(s[|s| - 1]);
      assert s == p + [s[|s| - 1]];
    }
  }

  /** `str(n)` for a natural number: decimal, no leading zeros. */
  function NatToString(n: nat): (r: string)
    ensures |r| >= 1 && AllDigits(r)
    ensures |r| == 1 || r[0] != '0'
  {
    if n < 10 then [DigitChar(n)]
    else NatToString(n / 10) + [DigitChar(n % 10)]
  }

  lemma {:induction false} ParseNatToString(n: nat)
    ensures ParseDigits(NatToString(n)) == n
  {
    if n >= 10 {
      var r := NatToString(n);
      assert r[..|r| - 1] == NatToString(n / 10);
      ParseNatToString(n / 10);
    }
  }

  /** `str(i)` for a Python `int`. */
  function IntToString(i: int): string
  {
    if i < 0 then "-" + NatToString(-i) else NatToString(i)
  }

  // ---------------------------------------------------------------------
  // Whitespace and `str.strip()`

  /** The characters for which Python's `str.isspace()` holds. */
  predicate IsSpace(c: char)
  {
    || ('\U{0009}' <= c <= '\U{000D}')
    || ('\U{001C}' <= c <= '\U{0020}')
    || c == '\U{0085}' || c == '\U{00A0}' || c == '\U{1680}'
    || ('\U{2000}' <= c <= '\U{200A}')
    || c == '\U{2028}' || c == '\U{2029}' || c == '\U{202F}'
    || c == '\U{205F}' || c == '\U{3000}'
  }

  function LStrip(s: string): (r: string)
    ensures |r| <= |s| && r == s[|s| - |r|..]
    ensures |r| == 0 || !IsSpace(r[0])
    ensures forall i :: 0 <= i < |s| - |r| ==> IsSpace(s[i])
  {
    if |s| == 0 || !IsSpace(s[0]) then s
    else
      var t := LStrip(s[1..]);
      assert forall i :: 1 <= i < |s| - |t| ==> s[i] == s[1..][i - 1];
      t
  }

  function RStrip(s: string): (r: string)
    ensures |r| <= |s| && r == s[..|r|]
    ensures |r| == 0 || !IsSpace(r[|r| - 1])
    ensures forall i :: |r| <= i < |s| ==> IsSpace(s[i])
  {
    if |s| == 0 || !IsSpace(s[|s| - 1]) then s
    else RStrip(s[..|s| - 1])
  }

  /** `r` is the slice of `s` starting at `i` once the whitespace on both
      sides of it has been removed. */
  ghost predicate IsStripOf(r: string, s: string, i: int)
  {
    && 0 <= i <= |s| - |r|
    && r == s[i..i + |r|]
    && (forall k :: 0 <= k < i ==> IsSpace(s[k]))
    && (forall k :: i + |r| <= k < |s| ==> IsSpace(s[k]))
    && (|r| == 0 || (!IsSpace(r[0]) && !IsSpace(r[|r| - 1])))
  }

  lemma StripParts(s: string, l: string, r: string)
    requires |l| <= |s| && l == s[|s| - |l|..]
    requires forall k :: 0 <= k < |s| - |l| ==> IsSpace(s[k])
    requires |r| <= |l| && r == l[..|r|]
    requires forall k :: |r| <= k < |l| ==> IsSpace(l[k])
    requires |r| == 0 || (!IsSpace(r[0]) && !IsSpace(r[|r| - 1]))
    ensures IsStripOf(r, s, |s| - |l|)
  {
    var i := |s| - |l|;
    assert r == s[i..i + |r|];
    forall k | i + |r| <= k < |s|
      ensures IsSpace(s[k])
    {
      assert s[k] == l[k - i];
    }
  }

  /** Python's `s.strip()` with no argument. */
  function Strip(s: string): (r: string)
    ensures IsStripOf(r, s, |s| - |LStrip(s)|)
  {
    var l := LStrip(s);
    var r := RStrip(l);
    assert |r| == 0 || !IsSpace(r[0]) by {
      if |r| > 0 { assert r[0] == l[0]; }
    }
    StripParts(s, l, r);
    r
  }

  lemma StripIdempotent(s: string)
    ensures Strip(Strip(s)) == Strip(s)
  {
  }

  /** `s` contains the character `c`. */
  predicate HasChar(s: string, c: char)
  {
    exists i :: 0 <= i < |s| && s[i] == c
  }

  /** `s.split(c)[-1]`: the part after the last `c`, or all of `s`. */
  function AfterLast(s: string, c: char): (r: string)
    ensures !HasChar(r, c)
    ensures |r| <= |s| && r == s[|s| - |r|..]
    ensures |r| < |s| ==> s[|s| - |r| - 1] == c
  {
    if |s| == 0 then ""
    else if s[|s| - 1] == c then ""
    else
      var init := s[..|s| - 1];
      var t := AfterLast(init, c);
      var r := t + [s[|s| - 1]];
      assert r == s[|s| - |r|..] by {
        assert t == init[|init| - |t|..];
        assert s == init + [s[|s| - 1]];
      }
      assert !HasChar(r, c) by {
        forall i | 0 <= i < |r| ensures r[i] != c {
          if i < |t| {
            assert r[i] == t[i];
          }
        }
      }
      assert |r| < |s| ==> s[|s| - |r| - 1] == init[|init| - |t| - 1];
      r
  }

  /** `str.lower()` restricted to ASCII letters. */
  function AsciiLower(s: string): (r: string)
    ensures |r| == |s|
    ensures forall i :: 0 <= i < |s| ==> r[i] == (if 'A' <= s[i] <= 'Z' then (s[i] as int + 32) as char else s[i])
  {
    if |s| == 0 then ""
    else [if 'A' <= s[0] <= 'Z' then (s[0] as int + 32) as char else s[0]] + AsciiLower(s[1..])
  }

  /** Concatenation of `parts` with `sep` between consecutive parts, as
      Python's `sep.join(parts)`. */
  function Join(sep: string, parts: seq<string>): string
  {
    if |parts| == 0 then ""
    else if |parts| == 1 then parts[0]
    else parts[0] + sep + Join(sep, parts[1..])
  }
}

=== FILE: task_service.dfy ===
/** The task endpoints' service: listing a plan's tasks and changing a
    task's status. The `tasks` table is a map from task id to row; the clock
    is a parameter `now`. */
module TaskService {
  import opened Wrappers
  import opened Json
  import opened ApiErrors
  import Sorting

  /** The `TaskStatus` enum of the tasks table. */
  datatype TaskStatus = Todo | InProgress | Done | Blocked | Skipped

  /** A row of the `tasks` table. */
  datatype Task = Task(
    planId: string,
    taskKey: string,
    title: string,
    status: TaskStatus,
    dueDate: Option<int>,
    metadata: Object,
    sortKey: int,
    completedAt: Option<int>,
    updatedAt: int)

  // ---------------------------------------------------------------------
  // Listing

  /** The row belongs to the plan and has the requested status, if any. */
  predicate Selected(t: Task, planId: string, status: Option<TaskStatus>)
  {
    t.planId == planId && (status.None? || t.status == status.value)
  }

  function Select(rows: seq<Task>, planId: string, status: Option<TaskStatus>): (r: seq<Task>)
    ensures forall t :: multiset(r)[t] == if Selected(t, planId, status) then multiset(rows)[t] else 0
  {
    if |rows| == 0 then []
    else
      var rest := Select(rows[1..], planId, status);
      assert rows == [rows[0]] + rows[1..];
      if Selected(rows[0], planId, status) then [rows[0]] + rest else rest
  }

  function SortKeyOf(t: Task): int { t.sortKey }

  /** `list_tasks`: exactly the plan's rows with the requested status, each
      as often as it is stored, in ascending `sort_key`. */
  function ListTasks(rows: seq<Task>, planId: string, status: Option<TaskStatus>): (r: seq<Task>)
    ensures forall t :: multiset(r)[t] == if Selected(t, planId, status) then multiset(rows)[t] else 0
    ensures forall i, j :: 0 <= i < j < |r| ==> r[i].sortKey <= r[j].sortKey
  {
    var r := Sorting.SortBy(Select(rows, planId, status), SortKeyOf);
    assert forall i, j :: 0 <= i < j < |r| ==> SortKeyOf(r[i]) <= SortKeyOf(r[j]);
    r
  }

  /** Every listed row is one of the plan's rows with the requested status. */
  lemma ListedRowsSelected(rows: seq<Task>, planId: string, status: Option<TaskStatus>, t: Task)
    ensures t in ListTasks(rows, planId, status) <==> t in rows && Selected(t, planId, status)
  {
    var r := ListTasks(rows, planId, status);
    assert t in r <==> multiset(r)[t] > 0;
    assert t in rows <==> multiset(rows)[t] > 0;
  }

  // ---------------------------------------------------------------------
  // Status changes

  /** `completed_at` after a change to `status`: set on the first
      completion, kept on a repeated one, cleared otherwise. */
  function CompletedAfter(t: Task, status: TaskStatus, now: int): Option<int>
  {
    if status == Done then
      if t.status != Done && t.completedAt.None? then Some(now) else t.completedAt
    else None
  }

  /** `update_status`: a missing task, or one of another plan, is not
      found; otherwise only the status, `updated_at` and `completed_at`
      change. */
  function UpdateStatus(tasks: map<string, Task>, planId: string, taskId: string, status: TaskStatus, now: int)
    : (r: Result<(map<string, Task>, Task), ApiError>)
    ensures r.Err? <==> taskId !in tasks || tasks[taskId].planId != planId
    ensures r.Err? ==> r.error == TaskNotFound
    ensures r.Ok? ==>
      var (after, t) := r.value;
      var before := tasks[taskId];
      && after == tasks[taskId := t]
      && t.status == status && t.updatedAt == now
      && (status != Done ==> t.completedAt.None?)
      && (status == Done && before.status != Done && before.completedAt.None? ==> t.completedAt == Some(now))
      && (status == Done && (before.status == Done || before.completedAt.Some?) ==> t.completedAt == before.completedAt)
      && t == before.(status := t.status, updatedAt := t.updatedAt, completedAt := t.completedAt)
  {
    if taskId !in tasks || tasks[taskId].planId != planId then Err(TaskNotFound)
    else
      var before := tasks[taskId];
      var t := before.(status := status, updatedAt := now, completedAt := CompletedAfter(before, status, now));
      Ok((tasks[taskId := t], t))
  }

  /** A row is done exactly when it has a completion time. */
  ghost predicate CompletionConsistent(t: Task)
  {
    t.status == Done <==> t.completedAt.Some?
  }

  /** Status changes keep every row's completion time consistent with its
      status. */
  lemma UpdateStatusKeepsCompletion(tasks: map<string, Task>, planId: string, taskId: string, status: TaskStatus, now: int)
    requires forall id :: id in tasks ==> CompletionConsistent(tasks[id])
    requires UpdateStatus(tasks, planId, taskId, status, now).Ok?
    ensures var after := UpdateStatus(tasks, planId, taskId, status, now).value.0;
      forall id :: id in after ==> CompletionConsistent(after[id])
  {
  }

  /** Completing a task twice keeps the first completion time. */
  lemma CompleteTwice(tasks: map<string, Task>, planId: string, taskId: string, now1: int, now2: int)
    requires UpdateStatus(tasks, planId, taskId, Done, now1).Ok?
    requires CompletionConsistent(tasks[taskId])
    ensures var (after, t1) := UpdateStatus(tasks, planId, taskId, Done, now1).value;
      var second := UpdateStatus(after, planId, taskId, Done, now2);
      && second.Ok?
      && t1.completedAt.Some?
      && second.value.1.completedAt == t1.completedAt
  {
  }

  /** Reopening a task and completing it again records the new time. */
  lemma ReopenThenComplete(tasks: map<string, Task>, planId: string, taskId: string, now1: int, now2: int)
    requires UpdateStatus(tasks, planId, taskId, Todo, now1).Ok?
    ensures var after := UpdateStatus(tasks, planId, taskId, Todo, now1).value.0;
      UpdateStatus(after, planId, taskId, Done, now2).value.1.completedAt == Some(now2)
  {
  }
}

=== FILE: template_repository.dfy ===
/** Loading a workflow template by key: the key must have the form
    `event/vN`, it names the file `event/vN/compiled.json` under the
    workflows root, and the file must hold an object whose graph passes
    validation.

    The file system is a map from (event, version) directory names to the
    decoded content of `compiled.json`; a file that is not valid JSON is not
    modelled. */
module TemplateRepository {
  import opened Wrappers
  import opened Json
  import opened ApiErrors
  import WorkflowValidator
  import Toposort

  /** The characters of `[a-zA-Z0-9_\-]`. */
  predicate IsEventChar(c: char)
  {
    ('a' <= c <= 'z') || ('A' <= c <= 'Z') || ('0' <= c <= '9') || c == '_' || c == '-'
  }

  predicate IsDigitChar(c: char)
  {
    '0' <= c <= '9'
  }

  /** `key` fully matches `[a-zA-Z0-9_\-]+/v[0-9]+` with the slash at `i`. */
  ghost predicate MatchesAt(key: string, i: int)
  {
    && 0 < i && i + 2 < |key|
    && (forall k :: 0 <= k < i ==> IsEventChar(key[k]))
    && key[i] == '/' && key[i + 1] == 'v'
    && (forall k :: i + 2 <= k < |key| ==> IsDigitChar(key[k]))
  }

  ghost predicate MatchesPattern(key: string)
  {
    exists i :: MatchesAt(key, i)
  }

  /** The position of the first `c` in `s`, or `|s|`. */
  function IndexOf(s: string, c: char): (i: nat)
    ensures i <= |s|
    ensures i < |s| ==> s[i] == c
    ensures forall k :: 0 <= k < i ==> s[k] != c
  {
    if |s| == 0 then 0
    else if s[0] == c then 0
    else 1 + IndexOf(s[1..], c)
  }

  /** `_TEMPLATE_KEY_PATTERN.fullmatch(key)`: the slash of a match is the
      first one, since an event name has none. */
  function KeyMatches(key: string): (r: bool)
    ensures r <==> MatchesPattern(key)
    ensures r ==> MatchesAt(key, IndexOf(key, '/'))
  {
    var i := IndexOf(key, '/');
    var r := 0 < i && i + 2 < |key|
      && (forall k :: 0 <= k < i ==> IsEventChar(key[k]))
      && key[i + 1] == 'v'
      && (forall k :: i + 2 <= k < |key| ==> IsDigitChar(key[k]));
    assert r ==> MatchesAt(key, i);
    assert MatchesPattern(key) ==> r by {
      if MatchesPattern(key) {
        var j :| MatchesAt(key, j);
        assert !IsEventChar('/');
        assert j == i;
      }
    }
    r
  }

  /** `key.split("/", maxsplit=1)` of an accepted key: the event directory
      and the version directory. */
  function SplitKey(key: string): (r: (string, string))
    requires KeyMatches(key)
    ensures r.0 + "/" + r.1 == key
    ensures |r.0| > 0 && |r.1| >= 2 && r.1[0] == 'v'
  {
    var i := IndexOf(key, '/');
    assert key == key[..i] + "/" + key[i + 1..];
    (key[..i], key[i + 1..])
  }

  /** An accepted key has one slash and no dot, so neither directory name
      is `.` or `..` and the path stays under the workflows root. */
  lemma AcceptedKeyStaysUnderRoot(key: string)
    requires KeyMatches(key)
    ensures multiset(key)['/'] == 1
    ensures '.' !in key
    ensures '/' !in SplitKey(key).0 && '/' !in SplitKey(key).1
    ensures SplitKey(key).0 !in {".", ".."} && SplitKey(key).1 !in {".", ".."}
  {
    var i := IndexOf(key, '/');
    assert MatchesAt(key, i);
    var event, version := key[..i], key[i + 1..];
    assert SplitKey(key) == (event, version);
    assert '/' !in event && '.' !in event by {
      forall k | 0 <= k < |event| ensures event[k] != '/' && event[k] != '.' {
        assert IsEventChar(key[k]);
      }
    }
    assert '/' !in version && '.' !in version by {
      forall k | 0 <= k < |version| ensures version[k] != '/' && version[k] != '.' {
        if k > 0 { assert IsDigitChar(key[i + 1 + k]); }
      }
    }
    SlashCount(key, event, version);
  }

  lemma SlashCount(key: string, event: string, version: string)
    requires key == event + "/" + version
    requires '/' !in event && '/' !in version
    ensures multiset(key)['/'] == 1
    ensures '.' !in event && '.' !in version ==> '.' !in key
  {
    assert multiset(key) == multiset(event) + multiset{'/'} + multiset(version);
  }

  /** `TemplateRepository.load`. */
  function Load(key: string, files: map<(string, string), Json>): (r: Result<Object, ApiError>)
    ensures !MatchesPattern(key) ==> r == Err(TemplateNotFound)
    ensures MatchesPattern(key) && SplitKey(key) !in files ==> r == Err(TemplateNotFound)
    ensures MatchesPattern(key) && SplitKey(key) in files ==>
      var payload := files[SplitKey(key)];
      && (!payload.JObj? ==> r == Err(PlannerInputInvalid))
      && (payload.JObj? ==>
            && (r.Ok? <==> WorkflowValidator.ValidateGraph(payload.fields).Ok?)
            && (r.Ok? ==> r.value == payload.fields)
            && (r.Err? ==> r.error == PlannerInputInvalid))
  {
    if !KeyMatches(key) then Err(TemplateNotFound)
    else
      var path := SplitKey(key);
      if path !in files then Err(TemplateNotFound)
      else
        var payload := files[path];
        if !payload.JObj? then Err(PlannerInputInvalid)
        else if WorkflowValidator.ValidateGraph(payload.fields).Err? then Err(PlannerInputInvalid)
        else Ok(payload.fields)
  }

  /** A loaded template is a well-formed acyclic workflow graph. */
  lemma LoadedTemplatesAreValid(key: string, files: map<(string, string), Json>)
    requires Load(key, files).Ok?
    ensures WorkflowValidator.WellFormedGraph(Load(key, files).value)
    ensures var t := Load(key, files).value;
      exists p :: Toposort.IsTopologicalOrder(WorkflowValidator.TaskIds(t), WorkflowValidator.TemplateEdges(t), p)
  {
    WorkflowValidator.ValidateGraphAccepts(Load(key, files).value);
  }

  /** A published workflow's key is accepted and split at its slash. */
  lemma PublishedKeyAccepted()
    ensures KeyMatches("birth_de/v1") && SplitKey("birth_de/v1") == ("birth_de", "v1")
  {
    var key := "birth_de/v1";
    assert MatchesAt(key, 8);
    var i := IndexOf(key, '/');
    assert i == 8 by {
      assert key[8] == '/';
      assert forall k :: 0 <= k < 8 ==> key[k] != '/';
    }
    assert key[..8] == "birth_de" && key[9..] == "v1";
  }

  /** A path traversal is rejected: `.` is not an event character. */
  lemma TraversalRejected()
    ensures !KeyMatches("../etc/v1")
  {
    var key := "../etc/v1";
    forall i ensures !MatchesAt(key, i) {
      assert !IsEventChar(key[0]);
    }
  }

  /** A nested path is rejected: the version must be digits to the end. */
  lemma NestedPathRejected()
    ensures !KeyMatches("birth_de/v1/x")
  {
    var key := "birth_de/v1/x";
    forall i ensures !MatchesAt(key, i) {
      assert !IsDigitChar(key[12]);
    }
  }
}

=== FILE: toposort.dfy ===
/** The planner's deterministic topological sort of task ids (Kahn's
    algorithm, a min-heap of ready ids so that the smallest ready id is
    always emitted next).

    `SmallestReadyFirst` is the reference definition: repeatedly emit the
    least id all of whose predecessors have been emitted. `ToposortTaskIds`
    follows the source's bookkeeping (in-degree counters, a ready heap) and
    is proved to compute exactly the reference. */
module Toposort {
  import opened Wrappers
  import opened Strings

  /** A dependency `(source, target)`: `source` must come before `target`. */
  type Edge = (string, string)

  datatype TopoError =
    | UnknownTask   // an edge names an id outside the id set
    | Cycle         // not every id could be emitted

  function Elems(s: seq<string>): set<string>
  {
    set x | x in s
  }

  lemma ElemsCons(x: string, s: seq<string>)
    ensures Elems([x] + s) == {x} + Elems(s)
  {
  }

  /** The ids of a prefix of `[x] + s`. */
  lemma ElemsConsPrefix(x: string, s: seq<string>, b: int)
    requires 0 < b <= |s| + 1
    ensures Elems(([x] + s)[..b]) == {x} + Elems(s[..b - 1])
  {
    assert ([x] + s)[..b] == [x] + s[..b - 1];
    ElemsCons(x, s[..b - 1]);
  }

  predicate Distinct(s: seq<string>)
  {
    forall a, b :: 0 <= a < b < |s| ==> s[a] != s[b]
  }

  /** Both ends of every edge are known ids. */
  predicate EdgesKnown(ids: set<string>, edges: seq<Edge>)
  {
    forall j :: 0 <= j < |edges| ==> edges[j].0 in ids && edges[j].1 in ids
  }

  /** Every edge into `x` starts at an id in `done`. */
  predicate SourcesDone(edges: seq<Edge>, x: string, done: set<string>)
  {
    forall j :: 0 <= j < |edges| && edges[j].1 == x ==> edges[j].0 in done
  }

  /** The ids not yet emitted whose predecessors all have been. */
  function Ready(ids: set<string>, edges: seq<Edge>, done: set<string>): set<string>
  {
    set x | x in ids && x !in done && SourcesDone(edges, x, done)
  }

  /** Emit the least ready id until none is ready. */
  function Peel(ids: set<string>, edges: seq<Edge>, done: set<string>): (order: seq<string>)
    requires done <= ids
    ensures Elems(order) <= ids - done
    decreases |ids - done|
  {
    var ready := Ready(ids, edges, done);
    if ready == {} then []
    else
      var x := Least(ready);
      assert x in ids - done;
      assert |ids - (done + {x})| < |ids - done| by {
        assert ids - (done + {x}) < ids - done;
      }
      var rest := Peel(ids, edges, done + {x});
      assert Elems([x] + rest) == {x} + Elems(rest);
      [x] + rest
  }

  lemma PeelUnfold(ids: set<string>, edges: seq<Edge>, done: set<string>)
    requires done <= ids && Ready(ids, edges, done) != {}
    ensures Peel(ids, edges, done)
      == [Least(Ready(ids, edges, done))] + Peel(ids, edges, done + {Least(Ready(ids, edges, done))})
  {
  }

  lemma {:induction false} PeelDistinct(ids: set<string>, edges: seq<Edge>, done: set<string>)
    requires done <= ids
    ensures Distinct(Peel(ids, edges, done))
    decreases |ids - done|
  {
    if Ready(ids, edges, done) != {} {
      var x := Least(Ready(ids, edges, done));
      PeelUnfold(ids, edges, done);
      assert ids - (done + {x}) < ids - done;
      var rest := Peel(ids, edges, done + {x});
      PeelDistinct(ids, edges, done + {x});
      var order := [x] + rest;
      forall a, b | 0 <= a < b < |order|
        ensures order[a] != order[b]
      {
        assert order[b] == rest[b - 1] && order[b] in Elems(rest);
        if a > 0 {
          assert order[a] == rest[a - 1];
        }
      }
    }
  }

  /** `order[b]` is the least id ready after `done` and `order[..b]`. */
  ghost predicate LeastAt(ids: set<string>, edges: seq<Edge>, done: set<string>, order: seq<string>, b: int)
    requires 0 <= b < |order|
  {
    IsLeast(order[b], Ready(ids, edges, done + Elems(order[..b])))
  }

  /** Each emitted id is the least ready one once the ids before it in the
      order are emitted. */
  lemma {:induction false} PeelLeast(ids: set<string>, edges: seq<Edge>, done: set<string>)
    requires done <= ids
    ensures forall b :: 0 <= b < |Peel(ids, edges, done)| ==> LeastAt(ids, edges, done, Peel(ids, edges, done), b)
    decreases |ids - done|
  {
    if Ready(ids, edges, done) != {} {
      var x := Least(Ready(ids, edges, done));
      PeelUnfold(ids, edges, done);
      assert ids - (done + {x}) < ids - done;
      var rest := Peel(ids, edges, done + {x});
      PeelLeast(ids, edges, done + {x});
      var order := [x] + rest;
      forall b | 0 <= b < |order|
        ensures LeastAt(ids, edges, done, order, b)
      {
        if b == 0 {
          assert done + Elems(order[..0]) == done;
        } else {
          LeastAtCons(ids, edges, done, x, rest, b);
        }
      }
    }
  }

  /** A position after the first of `[x] + rest` is least-ready after
      `done` when it is so in `rest` after `done + {x}`. */
  lemma LeastAtCons(ids: set<string>, edges: seq<Edge>, done: set<string>, x: string, rest: seq<string>, b: int)
    requires 0 < b <= |rest|
    requires forall c :: 0 <= c < |rest| ==> LeastAt(ids, edges, done + {x}, rest, c)
    ensures LeastAt(ids, edges, done, [x] + rest, b)
  {
    assert LeastAt(ids, edges, done + {x}, rest, b - 1);
    ElemsConsPrefix(x, rest, b);
    assert done + Elems(([x] + rest)[..b]) == (done + {x}) + Elems(rest[..b - 1]);
    assert ([x] + rest)[b] == rest[b - 1];
  }

  /** Once the order is exhausted nothing is ready. */
  lemma {:induction false} PeelStops(ids: set<string>, edges: seq<Edge>, done: set<string>)
    requires done <= ids
    ensures Ready(ids, edges, done + Elems(Peel(ids, edges, done))) == {}
    decreases |ids - done|
  {
    if Ready(ids, edges, done) == {} {
      assert done + Elems(Peel(ids, edges, done)) == done;
    } else {
      var x := Least(Ready(ids, edges, done));
      PeelUnfold(ids, edges, done);
      assert ids - (done + {x}) < ids - done;
      var rest := Peel(ids, edges, done + {x});
      PeelStops(ids, edges, done + {x});
      assert done + Elems([x] + rest) == (done + {x}) + Elems(rest);
    }
  }

  /** The reference result: unknown ids first, then the emitted order, which
      is a cycle error unless it covers every id. */
  function SmallestReadyFirst(ids: set<string>, edges: seq<Edge>): Result<seq<string>, TopoError>
  {
    if !EdgesKnown(ids, edges) then Err(UnknownTask)
    else
      var order := Peel(ids, edges, {});
      if |order| != |ids| then Err(Cycle) else Ok(order)
  }

  /** `p` lists every id exactly once, and each edge's source before its
      target. */
  ghost predicate IsTopologicalOrder(ids: set<string>, edges: seq<Edge>, p: seq<string>)
  {
    && Distinct(p)
    && Elems(p) == ids
    && forall j, b :: 0 <= j < |edges| && 0 <= b < |p| && edges[j].1 == p[b] ==> edges[j].0 in p[..b]
  }

  lemma {:induction false} DistinctCard(s: seq<string>)
    requires Distinct(s)
    ensures |Elems(s)| == |s|
  {
    if |s| > 0 {
      var t := s[..|s| - 1];
      DistinctCard(t);
      assert s == t + [s[|s| - 1]];
      assert Elems(s) == Elems(t) + {s[|s| - 1]};
      assert s[|s| - 1] !in Elems(t);
    }
  }

  lemma {:induction false} SubsetCard(a: set<string>, b: set<string>)
    requires a <= b
    ensures |a| <= |b|
    decreases |a|
  {
    if a != {} {
      var x :| x in a;
      SubsetCard(a - {x}, b - {x});
    }
  }

  lemma ProperSubsetCard(a: set<string>, b: set<string>)
    requires a < b
    ensures |a| < |b|
  {
    var x :| x in b && x !in a;
    SubsetCard(a, b - {x});
  }

  /** The first position of `p` holding an id outside `d`. */
  lemma FirstOutside(p: seq<string>, d: set<string>) returns (b: int)
    requires exists k :: 0 <= k < |p| && p[k] !in d
    ensures 0 <= b < |p| && p[b] !in d
    ensures forall k :: 0 <= k < b ==> p[k] in d
  {
    b := 0;
    while p[b] in d
      invariant 0 <= b < |p|
      invariant forall k :: 0 <= k < b ==> p[k] in d
      decreases |p| - b
    {
      b := b + 1;
    }
  }

  /** A complete emission is a topological order. */
  lemma CompletePeelIsTopological(ids: set<string>, edges: seq<Edge>)
    requires |Peel(ids, edges, {})| == |ids|
    ensures IsTopologicalOrder(ids, edges, Peel(ids, edges, {}))
  {
    var order := Peel(ids, edges, {});
    PeelDistinct(ids, edges, {});
    PeelLeast(ids, edges, {});
    DistinctCard(order);
    assert Elems(order) == ids by {
      if Elems(order) < ids {
        ProperSubsetCard(Elems(order), ids);
      }
    }
    forall j, b | 0 <= j < |edges| && 0 <= b < |order| && edges[j].1 == order[b]
      ensures edges[j].0 in order[..b]
    {
      assert LeastAt(ids, edges, {}, order, b);
      assert {} + Elems(order[..b]) == Elems(order[..b]);
      assert order[b] in Ready(ids, edges, Elems(order[..b]));
    }
  }

  /** While some id is still missing, a topological order always offers a
      ready one: the first id of the order outside `done`. */
  lemma TopologicalOrderUnblocks(ids: set<string>, edges: seq<Edge>, p: seq<string>, done: set<string>)
    requires IsTopologicalOrder(ids, edges, p)
    requires done < ids
    ensures Ready(ids, edges, done) != {}
  {
    var x :| x in ids && x !in done;
    assert x in Elems(p);
    var b := FirstOutside(p, done);
    forall j | 0 <= j < |edges| && edges[j].1 == p[b]
      ensures edges[j].0 in done
    {
      var src := edges[j].0;
      assert src in p[..b];
      var a :| 0 <= a < b && p[..b][a] == src;
      assert p[a] == src;
    }
    assert p[b] in Ready(ids, edges, done);
  }

  /** An emission that stops short of the ids means no topological order
      exists. */
  lemma ShortPeelHasNoOrder(ids: set<string>, edges: seq<Edge>, p: seq<string>)
    requires |Peel(ids, edges, {})| != |ids|
    ensures !IsTopologicalOrder(ids, edges, p)
  {
    var order := Peel(ids, edges, {});
    PeelDistinct(ids, edges, {});
    PeelStops(ids, edges, {});
    DistinctCard(order);
    var done := Elems(order);
    assert {} + done == done;
    assert done <= ids && |done| != |ids|;
    assert done != ids by {
      if done == ids {
        assert false;
      }
    }
    if IsTopologicalOrder(ids, edges, p) {
      TopologicalOrderUnblocks(ids, edges, p, done);
    }
  }

  /** Success is exactly the existence of a topological order, and the order
      returned is one; an unknown id is reported before a cycle. */
  lemma SmallestReadyFirstCorrect(ids: set<string>, edges: seq<Edge>)
    ensures SmallestReadyFirst(ids, edges) == Err(UnknownTask) <==> !EdgesKnown(ids, edges)
    ensures SmallestReadyFirst(ids, edges).Ok? ==>
      IsTopologicalOrder(ids, edges, SmallestReadyFirst(ids, edges).value)
    ensures SmallestReadyFirst(ids, edges) == Err(Cycle) <==>
      EdgesKnown(ids, edges) && !exists p :: IsTopologicalOrder(ids, edges, p)
  {
    if EdgesKnown(ids, edges) {
      if |Peel(ids, edges, {})| == |ids| {
        CompletePeelIsTopological(ids, edges);
      } else {
        forall p | true
          ensures !IsTopologicalOrder(ids, edges, p)
        {
          ShortPeelHasNoOrder(ids, edges, p);
        }
      }
    }
  }

  /** Among the ids ready at each step the smallest is emitted first. */
  lemma SmallestReadyFirstTieBreak(ids: set<string>, edges: seq<Edge>)
    requires SmallestReadyFirst(ids, edges).Ok?
    ensures var order := SmallestReadyFirst(ids, edges).value;
      forall b :: 0 <= b < |order| ==> LeastAt(ids, edges, {}, order, b)
  {
    PeelLeast(ids, edges, {});
  }

  // ---------------------------------------------------------------------
  // The source's bookkeeping

  /** How many of the edges at positions `lo .. hi-1` lead into `x` from an
      id outside `done`. */
  function Count(edges: seq<Edge>, lo: int, hi: int, x: string, done: set<string>): nat
    requires 0 <= lo <= hi <= |edges|
    decreases hi - lo
  {
    if hi == lo then 0
    else Count(edges, lo, hi - 1, x, done) + (if edges[hi - 1].1 == x && edges[hi - 1].0 !in done then 1 else 0)
  }

  /** The in-degree counter's value for `x` once `done` has been emitted. */
  function InCount(edges: seq<Edge>, x: string, done: set<string>): nat
  {
    Count(edges, 0, |edges|, x, done)
  }

  lemma {:induction false} CountSplit(edges: seq<Edge>, lo: int, mid: int, hi: int, x: string, done: set<string>)
    requires 0 <= lo <= mid <= hi <= |edges|
    ensures Count(edges, lo, hi, x, done) == Count(edges, lo, mid, x, done) + Count(edges, mid, hi, x, done)
    decreases hi - mid
  {
    if hi > mid {
      CountSplit(edges, lo, mid, hi - 1, x, done);
    }
  }

  lemma {:induction false} CountZero(edges: seq<Edge>, lo: int, hi: int, x: string, done: set<string>)
    requires 0 <= lo <= hi <= |edges|
    ensures Count(edges, lo, hi, x, done) == 0 <==>
      forall k :: lo <= k < hi && edges[k].1 == x ==> edges[k].0 in done
    decreases hi - lo
  {
    if hi > lo {
      CountZero(edges, lo, hi - 1, x, done);
    }
  }

  lemma InCountZero(edges: seq<Edge>, x: string, done: set<string>)
    ensures InCount(edges, x, done) == 0 <==> SourcesDone(edges, x, done)
  {
    CountZero(edges, 0, |edges|, x, done);
  }

  lemma {:induction false} CountAntitone(edges: seq<Edge>, lo: int, hi: int, x: string, d1: set<string>, d2: set<string>)
    requires 0 <= lo <= hi <= |edges| && d1 <= d2
    ensures Count(edges, lo, hi, x, d2) <= Count(edges, lo, hi, x, d1)
    decreases hi - lo
  {
    if hi > lo {
      CountAntitone(edges, lo, hi - 1, x, d1, d2);
    }
  }

  /** The in-degree count of `toposort_task_ids`, which raises on the first
      edge with an unknown end. */
  method CountInDegrees(ids: set<string>, edges: seq<Edge>) returns (r: Result<map<string, int>, TopoError>)
    ensures r.Err? <==> !EdgesKnown(ids, edges)
    ensures r.Err? ==> r.error == UnknownTask
    ensures r.Ok? ==> r.value.Keys == ids
    ensures r.Ok? ==> forall x :: x in ids ==> r.value[x] == InCount(edges, x, {})
  {
    var indegree: map<string, int> := map x | x in ids :: 0;
    var i := 0;
    while i < |edges|
      invariant 0 <= i <= |edges|
      invariant forall k :: 0 <= k < i ==> edges[k].0 in ids && edges[k].1 in ids
      invariant indegree.Keys == ids
      invariant forall x :: x in ids ==> indegree[x] == Count(edges, 0, i, x, {})
    {
      var (source, target) := edges[i];
      if source !in ids || target !in ids {
        return Err(UnknownTask);
      }
      indegree := indegree[target := indegree[target] + 1];
      i := i + 1;
    }
    return Ok(indegree);
  }

  /** The heap holds exactly the ids not yet emitted whose counter is 0. */
  ghost predicate HeapMatchesCounters(ids: set<string>, indegree: map<string, int>, done: set<string>, ready: set<string>)
  {
    forall y :: y in ready <==> y in ids && y !in done && y in indegree && indegree[y] == 0
  }

  /** The counters while the edges are walked for `current`: edges before
      position `j` already count `current` as emitted. */
  ghost predicate CountersAt(ids: set<string>, edges: seq<Edge>, indegree: map<string, int>, j: int,
                             done: set<string>, current: string)
    requires 0 <= j <= |edges|
  {
    && indegree.Keys == ids
    && forall y :: y in ids ==>
         indegree[y] == Count(edges, 0, j, y, done + {current}) + Count(edges, j, |edges|, y, done)
  }

  /** One edge of the walk: an edge out of `current` decrements its target's
      counter, and a target whose counter reaches 0 joins the heap. */
  function DecrementFor(indegree: map<string, int>, e: Edge, current: string): map<string, int>
  {
    if e.0 == current && e.1 in indegree then indegree[e.1 := indegree[e.1] - 1] else indegree
  }

  function PushIfFree(indegree: map<string, int>, ready: set<string>, e: Edge, current: string): set<string>
  {
    if e.0 == current && e.1 in indegree && indegree[e.1] == 0 then ready + {e.1} else ready
  }

  lemma ReleaseEdge(ids: set<string>, edges: seq<Edge>, indegree: map<string, int>, ready: set<string>,
                    j: int, done: set<string>, current: string)
    requires 0 <= j < |edges| && EdgesKnown(ids, edges) && done <= ids && current !in done
    requires forall x :: x in done + {current} ==> InCount(edges, x, done) == 0
    requires CountersAt(ids, edges, indegree, j, done, current)
    requires HeapMatchesCounters(ids, indegree, done + {current}, ready)
    ensures var indegree' := DecrementFor(indegree, edges[j], current);
      && CountersAt(ids, edges, indegree', j + 1, done, current)
      && HeapMatchesCounters(ids, indegree', done + {current}, PushIfFree(indegree', ready, edges[j], current))
  {
    var n := |edges|;
    var after := done + {current};
    var e := edges[j];
    var indegree' := DecrementFor(indegree, e, current);
    forall y | y in ids
      ensures indegree'[y] == Count(edges, 0, j + 1, y, after) + Count(edges, j + 1, n, y, done)
    {
      CountSplit(edges, j, j + 1, n, y, done);
      assert Count(edges, 0, j + 1, y, after)
        == Count(edges, 0, j, y, after) + (if e.1 == y && e.0 !in after then 1 else 0);
      assert indegree'[y] == indegree[y] - (if e.0 == current && e.1 == y then 1 else 0);
    }
    if e.0 == current {
      assert e.1 !in after by {
        CountSplit(edges, 0, j, n, e.1, done);
        CountSplit(edges, j, j + 1, n, e.1, done);
      }
    }
  }

  /** Emitting `current` decrements the counter of each successor once per
      edge, pushing a successor onto the heap when its counter reaches 0. */
  method Release(ids: set<string>, edges: seq<Edge>, indegree: map<string, int>, ready: set<string>,
                 done: set<string>, current: string)
    returns (indegree': map<string, int>, ready': set<string>)
    requires EdgesKnown(ids, edges) && done <= ids && indegree.Keys == ids
    requires current in Ready(ids, edges, done)
    requires forall x :: x in ids ==> indegree[x] == InCount(edges, x, done)
    requires forall x :: x in done ==> InCount(edges, x, done) == 0
    requires ready == Ready(ids, edges, done)
    ensures indegree'.Keys == ids
    ensures forall x :: x in ids ==> indegree'[x] == InCount(edges, x, done + {current})
    ensures ready' == Ready(ids, edges, done + {current})
  {
    var after := done + {current};
    indegree', ready' := indegree, ready - {current};
    forall y | y in ids
      ensures indegree[y] == 0 <==> SourcesDone(edges, y, done)
    {
      InCountZero(edges, y, done);
    }
    InCountZero(edges, current, done);
    assert HeapMatchesCounters(ids, indegree', after, ready');
    assert CountersAt(ids, edges, indegree', 0, done, current);
    var j := 0;
    while j < |edges|
      invariant 0 <= j <= |edges|
      invariant CountersAt(ids, edges, indegree', j, done, current)
      invariant HeapMatchesCounters(ids, indegree', after, ready')
    {
      ReleaseEdge(ids, edges, indegree', ready', j, done, current);
      var decremented := DecrementFor(indegree', edges[j], current);
      ready' := PushIfFree(decremented, ready', edges[j], current);
      indegree' := decremented;
      j := j + 1;
    }
    forall x | x in ids
      ensures indegree'[x] == InCount(edges, x, after)
      ensures indegree'[x] == 0 <==> SourcesDone(edges, x, after)
    {
      InCountZero(edges, x, after);
    }
  }

  lemma PeelStep(ids: set<string>, edges: seq<Edge>, done: set<string>, order: seq<string>)
    requires done <= ids && Ready(ids, edges, done) != {}
    requires Peel(ids, edges, {}) == order + Peel(ids, edges, done)
    ensures var current := Least(Ready(ids, edges, done));
      Peel(ids, edges, {}) == (order + [current]) + Peel(ids, edges, done + {current})
  {
    var current := Least(Ready(ids, edges, done));
    var rest := Peel(ids, edges, done + {current});
    PeelUnfold(ids, edges, done);
    assert order + ([current] + rest) == (order + [current]) + rest;
  }

  /** Once emitted, an id has no pending in-edges. */
  lemma EmittedStayReleased(ids: set<string>, edges: seq<Edge>, done: set<string>, current: string)
    requires current in Ready(ids, edges, done)
    requires forall x :: x in done ==> InCount(edges, x, done) == 0
    ensures forall x :: x in done + {current} ==> InCount(edges, x, done + {current}) == 0
  {
    InCountZero(edges, current, done);
    forall x | x in done + {current}
      ensures InCount(edges, x, done + {current}) == 0
    {
      CountAntitone(edges, 0, |edges|, x, done, done + {current});
    }
  }

  /** What the main loop keeps: the order so far followed by what the
      reference still emits is the reference order, the heap holds the
      ready ids and the counters count the edges from ids not yet
      emitted. */
  ghost predicate Emitting(ids: set<string>, edges: seq<Edge>, indegree: map<string, int>, ready: set<string>,
                           done: set<string>, order: seq<string>)
  {
    && done <= ids && indegree.Keys == ids && EdgesKnown(ids, edges)
    && Peel(ids, edges, {}) == order + Peel(ids, edges, done)
    && ready == Ready(ids, edges, done)
    && (forall x :: x in ids ==> indegree[x] == InCount(edges, x, done))
    && (forall x :: x in done ==> InCount(edges, x, done) == 0)
  }

  /** One turn of the main loop: pop the least ready id, emit it and
      release its successors. */
  method EmitLeast(ids: set<string>, edges: seq<Edge>, indegree: map<string, int>, ready: set<string>,
                   done: set<string>, order: seq<string>)
    returns (indegree': map<string, int>, ready': set<string>, done': set<string>, order': seq<string>)
    requires Emitting(ids, edges, indegree, ready, done, order) && ready != {}
    ensures Emitting(ids, edges, indegree', ready', done', order')
    ensures done <= done' <= ids && |ids - done'| < |ids - done|
  {
    var current := Least(ready);
    PeelStep(ids, edges, done, order);
    EmittedStayReleased(ids, edges, done, current);
    indegree', ready' := Release(ids, edges, indegree, ready, done, current);
    assert ids - (done + {current}) < ids - done;
    order' := order + [current];
    done' := done + {current};
  }

  /** `toposort_task_ids`: count in-degrees (rejecting unknown ids), then pop
      the least ready id and release its successors until the heap is
      empty. The heap is modelled as the set of ids it holds. */
  method ToposortTaskIds(ids: set<string>, edges: seq<Edge>) returns (r: Result<seq<string>, TopoError>)
    ensures r == SmallestReadyFirst(ids, edges)
  {
    var counted := CountInDegrees(ids, edges);
    if counted.Err? {
      return Err(UnknownTask);
    }
    var indegree := counted.value;
    var ready := set x | x in ids && indegree[x] == 0;
    forall x | x in ids
      ensures indegree[x] == 0 <==> SourcesDone(edges, x, {})
    {
      InCountZero(edges, x, {});
    }
    var order: seq<string> := [];
    var done: set<string> := {};
    assert ready == Ready(ids, edges, done);
    assert Peel(ids, edges, {}) == order + Peel(ids, edges, done);
    while ready != {}
      invariant Emitting(ids, edges, indegree, ready, done, order)
      decreases |ids - done|
    {
      indegree, ready, done, order := EmitLeast(ids, edges, indegree, ready, done, order);
    }
    assert Peel(ids, edges, done) == [];
    assert order == Peel(ids, edges, {});
    if |order| != |ids| {
      return Err(Cycle);
    }
    return Ok(order);
  }

  // ---------------------------------------------------------------------
  // Worked examples

  lemma Blocked(edges: seq<Edge>, j: int, done: set<string>)
    requires 0 <= j < |edges| && edges[j].0 !in done
    ensures !SourcesDone(edges, edges[j].1, done)
  {
  }

  /** The ids of the examples are pairwise distinct. */
  lemma ExampleIdsDistinct()
    ensures "t_a" != "t_b" && "t_a" != "t_c" && "t_a" != "t_d"
    ensures "t_b" != "t_c" && "t_b" != "t_d" && "t_c" != "t_d"
    ensures "t_x" != "t_a" && "t_x" != "t_b"
  {
    assert "t_a"[2] == 'a' && "t_b"[2] == 'b' && "t_c"[2] == 'c' && "t_d"[2] == 'd' && "t_x"[2] == 'x';
  }

  lemma PeelAt(ids: set<string>, edges: seq<Edge>, done: set<string>, x: string)
    requires done <= ids && IsLeast(x, Ready(ids, edges, done))
    ensures Peel(ids, edges, done) == [x] + Peel(ids, edges, done + {x})
  {
    PeelUnfold(ids, edges, done);
    LeastUnique(x, Least(Ready(ids, edges, done)), Ready(ids, edges, done));
  }

  /** A chain a -> b -> c is emitted in chain order. */
  lemma LinearChain()
    ensures SmallestReadyFirst({"t_a", "t_b", "t_c"}, [("t_a", "t_b"), ("t_b", "t_c")])
      == Ok(["t_a", "t_b", "t_c"])
  {
    var ids, edges := {"t_a", "t_b", "t_c"}, [("t_a", "t_b"), ("t_b", "t_c")];
    ExampleIdsDistinct();
    Blocked(edges, 0, {});
    Blocked(edges, 1, {});
    Blocked(edges, 1, {"t_a"});
    assert Ready(ids, edges, {}) == {"t_a"};
    PeelAt(ids, edges, {}, "t_a");
    assert {} + {"t_a"} == {"t_a"};
    assert Ready(ids, edges, {"t_a"}) == {"t_b"};
    PeelAt(ids, edges, {"t_a"}, "t_b");
    assert {"t_a"} + {"t_b"} == {"t_a", "t_b"};
    assert Ready(ids, edges, {"t_a", "t_b"}) == {"t_c"};
    PeelAt(ids, edges, {"t_a", "t_b"}, "t_c");
    assert {"t_a", "t_b"} + {"t_c"} == ids;
    assert Ready(ids, edges, ids) == {};
    assert Peel(ids, edges, ids) == [];
    assert Peel(ids, edges, {}) == ["t_a", "t_b", "t_c"];
    assert |ids| == 3;
    assert EdgesKnown(ids, edges);
  }

  /** Two independent roots feeding one task, plus a free task: ties are
      broken by the smaller id. */
  lemma BranchingIsStableById()
    ensures SmallestReadyFirst({"t_a", "t_b", "t_c", "t_d"}, [("t_a", "t_c"), ("t_b", "t_c")])
      == Ok(["t_a", "t_b", "t_c", "t_d"])
  {
    assert Less("t_a", "t_b") && Less("t_b", "t_c") && Less("t_c", "t_d");
    Branching("t_a", "t_b", "t_c", "t_d");
  }

  /** The same for any ids `a < b < c < d`, with `a` and `b` both before
      `c`. */
  lemma Branching(a: string, b: string, c: string, d: string)
    requires Less(a, b) && Less(b, c) && Less(c, d)
    ensures SmallestReadyFirst({a, b, c, d}, [(a, c), (b, c)]) == Ok([a, b, c, d])
  {
    var ids, edges := {a, b, c, d}, [(a, c), (b, c)];
    BranchingPeel(a, b, c, d);
    LessTransitive(a, b, c);
    LessTransitive(a, c, d);
    LessTransitive(b, c, d);
    LessIrreflexive(a);
    LessIrreflexive(b);
    LessIrreflexive(c);
    assert Distinct([a, b, c, d]);
    DistinctCard([a, b, c, d]);
    assert Elems([a, b, c, d]) == ids;
    assert EdgesKnown(ids, edges);
  }

  lemma BranchingPeel(a: string, b: string, c: string, d: string)
    requires Less(a, b) && Less(b, c) && Less(c, d)
    ensures Peel({a, b, c, d}, [(a, c), (b, c)], {}) == [a, b, c, d]
  {
    var ids, edges := {a, b, c, d}, [(a, c), (b, c)];
    var d1, d2, d3 := {a}, {a, b}, {a, b, c};
    BranchingSteps(a, b, c, d);
    assert Peel(ids, edges, ids) == [];
    PeelAt(ids, edges, d3, d);
    assert d3 + {d} == ids;
    assert Peel(ids, edges, d3) == [d];
    PeelAt(ids, edges, d2, c);
    assert d2 + {c} == d3;
    assert Peel(ids, edges, d2) == [c, d];
    PeelAt(ids, edges, d1, b);
    assert d1 + {b} == d2;
    assert Peel(ids, edges, d1) == [b, c, d];
    PeelAt(ids, edges, {}, a);
    assert {} + {a} == d1;
  }

  lemma BranchingSteps(a: string, b: string, c: string, d: string)
    requires Less(a, b) && Less(b, c) && Less(c, d)
    ensures var ids, edges := {a, b, c, d}, [(a, c), (b, c)];
      && IsLeast(a, Ready(ids, edges, {}))
      && IsLeast(b, Ready(ids, edges, {a}))
      && IsLeast(c, Ready(ids, edges, {a, b}))
      && IsLeast(d, Ready(ids, edges, {a, b, c}))
      && Ready(ids, edges, ids) == {}
  {
    var ids, edges := {a, b, c, d}, [(a, c), (b, c)];
    LessTransitive(a, b, c);
    LessTransitive(a, c, d);
    LessTransitive(b, c, d);
    LessIrreflexive(a);
    LessIrreflexive(b);
    LessIrreflexive(c);
    LessIrreflexive(d);
    Blocked(edges, 0, {});
    Blocked(edges, 1, {a});
    assert Ready(ids, edges, {}) == {a, b, d};
    assert Ready(ids, edges, {a}) == {b, d};
    assert Ready(ids, edges, {a, b}) == {c, d};
    assert Ready(ids, edges, {a, b, c}) == {d};
  }

  /** Two tasks depending on each other cannot be ordered. */
  lemma TwoCycle()
    ensures SmallestReadyFirst({"t_a", "t_b"}, [("t_a", "t_b"), ("t_b", "t_a")]) == Err(Cycle)
  {
    var ids, edges := {"t_a", "t_b"}, [("t_a", "t_b"), ("t_b", "t_a")];
    ExampleIdsDistinct();
    Blocked(edges, 0, {});
    Blocked(edges, 1, {});
    assert Ready(ids, edges, {}) == {};
  }

  /** An edge from an id outside the set is rejected. */
  lemma UnknownDependency()
    ensures SmallestReadyFirst({"t_a", "t_b"}, [("t_x", "t_b")]) == Err(UnknownTask)
  {
    var ids, edges := {"t_a", "t_b"}, [("t_x", "t_b")];
    ExampleIdsDistinct();
    assert edges[0].0 !in ids;
  }
}

=== FILE: validate_all.dfy ===
/** The command that validates every compiled workflow under a root
    directory: each `compiled.json` gets basic structural checks and then
    the graph validator; the command fails when any file has an issue.

    The directory walk is a parameter: the sequence of compiled files in
    the order the walk sorts them, each with its decoded content, or `None`
    when the file is not valid JSON. */
module ValidateAll {
  import opened Wrappers
  import opened Json
  import WorkflowValidator
  import Toposort

  const RequiredKeys: seq<string> := ["template_id", "version", "graph", "tasks", "event_date_key"]

  /** Why a compiled file is rejected. */
  datatype Problem =
    | NoCompiledFiles
    | InvalidJson
    | RootNotObject
    | MissingKeys(keys: seq<string>)
    | BadTemplateId
    | BadVersion
    | GraphNotObject
    | GraphIncomplete
    | TasksNotObject
    | UnhashableNode
    | DuplicateNodes
    | Graph(error: WorkflowValidator.ValidationError)

  datatype CompiledFile = CompiledFile(path: string, content: Option<Json>)

  datatype ValidationIssue = ValidationIssue(file: string, problem: Problem)

  // ---------------------------------------------------------------------
  // One file

  /** The required keys `template` lacks, in the order they are listed. */
  function Missing(template: Object, keys: seq<string>): (r: seq<string>)
    ensures forall k :: k in r <==> k in keys && k !in template
    ensures |r| <= |keys|
  {
    if |keys| == 0 then []
    else (if keys[0] in template then [] else [keys[0]]) + Missing(template, keys[1..])
  }

  /** Missing keys are reported in the listed order, not the template's. */
  lemma MissingInListedOrder()
    ensures Missing(map["event_date_key" := JStr("birth_date"), "graph" := JObj(map[]), "template_id" := JStr("birth_de")],
                    RequiredKeys) == ["version", "tasks"]
  {
    var t := map["event_date_key" := JStr("birth_date"), "graph" := JObj(map[]), "template_id" := JStr("birth_de")];
    var keys := RequiredKeys;
    assert keys[0] in t && keys[1] !in t && keys[2] in t && keys[3] !in t && keys[4] in t;
    assert Missing(t, keys[4..]) == [] by {
      assert keys[4..][1..] == [];
    }
    assert Missing(t, keys[3..]) == [keys[3]] by {
      assert keys[3..][1..] == keys[4..];
    }
    assert Missing(t, keys[2..]) == [keys[3]] by {
      assert keys[2..][1..] == keys[3..];
    }
    assert Missing(t, keys[1..]) == [keys[1], keys[3]] by {
      assert keys[1..][1..] == keys[2..];
    }
    assert keys[0..] == keys;
  }

  /** The template has every required key. */
  predicate HasRequiredKeys(t: Object)
  {
    "template_id" in t && "version" in t && "graph" in t && "tasks" in t && "event_date_key" in t
  }

  /** Nothing is missing exactly when every required key is present. */
  lemma RequiredKeysPresent(t: Object)
    ensures Missing(t, RequiredKeys) == [] <==> HasRequiredKeys(t)
    ensures HasRequiredKeys(t) <==> forall k :: k in RequiredKeys ==> k in t
  {
    var keys := RequiredKeys;
    assert keys[0] == "template_id" && keys[1] == "version" && keys[2] == "graph";
    assert keys[3] == "tasks" && keys[4] == "event_date_key";
    if Missing(t, keys) != [] {
      assert Missing(t, keys)[0] in Missing(t, keys);
    }
  }

  /** A list or an object cannot go into a Python `set`. */
  predicate Hashable(v: Json)
  {
    !v.JList? && !v.JObj?
  }

  /** Two positions of `nodes` hold equal values, `True` counting as `1`. */
  ghost predicate HasDuplicates(nodes: seq<Json>)
  {
    exists i, j :: 0 <= i < j < |nodes| && PyEq(nodes[i], nodes[j])
  }

  /** `len(nodes) != len(set(nodes))` for hashable nodes. */
  function Duplicated(nodes: seq<Json>): (r: bool)
    ensures r <==> HasDuplicates(nodes)
  {
    if |nodes| == 0 then false
    else
      var rest := Duplicated(nodes[1..]);
      assert forall i, j :: 0 <= i < j < |nodes[1..]| ==> nodes[1..][i] == nodes[i + 1] && nodes[1..][j] == nodes[j + 1];
      assert HasDuplicates(nodes) <==> PyIn(nodes[0], nodes[1..]) || HasDuplicates(nodes[1..]) by {
        if HasDuplicates(nodes) {
          var i, j :| 0 <= i < j < |nodes| && PyEq(nodes[i], nodes[j]);
          if i == 0 {
            assert nodes[1..][j - 1] == nodes[j];
          } else {
            assert PyEq(nodes[1..][i - 1], nodes[1..][j - 1]);
          }
        }
        if PyIn(nodes[0], nodes[1..]) {
          var k :| 0 <= k < |nodes[1..]| && PyEq(nodes[0], nodes[1..][k]);
          assert PyEq(nodes[0], nodes[k + 1]);
        }
        if HasDuplicates(nodes[1..]) {
          var i, j :| 0 <= i < j < |nodes[1..]| && PyEq(nodes[1..][i], nodes[1..][j]);
          assert PyEq(nodes[i + 1], nodes[j + 1]);
        }
      }
      PyIn(nodes[0], nodes[1..]) || rest
  }

  /** `_basic_template_checks`, in its order: missing keys, `template_id`,
      `version`, `graph`, `tasks`, then repeated node ids. */
  function BasicChecks(template: Object): (r: Result<(), Problem>)
    ensures r.Ok? <==>
      && HasRequiredKeys(template)
      && template["template_id"].JStr? && template["template_id"].s != ""
      && IsPyInt(template["version"])
      && template["graph"].JObj? && "nodes" in template["graph"].fields && "edges" in template["graph"].fields
      && template["tasks"].JObj?
      && (template["graph"].fields["nodes"].JList? ==>
            var nodes := template["graph"].fields["nodes"].items;
            (forall i :: 0 <= i < |nodes| ==> Hashable(nodes[i])) && !HasDuplicates(nodes))
    ensures r.Err? && r.error.MissingKeys? ==>
      r.error.keys == Missing(template, RequiredKeys) && |r.error.keys| > 0
    ensures Missing(template, RequiredKeys) != [] ==> r == Err(MissingKeys(Missing(template, RequiredKeys)))
  {
    var missing := Missing(template, RequiredKeys);
    RequiredKeysPresent(template);
    if missing != [] then Err(MissingKeys(missing))
    else
      var templateId := template["template_id"];
      if !templateId.JStr? || templateId.s == "" then Err(BadTemplateId)
      else if !IsPyInt(template["version"]) then Err(BadVersion)
      else if !template["graph"].JObj? then Err(GraphNotObject)
      else
        var graph := template["graph"].fields;
        if "nodes" !in graph || "edges" !in graph then Err(GraphIncomplete)
        else if !template["tasks"].JObj? then Err(TasksNotObject)
        else
          var nodes := graph["nodes"];
          if !nodes.JList? then Ok(())
          else if exists i :: 0 <= i < |nodes.items| && !Hashable(nodes.items[i]) then Err(UnhashableNode)
          else if Duplicated(nodes.items) then Err(DuplicateNodes)
          else Ok(())
  }

  /** `validate_one_compiled_json`: decode, require an object, the basic
      checks, then the graph validator. */
  function ValidateOne(content: Option<Json>): (r: Result<(), Problem>)
    ensures r.Ok? <==>
      && content.Some? && content.value.JObj?
      && BasicChecks(content.value.fields).Ok?
      && WorkflowValidator.ValidateGraph(content.value.fields).Ok?
    ensures content.None? ==> r == Err(InvalidJson)
    ensures content.Some? && !content.value.JObj? ==> r == Err(RootNotObject)
  {
    match content
    case None => Err(InvalidJson)
    case Some(payload) =>
      if !payload.JObj? then Err(RootNotObject)
      else
        var _ :- BasicChecks(payload.fields);
        match WorkflowValidator.ValidateGraph(payload.fields)
        case Err(e) => Err(Graph(e))
        case Ok(_) => Ok(())
  }

  /** A file that passes is a well-formed acyclic workflow graph with the
      required keys. */
  lemma PassingFileIsValid(content: Option<Json>)
    requires ValidateOne(content).Ok?
    ensures content.Some? && content.value.JObj?
    ensures var t := content.value.fields;
      && (forall k :: k in RequiredKeys ==> k in t)
      && WorkflowValidator.WellFormedGraph(t)
      && exists p :: Toposort.IsTopologicalOrder(WorkflowValidator.TaskIds(t), WorkflowValidator.TemplateEdges(t), p)
  {
    RequiredKeysPresent(content.value.fields);
    WorkflowValidator.ValidateGraphAccepts(content.value.fields);
  }

  // ---------------------------------------------------------------------
  // All files

  /** The issue a file raises, if any. */
  function IssueOf(f: CompiledFile): (r: Option<ValidationIssue>)
    ensures r.Some? <==> ValidateOne(f.content).Err?
    ensures r.Some? ==> r.value == ValidationIssue(f.path, ValidateOne(f.content).error)
  {
    match ValidateOne(f.content)
    case Err(p) => Some(ValidationIssue(f.path, p))
    case Ok(_) => None
  }

  /** The values `f` gives for the elements of `xs` that it gives one for,
      in order. */
  function Collect<T, U>(xs: seq<T>, f: T -> Option<U>): (r: seq<U>)
    ensures |r| <= |xs|
    ensures |r| == 0 <==> forall i :: 0 <= i < |xs| ==> f(xs[i]).None?
    ensures |r| == |xs| <==> forall i :: 0 <= i < |xs| ==> f(xs[i]).Some?
    ensures forall k :: 0 <= k < |r| ==> exists i :: 0 <= i < |xs| && f(xs[i]) == Some(r[k])
  {
    if |xs| == 0 then []
    else
      var rest := Collect(xs[1..], f);
      assert forall i :: 0 <= i < |xs[1..]| ==> xs[1..][i] == xs[i + 1];
      assert forall i :: 0 < i < |xs| ==> xs[i] == xs[1..][i - 1];
      match f(xs[0])
      case Some(u) => [u] + rest
      case None => rest
  }

  /** An element added at the end adds its value, if any, at the end. */
  lemma {:induction false} CollectSnoc<T, U>(xs: seq<T>, x: T, f: T -> Option<U>)
    ensures Collect(xs + [x], f) == Collect(xs, f) + (match f(x) case Some(u) => [u] case None => [])
    decreases |xs|
  {
    if |xs| == 0 {
      assert xs + [x] == [x];
    } else {
      assert (xs + [x])[0] == xs[0];
      assert (xs + [x])[1..] == xs[1..] + [x];
      CollectSnoc(xs[1..], x, f);
    }
  }

  /** The issues of the files, in the files' order: none exactly when every
      file passes, one per file exactly when every file fails. */
  function Issues(files: seq<CompiledFile>): (r: seq<ValidationIssue>)
    ensures |r| <= |files|
    ensures |r| == 0 <==> forall i :: 0 <= i < |files| ==> IssueOf(files[i]).None?
    ensures |r| == |files| <==> forall i :: 0 <= i < |files| ==> IssueOf(files[i]).Some?
    ensures forall k :: 0 <= k < |r| ==> exists i :: 0 <= i < |files| && IssueOf(files[i]) == Some(r[k])
  {
    Collect(files, IssueOf)
  }

  /** Issues keep the files' order: a file added at the end adds its issue
      at the end. */
  lemma IssuesSnoc(files: seq<CompiledFile>, f: CompiledFile)
    ensures Issues(files + [f]) == Issues(files) + (match IssueOf(f) case Some(i) => [i] case None => [])
  {
    CollectSnoc(files, f, IssueOf);
  }

  /** `validate_all_workflows`: no compiled file at all is one issue about
      the root; otherwise the count is the number of failing files. */
  function ValidateAllWorkflows(root: string, files: seq<CompiledFile>): (r: (int, seq<ValidationIssue>))
    ensures r.0 == |r.1|
    ensures |files| == 0 ==> r == (1, [ValidationIssue(root, NoCompiledFiles)])
    ensures |files| > 0 ==> r.1 == Issues(files)
  {
    if |files| == 0 then (1, [ValidationIssue(root, NoCompiledFiles)])
    else
      var issues := Issues(files);
      (|issues|, issues)
  }

  /** `main`'s exit status. */
  function ExitCode(root: string, files: seq<CompiledFile>): (code: int)
    ensures code == 0 || code == 1
  {
    if ValidateAllWorkflows(root, files).0 == 0 then 0 else 1
  }

  /** The command succeeds exactly when there is at least one compiled file
      and every one of them passes. */
  lemma ExitCodeZeroIff(root: string, files: seq<CompiledFile>)
    ensures ExitCode(root, files) == 0 <==>
      |files| > 0 && forall i :: 0 <= i < |files| ==> ValidateOne(files[i].content).Ok?
  {
  }
}

=== FILE: workflow_json.dfy ===
/** The JSON shape of a dependency edge in a compiled workflow, read the
    same way by the plan generator and the workflow validator. */
module WorkflowJson {
  import opened Json
  import Toposort

  /** An edge object with string `from` and `to`. */
  predicate EdgeShaped(e: Json)
  {
    e.JObj? && Get(e.fields, "from").JStr? && Get(e.fields, "to").JStr?
  }

  function EdgeOf(e: Json): Toposort.Edge
    requires EdgeShaped(e)
  {
    (Get(e.fields, "from").s, Get(e.fields, "to").s)
  }

  /** The edge is well formed and both its ends are known task ids. */
  predicate EdgeAccepted(e: Json, known: set<string>)
  {
    EdgeShaped(e) && EdgeOf(e).0 in known && EdgeOf(e).1 in known
  }

  /** The edges before position `k` are all accepted. */
  predicate AcceptedBefore(items: seq<Json>, known: set<string>, k: int)
    requires 0 <= k <= |items|
  {
    forall j :: 0 <= j < k ==> EdgeAccepted(items[j], known)
  }

}

=== FILE: workflow_runner.dfy ===
/** The regression test runner's evaluation of a workflow template against a
    set of facts: which tasks and recommendations are active, which active
    tasks block each active task, and the deadline text of each active task.

    It uses the `Runner` dialect of the rule language (a `null` rule holds, a
    missing fact compares as `null`) and its own deadline evaluator, which
    returns no deadline where the planner would fail. Object entries are
    visited in sorted key order; the source visits them in document order,
    which only decides which of several errors is reported. */
module WorkflowRunner {
  import opened Wrappers
  import opened Json
  import opened Strings
  import opened Rules
  import Calendar
  import Toposort
  import Engine
  import Deadlines
  import PlannerErrors

  /** The exceptions `run_template` lets escape. */
  datatype RunError =
    | NotADict(field: string)   // `_as_dict`
    | RuleFailed(reason: RuleError)
    | NotIterable                  // `for edge in ...` over a non-iterable value
    | Unhashable                   // `x in some_set` with a list or object `x`
    | BadReference                 // deadline reference is not a string
    | BadShift                     // offset or grace is not an int
    | BadDate                      // `_parse_date` rejects the fact
    | DateOverflow                 // the shifted day is outside `date`

  datatype RuntimeResult = RuntimeResult(
    activeTasks: set<string>,
    blockedBy: map<string, seq<string>>,
    deadlines: map<string, string>,
    activeRecommendations: set<string>)

  // ---------------------------------------------------------------------
  // Eligibility

  /** An entry's rule, `{"all": []}` when it has none, under the runner's
      dialect; the entry itself must be an object. */
  function EntryActive(entry: Json, field: string, facts: Object): (r: Result<bool, RunError>)
    ensures !entry.JObj? ==> r == Err(NotADict(field))
    ensures entry.JObj? && "eligibility" !in entry.fields ==> r == Ok(true)
    ensures entry.JObj? && "eligibility" in entry.fields ==>
      var e := EvalRule(Runner, entry.fields["eligibility"], facts);
      && (r.Ok? <==> e.Ok?)
      && (r.Ok? ==> r.value == e.value)
      && (r.Err? ==> r.error == RuleFailed(e.error))
  {
    if !entry.JObj? then Err(NotADict(field))
    else match EvalRule(Runner, GetOr(entry.fields, "eligibility", DefaultEligibility()), facts)
      case Ok(b) => Ok(b)
      case Err(e) => Err(RuleFailed(e))
  }

  /** The entries before position `k` evaluate without error. */
  ghost predicate EntriesOkBefore(ids: seq<string>, entries: map<string, Json>, prefix: string, facts: Object, k: int)
    requires 0 <= k <= |ids|
    requires forall j :: 0 <= j < |ids| ==> ids[j] in entries
  {
    forall j :: 0 <= j < k ==> EntryActive(entries[ids[j]], prefix + ids[j], facts).Ok?
  }

  /** The ids among `ids` whose entry is active; the first failing entry's
      error is raised. */
  function ActiveEntries(ids: seq<string>, entries: map<string, Json>, prefix: string, facts: Object)
    : (r: Result<set<string>, RunError>)
    requires forall j :: 0 <= j < |ids| ==> ids[j] in entries
    ensures r.Ok? <==> EntriesOkBefore(ids, entries, prefix, facts, |ids|)
    ensures r.Ok? ==> forall x :: x in r.value <==>
      x in ids && EntryActive(entries[x], prefix + x, facts) == Ok(true)
    ensures r.Err? ==>
      exists k :: 0 <= k < |ids| && EntriesOkBefore(ids, entries, prefix, facts, k)
        && EntryActive(entries[ids[k]], prefix + ids[k], facts).Err?
        && r.error == EntryActive(entries[ids[k]], prefix + ids[k], facts).error
  {
    if |ids| == 0 then Ok({})
    else match EntryActive(entries[ids[0]], prefix + ids[0], facts)
      case Err(e) => Err(e)
      case Ok(b) =>
        match ActiveEntries(ids[1..], entries, prefix, facts)
        case Err(e) =>
          ghost var k :| 0 <= k < |ids| - 1 && EntriesOkBefore(ids[1..], entries, prefix, facts, k)
            && EntryActive(entries[ids[1..][k]], prefix + ids[1..][k], facts).Err?
            && e == EntryActive(entries[ids[1..][k]], prefix + ids[1..][k], facts).error;
          assert ids[k + 1] == ids[1..][k];
          assert forall j :: 1 <= j < k + 1 ==> ids[j] == ids[1..][j - 1];
          assert EntriesOkBefore(ids, entries, prefix, facts, k + 1);
          Err(e)
        case Ok(rest) =>
          assert forall j :: 1 <= j < |ids| ==> ids[j] == ids[1..][j - 1];
          assert forall x :: x in ids <==> x == ids[0] || x in ids[1..];
          Ok(if b then {ids[0]} + rest else rest)
  }

  /** The active recommendations: `recommendations`, `{}` when absent, is
      ignored unless it is an object. */
  function ActiveRecommendations(template: Object, facts: Object): (r: Result<set<string>, RunError>)
    ensures !GetOr(template, "recommendations", JObj(map[])).JObj? ==> r == Ok({})
    ensures var recs := GetOr(template, "recommendations", JObj(map[]));
      recs.JObj? ==>
        && (r.Ok? <==> forall x :: x in recs.fields ==> EntryActive(recs.fields[x], "recommendations." + x, facts).Ok?)
        && (r.Ok? ==> forall x :: x in r.value <==>
              x in recs.fields && EntryActive(recs.fields[x], "recommendations." + x, facts) == Ok(true))
  {
    var recs := GetOr(template, "recommendations", JObj(map[]));
    if !recs.JObj? then Ok({})
    else
      var ids := SortedElems(recs.fields.Keys);
      EntriesOkByKey(ids, recs.fields, "recommendations.", facts);
      ActiveEntries(ids, recs.fields, "recommendations.", facts)
  }

  /** When `ids` lists exactly the keys of `entries`, every entry in `ids`
      evaluating is every entry of the map evaluating. */
  lemma EntriesOkByKey(ids: seq<string>, entries: map<string, Json>, prefix: string, facts: Object)
    requires forall x :: x in ids <==> x in entries
    ensures forall j :: 0 <= j < |ids| ==> ids[j] in entries
    ensures EntriesOkBefore(ids, entries, prefix, facts, |ids|) <==>
      forall x :: x in entries ==> EntryActive(entries[x], prefix + x, facts).Ok?
  {
    assert forall j :: 0 <= j < |ids| ==> ids[j] in ids;
    if EntriesOkBefore(ids, entries, prefix, facts, |ids|) {
      forall x | x in entries ensures EntryActive(entries[x], prefix + x, facts).Ok? {
        var j :| 0 <= j < |ids| && ids[j] == x;
      }
    }
  }

  // ---------------------------------------------------------------------
  // Blocking edges

  /** The entries a `for` loop over `graph.edges` sees that can be objects:
      a list's items; iterating an object yields its keys and a string its
      characters, none of which is an object; other values cannot be
      iterated. */
  function EdgeItems(edges: Json): (r: Result<seq<Json>, RunError>)
    ensures edges.JList? ==> r == Ok(edges.items)
    ensures edges.JObj? || edges.JStr? ==> r == Ok([])
    ensures r.Err? <==> edges.JNull? || edges.JBool? || edges.JInt?
    ensures r.Err? ==> r.error == NotIterable
  {
    match edges
    case JList(items) => Ok(items)
    case JObj(_) => Ok([])
    case JStr(_) => Ok([])
    case _ => Err(NotIterable)
  }

  /** Python's `v in s` for a set of strings: lists and objects cannot be
      hashed, and only a string can be a member. */
  function PyInSet(v: Json, s: set<string>): (r: Result<bool, RunError>)
    ensures r.Err? <==> v.JList? || v.JObj?
    ensures r.Err? ==> r.error == Unhashable
    ensures r == Ok(true) <==> v.JStr? && v.s in s
  {
    match v
    case JList(_) => Err(Unhashable)
    case JObj(_) => Err(Unhashable)
    case JStr(x) => Ok(x in s)
    case _ => Ok(false)
  }

  /** The edge entry `item` blocks `e.1` on `e.0`: it is an object whose
      string ends are both active. */
  predicate KeepsEdge(item: Json, active: set<string>, e: Toposort.Edge)
  {
    && item.JObj?
    && Get(item.fields, "from") == JStr(e.0) && Get(item.fields, "to") == JStr(e.1)
    && e.0 in active && e.1 in active
  }

  /** How many of the edge entries keep the edge `e`. */
  function KeepCount(items: seq<Json>, active: set<string>, e: Toposort.Edge): nat
  {
    if |items| == 0 then 0
    else (if KeepsEdge(items[0], active, e) then 1 else 0) + KeepCount(items[1..], active, e)
  }

  /** The membership test on the edge entry `item` raises: its `from` is a
      list or object, or its `from` is active and its `to` is a list or
      object. */
  predicate RaisesUnhashable(item: Json, active: set<string>)
  {
    && item.JObj?
    && var source, target := Get(item.fields, "from"), Get(item.fields, "to");
    && (source.JList? || source.JObj? || (source.JStr? && source.s in active && (target.JList? || target.JObj?)))
  }

  /** The `blocked_by` loop: non-object entries are skipped, and an entry
      whose ends are both active is kept as an edge. */
  function KeptEdges(items: seq<Json>, active: set<string>): (r: Result<seq<Toposort.Edge>, RunError>)
    ensures r.Err? <==> exists k :: 0 <= k < |items| && RaisesUnhashable(items[k], active)
    ensures r.Err? ==> r.error == Unhashable
    ensures r.Ok? ==> forall e :: e in r.value <==> exists k :: 0 <= k < |items| && KeepsEdge(items[k], active, e)
    ensures r.Ok? ==> forall e :: multiset(r.value)[e] == KeepCount(items, active, e)
  {
    if |items| == 0 then Ok([])
    else
      var head, rest := items[0], items[1..];
      assert forall k :: 1 <= k < |items| ==> items[k] == rest[k - 1];
      assert forall k :: 0 <= k < |rest| ==> rest[k] == items[k + 1];
      if !head.JObj? then KeptEdges(rest, active)
      else
        var source, target := Get(head.fields, "from"), Get(head.fields, "to");
        var sourceIn :- PyInSet(source, active);
        if !sourceIn then KeptEdges(rest, active)
        else
          var targetIn :- PyInSet(target, active);
          var tail :- KeptEdges(rest, active);
          if targetIn then Ok([(source.s, target.s)] + tail) else Ok(tail)
  }

  // ---------------------------------------------------------------------
  // Deadlines

  /** `_parse_date` on a decoded fact: an ISO calendar date string. */
  function ParseDate(value: Json): (r: Result<int, RunError>)
    ensures r.Ok? <==> value.JStr? && Calendar.ParseIsoDate(value.s).Some?
    ensures r.Ok? ==> r.value == Calendar.ParseIsoDate(value.s).value
    ensures r.Err? ==> r.error == BadDate
  {
    if !value.JStr? then Err(BadDate)
    else match Calendar.ParseIsoDate(value.s)
      case None => Err(BadDate)
      case Some(n) => Ok(n)
  }

  /** The deadline object asks for a shift of a reference date. */
  predicate IsRelative(deadline: Object)
  {
    Get(deadline, "type") == JStr("relative_days")
  }

  /** A relative deadline whose reference and shifts are well typed. */
  predicate WellTyped(deadline: Object)
  {
    && Get(deadline, "reference").JStr?
    && IsPyInt(Get(deadline, "offset_days"))
    && IsPyInt(GetOr(deadline, "grace_days", JInt(0)))
  }

  /** The number of days a well-typed deadline shifts its reference by. */
  function Shift(deadline: Object): int
    requires WellTyped(deadline)
  {
    PyIntValue(Get(deadline, "offset_days")) + PyIntValue(GetOr(deadline, "grace_days", JInt(0)))
  }

  /** The runner's `compute_deadline`: no deadline for another type or a
      missing (or `null`) reference fact, errors for ill-typed fields and
      unparsable dates, and otherwise the shifted day's ISO text. */
  function ComputeDeadline(deadline: Object, facts: Object): (r: Result<Option<string>, RunError>)
    ensures !IsRelative(deadline) ==> r == Ok(None)
    ensures IsRelative(deadline) && !Get(deadline, "reference").JStr? ==> r == Err(BadReference)
    ensures IsRelative(deadline) && Get(deadline, "reference").JStr? && !WellTyped(deadline) ==> r == Err(BadShift)
    ensures IsRelative(deadline) && WellTyped(deadline) ==>
      var raw := Get(facts, Get(deadline, "reference").s);
      && (raw.JNull? ==> r == Ok(None))
      && (!raw.JNull? && ParseDate(raw).Err? ==> r == Err(BadDate))
      && (!raw.JNull? && ParseDate(raw).Ok? ==>
            var due := ParseDate(raw).value + Shift(deadline);
            && (Calendar.ValidDay(due) ==> r == Ok(Some(Calendar.IsoFormat(due))))
            && (Calendar.ValidDay(due) ==> Calendar.ParseIsoDate(r.value.value) == Some(due))
            && (!Calendar.ValidDay(due) ==> r == Err(DateOverflow)))
  {
    if !IsRelative(deadline) then Ok(None)
    else
      var reference := Get(deadline, "reference");
      if !reference.JStr? then Err(BadReference)
      else if !WellTyped(deadline) then Err(BadShift)
      else
        var raw := Get(facts, reference.s);
        if raw.JNull? then Ok(None)
        else
          var start :- ParseDate(raw);
          var due := start + Shift(deadline);
          if Calendar.ValidDay(due) then
            Calendar.ParseIsoFormat(due);
            Ok(Some(Calendar.IsoFormat(due)))
          else Err(DateOverflow)
  }

  /** A task's deadline: only an object `deadline` is computed. */
  function TaskDeadline(task: Object, facts: Object): (r: Result<Option<string>, RunError>)
    ensures !Get(task, "deadline").JObj? ==> r == Ok(None)
    ensures Get(task, "deadline").JObj? ==> r == ComputeDeadline(Get(task, "deadline").fields, facts)
  {
    var deadline := Get(task, "deadline");
    if !deadline.JObj? then Ok(None) else ComputeDeadline(deadline.fields, facts)
  }

  /** The deadlines of the tasks among `ids` that have one, raising the
      first task's error. */
  function TaskDeadlines(ids: seq<string>, tasks: map<string, Json>, facts: Object)
    : (r: Result<map<string, string>, RunError>)
    requires forall j :: 0 <= j < |ids| ==> ids[j] in tasks && tasks[ids[j]].JObj?
    ensures r.Ok? <==> forall j :: 0 <= j < |ids| ==> TaskDeadline(tasks[ids[j]].fields, facts).Ok?
    ensures r.Ok? ==> forall t :: t in r.value <==>
      t in ids && TaskDeadline(tasks[t].fields, facts).value.Some?
    ensures r.Ok? ==> forall t :: t in r.value ==>
      TaskDeadline(tasks[t].fields, facts) == Ok(Some(r.value[t]))
  {
    if |ids| == 0 then Ok(map[])
    else
      assert forall j :: 1 <= j < |ids| ==> ids[j] == ids[1..][j - 1];
      assert forall x :: x in ids <==> x == ids[0] || x in ids[1..];
      var first :- TaskDeadline(tasks[ids[0]].fields, facts);
      var rest :- TaskDeadlines(ids[1..], tasks, facts);
      Ok(if first.Some? then rest[ids[0] := first.value] else rest)
  }

  // ---------------------------------------------------------------------
  // The run

  /** The active tasks of a `tasks` object: an active task is an object
      whose rule holds under the runner's dialect. */
  function ActiveTasks(tasks: map<string, Json>, facts: Object): (r: Result<set<string>, RunError>)
    ensures r.Ok? ==> forall x :: x in r.value <==> x in tasks && EntryActive(tasks[x], "tasks." + x, facts) == Ok(true)
    ensures r.Ok? ==> forall x :: x in r.value ==> x in tasks && tasks[x].JObj?
  {
    var ids := SortedElems(tasks.Keys);
    assert forall j :: 0 <= j < |ids| ==> ids[j] in tasks;
    ActiveEntries(ids, tasks, "tasks.", facts)
  }

  /** The edge entries the run looks at: `graph.edges`, `[]` when absent,
      when it is a list. */
  function EdgeEntries(graph: Object): seq<Json>
  {
    var edges := GetOr(graph, "edges", JList([]));
    if edges.JList? then edges.items else []
  }

  /** `blocked_by`: every active task is blocked by the sorted sources of
      the object edge entries whose ends are both active. */
  function BlockedBy(graph: Object, active: set<string>): (r: Result<map<string, seq<string>>, RunError>)
    ensures r.Ok? ==> r.value.Keys == active
    ensures r.Ok? ==> forall t :: t in r.value ==> Sorted(r.value[t])
    ensures r.Ok? ==> forall t, s :: t in r.value ==>
      (s in r.value[t] <==> exists k :: 0 <= k < |EdgeEntries(graph)| && KeepsEdge(EdgeEntries(graph)[k], active, (s, t)))
    ensures r.Ok? ==> forall t :: t in r.value ==> BlockedCount(r.value[t], EdgeEntries(graph), active, t)
    ensures r.Err? <==>
      || EdgeItems(GetOr(graph, "edges", JList([]))).Err?
      || exists k :: 0 <= k < |EdgeEntries(graph)| && RaisesUnhashable(EdgeEntries(graph)[k], active)
  {
    var items :- EdgeItems(GetOr(graph, "edges", JList([])));
    assert items == EdgeEntries(graph);
    var kept :- KeptEdges(items, active);
    BlockedCounts(items, active, kept);
    Ok(map t | t in active :: Engine.DependsOn(kept, t))
  }

  /** Each task's sorted sources hold a source once per edge entry that
      keeps the edge. */
  lemma BlockedCounts(items: seq<Json>, active: set<string>, kept: seq<Toposort.Edge>)
    requires forall e :: multiset(kept)[e] == KeepCount(items, active, e)
    ensures forall t :: BlockedCount(Engine.DependsOn(kept, t), items, active, t)
  {
    forall t ensures BlockedCount(Engine.DependsOn(kept, t), items, active, t) {
      forall s ensures multiset(Engine.DependsOn(kept, t))[s] == KeepCount(items, active, (s, t)) {
        assert multiset(Engine.DependsOn(kept, t))[s] == multiset(kept)[(s, t)];
      }
    }
  }

  /** `sources` holds each source once per edge entry that blocks `t` on
      it. */
  ghost predicate BlockedCount(sources: seq<string>, items: seq<Json>, active: set<string>, t: string)
  {
    forall s :: multiset(sources)[s] == KeepCount(items, active, (s, t))
  }

  /** The deadlines of the active tasks: reported exactly for those whose
      object `deadline` yields one, and equal to what it yields. */
  function ActiveDeadlines(tasks: map<string, Json>, active: set<string>, facts: Object)
    : (r: Result<map<string, string>, RunError>)
    requires forall x :: x in active ==> x in tasks && tasks[x].JObj?
    ensures r.Ok? <==> forall t :: t in active ==> TaskDeadline(tasks[t].fields, facts).Ok?
    ensures r.Ok? ==> forall t :: t in r.value <==>
      && t in active && Get(tasks[t].fields, "deadline").JObj?
      && ComputeDeadline(Get(tasks[t].fields, "deadline").fields, facts).Ok?
      && ComputeDeadline(Get(tasks[t].fields, "deadline").fields, facts).value.Some?
    ensures r.Ok? ==> forall t :: t in r.value ==>
      && Get(tasks[t].fields, "deadline").JObj?
      && ComputeDeadline(Get(tasks[t].fields, "deadline").fields, facts) == Ok(Some(r.value[t]))
  {
    var order := SortedElems(active);
    assert forall j :: 0 <= j < |order| ==> order[j] in active;
    TaskDeadlines(order, tasks, facts)
  }

  /** `run_template`. */
  function RunTemplate(template: Object, facts: Object): (r: Result<RuntimeResult, RunError>)
    ensures !Get(template, "tasks").JObj? ==> r == Err(NotADict("tasks"))
    ensures Get(template, "tasks").JObj? && !Get(template, "graph").JObj? ==> r == Err(NotADict("graph"))
  {
    var tasks, graph := Get(template, "tasks"), Get(template, "graph");
    if !tasks.JObj? then Err(NotADict("tasks"))
    else if !graph.JObj? then Err(NotADict("graph"))
    else
      var active :- ActiveTasks(tasks.fields, facts);
      var recommendations :- ActiveRecommendations(template, facts);
      var blockedBy :- BlockedBy(graph.fields, active);
      var deadlines :- ActiveDeadlines(tasks.fields, active, facts);
      Ok(RuntimeResult(active, blockedBy, deadlines, recommendations))
  }

  // ---------------------------------------------------------------------
  // What a run reports

  /** Each part of a successful run's result is the corresponding stage's
      value, and a run fails when one of the stages does. */
  lemma RunStages(template: Object, facts: Object)
    requires Get(template, "tasks").JObj? && Get(template, "graph").JObj?
    ensures var tasks, graph := Get(template, "tasks").fields, Get(template, "graph").fields;
      var r := RunTemplate(template, facts);
      && (ActiveTasks(tasks, facts).Err? ==> r == Err(ActiveTasks(tasks, facts).error))
      && (r.Ok? ==>
            && ActiveTasks(tasks, facts).Ok?
            && r.value.activeTasks == ActiveTasks(tasks, facts).value
            && ActiveRecommendations(template, facts) == Ok(r.value.activeRecommendations)
            && BlockedBy(graph, r.value.activeTasks) == Ok(r.value.blockedBy)
            && ActiveDeadlines(tasks, r.value.activeTasks, facts) == Ok(r.value.deadlines))
  {
    var tasks, graph := Get(template, "tasks").fields, Get(template, "graph").fields;
    var active := ActiveTasks(tasks, facts);
    if active.Ok? {
      var recs := ActiveRecommendations(template, facts);
      var blocked := BlockedBy(graph, active.value);
      var deadlines := ActiveDeadlines(tasks, active.value, facts);
      if recs.Ok? && blocked.Ok? && deadlines.Ok? {
        assert RunTemplate(template, facts)
          == Ok(RuntimeResult(active.value, blocked.value, deadlines.value, recs.value));
      }
    }
  }

  /** Without the planner's missing-fact short-circuit, a predicate over a
      missing fact compares `null`: `!=` against any other value holds in
      the runner and fails in the planner. */
  lemma MissingFactComparesAsNull(pred: Object, facts: Object)
    requires HasPredicateShape(pred) && Get(pred, "fact").s !in facts
    requires Get(pred, "op").s == "!=" && !Get(pred, "value").JNull?
    ensures EvalPredicate(Runner, pred, facts) == Ok(true)
    ensures EvalPredicate(Planner, pred, facts) == Ok(false)
  {
  }

  /** Where the reference fact is a date and the shifts are integers the
      runner's deadline is the ISO text of the planner's, and both fail on
      the same overflow. */
  lemma RunnerDeadlineMatchesPlanner(deadline: Object, facts: Object)
    requires IsRelative(deadline) && WellTyped(deadline)
    requires Deadlines.ParseIsoDate(Get(facts, Get(deadline, "reference").s)).Ok?
    ensures var day := Deadlines.ParseIsoDate(Get(facts, Get(deadline, "reference").s)).value;
      var planned := Deadlines.ComputeDeadline(day, Get(deadline, "offset_days"), GetOr(deadline, "grace_days", JInt(0)));
      && (planned.Ok? ==> ComputeDeadline(deadline, facts) == Ok(Some(Calendar.IsoFormat(planned.value))))
      && (planned.Err? ==> planned.error == PlannerErrors.DateOverflow && ComputeDeadline(deadline, facts) == Err(DateOverflow))
  {
    var raw := Get(facts, Get(deadline, "reference").s);
    var day := Deadlines.ParseIsoDate(raw).value;
    assert !raw.JNull? && ParseDate(raw) == Ok(day);
    var offset, grace := Get(deadline, "offset_days"), GetOr(deadline, "grace_days", JInt(0));
    var due := day + Shift(deadline);
    assert due == day + (PyIntValue(offset) + PyIntValue(grace));
    PlannerShift(day, offset, grace);
    RunnerShift(deadline, facts, day);
    assert Deadlines.ComputeDeadline(day, offset, grace) ==
      if Calendar.ValidDay(due) then Ok(due) else Err(PlannerErrors.DateOverflow);
    assert ComputeDeadline(deadline, facts) ==
      if Calendar.ValidDay(due) then Ok(Some(Calendar.IsoFormat(due))) else Err(DateOverflow);
  }

  /** The runner's deadline for a reference fact that reads as `day`: the
      shifted day's ISO text when it is valid, `DateOverflow` otherwise. */
  lemma RunnerShift(deadline: Object, facts: Object, day: int)
    requires IsRelative(deadline) && WellTyped(deadline)
    requires ParseDate(Get(facts, Get(deadline, "reference").s)) == Ok(day)
    ensures ComputeDeadline(deadline, facts) ==
      if Calendar.ValidDay(day + Shift(deadline)) then Ok(Some(Calendar.IsoFormat(day + Shift(deadline))))
      else Err(DateOverflow)
  {
  }

  /** The planner's shift of a valid day by two Python ints: the shifted
      day when it is valid, `DateOverflow` otherwise. */
  lemma PlannerShift(day: int, offset: Json, grace: Json)
    requires Calendar.ValidDay(day) && IsPyInt(offset) && IsPyInt(grace)
    ensures var due := day + (PyIntValue(offset) + PyIntValue(grace));
      Deadlines.ComputeDeadline(day, offset, grace) ==
        if Calendar.ValidDay(due) then Ok(due) else Err(PlannerErrors.DateOverflow)
  {
  }
}

=== FILE: workflow_validator.dfy ===
/** The structural check of a workflow template's graph: `graph` and `tasks`
    are objects, the nodes are distinct strings naming exactly the tasks,
    every edge is an object with string ends among the nodes, and the graph
    has no cycle. The first failing check decides the error.

    The cycle check is Kahn's algorithm with a first-in first-out queue
    seeded with the sorted nodes of in-degree 0. `CycleCheck` is the
    reference result, stated through the planner's `Peel`: the order in
    which ids are emitted does not change which ids can be emitted at all,
    so the nodes left over by the queue are the nodes `Peel` cannot reach.
    `AssertAcyclic` follows the source's bookkeeping and is proved to
    compute exactly the reference. */
module WorkflowValidator {
  import opened Wrappers
  import opened Json
  import opened Strings
  import opened Toposort
  import opened WorkflowJson

  /** The reasons `validate_graph` raises, with the data its messages
      carry. */
  datatype ValidationError =
    | NotAnObject(field: string)
    | NotAList(field: string)
    | NonStringNode
    | DuplicateNode
    | NodeTaskMismatch(missingInTasks: seq<string>, missingInGraph: seq<string>)
    | EdgeNotObject(index: nat)
    | EdgeEndsNotStrings(index: nat)
    | UnknownNode(source: string, target: string)
    | CycleDetected(affected: seq<string>)

  // ---------------------------------------------------------------------
  // Nodes

  /** The list comprehension keeping the string entries, in order. */
  function StringItems(items: seq<Json>): (r: seq<string>)
    ensures |r| <= |items|
    ensures |r| == |items| <==> forall k :: 0 <= k < |items| ==> items[k].JStr?
    ensures |r| == |items| ==> forall k :: 0 <= k < |items| ==> r[k] == items[k].s
    ensures forall x :: x in r <==> JStr(x) in items
  {
    if |items| == 0 then []
    else
      var rest := StringItems(items[1..]);
      assert forall x :: JStr(x) in items <==> JStr(x) == items[0] || JStr(x) in items[1..];
      if items[0].JStr? then
        assert forall k :: 1 <= k < |items| ==> items[k] == items[1..][k - 1];
        [items[0].s] + rest
      else rest
  }

  lemma {:induction false} ElemsCard(s: seq<string>)
    ensures |Elems(s)| <= |s|
  {
    if |s| > 0 {
      ElemsCard(s[1..]);
      ElemsCons(s[0], s[1..]);
      assert s == [s[0]] + s[1..];
    }
  }

  /** A repeated entry makes the set of entries smaller than the list. */
  lemma RepeatShrinks(s: seq<string>, a: int, b: int)
    requires 0 <= a < b < |s| && s[a] == s[b]
    ensures |Elems(s)| < |s|
  {
    var t := s[..b] + s[b + 1..];
    forall x | x in Elems(s)
      ensures x in Elems(t)
    {
      var k :| 0 <= k < |s| && s[k] == x;
      if k < b {
        assert t[k] == x;
      } else if k == b {
        assert t[a] == x;
      } else {
        assert t[k - 1] == x;
      }
    }
    forall x | x in Elems(t)
      ensures x in Elems(s)
    {
      var k :| 0 <= k < |t| && t[k] == x;
      if k < b {
        assert s[k] == x;
      } else {
        assert s[k + 1] == x;
      }
    }
    assert Elems(t) == Elems(s);
    assert |t| == |s| - 1;
    ElemsCard(t);
  }

  /** `len(set(nodes)) == len(nodes)` is exactly the absence of repeats. */
  lemma DistinctIffCard(s: seq<string>)
    ensures Distinct(s) <==> |Elems(s)| == |s|
  {
    if Distinct(s) {
      DistinctCard(s);
    } else {
      var a, b :| 0 <= a < b < |s| && s[a] == s[b];
      RepeatShrinks(s, a, b);
    }
  }

  // ---------------------------------------------------------------------
  // Edges

  /** The error raised for an edge that is not accepted. */
  function EdgeProblem(e: Json, index: nat): ValidationError
  {
    if !e.JObj? then EdgeNotObject(index)
    else if !(Get(e.fields, "from").JStr? && Get(e.fields, "to").JStr?) then EdgeEndsNotStrings(index)
    else UnknownNode(Get(e.fields, "from").s, Get(e.fields, "to").s)
  }

  /** The edge loop of `validate_graph` over the list entries from position
      `base` on: each entry is checked in order and the first bad one
      raises. */
  function ReadGraphEdges(items: seq<Json>, nodeIds: set<string>, base: nat): (r: Result<seq<Edge>, ValidationError>)
    ensures r.Ok? <==> AcceptedBefore(items, nodeIds, |items|)
    ensures r.Ok? ==> |r.value| == |items| && forall k :: 0 <= k < |items| ==> r.value[k] == EdgeOf(items[k])
    ensures r.Err? ==>
      exists k :: 0 <= k < |items| && AcceptedBefore(items, nodeIds, k)
        && !EdgeAccepted(items[k], nodeIds) && r.error == EdgeProblem(items[k], base + k)
  {
    if |items| == 0 then Ok([])
    else if !EdgeAccepted(items[0], nodeIds) then Err(EdgeProblem(items[0], base))
    else match ReadGraphEdges(items[1..], nodeIds, base + 1)
      case Err(e) =>
        ghost var k :| 0 <= k < |items| - 1 && AcceptedBefore(items[1..], nodeIds, k)
          && !EdgeAccepted(items[1..][k], nodeIds) && e == EdgeProblem(items[1..][k], base + 1 + k);
        assert items[k + 1] == items[1..][k];
        assert forall j :: 1 <= j < k + 1 ==> items[j] == items[1..][j - 1];
        assert AcceptedBefore(items, nodeIds, k + 1);
        Err(e)
      case Ok(rest) =>
        assert forall k :: 1 <= k < |items| ==> items[k] == items[1..][k - 1];
        Ok([EdgeOf(items[0])] + rest)
  }

  // ---------------------------------------------------------------------
  // Cycle check

  /** The reference for `_assert_acyclic`: no error when every node can be
      emitted, and otherwise the sorted nodes that cannot. */
  function CycleCheck(nodes: seq<string>, edges: seq<Edge>): Option<seq<string>>
  {
    var ids := Elems(nodes);
    var order := Peel(ids, edges, {});
    if |order| == |nodes| then None else Some(SortedElems(ids - Elems(order)))
  }

  /** Ids ready after a subset of the reachable ids are reachable too. */
  lemma ReadyWithinReach(ids: set<string>, edges: seq<Edge>, done: set<string>)
    requires done <= Elems(Peel(ids, edges, {}))
    ensures Ready(ids, edges, done) <= Elems(Peel(ids, edges, {}))
  {
    var reach := Elems(Peel(ids, edges, {}));
    PeelStops(ids, edges, {});
    assert {} + reach == reach;
    forall x | x in Ready(ids, edges, done)
      ensures x in reach
    {
      if x !in reach {
        assert SourcesDone(edges, x, reach);
        assert false;
      }
    }
  }

  /** A subset of the reachable ids with nothing ready is all of them. */
  lemma StuckIsReach(ids: set<string>, edges: seq<Edge>, done: set<string>)
    requires done <= Elems(Peel(ids, edges, {}))
    requires Ready(ids, edges, done) == {}
    ensures done == Elems(Peel(ids, edges, {}))
  {
    var order := Peel(ids, edges, {});
    PeelLeast(ids, edges, {});
    var b := 0;
    while b < |order|
      invariant 0 <= b <= |order|
      invariant forall k :: 0 <= k < b ==> order[k] in done
    {
      assert LeastAt(ids, edges, {}, order, b);
      assert {} + Elems(order[..b]) <= done;
      var x := order[b];
      assert x in done || x in Ready(ids, edges, done);
      b := b + 1;
    }
  }

  /** Every id `Peel` cannot reach has an edge into it from another such
      id. */
  lemma StuckHavePredecessors(ids: set<string>, edges: seq<Edge>, stuck: set<string>)
    requires EdgesKnown(ids, edges) && stuck == ids - Elems(Peel(ids, edges, {}))
    ensures forall x :: x in stuck ==> exists j :: 0 <= j < |edges| && edges[j].1 == x && edges[j].0 in stuck
  {
    var reach := Elems(Peel(ids, edges, {}));
    PeelStops(ids, edges, {});
    assert {} + reach == reach;
    forall x | x in ids - reach
      ensures exists j :: 0 <= j < |edges| && edges[j].1 == x && edges[j].0 in ids - reach
    {
      assert x !in Ready(ids, edges, reach);
      var j :| 0 <= j < |edges| && edges[j].1 == x && edges[j].0 !in reach;
      assert edges[j].0 in ids;
    }
  }

  /** The cycle check passes exactly when some topological order of the
      nodes exists. */
  lemma CycleCheckNoneIffOrder(nodes: seq<string>, edges: seq<Edge>)
    requires Distinct(nodes)
    ensures CycleCheck(nodes, edges).None? <==>
      exists p :: IsTopologicalOrder(Elems(nodes), edges, p)
  {
    var ids := Elems(nodes);
    DistinctCard(nodes);
    if |Peel(ids, edges, {})| == |nodes| {
      CompletePeelIsTopological(ids, edges);
    } else {
      forall p | true
        ensures !IsTopologicalOrder(ids, edges, p)
      {
        ShortPeelHasNoOrder(ids, edges, p);
      }
    }
  }

  /** The sorted report of stuck ids has each of its entries entered by an
      edge from another entry. */
  lemma StuckReport(ids: set<string>, edges: seq<Edge>, stuck: set<string>)
    requires EdgesKnown(ids, edges) && stuck == ids - Elems(Peel(ids, edges, {}))
    ensures var c := SortedElems(stuck);
      forall x :: x in c ==> exists j :: 0 <= j < |edges| && edges[j].1 == x && edges[j].0 in c
  {
    StuckHavePredecessors(ids, edges, stuck);
    SortedEntered(edges, stuck);
  }

  /** Listing a set of ids sorted keeps each one entered from another. */
  lemma SortedEntered(edges: seq<Edge>, stuck: set<string>)
    requires forall x :: x in stuck ==> exists j :: 0 <= j < |edges| && edges[j].1 == x && edges[j].0 in stuck
    ensures var c := SortedElems(stuck);
      forall x :: x in c ==> exists j :: 0 <= j < |edges| && edges[j].1 == x && edges[j].0 in c
  {
    var c := SortedElems(stuck);
    forall x | x in c
      ensures exists j :: 0 <= j < |edges| && edges[j].1 == x && edges[j].0 in c
    {
      assert x in stuck;
      var j :| 0 <= j < |edges| && edges[j].1 == x && edges[j].0 in stuck;
      assert edges[j].0 in c;
    }
  }

  /** A failed cycle check lists, sorted, a non-empty set of nodes each of
      which has an edge into it from another reported node: the nodes stuck
      on or behind a cycle. */
  lemma CycleReportMeaning(nodes: seq<string>, edges: seq<Edge>)
    requires Distinct(nodes) && EdgesKnown(Elems(nodes), edges)
    requires CycleCheck(nodes, edges).Some?
    ensures var c := CycleCheck(nodes, edges).value;
      && |c| > 0
      && (forall x :: x in c ==> x in nodes)
      && forall x :: x in c ==>
           exists j :: 0 <= j < |edges| && edges[j].1 == x && edges[j].0 in c
  {
    var ids := Elems(nodes);
    var order := Peel(ids, edges, {});
    DistinctCard(nodes);
    PeelDistinct(ids, edges, {});
    DistinctCard(order);
    var stuck := ids - Elems(order);
    assert |Elems(order)| != |ids|;
    assert stuck != {} by {
      assert Elems(order) != ids;
      assert Elems(order) <= ids;
    }
    StuckReport(ids, edges, stuck);
    assert CycleCheck(nodes, edges).value == SortedElems(stuck);
  }

  /** The queue holds each ready id exactly once. */
  ghost predicate QueueHolds(queue: seq<string>, ready: set<string>)
  {
    Distinct(queue) && Elems(queue) == ready
  }

  /** Appending an id not yet queued keeps the queue duplicate-free and
      leaves the entries already queued in place. */
  lemma Enqueue(queue: seq<string>, ready: set<string>, next: string, prefix: seq<string>)
    requires QueueHolds(queue, ready) && next !in ready
    requires |queue| >= |prefix| && queue[..|prefix|] == prefix
    ensures QueueHolds(queue + [next], ready + {next})
    ensures (queue + [next])[..|prefix|] == prefix
  {
    assert Elems(queue + [next]) == Elems(queue) + {next} by {
      forall x | x in queue + [next]
        ensures x in Elems(queue) + {next}
      {
      }
    }
  }

  /** The walk over the edges for the emitted id `current`. */
  method WalkEdges(ids: set<string>, edges: seq<Edge>, indegree: map<string, int>, queue: seq<string>,
                   ghost ready: set<string>, ghost done: set<string>, current: string, ghost prefix: seq<string>)
    returns (indegree': map<string, int>, queue': seq<string>, ghost ready': set<string>)
    requires EdgesKnown(ids, edges) && done <= ids && current !in done
    requires forall x :: x in done + {current} ==> InCount(edges, x, done) == 0
    requires CountersAt(ids, edges, indegree, 0, done, current)
    requires HeapMatchesCounters(ids, indegree, done + {current}, ready)
    requires QueueHolds(queue, ready) && |queue| >= |prefix| && queue[..|prefix|] == prefix
    ensures CountersAt(ids, edges, indegree', |edges|, done, current)
    ensures HeapMatchesCounters(ids, indegree', done + {current}, ready')
    ensures QueueHolds(queue', ready') && |queue'| >= |prefix| && queue'[..|prefix|] == prefix
  {
    indegree', queue', ready' := indegree, queue, ready;
    var j := 0;
    assert CountersAt(ids, edges, indegree', 0, done, current);
    while j < |edges|
      invariant 0 <= j <= |edges|
      invariant CountersAt(ids, edges, indegree', j, done, current)
      invariant HeapMatchesCounters(ids, indegree', done + {current}, ready')
      invariant QueueHolds(queue', ready') && |queue'| >= |prefix| && queue'[..|prefix|] == prefix
    {
      indegree', queue', ready' := WalkEdge(ids, edges, indegree', queue', ready', done, current, prefix, j);
      j := j + 1;
    }
  }

  /** Edge `j` of the walk: an edge out of `current` decrements its
      target's counter, and a target whose counter reaches 0 joins the back
      of the queue. */
  method WalkEdge(ids: set<string>, edges: seq<Edge>, indegree: map<string, int>, queue: seq<string>,
                  ghost ready: set<string>, ghost done: set<string>, current: string, ghost prefix: seq<string>, j: int)
    returns (indegree': map<string, int>, queue': seq<string>, ghost ready': set<string>)
    requires 0 <= j < |edges|
    requires EdgesKnown(ids, edges) && done <= ids && current !in done
    requires forall x :: x in done + {current} ==> InCount(edges, x, done) == 0
    requires CountersAt(ids, edges, indegree, j, done, current)
    requires HeapMatchesCounters(ids, indegree, done + {current}, ready)
    requires QueueHolds(queue, ready) && |queue| >= |prefix| && queue[..|prefix|] == prefix
    ensures CountersAt(ids, edges, indegree', j + 1, done, current)
    ensures HeapMatchesCounters(ids, indegree', done + {current}, ready')
    ensures QueueHolds(queue', ready') && |queue'| >= |prefix| && queue'[..|prefix|] == prefix
  {
    ReleaseEdge(ids, edges, indegree, ready, j, done, current);
    var e := edges[j];
    indegree' := DecrementFor(indegree, e, current);
    queue' := queue;
    if e.0 == current && indegree'[e.1] == 0 {
      assert indegree[e.1] == 1;
      Enqueue(queue, ready, e.1, prefix);
      queue' := queue + [e.1];
    }
    ready' := PushIfFree(indegree', ready, e, current);
  }

  /** Emitting the head of the queue: every edge out of it, in edge order,
      decrements its target's counter, and a target whose counter reaches 0
      joins the back of the queue. The queue keeps the ready ids, each once,
      and the ids already queued keep their places. */
  method ReleaseQueued(ids: set<string>, edges: seq<Edge>, indegree: map<string, int>,
                       queue: seq<string>, ghost done: set<string>)
    returns (indegree': map<string, int>, queue': seq<string>)
    requires EdgesKnown(ids, edges) && done <= ids && indegree.Keys == ids
    requires |queue| > 0 && QueueHolds(queue, Ready(ids, edges, done))
    requires forall x :: x in ids ==> indegree[x] == InCount(edges, x, done)
    requires forall x :: x in done ==> InCount(edges, x, done) == 0
    ensures indegree'.Keys == ids
    ensures forall x :: x in ids ==> indegree'[x] == InCount(edges, x, done + {queue[0]})
    ensures QueueHolds(queue', Ready(ids, edges, done + {queue[0]}))
    ensures |queue'| >= |queue| - 1 && queue'[..|queue| - 1] == queue[1..]
  {
    var current := queue[0];
    assert current in Elems(queue);
    assert current in Ready(ids, edges, done);
    ghost var after := done + {current};
    ghost var ready := Ready(ids, edges, done) - {current};
    assert QueueHolds(queue[1..], ready) by {
      assert queue == [current] + queue[1..];
      ElemsCons(current, queue[1..]);
    }
    forall y | y in ids
      ensures indegree[y] == 0 <==> SourcesDone(edges, y, done)
    {
      InCountZero(edges, y, done);
    }
    InCountZero(edges, current, done);
    assert HeapMatchesCounters(ids, indegree, after, ready);
    assert CountersAt(ids, edges, indegree, 0, done, current);
    ghost var ready';
    indegree', queue', ready' := WalkEdges(ids, edges, indegree, queue[1..], ready, done, current, queue[1..]);
    forall x | x in ids
      ensures indegree'[x] == InCount(edges, x, after)
      ensures indegree'[x] == 0 <==> SourcesDone(edges, x, after)
    {
      InCountZero(edges, x, after);
    }
    assert ready' == Ready(ids, edges, after);
  }

  /** The in-degree count of `_assert_acyclic`: every node starts at 0 and
      each edge adds one to its target. */
  method CountNodeInDegrees(ids: set<string>, edges: seq<Edge>) returns (indegree: map<string, int>)
    requires EdgesKnown(ids, edges)
    ensures indegree.Keys == ids
    ensures forall x :: x in ids ==> indegree[x] == InCount(edges, x, {})
  {
    indegree := map x | x in ids :: 0;
    var i := 0;
    while i < |edges|
      invariant 0 <= i <= |edges|
      invariant indegree.Keys == ids
      invariant forall x :: x in ids ==> indegree[x] == Count(edges, 0, i, x, {})
    {
      var target := edges[i].1;
      indegree := indegree[target := indegree[target] + 1];
      i := i + 1;
    }
  }

  /** A sorted listing of a set has no repeats. */
  lemma SortedElemsDistinct(s: set<string>)
    ensures QueueHolds(SortedElems(s), s)
  {
    var q := SortedElems(s);
    forall a, b | 0 <= a < b < |q|
      ensures q[a] != q[b]
    {
      LessIrreflexive(q[a]);
    }
  }

  /** The main loop of `_assert_acyclic`: pop the front of the queue, count
      the visit and release the popped node's successors until the queue is
      empty. It visits exactly the ids `Peel` can reach. */
  method DrainQueue(ids: set<string>, edges: seq<Edge>, indegree: map<string, int>, queue: seq<string>)
    returns (indegree': map<string, int>, visited: int, ghost done: set<string>)
    requires EdgesKnown(ids, edges) && indegree.Keys == ids
    requires forall x :: x in ids ==> indegree[x] == InCount(edges, x, {})
    requires QueueHolds(queue, Ready(ids, edges, {}))
    ensures indegree'.Keys == ids
    ensures done == Elems(Peel(ids, edges, {})) && visited == |done|
    ensures forall x :: x in ids ==> indegree'[x] == InCount(edges, x, done)
    ensures forall x :: x in ids ==> (indegree'[x] > 0 <==> x !in done)
  {
    indegree' := indegree;
    var q := queue;
    done := {};
    visited := 0;
    ghost var reach := Elems(Peel(ids, edges, {}));
    while |q| > 0
      invariant done <= ids && indegree'.Keys == ids
      invariant done <= reach
      invariant QueueHolds(q, Ready(ids, edges, done))
      invariant forall x :: x in ids ==> indegree'[x] == InCount(edges, x, done)
      invariant forall x :: x in done ==> InCount(edges, x, done) == 0
      invariant visited == |done|
      decreases |ids - done|
    {
      var node := q[0];
      assert node in Elems(q);
      ReadyWithinReach(ids, edges, done);
      EmittedStayReleased(ids, edges, done, node);
      indegree', q := ReleaseQueued(ids, edges, indegree', q, done);
      assert ids - (done + {node}) < ids - done;
      done := done + {node};
      visited := visited + 1;
    }
    assert Ready(ids, edges, done) == {};
    StuckIsReach(ids, edges, done);
    forall x | x in ids
      ensures indegree'[x] > 0 <==> x !in done
    {
      InCountZero(edges, x, done);
    }
  }

  /** `_assert_acyclic`: count in-degrees, seed the queue with the sorted
      nodes of in-degree 0, drain it, and if fewer nodes were visited than
      there are nodes, report the sorted nodes whose counter is still
      positive. */
  method AssertAcyclic(nodes: seq<string>, edges: seq<Edge>) returns (r: Option<seq<string>>)
    requires Distinct(nodes) && EdgesKnown(Elems(nodes), edges)
    ensures r == CycleCheck(nodes, edges)
  {
    var ids := Elems(nodes);
    var indegree := CountNodeInDegrees(ids, edges);
    var zero := set x | x in ids && indegree[x] == 0;
    assert zero == Ready(ids, edges, {}) by {
      forall x | x in ids
        ensures indegree[x] == 0 <==> SourcesDone(edges, x, {})
      {
        InCountZero(edges, x, {});
      }
    }
    var queue := SortedElems(zero);
    SortedElemsDistinct(zero);
    var visited;
    ghost var done;
    indegree, visited, done := DrainQueue(ids, edges, indegree, queue);
    PeelDistinct(ids, edges, {});
    DistinctCard(Peel(ids, edges, {}));
    DistinctCard(nodes);
    if visited != |nodes| {
      var stuck := set x | x in indegree && indegree[x] > 0;
      assert stuck == ids - done;
      r := Some(SortedElems(stuck));
    } else {
      r := None;
    }
  }

  // ---------------------------------------------------------------------
  // The whole check

  /** The node checks of `validate_graph`, in the source's order: `graph`
      and `tasks` are objects, `graph.nodes` is a list of strings without
      repeats, and the node set equals the task ids. */
  function CheckNodes(template: Object): (r: Result<seq<string>, ValidationError>)
    ensures r.Ok? ==> Get(template, "graph").JObj? && Get(template, "tasks").JObj?
    ensures r.Ok? ==> Distinct(r.value) && Elems(r.value) == Get(template, "tasks").fields.Keys
  {
    var graph := Get(template, "graph");
    var tasks := Get(template, "tasks");
    if !graph.JObj? then Err(NotAnObject("graph"))
    else if !tasks.JObj? then Err(NotAnObject("tasks"))
    else
      var rawNodes := Get(graph.fields, "nodes");
      if !rawNodes.JList? then Err(NotAList("graph.nodes"))
      else
        var nodes := StringItems(rawNodes.items);
        if |nodes| != |rawNodes.items| then Err(NonStringNode)
        else if |Elems(nodes)| != |nodes| then Err(DuplicateNode)
        else
          var taskIds, nodeIds := tasks.fields.Keys, Elems(nodes);
          if nodeIds != taskIds then
            Err(NodeTaskMismatch(SortedElems(nodeIds - taskIds), SortedElems(taskIds - nodeIds)))
          else
            DistinctIffCard(nodes);
            Ok(nodes)
  }

  /** The edge checks of `validate_graph`: `graph.edges`, `[]` when absent,
      is a list whose entries are read in order. */
  function CheckEdges(graph: Object, nodeIds: set<string>): (r: Result<seq<Edge>, ValidationError>)
    ensures r.Ok? ==> EdgesKnown(nodeIds, r.value)
  {
    var rawEdges := GetOr(graph, "edges", JList([]));
    if !rawEdges.JList? then Err(NotAList("graph.edges"))
    else
      var edges :- ReadGraphEdges(rawEdges.items, nodeIds, 0);
      assert EdgesKnown(nodeIds, edges) by {
        forall j | 0 <= j < |edges|
          ensures edges[j].0 in nodeIds && edges[j].1 in nodeIds
        {
          assert EdgeAccepted(rawEdges.items[j], nodeIds);
        }
      }
      Ok(edges)
  }

  /** `validate_graph`: the node checks, the edge checks, then the cycle
      check. */
  function ValidateGraph(template: Object): (r: Result<(), ValidationError>)
  {
    var nodes :- CheckNodes(template);
    var edges :- CheckEdges(Get(template, "graph").fields, Elems(nodes));
    match CycleCheck(nodes, edges)
    case Some(c) => Err(CycleDetected(c))
    case None => Ok(())
  }

  /** The node part of what `validate_graph` accepts, stated on the template
      itself: `graph` and `tasks` are objects and the nodes are pairwise
      distinct strings that are exactly the task ids. */
  ghost predicate NodesWellFormed(template: Object)
  {
    var graph, tasks := Get(template, "graph"), Get(template, "tasks");
    && graph.JObj? && tasks.JObj?
    && var rawNodes := Get(graph.fields, "nodes");
    && rawNodes.JList?
    && (forall k :: 0 <= k < |rawNodes.items| ==> rawNodes.items[k].JStr?)
    && (forall a, b :: 0 <= a < b < |rawNodes.items| ==> rawNodes.items[a] != rawNodes.items[b])
    && (forall x :: JStr(x) in rawNodes.items <==> x in tasks.fields)
  }

  /** The edge part: `graph.edges` (`[]` when absent) is a list of objects
      with string ends naming task ids. */
  ghost predicate EdgesWellFormed(template: Object)
    requires NodesWellFormed(template)
  {
    var rawEdges := GetOr(Get(template, "graph").fields, "edges", JList([]));
    rawEdges.JList? && AcceptedBefore(rawEdges.items, Get(template, "tasks").fields.Keys, |rawEdges.items|)
  }

  ghost predicate WellFormedGraph(template: Object)
  {
    NodesWellFormed(template) && EdgesWellFormed(template)
  }

  /** The task ids of a well-formed template. */
  ghost function TaskIds(template: Object): set<string>
    requires WellFormedGraph(template)
  {
    Get(template, "tasks").fields.Keys
  }

  /** The edges of a well-formed template, in list order. */
  ghost function TemplateEdges(template: Object): seq<Edge>
    requires WellFormedGraph(template)
  {
    var items := GetOr(Get(template, "graph").fields, "edges", JList([])).items;
    seq(|items|, k requires 0 <= k < |items| => EdgeOf(items[k]))
  }

  /** The node checks: the filtered list has the original length exactly
      when every entry is a string, and then repeats among the strings are
      repeats among the entries. */
  lemma NodeChecks(items: seq<Json>)
    requires |StringItems(items)| == |items|
    ensures Distinct(StringItems(items)) <==>
      forall a, b :: 0 <= a < b < |items| ==> items[a] != items[b]
  {
    var nodes := StringItems(items);
    if !Distinct(nodes) {
      var a, b :| 0 <= a < b < |nodes| && nodes[a] == nodes[b];
      assert items[a] == JStr(nodes[a]) && items[b] == JStr(nodes[b]);
    }
  }

  /** The node checks pass exactly on templates whose nodes are well formed. */
  lemma CheckNodesAccepts(template: Object)
    ensures CheckNodes(template).Ok? <==> NodesWellFormed(template)
  {
    var graph, tasks := Get(template, "graph"), Get(template, "tasks");
    if graph.JObj? && tasks.JObj? && Get(graph.fields, "nodes").JList? {
      var rawNodes := Get(graph.fields, "nodes");
      var nodes := StringItems(rawNodes.items);
      if |nodes| == |rawNodes.items| {
        NodeChecks(rawNodes.items);
        DistinctIffCard(nodes);
      }
    }
  }

  /** On a template with well-formed nodes, the edge checks pass exactly
      when its edges are well formed, and then they read its edges. */
  lemma CheckEdgesAccepts(template: Object)
    requires NodesWellFormed(template)
    requires CheckNodes(template).Ok?
    ensures var r := CheckEdges(Get(template, "graph").fields, Elems(CheckNodes(template).value));
      && (r.Ok? <==> EdgesWellFormed(template))
      && (r.Ok? ==> r.value == TemplateEdges(template))
  {
  }

  /** `validate_graph` passes exactly for well-formed templates whose tasks
      can be put in a topological order. */
  lemma ValidateGraphAccepts(template: Object)
    ensures ValidateGraph(template).Ok? <==>
      WellFormedGraph(template) && exists p :: IsTopologicalOrder(TaskIds(template), TemplateEdges(template), p)
  {
    CheckNodesAccepts(template);
    if NodesWellFormed(template) {
      var nodes := CheckNodes(template).value;
      CheckEdgesAccepts(template);
      if EdgesWellFormed(template) {
        var edges := CheckEdges(Get(template, "graph").fields, Elems(nodes)).value;
        assert TaskIds(template) == Elems(nodes);
        CycleCheckNoneIffOrder(nodes, edges);
      }
    }
  }

  /** A node/task mismatch lists, each sorted, the node ids without a task
      and the task ids without a node, and at least one of them is
      non-empty. */
  lemma MismatchReport(template: Object)
    requires ValidateGraph(template).Err? && ValidateGraph(template).error.NodeTaskMismatch?
    ensures Get(template, "graph").JObj? && Get(template, "tasks").JObj?
    ensures Get(Get(template, "graph").fields, "nodes").JList?
    ensures var e := ValidateGraph(template).error;
      var nodes := Get(Get(template, "graph").fields, "nodes").items;
      var tasks := Get(template, "tasks").fields;
      && (forall x :: x in e.missingInTasks <==> JStr(x) in nodes && x !in tasks)
      && (forall x :: x in e.missingInGraph <==> x in tasks && JStr(x) !in nodes)
      && (|e.missingInTasks| > 0 || |e.missingInGraph| > 0)
      && (forall i, j :: 0 <= i < j < |e.missingInTasks| ==> Less(e.missingInTasks[i], e.missingInTasks[j]))
      && (forall i, j :: 0 <= i < j < |e.missingInGraph| ==> Less(e.missingInGraph[i], e.missingInGraph[j]))
  {
    var nodeIds := Elems(StringItems(Get(Get(template, "graph").fields, "nodes").items));
    var taskIds := Get(template, "tasks").fields.Keys;
    assert nodeIds != taskIds;
    assert nodeIds - taskIds != {} || taskIds - nodeIds != {};
  }

  /** A reported cycle comes from a well-formed template that has no
      topological order; the report is non-empty, names tasks only, and each
      reported task has an edge into it from another reported task. */
  lemma CycleDetectedMeaning(template: Object)
    requires ValidateGraph(template).Err? && ValidateGraph(template).error.CycleDetected?
    ensures WellFormedGraph(template)
    ensures !exists p :: IsTopologicalOrder(TaskIds(template), TemplateEdges(template), p)
    ensures var c, edges := ValidateGraph(template).error.affected, TemplateEdges(template);
      && |c| > 0
      && (forall x :: x in c ==> x in TaskIds(template))
      && forall x :: x in c ==> exists j :: 0 <= j < |edges| && edges[j].1 == x && edges[j].0 in c
  {
    CheckNodesAccepts(template);
    var nodes := CheckNodes(template).value;
    CheckEdgesAccepts(template);
    var edges := CheckEdges(Get(template, "graph").fields, Elems(nodes)).value;
    assert TaskIds(template) == Elems(nodes);
    ValidateGraphAccepts(template);
    CycleReportMeaning(nodes, edges);
  }

  /** A graph without `edges` is checked as one with an empty edge list. */
  lemma MissingEdgesAreEmpty(template: Object, graph: Object)
    requires Get(template, "graph") == JObj(graph) && "edges" !in graph
    ensures ValidateGraph(template) == ValidateGraph(template["graph" := JObj(graph["edges" := JList([])])])
  {
  }

  // ---------------------------------------------------------------------
  // Worked examples

  /** A task object with the trivially true rule. */
  function AlwaysTask(): Json
  {
    JObj(map["eligibility" := JObj(map["all" := JList([])])])
  }

  function EdgeJson(source: string, target: string): Json
  {
    JObj(map["from" := JStr(source), "to" := JStr(target)])
  }

  lemma ExampleNamesDistinct()
    ensures "t_a" != "t_b" && "t_a" != "t_missing" && "t_b" != "t_missing"
    ensures "t_a" != "t_b" && "t_b" != "t_a"
    ensures "graph" != "tasks" && "nodes" != "edges" && "from" != "to"
  {
    assert "t_a"[2] == 'a' && "t_b"[2] == 'b' && "t_missing"[2] == 'm';
    assert "graph"[0] == 'g' && "tasks"[0] == 't' && "nodes"[0] == 'n' && "edges"[0] == 'e';
    assert "from"[0] == 'f' && "to"[0] == 't';
  }

  /** The template of the two-task cycle. */
  function CyclicTemplate(): Object
  {
    map[
      "graph" := JObj(map[
        "nodes" := JList([JStr("t_a"), JStr("t_b")]),
        "edges" := JList([EdgeJson("t_a", "t_b"), EdgeJson("t_b", "t_a")])]),
      "tasks" := JObj(map["t_a" := AlwaysTask(), "t_b" := AlwaysTask()])]
  }

  lemma CyclicNodes()
    ensures CheckNodes(CyclicTemplate()) == Ok(["t_a", "t_b"])
  {
    ExampleNamesDistinct();
    assert StringItems([JStr("t_a"), JStr("t_b")]) == ["t_a", "t_b"];
    assert Elems(["t_a", "t_b"]) == {"t_a", "t_b"};
  }

  lemma CyclicEdges()
    ensures CheckEdges(Get(CyclicTemplate(), "graph").fields, {"t_a", "t_b"})
      == Ok([("t_a", "t_b"), ("t_b", "t_a")])
  {
    ExampleNamesDistinct();
    var ids := {"t_a", "t_b"};
    var items := [EdgeJson("t_a", "t_b"), EdgeJson("t_b", "t_a")];
    assert GetOr(Get(CyclicTemplate(), "graph").fields, "edges", JList([])) == JList(items);
    assert EdgeOf(items[0]) == ("t_a", "t_b") && EdgeAccepted(items[0], ids);
    assert EdgeOf(items[1]) == ("t_b", "t_a") && EdgeAccepted(items[1], ids);
    assert AcceptedBefore(items, ids, 2);
    var r := ReadGraphEdges(items, ids, 0);
    assert r.value == [("t_a", "t_b"), ("t_b", "t_a")];
  }

  lemma SortedPair()
    ensures SortedElems({"t_a", "t_b"}) == ["t_a", "t_b"]
  {
    ExampleNamesDistinct();
    var ids := {"t_a", "t_b"};
    assert Less("t_a", "t_b");
    assert IsLeast("t_a", ids);
    LeastUnique("t_a", Least(ids), ids);
    assert ids - {"t_a"} == {"t_b"};
    SortedSingle();
  }

  lemma SortedSingle()
    ensures SortedElems({"t_b"}) == ["t_b"]
  {
    assert {"t_b"} - {"t_b"} == {};
  }

  lemma CyclicPeel()
    ensures Peel({"t_a", "t_b"}, [("t_a", "t_b"), ("t_b", "t_a")], {}) == []
  {
    ExampleNamesDistinct();
    var edges := [("t_a", "t_b"), ("t_b", "t_a")];
    Blocked(edges, 0, {});
    Blocked(edges, 1, {});
    assert Ready({"t_a", "t_b"}, edges, {}) == {};
  }

  lemma CyclicReport()
    ensures CycleCheck(["t_a", "t_b"], [("t_a", "t_b"), ("t_b", "t_a")]) == Some(["t_a", "t_b"])
  {
    ExampleNamesDistinct();
    assert Elems(["t_a", "t_b"]) == {"t_a", "t_b"};
    CyclicPeel();
    assert {"t_a", "t_b"} - Elems([]) == {"t_a", "t_b"};
    SortedPair();
  }

  /** Two tasks depending on each other are reported as a cycle. */
  lemma CycleExample()
    ensures ValidateGraph(CyclicTemplate()) == Err(CycleDetected(["t_a", "t_b"]))
  {
    var t, nodes, edges := CyclicTemplate(), ["t_a", "t_b"], [("t_a", "t_b"), ("t_b", "t_a")];
    CyclicNodes();
    assert CheckNodes(t) == Ok(nodes);
    assert Elems(nodes) == {"t_a", "t_b"};
    CyclicEdges();
    assert CheckEdges(Get(t, "graph").fields, Elems(nodes)) == Ok(edges);
    CyclicReport();
    assert CycleCheck(nodes, edges) == Some(["t_a", "t_b"]);
  }

  /** The template whose only edge points at `t_missing`, which is not a node. */
  function UnknownNodeTemplate(): Object
  {
    map[
      "graph" := JObj(map[
        "nodes" := JList([JStr("t_a")]),
        "edges" := JList([EdgeJson("t_a", "t_missing")])]),
      "tasks" := JObj(map["t_a" := AlwaysTask()])]
  }

  lemma UnknownNodeNodes()
    ensures CheckNodes(UnknownNodeTemplate()) == Ok(["t_a"])
  {
    assert StringItems([JStr("t_a")]) == ["t_a"];
    assert Elems(["t_a"]) == {"t_a"};
  }

  lemma UnknownNodeEdges()
    ensures CheckEdges(Get(UnknownNodeTemplate(), "graph").fields, {"t_a"})
      == Err(UnknownNode("t_a", "t_missing"))
  {
    ExampleNamesDistinct();
    var items := [EdgeJson("t_a", "t_missing")];
    assert GetOr(Get(UnknownNodeTemplate(), "graph").fields, "edges", JList([])) == JList(items);
    assert !EdgeAccepted(items[0], {"t_a"});
    assert ReadGraphEdges(items, {"t_a"}, 0) == Err(EdgeProblem(items[0], 0));
  }

  /** An edge to a node outside the graph is rejected. */
  lemma UnknownNodeExample()
    ensures ValidateGraph(UnknownNodeTemplate()) == Err(UnknownNode("t_a", "t_missing"))
  {
    UnknownNodeNodes();
    assert Elems(["t_a"]) == {"t_a"};
    UnknownNodeEdges();
  }

  /** The template whose node `t_b` has no task. */
  function TaskMissingTemplate(): Object
  {
    map[
      "graph" := JObj(map["nodes" := JList([JStr("t_a"), JStr("t_b")]), "edges" := JList([])]),
      "tasks" := JObj(map["t_a" := AlwaysTask()])]
  }

  lemma TaskMissingNodes()
    ensures CheckNodes(TaskMissingTemplate()) == Err(NodeTaskMismatch(["t_b"], []))
  {
    ExampleNamesDistinct();
    var t := TaskMissingTemplate();
    var rawNodes := Get(Get(t, "graph").fields, "nodes");
    assert rawNodes.items == [JStr("t_a"), JStr("t_b")];
    assert StringItems(rawNodes.items) == ["t_a", "t_b"];
    assert Elems(["t_a", "t_b"]) == {"t_a", "t_b"};
    assert Get(t, "tasks").fields.Keys == {"t_a"};
    assert {"t_a", "t_b"} - {"t_a"} == {"t_b"};
    assert {"t_a"} - {"t_a", "t_b"} == {};
    SortedSingle();
  }

  /** A node without a task is reported as missing in tasks. */
  lemma MissingInTasksExample()
    ensures ValidateGraph(TaskMissingTemplate()) == Err(NodeTaskMismatch(["t_b"], []))
  {
    TaskMissingNodes();
  }

  /** A repeated node id is rejected. */
  lemma DuplicateNodeExample()
    ensures ValidateGraph(map[
      "graph" := JObj(map["nodes" := JList([JStr("t_a"), JStr("t_a")]), "edges" := JList([])]),
      "tasks" := JObj(map["t_a" := AlwaysTask()])])
      == Err(DuplicateNode)
  {
    ExampleNamesDistinct();
    assert StringItems([JStr("t_a"), JStr("t_a")]) == ["t_a", "t_a"];
    assert Elems(["t_a", "t_a"]) == {"t_a"};
  }
}

=== FILE: wrappers.dfy ===
/** Failure-compatible wrappers used across the model: `Option` for values that
    Python represents with `None`, and `Result` for operations that raise. */
module Wrappers {

  datatype Option<+T> = None | Some(value: T) {
    predicate IsFailure() { None? }

    function PropagateFailure<U>(): Option<U>
      requires None?
    {
      None
    }

    function Extract(): T
      requires Some?
    {
      value
    }

    function GetOr(default: T): T {
      match this
      case Some(v) => v
      case None => default
    }
  }

  datatype Result<+T, +E> = Ok(value: T) | Err(error: E) {
    predicate IsFailure() { Err? }

    function PropagateFailure<U>(): Result<U, E>
      requires Err?
    {
      Err(error)
    }

    function Extract(): T
      requires Ok?
    {
      value
    }
  }
}
